=== FILE: README.md ===
# TAIF agentic system: recognisers, dispatch and file commands in Dafny

This project models the deterministic core of the TAIF "agentic system". That system turns a natural-language
instruction into an intent, a dictionary with an `action` key. It then runs the command registered for that
action against the file system. The model covers:

- **The rule-based intent recognisers** (`intent/basic/*.py`, `intent/interraction/rewrite.py`). They are
  written as Python `re.match` patterns with `re.IGNORECASE`.
  - The patterns become values of a small regular-expression language (module `Regex`).
  - A backtracking matcher (module `PyRe`) implements that language. It is proved to return the first
    accepted trace in Python's preference order. So `Match` is `re.match`, group captures included.
  - Each recogniser is a pattern plus the interpretation of its groups. It also carries an explicit reading
    of what the pattern accepts: "keyword, white space, rest, stripped", "first token, optional `to` token",
    "text up to the last ` to `", and so on. Theorems connect the reading and the regex.
  - The families are:
    - `PrefixForm` and `BasicIntents`: keyword, then the rest.
    - `PhraseForm`: one exact phrase.
    - `TokenForm` and `TokenIntents`: keyword, then tokens.
    - `SplitForm` and `SplitIntents`: keyword, text, separator, text.
    - `RmdirForm`: an optional trailing flag.
- **The dual-LLM parser** (`intent/dual_llm_parser.py`, module `DualLlm`). The two model replies are
  parameters: the thinker's text and the formatter's decoded JSON. The model records the requests the parser
  issues, the fallback analysis and the validation of the decoded object.
- **The CLI registries and dispatch** (`cli.py`, module `Cli`).
  - Registries are built from module names by `str.replace`. A repeated key overwrites the earlier entry but
    keeps its place.
  - Dispatch scans the parsers in registry order. The first parser whose intent names its own key wins.
  - The outcome is one of: the complexity report, "no command", executing a command with the intent's other
    fields, or "not understood".
- **The file commands** (`commands/basic/*.py`). They run over an abstract file system: a map from paths
  (sequences of names, relative to the working directory) to files and directories (module `FileSystem`).
  - Each command is a function from a state to a `Reply`: the returned text and the new state, or `Raises`
    where the source lets an exception escape.
  - The modules are:
    - `ReadCommands`: cat, ls, wc and sort.
    - `WriteCommands`: write, touch and mkdir.
    - `RemoveCommands`: rmdir and delete.
    - `TransferCommands`: move and copy.
    - `TreeCommand`: tree.
  - Operating-system error messages use the Linux `errno` texts.
- **Reasoning bookkeeping** of `core.py` (module `Reasoning`): the chain of thought, and the tree of thought
  with its cursor. Tree nodes live in an arena and are referred to by index.

Python library behaviour the core relies on is modelled in `PyText`:
- `str.strip` and `str.split` over Python's full white-space set.
- `str.splitlines` with all its line boundaries.
- `str.replace`, `in`, `'\n'.join` and the decimal rendering of integers.
- Universal-newline reading (`FileSystem.Universal`).

Module `Sorting` provides `list.sort` on strings, by code point, with the unique sorted permutation.

## Model

| member | source | states |
|---|---|---|
| PyRe.SearchCorrect | agentic_system/intent/basic/ls.py:8 | The matcher returns only accepted traces, and it finds one whenever one exists. No accepted trace comes before the returned one in Python's backtracking order. |
| PyRe.SearchFirst | agentic_system/intent/basic/ls.py:8 | A match exists iff some trace is accepted. The returned trace is exactly the first accepted one. |
| PyRe.Match | agentic_system/intent/basic/ls.py:8-10 | `re.match` succeeds iff the pattern accepts some trace from position 0. The groups are those of the first accepted trace. |
| PyRe.BeforeTotal | agentic_system/intent/basic/ls.py:8 | Any two distinct accepted traces are ordered by the engine's preference. |
| PyRe.FirstUnique | agentic_system/intent/basic/ls.py:8 | There is at most one first accepted trace, so the match is determined. |
| Regex.RunLength | agentic_system/intent/basic/ls.py:8 | The greedy run of a character class (`\s`, `\S`, `.`) is a run, and the character after it is outside the class. |
| Regex.RunOfIff | agentic_system/intent/basic/ls.py:8 | A run of length n exists exactly when n is at most the greedy run length. |
| Regex.LitAtMeans | agentic_system/intent/basic/ls.py:8 | A literal matches at i iff the next characters equal it ignoring case. |
| PyText.Strip | agentic_system/intent/basic/ls.py:10 | `str.strip()` gives a stripped string no longer than its input. |
| PyText.StripUnique | agentic_system/intent/basic/ls.py:10 | Stripping white space around a stripped middle gives exactly that middle. |
| PyText.StripIdempotent | agentic_system/intent/basic/ls.py:10 | Stripping twice is stripping once. |
| PyText.StripEmpty | agentic_system/intent/basic/ls.py:10 | Stripping gives "" exactly when the string is all white space. |
| PyText.Contains | agentic_system/intent/dual_llm_parser.py:57 | Python's `needle in hay` holds iff the needle occurs at some index. |
| PyText.RemoveAll | agentic_system/cli.py:29 | `str.replace(p, "")` never lengthens the string. |
| PyText.RemoveAllUnchangedIff | agentic_system/cli.py:29 | Removing every occurrence leaves a string unchanged iff the pattern does not occur in it. |
| PyText.SplitWords | agentic_system/commands/basic/wc.py:13 | `str.split()` yields only non-empty words without white space. |
| PyText.SplitWordsCount | agentic_system/commands/basic/wc.py:13 | The number of words is the number of maximal non-white-space runs. |
| PyText.SplitLines | agentic_system/commands/basic/wc.py:12 | `str.splitlines()` yields lines without line boundaries. |
| PyText.SplitLinesCount | agentic_system/commands/basic/wc.py:12 | The number of lines is the number of boundaries, plus one when the text is non-empty and does not end in a boundary. |
| PyText.SplitJoinLines | agentic_system/commands/basic/sort.py:13-15 | Splitting lines joined by "\n" gives the lines back, when none has a boundary and the last is non-empty. |
| PyText.NatToString | agentic_system/commands/basic/wc.py:15 | An integer renders as non-empty decimal digits with no leading zero. |
| PyText.NatToStringRoundTrip | agentic_system/commands/basic/wc.py:15 | Reading the rendered digits back gives the number. |
| PyText.StrLeTotal | agentic_system/commands/basic/sort.py:14 | String order is total. |
| PyText.StrLeAntisymmetric | agentic_system/commands/basic/sort.py:14 | String order is antisymmetric. |
| PyText.StrLeTransitive | agentic_system/commands/basic/sort.py:14 | String order is transitive. |
| Sorting.Insert | agentic_system/commands/basic/sort.py:14 | Inserting into a sorted sequence gives a sorted sequence with exactly one more copy of the element. |
| Sorting.Sort | agentic_system/commands/basic/sort.py:14 | `list.sort()` gives a sorted permutation of its input. |
| Sorting.SortedUnique | agentic_system/commands/basic/sort.py:14 | Two sorted permutations of each other are equal, so the sort's result is determined. |
| Sorting.SortOfSorted | agentic_system/commands/basic/sort.py:14 | Sorting a sorted list leaves it unchanged. |
| Sorting.SortIdempotent | agentic_system/commands/basic/sort.py:14 | Sorting twice is sorting once. |
| Sorting.Least | agentic_system/commands/basic/tree.py:16 | The least name of a non-empty set is in the set and below every other member. |
| Sorting.InOrder | agentic_system/commands/basic/tree.py:16 | A set of names in ascending order is strictly sorted, has the set's size and contains exactly its members. |
| Sorting.InOrderIsSort | agentic_system/commands/basic/tree.py:16 | Listing a set in order is sorting any duplicate-free list of its members. |
| Intents.ActionWith | agentic_system/intent/basic/ls.py:11 | The intent `{action, key}` has exactly those two keys, holding the given strings. |
| PrefixForm.FirstFit | agentic_system/intent/basic/ls.py:8 | The alternation tries keywords in order: the chosen keyword fits, and no earlier keyword does. |
| PrefixForm.PrefixReading | agentic_system/intent/basic/ls.py:8-10 | On a newline-free line, `keyword\s+(.+)` matches iff the first keyword that fits is followed by white space and at least one more character. Group 1, stripped, is the stripped text after the keyword. |
| PrefixForm.PrefixNeedsFit | agentic_system/intent/basic/ls.py:8 | A match needs some keyword to fit at the start. |
| PrefixForm.ArgumentAt | agentic_system/intent/basic/cat.py:8-10 | After the first fitting keyword and one white-space character, the argument is the rest, stripped. |
| PrefixForm.FitsShorter | agentic_system/intent/basic/wc.py:8 | When a longer keyword fits, a keyword that is its prefix followed by a space fits too. |
| PrefixForm.KeywordWithinStrip | agentic_system/intent/basic/ls.py:13 | A keyword that fits lies inside the stripped instruction. |
| BasicIntents.PrefixIntent | agentic_system/intent/basic/cat.py:8-12 | A keyword-then-rest recogniser returns `{action, key}` with a stripped value. On a newline-free line it returns exactly the explicit reading, and otherwise None. |
| BasicIntents.PrefixIntentAt | agentic_system/intent/basic/cat.py:8-11 | Keyword j, a white-space character and a non-empty rest, with no earlier keyword fitting, give the rest stripped. |
| BasicIntents.ParseLs | agentic_system/intent/basic/ls.py:8-15 | The ls recogniser returns `{action:"ls", path}` with a stripped path. On a newline-free line it is the prefix reading of "ls" / "list files in"; failing that, "." for a bare "ls" or "list files" in any case; failing that, None. |
| BasicIntents.ParseCat | agentic_system/intent/basic/cat.py:8-12 | The cat recogniser returns `{action:"cat", path}` with a stripped path, as the prefix reading of its three keywords on a newline-free line. |
| BasicIntents.ParseMkdir | agentic_system/intent/basic/mkdir.py:8-12 | The mkdir recogniser returns `{action:"mkdir", path}`, as the prefix reading of its three keywords. |
| BasicIntents.ParseTouch | agentic_system/intent/basic/touch.py:8-12 | The touch recogniser returns `{action:"touch", path}`, as the prefix reading of its three keywords. |
| BasicIntents.ParseWc | agentic_system/intent/basic/wc.py:8-12 | The wc recogniser returns `{action:"wc", path}`, as the prefix reading of "wc" / "count" / "count words in". |
| BasicIntents.ParseEcho | agentic_system/intent/basic/echo.py:8-12 | The echo recogniser returns `{action:"echo", text}`, as the prefix reading of "echo" / "print" / "say". |
| BasicIntents.ParseTree | agentic_system/intent/basic/tree.py:8-15 | The tree recogniser returns `{action:"tree", path}`. It gives the prefix reading; failing that, "." for a bare "tree"; failing that, None. |
| BasicIntents.PhraseIntent | agentic_system/intent/basic/uname.py:8-10 | A whole-phrase recogniser answers iff the stripped instruction equals one phrase ignoring case, and the answer has no parameters. |
| BasicIntents.ParseUname | agentic_system/intent/basic/uname.py:8-10 | `{action:"uname"}` exactly when the stripped instruction is one of the four uname phrases, ignoring case. |
| BasicIntents.ParsePwd | agentic_system/intent/basic/pwd.py:8-10 | `{action:"pwd"}` exactly when the stripped instruction is one of the three pwd phrases, ignoring case. |
| BasicIntents.ParsePs | agentic_system/intent/basic/ps.py:8-10 | `{action:"ps"}` exactly when the stripped instruction is one of the three ps phrases, ignoring case. |
| BasicIntents.WcCountWordsShadowed | agentic_system/intent/basic/wc.py:8 | "count words in" is never the chosen alternative, because "count" fits first. |
| BasicIntents.LsBareFits | agentic_system/intent/basic/ls.py:8-14 | When a bare "ls" line also fits the prefix form, only white space follows the keyword's first space. |
| BasicIntents.LsBareLongDoesNotFit | agentic_system/intent/basic/ls.py:8-14 | A bare "ls" or "list files" is too short for "list files in" to fit. |
| BasicIntents.LongLsKeepsRoom | agentic_system/intent/basic/ls.py:8 | When "list files in" fits, the stripped instruction is longer than that keyword. |
| BasicIntents.LsBareTrap | agentic_system/intent/basic/ls.py:8-14 | A bare "ls" or "list files" gives "." unless "ls" is followed by two white-space characters. Then the regex wins first with an empty path. |
| PhraseForm.PhraseReading | agentic_system/intent/basic/uname.py:8 | On a stripped line, `^(p1\|p2\|...)$` matches iff the line equals one phrase ignoring case. |
| PhraseForm.AcceptedIsPhrase | agentic_system/intent/basic/uname.py:8 | Every accepted trace of the phrase pattern spells one phrase. |
| IntentExamples.CatShowContents | agentic_system/intent/basic/cat.py:8-11 | "show contents of X" gives path X. |
| IntentExamples.CatExample | test_pipeline_comprehensive.py:70 | "show contents of README.md" gives path "README.md". |
| IntentExamples.MkdirCreateFolder | agentic_system/intent/basic/mkdir.py:8-11 | "create folder X" gives path X, filler words included. |
| IntentExamples.MkdirExample | agentic_system/intent/basic/mkdir.py:8-11 | "create folder called test_folder" gives path "called test_folder". |
| IntentExamples.EchoExample | test_pipeline_comprehensive.py:75 | "echo hello world" gives text "hello world". |
| IntentExamples.WcCount | agentic_system/intent/basic/wc.py:8-11 | "count X" gives path X. |
| IntentExamples.WcShadowedExample | agentic_system/intent/basic/wc.py:8-11 | "count words in a.txt" gives path "words in a.txt". |
| IntentExamples.EchoPrint | agentic_system/intent/basic/echo.py:8-11 | "print X" gives text X. |
| IntentExamples.PrintWorkingDirectoryEcho | agentic_system/intent/basic/echo.py:8-11 | "print working directory" is an echo of "working directory". |
| IntentExamples.PrintWorkingDirectoryPwd | agentic_system/intent/basic/pwd.py:8-9 | "print working directory" is also the pwd phrase, so the registry order decides. |
| IntentExamples.LsTwoSpaces | agentic_system/intent/basic/ls.py:8-11 | "ls" followed by two spaces gives path "", not ".". |
| IntentExamples.LsGlued | agentic_system/intent/basic/ls.py:8-15 | "lsx" gives None. |
| IntentExamples.LsNotAtStart | agentic_system/intent/basic/ls.py:8-15 | "please ls x" gives None, because the match is anchored at the start. |
| IntentExamples.CatBare | agentic_system/intent/basic/cat.py:8-12 | A bare "cat" gives None. |
| IntentExamples.TreeBare | agentic_system/intent/basic/tree.py:13-14 | " Tree " gives path ".". |
| IntentExamples.ShowTreeOfBare | agentic_system/intent/basic/tree.py:8-15 | A bare "show tree of" gives None. |
| IntentExamples.UnameExtraWord | agentic_system/intent/basic/uname.py:8-10 | "uname -a" gives None. |
| IntentExamples.UnameDoubleSpace | agentic_system/intent/basic/uname.py:8 | "show  os info" gives None. |
| IntentExamples.PsCaseAndSpace | agentic_system/intent/basic/ps.py:8-9 | "  PS\t" gives `{action:"ps"}`. |
| TokenForm.NextWord | agentic_system/intent/basic/sort.py:8 | `\s+(\S+)` as a reading: white space, then a maximal non-white-space word. |
| TokenForm.TokenShapeReading | agentic_system/intent/basic/sort.py:8 | The token patterns of sort, locate, ln and wget match exactly as the explicit token reading says, groups included. |
| TokenIntents.TokenIntent | agentic_system/intent/basic/sort.py:8-16 | A token recogniser's result is its explicit reading. |
| TokenIntents.ParseSort | agentic_system/intent/basic/sort.py:8-16 | sort gives `{action:"sort", path}`, plus `output_path` only when "to" and a token follow. Its result is the explicit token reading. |
| TokenIntents.ParseLocate | agentic_system/intent/basic/locate.py:8-16 | locate and find give `{action:"locate", pattern}`, plus `directory` only when "in" and a token follow. |
| TokenIntents.ParseLn | agentic_system/intent/basic/ln.py:8-13 | ln and create symlink give exactly `{action, target_path, link_path}` from two tokens, or None. |
| TokenIntents.ParseWget | agentic_system/intent/basic/wget.py:8-13 | wget and download give exactly `{action, url, output_path}` when "to" and a token follow the url, or None. |
| TokenExamples.LnReads | agentic_system/intent/basic/ln.py:8-12 | Keyword, two words and any tail give the two words as target and link. |
| TokenExamples.LnNeedsTwo | agentic_system/intent/basic/ln.py:8-13 | Keyword and one word give None. |
| TokenExamples.SortTo | agentic_system/intent/basic/sort.py:8-14 | "sort W to V ..." gives path W and output_path V, ignoring the tail. |
| TokenExamples.SortAlone | agentic_system/intent/basic/sort.py:8-15 | "sort W" gives path W and no output_path key. |
| TokenExamples.SortNotTo | agentic_system/intent/basic/sort.py:8-15 | "sort W X ..." with X not "to" gives only the path. |
| TokenExamples.LocateIn | agentic_system/intent/basic/locate.py:8-14 | "find W in D ..." gives pattern W and directory D. |
| TokenExamples.LocateNotIn | agentic_system/intent/basic/locate.py:8-15 | "find W X ..." with X not "in" gives only the pattern W. |
| TokenExamples.LocateFindAll | test_pipeline_comprehensive.py:95 | "find all Python files and show their contents" gives pattern "all". |
| TokenExamples.WgetTo | agentic_system/intent/basic/wget.py:8-12 | "wget U to O ..." gives url U and output_path O. |
| TokenExamples.WgetNeedsTo | agentic_system/intent/basic/wget.py:8-13 | Without "to" after the url there is no intent. |
| TokenExamples.WgetNeedsOutput | agentic_system/intent/basic/wget.py:8-13 | Without a word after "to" there is no intent. |
| SplitForm.LastCut | agentic_system/intent/basic/write.py:8 | The greedy `(.+)` ends at the last separator position with enough text after it, and no later position qualifies. |
| SplitForm.LastCutIs | agentic_system/intent/basic/write.py:8 | A qualifying position with none after it is the one chosen. |
| SplitForm.TwoReading | agentic_system/intent/basic/write.py:8-11 | On a newline-free line, `k\s+(.+)SEP(.+)` matches iff the explicit split at the last separator exists. The stripped groups are the two texts. |
| SplitForm.ThreeReading | agentic_system/intent/interraction/rewrite.py:8-12 | The same for three texts and two separators: the greedy groups split at the last fitting separators. |
| SplitForm.TwoTextsAt | agentic_system/intent/basic/write.py:8-11 | With the keyword at the start and j the last cut, the texts are the stripped slices on either side of the separator. |
| SplitForm.TwoMatched | agentic_system/intent/basic/write.py:8-11 | When a cut exists, the regex matches and its groups are the explicit texts. |
| SplitForm.ThreeMatched | agentic_system/intent/interraction/rewrite.py:8-12 | When both cuts exist, the regex matches and its groups are the explicit texts. |
| SplitIntents.WriteIntent | agentic_system/intent/basic/write.py:12-18 | A write intent has exactly the keys action, file and text; the key is "text", not "content". |
| SplitIntents.ParseWrite | agentic_system/intent/basic/write.py:8-19 | The write recogniser returns `{action:"write", file, text}` with stripped values. On a newline-free line the `... to FILE` form is tried first and the `write to FILE: TEXT` form second; otherwise None. |
| SplitIntents.RewriteIntent | agentic_system/intent/interraction/rewrite.py:13-20 | A rewrite intent has exactly the keys action, file, prompt and output. |
| SplitIntents.ParseRewrite | agentic_system/intent/interraction/rewrite.py:8-21 | The rewrite recogniser returns stripped file, prompt and output. It tries the `with ... to ...` order first and the `to ... with ...` order second; otherwise None. |
| SplitIntents.RmdirIntent | agentic_system/intent/basic/rmdir.py:13 | An rmdir intent has exactly the keys action, path and a boolean force. |
| SplitIntents.ParseRmdir | agentic_system/intent/basic/rmdir.py:9-14 | The rmdir recogniser returns a stripped path and a boolean force, as the explicit reading of its keyword and trailing flag. |
| SplitExamples.WriteFirstFormWins | agentic_system/intent/basic/write.py:8-18 | "write to a.txt: go to bed" gives file "bed" and text "to a.txt: go". |
| SplitExamples.RewriteExample | agentic_system/intent/interraction/rewrite.py:8-13 | "rewrite a to b with convert to french" gives file "a to b", prompt "convert" and output "french". |
| SplitExamples.RmdirOnlyFlag | agentic_system/intent/basic/rmdir.py:9-13 | "rmdir force" gives path "force" with force false. |
| SplitExamples.RmdirForce | agentic_system/intent/basic/rmdir.py:9-13 | "rmdir x force" gives path "x" with force true. |
| SplitExamples.RmdirTrailingSpace | agentic_system/intent/basic/rmdir.py:9-13 | "rmdir x force " gives path "x force" with force false, because `$` sees the trailing space. |
| RmdirForm.FlagIndex | agentic_system/intent/basic/rmdir.py:9 | The chosen flag word ends the line after white space, and no earlier flag word does. |
| RmdirForm.RmdirArgs | agentic_system/intent/basic/rmdir.py:9-12 | The explicit rmdir reading exists iff a keyword fits, and its path is stripped. |
| RmdirForm.RmdirReading | agentic_system/intent/basic/rmdir.py:9-12 | On a newline-free line, the rmdir pattern matches iff the explicit reading exists. Group 1 stripped is its path, and group 2 is present iff its force is true. |
| RmdirForm.TailIffFits | agentic_system/intent/basic/rmdir.py:9 | The part after the keyword matches iff the keyword fits. |
| RmdirForm.RmdirSearch | agentic_system/intent/basic/rmdir.py:9 | When keyword j is the first that fits, the match takes it with the white-space run the engine chooses. |
| RmdirForm.RmdirNoSearch | agentic_system/intent/basic/rmdir.py:9-14 | When no keyword fits there is no match. |
| RmdirForm.FlagArgs | agentic_system/intent/basic/rmdir.py:9-12 | With a trailing flag, the path is the stripped text between the keyword and the flag. |
| RmdirForm.ArgsOffFlag | agentic_system/intent/basic/rmdir.py:9-12 | Without a trailing flag, force is false and the path is the whole stripped rest. |
| DualLlm.Analysis | agentic_system/intent/dual_llm_parser.py:56-60 | A reply that counts as a failure ("Failed to communicate", or "timeout" in any case) is always replaced by the fallback text; any other reply is kept as it is. |
| DualLlm.Validate | agentic_system/intent/dual_llm_parser.py:100-120 | The decoded reply yields an intent iff it is an object whose "action" is present and not null, and then it is the object unchanged. |
| DualLlm.Parse | agentic_system/intent/dual_llm_parser.py:39-120 | Exactly two requests are made. The first goes to the thinker model, without JSON, with the fixed thinker prompt around the instruction. The second goes to the formatter, with JSON, and its prompt contains the instruction. The formatter prompt embeds the reply, or the fallback when the reply failed. The result is the decoded object iff it has a non-null action. |
| DualLlm.PromptsEmbed | agentic_system/intent/dual_llm_parser.py:39-90 | The thinker prompt contains the instruction, and the formatter prompt contains both the analysis and the instruction. |
| DualLlm.TimeoutAnyCase | agentic_system/intent/dual_llm_parser.py:57 | A reply containing "timeout" in any letter case counts as a failure. |
| DualLlm.ShoutedFailureIsNotCaught | agentic_system/intent/dual_llm_parser.py:57 | "FAILED TO COMMUNICATE" without "timeout" is not a failure: that test is case-sensitive. |
| DualLlm.FrameInjective | agentic_system/intent/dual_llm_parser.py:63-67 | A fixed header and trailer around a text determine the text. |
| DualLlm.ThinkerPromptInjective | agentic_system/intent/dual_llm_parser.py:39-49 | Different instructions give different thinker prompts. |
| DualLlm.FormatterPromptDeterminesAnalysis | agentic_system/intent/dual_llm_parser.py:63-67 | For one instruction, the formatter prompt determines the analysis it embeds. |
| Cli.ParserKey | agentic_system/cli.py:29 | The parser key is no longer than the module name. |
| Cli.CommandKey | agentic_system/cli.py:41 | The command key is no longer than the module name. |
| Cli.RemoveThreeUnchangedIff | agentic_system/cli.py:29 | Three replace-all removals leave a name unchanged iff the shortest pattern, which the others contain, does not occur. |
| Cli.ParserKeyUnchangedIff | agentic_system/cli.py:29 | A module name is its own parser key iff it does not contain "intent". |
| Cli.CommandKeyUnchangedIff | agentic_system/cli.py:41 | A module name is its own command key iff it does not contain "command". |
| Cli.Lookup | agentic_system/cli.py:78 | `dict.get` finds a value iff the key is registered, and the value is the one stored with it. |
| Cli.AssignLookup | agentic_system/cli.py:30 | After `d[key] = v`, the key gives v and every other key gives what it gave before. |
| Cli.AssignKeys | agentic_system/cli.py:30 | Assigning keeps the key order: an existing key stays in place and a new key goes last. |
| Cli.AssignUnique | agentic_system/cli.py:30 | Assigning into a registry whose keys are unique keeps them unique. |
| Cli.Latest | agentic_system/cli.py:22-30 | The reference reading: a key holds a class iff some non-"base" module with classes has that key. |
| Cli.AssignAllSpec | agentic_system/cli.py:26-30 | Assigning a module's classes in turn leaves the last one under its key. |
| Cli.LoadSpec | agentic_system/cli.py:22-30 | The loaded registry has unique keys, and each key holds the last class of the last module registering it. |
| Cli.Kwargs | agentic_system/cli.py:83 | The keyword arguments are exactly the intent's fields other than "action", with their values. |
| Cli.DispatchFrom | agentic_system/cli.py:75-88 | The first parser whose intent names its own key decides, and no parser before it wins. If it has no command the outcome is "no command"; otherwise its command runs with the intent's other fields. If no parser wins, the outcome is "not understood". |
| Cli.Dispatch | agentic_system/cli.py:63-88 | With complexity analysis on, nothing is parsed or run; otherwise the outcome is the first winner's. |
| Cli.FirstWinnerDecides | agentic_system/cli.py:75-87 | Once a parser wins, parsers appended after it change nothing. |
| FileSystem.DisplayInjective | agentic_system/commands/basic/ls.py:11 | Different valid paths are displayed differently. |
| FileSystem.JoinSlashInjective | agentic_system/commands/basic/ls.py:11 | Joining valid names with "/" is injective. |
| FileSystem.DirError | agentic_system/commands/basic/mkdir.py:9 | Resolving a path as a directory fails iff it is not one, with "not found" or "not a directory". |
| FileSystem.DirErrorNotADirectory | agentic_system/commands/basic/mkdir.py:9-14 | The error is "not a directory" iff a file stands on the way. |
| FileSystem.ChildOnTheWay | agentic_system/commands/basic/tree.py:20-21 | In a well-formed state, every entry below a directory passes through one of its children. |
| FileSystem.AncestorIsDir | agentic_system/commands/basic/mkdir.py:9 | In a well-formed state, every ancestor of an entry is a directory. |
| FileSystem.Universal | agentic_system/commands/basic/cat.py:12 | Text-mode reading leaves no "\r", changes nothing in text without one, and never lengthens the text. |
| FileSystem.UniversalIdempotent | agentic_system/commands/basic/cat.py:12 | Reading text already read changes nothing more. |
| FileSystem.ReadText | agentic_system/commands/basic/cat.py:11-14 | Reading succeeds iff the contents decode, and what is read has no "\r". |
| FileSystem.WriteText | agentic_system/commands/basic/write.py:16-17 | Writing succeeds iff the path is not a directory and its parent is one. Then the file holds exactly the text. Writing a directory fails with EISDIR; otherwise the error is the OS error for the parent (ENOENT or ENOTDIR). |
| FileSystem.WriteKeepsWellFormed | agentic_system/commands/basic/write.py:16-17 | A successful write keeps the state well-formed. |
| FileSystem.Listing | agentic_system/commands/basic/ls.py:11 | `iterdir` lists exactly the children of a directory, each once, in ascending name order. |
| FileSystem.MakeDirs | agentic_system/commands/basic/mkdir.py:9 | `mkdir(parents=True)` makes the path a directory of a well-formed state. It keeps every existing entry and adds only directories on the path. |
| FileSystem.RemoveLeafWellFormed | agentic_system/commands/basic/delete.py:11-14 | Removing an entry with nothing inside keeps the state well-formed. |
| FileSystem.FileHoldsNothing | agentic_system/commands/basic/delete.py:10-11 | Nothing is inside a file in a well-formed state. |
| ReadCommands.Cat | agentic_system/commands/basic/cat.py:8-14 | cat changes nothing. It returns "File not found" for a non-file, the read error for undecodable contents, and otherwise the text as text mode reads it. |
| ReadCommands.CatAfterWrite | agentic_system/commands/basic/cat.py:12 | Reading back a text without "\r" that was just written gives that text. |
| ReadCommands.Entries | agentic_system/commands/basic/ls.py:11 | One entry per child, in listing order, each the child's full displayed path. |
| ReadCommands.Ls | agentic_system/commands/basic/ls.py:8-11 | ls changes nothing. It returns "Directory not found" for a non-directory, and otherwise the entries joined by "\n". |
| ReadCommands.LsShowsChildren | agentic_system/commands/basic/ls.py:11 | A path is listed iff it is an immediate child, so grandchildren are absent. |
| ReadCommands.LsEmpty | agentic_system/commands/basic/ls.py:11 | An empty directory lists as "". |
| ReadCommands.Wc | agentic_system/commands/basic/wc.py:7-17 | wc changes nothing. It returns "File not found", the counting error, or the line, word and character counts of the text. |
| ReadCommands.WcCounts | agentic_system/commands/basic/wc.py:12-15 | The report uses the number of split lines, the number of words and the length of the text. |
| ReadCommands.SortedText | agentic_system/commands/basic/sort.py:13-15 | The sorted text has no "\r". |
| ReadCommands.SortFile | agentic_system/commands/basic/sort.py:9-21 | sort reports a missing file or a read error with no change. Without output it returns the sorted text with no change. With output it writes the sorted text there and reports it, or returns the write error unchanged. |
| ReadCommands.SortedLines | agentic_system/commands/basic/sort.py:13-15 | The lines of the output are the sorted input lines: a sorted permutation. |
| ReadCommands.SortAgain | agentic_system/commands/basic/sort.py:13-15 | Sorting the sorted output again gives the same text. |
| ReadCommands.SortKeepsSource | agentic_system/commands/basic/sort.py:16-18 | Writing to another path leaves the source and every other path unchanged. |
| WriteCommands.Write | agentic_system/commands/basic/write.py:11-20 | An existing path without force is refused with no change. "Wrote to" is returned iff the write could happen, and then the file holds exactly the content ("" for None) and nothing else changes. A failed write replies "Error writing to {file}: " and the OS error. On any other outcome nothing changes. |
| WriteCommands.WriteReplaces | agentic_system/commands/basic/write.py:12-16 | With force, an existing file's content is replaced whole, and no other path changes. |
| WriteCommands.ErrorNotWrote | agentic_system/commands/basic/write.py:13-20 | The refusal, the error and the success texts are different. |
| WriteCommands.Utime | agentic_system/commands/basic/touch.py:12 | `os.utime` stamps a file with the current time, keeps its contents and changes no other path. |
| WriteCommands.Touch | agentic_system/commands/basic/touch.py:9-18 | An existing path gets "Timestamp updated" and its time stamped. A missing path becomes an empty file with "File created" iff its parent is a directory; otherwise the state is unchanged and the reply is "Error touching file: " with the OS error for the parent (for the working directory itself, `IsADirectoryError`). |
| WriteCommands.TouchError | agentic_system/commands/basic/touch.py:14-18 | Touching a missing path whose parent is not a directory changes nothing and replies "Error touching file: " with the OS error: `NotADirectoryError` when a file is on the way, `FileNotFoundError` otherwise. |
| WriteCommands.TouchLeavesPath | agentic_system/commands/basic/touch.py:11-16 | After touch the path exists iff it did, or its parent is a directory. |
| WriteCommands.TouchTwice | agentic_system/commands/basic/touch.py:11-16 | A second touch on a later clock reports an update and makes the file strictly newer. |
| WriteCommands.Mkdir | agentic_system/commands/basic/mkdir.py:7-14 | mkdir reports an existing path with no change. A file on the way gives the ENOTDIR error with no change. Otherwise the path becomes a directory; only it and missing ancestors are added, all as directories. |
| WriteCommands.MkdirIdempotent | agentic_system/commands/basic/mkdir.py:9-12 | A second mkdir changes nothing and reports that the directory exists. |
| WriteCommands.MkdirAddsAncestors | agentic_system/commands/basic/mkdir.py:9 | Every prefix of the created path is a directory afterwards. |
| RemoveCommands.RemoveTree | agentic_system/commands/basic/rmdir.py:14 | `shutil.rmtree` removes the directory and everything below it, and nothing else. |
| RemoveCommands.RemoveInside | agentic_system/commands/basic/rmdir.py:14 | Removing the contents keeps the directory and everything outside it. |
| RemoveCommands.RemoveTreeWellFormed | agentic_system/commands/basic/rmdir.py:14 | Removing a subtree keeps the state well-formed. |
| RemoveCommands.EmptyIffNoChild | agentic_system/commands/basic/rmdir.py:17 | Nothing is inside a directory iff it has no child. |
| RemoveCommands.RemoveEmptyDir | agentic_system/commands/basic/rmdir.py:17 | `rmdir` succeeds iff the directory is empty and not the working directory, and removes only it. |
| RemoveCommands.Rmdir | agentic_system/commands/basic/rmdir.py:9-20 | A non-directory is not found. With force, the subtree is removed; on the working directory its contents are removed, then EINVAL is reported. Without force, an empty directory is removed. A non-empty directory gives ENOTEMPTY and the working directory gives EINVAL, both with no change. |
| RemoveCommands.RmdirFrame | agentic_system/commands/basic/rmdir.py:13-18 | rmdir keeps the state well-formed, adds nothing, and leaves every path outside the target's subtree unchanged. |
| RemoveCommands.RmdirKeepsNonEmpty | agentic_system/commands/basic/rmdir.py:17-20 | Without force, a directory with a child is refused and nothing is removed. |
| RemoveCommands.Delete | agentic_system/commands/basic/delete.py:8-19 | A file is unlinked and an empty directory is removed. A non-empty directory gives ENOTEMPTY and the working directory gives EINVAL, with no change. A missing path is "Path not found" with no change. |
| RemoveCommands.DeleteRemovesAtMostOne | agentic_system/commands/basic/delete.py:8-19 | delete removes at most the one path, and keeps the state well-formed. |
| TransferCommands.Selection | agentic_system/commands/basic/copy.py:17-20 | The candidates are exactly the listed regular files that the filter keeps, each once. |
| TransferCommands.Move | agentic_system/commands/basic/move.py:11-23 | A missing source directory is reported with no change. A destination that cannot be created raises with no change. The state stays well-formed. |
| TransferCommands.MoveHappy | agentic_system/commands/basic/move.py:14-23 | Into a directory with no directory in the way, move moves exactly the selected files, named or all when none are named. Each leaves the source and arrives with its node, and the reply lists them. |
| TransferCommands.MoveOntoItself | agentic_system/commands/basic/move.py:17-23 | Moving a directory's files into itself changes nothing and still reports them. |
| TransferCommands.Copy | agentic_system/commands/basic/copy.py:11-23 | A missing source directory is reported with no change. A destination that cannot be created raises with no change. The state stays well-formed. |
| TransferCommands.CopyHappy | agentic_system/commands/basic/copy.py:14-23 | Into another directory with no directory in the way, copy copies exactly the files whose names do not contain `exclude`, replacing same-named files. The reply lists them. |
| TransferCommands.CopyOntoItself | agentic_system/commands/basic/copy.py:17-21 | Copying a directory into itself raises `SameFileError` at the first kept file, with no change. |
| TransferCommands.CopyKeepsSource | agentic_system/commands/basic/copy.py:21 | Copy never changes or removes an entry of the source directory, and adds no file there. |
| TransferCommands.RenameWellFormed | agentic_system/commands/basic/move.py:21 | Moving a file to a non-directory inside a directory keeps the state well-formed. |
| TreeCommand.Children | agentic_system/commands/basic/tree.py:16 | The children of a directory, each once, with directories first and then by name. |
| TreeCommand.KindsInOrder | agentic_system/commands/basic/tree.py:16 | Sorted directories followed by sorted files are in the `(not is_dir, name)` key order. |
| TreeCommand.TreeLines | agentic_system/commands/basic/tree.py:12-23 | The first line is the resolved path, followed by one line per entry shown within the depth limit; without a limit, one per entry below. |
| TreeCommand.Tree | agentic_system/commands/basic/tree.py:9-24 | tree changes nothing. It returns "Directory not found" for a non-directory, and otherwise its lines joined by "\n". |
| TreeCommand.ShownWithoutLimit | agentic_system/commands/basic/tree.py:14 | Without `max_depth`, every entry below is shown. |
| TreeCommand.WalkCount | agentic_system/commands/basic/tree.py:13-21 | The walk writes one line per entry shown below the directory. |
| TreeCommand.WalkChildLines | agentic_system/commands/basic/tree.py:13-21 | At every depth, within the limit, the walk of a directory is the lines of the children before the `i`-th (one per entry shown under them), then the `i`-th child's line `prefix + connector + name`, then that child's walk one level deeper under `prefix` plus `'    '` (last child) or `'│   '` (for a directory; nothing for a file, and one line per entry shown inside it), then the later children's lines. Beyond the limit it prints nothing. |
| TreeCommand.TreeChildLines | agentic_system/commands/basic/tree.py:12-23 | The same split for the whole output: the root line, the earlier children's lines, the `i`-th child's connector line, its walk from depth 1, then the rest. A negative limit leaves only the root line. |
| TreeCommand.TreeNegativeDepth | agentic_system/commands/basic/tree.py:14-22 | A negative `max_depth` prints only the root line. |
| TreeCommand.TreeDepthZero | agentic_system/commands/basic/tree.py:14-19 | `max_depth=0` is honoured: the root line, then one connector line per child. |
| TreeCommand.FlatWalk | agentic_system/commands/basic/tree.py:17-19 | At depth zero with limit zero, the walk prints each child's connector line, with "└── " for the last child and "├── " otherwise, and nothing deeper. |
| Reasoning.Initial | agentic_system/core.py:18-21 | A new agent has an empty chain, a root-only tree with thought "root", and the cursor on the root. |
| Reasoning.AddChainThought | agentic_system/core.py:33-35 | One thought is appended at the end; earlier thoughts, the tree and the cursor are unchanged. |
| Reasoning.ChainInOrder | agentic_system/core.py:33-35 | Adding several thoughts appends them in order. |
| Reasoning.AddTreeThought | agentic_system/core.py:37-43 | A new leaf is created and appended as the last child of the parent, or of the cursor (or the root) when no parent is given. The leaf is returned, and no other node, the chain or the cursor changes. |
| Reasoning.AddTreeThoughtView | agentic_system/core.py:37-43 | Seen as a tree, the parent gains the new leaf as its last child. |
| Reasoning.ViewUnchangedAbove | agentic_system/core.py:37-43 | When only node `p` changes and nodes are only appended, as adding a thought does, the subtree of every node newer than `p` is unchanged. |
| Reasoning.ViewUnchangedOutside | agentic_system/core.py:37-43 | When only node `p` changes and nodes are only appended, the subtree of every node whose tree does not reach `p` is unchanged. |
| Reasoning.ReachesNewer | agentic_system/core.py:37-43 | The tree below a node holds only that node and nodes created after it, since a thought only ever gets new nodes as children. |
| Reasoning.SetCurrentTreeNode | agentic_system/core.py:45-47 | Only the cursor moves. |
| Reasoning.AddUnderCursor | agentic_system/core.py:40-47 | After setting the cursor to n, a default addition goes under n and the cursor stays. |
| Reasoning.ResetReasoning | agentic_system/core.py:49-53 | Reset gives an empty chain, a fresh root-only tree with thought "root", and the cursor on it. |

## Left out

- BasicIntents.ParseLs, BasicIntents.ParseCat, BasicIntents.ParseMkdir, BasicIntents.ParseTouch, BasicIntents.ParseWc, BasicIntents.ParseEcho, BasicIntents.ParseTree: the explicit reading (`'\n' !in s ==> r == ...`) is proved only for instructions without a newline. On a multi-line instruction the result is still the regex's, with the stated shape, but no reading is given. `(.+)` stops at a newline and `$` may match before a final one.
- PrefixForm.PrefixReading: requires a newline-free instruction, for the reason above.
- SplitForm.TwoReading, SplitForm.ThreeReading, SplitIntents.ParseWrite, SplitIntents.ParseRewrite: the reading by last separator holds only for newline-free instructions.
- RmdirForm.RmdirReading, SplitIntents.ParseRmdir: the reading holds only for newline-free instructions. It is proved for flag-word lists satisfying `FlagWordsFit` (lower-case, non-empty, without white space), which the source's "force" and "recursively" satisfy.
- TokenIntents.ParseSort, TokenIntents.ParseLocate, TokenIntents.ParseLn, TokenIntents.ParseWget: case-insensitive matching folds ASCII letters only. Python's `re.IGNORECASE` on `str` also matches 'ſ' with 's', 'ı' and 'İ' with 'i', and the Kelvin sign with 'k'. An instruction spelled with those letters is read differently here.
- Regex.LitAtMeans, PhraseForm.PhraseReading, BasicIntents.PhraseIntent: case is folded on ASCII letters only, as above. The same goes for every keyword recogniser and for `.lower()` in the bare ls and tree checks (ls.py:13, tree.py:13) and the failure test of the dual-LLM parser (dual_llm_parser.py:57).
- BasicIntents.ParseUname, BasicIntents.ParsePwd, BasicIntents.ParsePs: their whole-phrase iff uses the same ASCII-only case fold, so a phrase spelt with 'ſ', 'ı'/'İ' or the Kelvin sign is recognised by Python and not by the model.
- FileSystem.Listing: lists a directory in ascending name order. `Path.iterdir` yields the operating system's order (ls.py:11, move.py:17, copy.py:17), so ReadCommands.Ls and the "Moved files" / "Copied files" lists fix one of the orders the source can produce.
- FileSystem.OsError: writes the path in an error as `'path'`. Python's `OSError` uses `repr`, which switches to double quotes for a name containing a single quote and escapes backslashes and control characters.
- FileSystem.ValidPath: paths are sequences of valid names relative to the working directory. Absolute paths, `..`, symbolic links, permissions (EACCES) and other OS failures are not modelled, so `Path.resolve` in tree is the working directory plus the path.
- WriteCommands.Utime: directories carry no modification time in the model, so touching an existing directory changes no state. `os.utime` (touch.py:12) updates its time.
- TransferCommands.Move, TransferCommands.Copy: where the source lets an exception escape, the model gives `Raises` carrying the state at the moment the exception escapes. Files moved or copied before the failing one stay moved or copied. The failing steps are an uncreatable destination, a moved name whose target directory already holds that name, and a copy onto the file itself or onto a directory. The happy-path lemmas (MoveHappy, CopyHappy) require the destination to be another directory with no directory where a file is to go.
- DualLlm.Parse: the two model calls (`_ask_with_model`) are parameters: the thinker's reply text and the decoded formatter reply. The HTTP transport, `Agent.ask` and the verbose printing are left out.
- DualLlm.Validate: `json.loads` is not modelled. The decoded reply is given as a value: null, an object, anything else, or a decode error.
- Cli.Dispatch: the complexity analysis (`agent.get_complexity_analysis`, cli.py:64) is reduced to its outcome. No shown file defines it, and the `Agent` constructor in core.py does not accept the arguments cli.py:56-60 passes.
- Cli.LoadSpec: `pkgutil.iter_modules`, `importlib` and `dir(module)` are replaced by a given list of modules and their classes in order. The `typer` command-line surface and printing are left out; dispatch returns what would be printed or run.
- The commands grep, locate, ps, uname, pwd, ln, echo and wget, the LLM-backed copy intent, and the rewrite and summarize commands are not part of this model. They wrap library engines (`re.search`, `fnmatch`), platform queries, `os.symlink` or network calls.
- Reasoning.AddTreeThought: tree nodes are an arena of indexed nodes rather than shared Python dictionaries. A node passed as `parent` is an index into the arena. The goal fields, the model name and `ask` of core.py are not modelled.
- PyText.Strip: white space is Python's full `str.isspace` set, finite and listed. Unicode case mapping and normalisation are not modelled.
- The end-to-end mismatch between the write intent's `text` key and `WriteCommand`'s `content` parameter is not modelled. Dispatch stops at the command and its keyword arguments.

=== FILE: basic_intents.dfy ===
/**
  The keyword-prefix and exact-phrase recognisers of
  `agentic_system/intent/basic`: ls, cat, mkdir, touch, wc, echo, tree,
  uname, pwd and ps. Each is `re.match` with `re.IGNORECASE` on a pattern
  constant followed by an interpretation of the groups; each carries, next to
  the shape of its result, the explicit reading of its pattern shape.
*/
module BasicIntents {
  import opened Common
  import opened PyText
  import opened Regex
  import opened PyRe
  import opened Intents
  import opened PrefixForm
  import opened PhraseForm

  const LsWords: seq<string> := ["ls", "list files in"]
  const CatWords: seq<string> := ["cat", "show contents of", "display contents of"]
  const MkdirWords: seq<string> := ["mkdir", "make directory", "create folder"]
  const TouchWords: seq<string> := ["touch", "create file", "update file"]
  const WcWords: seq<string> := ["wc", "count", "count words in"]
  const EchoWords: seq<string> := ["echo", "print", "say"]
  const TreeWords: seq<string> := ["tree", "show tree of"]

  const UnamePhrases: seq<string> := ["uname", "show os info", "show system info", "show platform info"]
  const PwdPhrases: seq<string> := ["pwd", "print working directory", "show current directory"]
  const PsPhrases: seq<string> := ["ps", "list processes", "show processes"]

  /** `match.group(n)` of a group that took part, or "" when it did not. */
  function Captured(g: map<nat, string>, n: nat): string {
    if n in g then g[n] else ""
  }

  /** The intent the explicit reading of the keyword-prefix shape yields. */
  function PrefixReadingIntent(s: string, kws: seq<string>, action: string, key: string): Option<Intent>
    requires key != "action"
  {
    match Argument(s, kws)
    case None => None
    case Some(a) => Some(ActionWith(action, key, a))
  }

  /**
    `m = re.match(r'(?:k0|k1|...)\s+(.+)', s, re.I)`, then
    `{'action': action, key: m.group(1).strip()}` when it matched.
  */
  function PrefixIntent(s: string, kws: seq<string>, action: string, key: string): (r: Option<Intent>)
    requires key != "action"
    ensures r.Some? ==> r.value.Keys == {"action", key} && r.value["action"] == Str(action)
    ensures r.Some? ==> r.value[key].Str? && Stripped(r.value[key].s)
    ensures '\n' !in s ==> r == PrefixReadingIntent(s, kws, action, key)
  {
    assert '\n' !in s ==>
      && (Match(s, PrefixPattern(kws)).Some? <==> Argument(s, kws).Some?)
      && (Match(s, PrefixPattern(kws)).Some? ==> Some(Strip(Captured(Match(s, PrefixPattern(kws)).value, 1))) == Argument(s, kws)) by {
      if '\n' !in s {
        PrefixReading(s, kws);
      }
    }
    match Match(s, PrefixPattern(kws))
    case None => None
    case Some(g) => Some(ActionWith(action, key, Strip(Captured(g, 1))))
  }

  /**
    On a line made of keyword `j`, a white-space character and a non-empty
    rest, where no earlier keyword fits, the recogniser returns the rest,
    stripped.
  */
  lemma PrefixIntentAt(s: string, kws: seq<string>, j: nat, c: char, rest: string, action: string, key: string)
    requires key != "action" && '\n' !in s
    requires j < |kws| && s == kws[j] + [c] + rest && IsSpace(c) && rest != []
    requires forall m :: 0 <= m < j ==> !Fits(s, kws[m])
    ensures PrefixIntent(s, kws, action, key) == Some(ActionWith(action, key, Strip(rest)))
  {
    ArgumentAt(s, kws, j, c, rest);
  }

  // ---------------------------------------------------------------------
  // Keyword-prefix recognisers

  /** The explicit reading of the ls recogniser: the prefix form first, the bare words second. */
  function LsReading(s: string): Option<Intent> {
    if Argument(s, LsWords).Some? then PrefixReadingIntent(s, LsWords, "ls", "path")
    else if LowerStr(Strip(s)) in ["ls", "list files"] then Some(ActionWith("ls", "path", "."))
    else None
  }

  /** `ls <path>` / `list files in <path>`, or a bare `ls` / `list files` for ".". */
  function ParseLs(s: string): (r: Option<Intent>)
    ensures r.Some? ==> r.value.Keys == {"action", "path"} && r.value["action"] == Str("ls")
    ensures r.Some? ==> r.value["path"].Str? && Stripped(r.value["path"].s)
    ensures '\n' !in s ==> r == LsReading(s)
  {
    var m := PrefixIntent(s, LsWords, "ls", "path");
    if m.Some? then m
    else if LowerStr(Strip(s)) in ["ls", "list files"] then Some(ActionWith("ls", "path", "."))
    else None
  }

  function ParseCat(s: string): (r: Option<Intent>)
    ensures r.Some? ==> r.value.Keys == {"action", "path"} && r.value["action"] == Str("cat")
    ensures r.Some? ==> r.value["path"].Str? && Stripped(r.value["path"].s)
    ensures '\n' !in s ==> r == PrefixReadingIntent(s, CatWords, "cat", "path")
  {
    PrefixIntent(s, CatWords, "cat", "path")
  }

  function ParseMkdir(s: string): (r: Option<Intent>)
    ensures r.Some? ==> r.value.Keys == {"action", "path"} && r.value["action"] == Str("mkdir")
    ensures r.Some? ==> r.value["path"].Str? && Stripped(r.value["path"].s)
    ensures '\n' !in s ==> r == PrefixReadingIntent(s, MkdirWords, "mkdir", "path")
  {
    PrefixIntent(s, MkdirWords, "mkdir", "path")
  }

  function ParseTouch(s: string): (r: Option<Intent>)
    ensures r.Some? ==> r.value.Keys == {"action", "path"} && r.value["action"] == Str("touch")
    ensures r.Some? ==> r.value["path"].Str? && Stripped(r.value["path"].s)
    ensures '\n' !in s ==> r == PrefixReadingIntent(s, TouchWords, "touch", "path")
  {
    PrefixIntent(s, TouchWords, "touch", "path")
  }

  function ParseWc(s: string): (r: Option<Intent>)
    ensures r.Some? ==> r.value.Keys == {"action", "path"} && r.value["action"] == Str("wc")
    ensures r.Some? ==> r.value["path"].Str? && Stripped(r.value["path"].s)
    ensures '\n' !in s ==> r == PrefixReadingIntent(s, WcWords, "wc", "path")
  {
    PrefixIntent(s, WcWords, "wc", "path")
  }

  function ParseEcho(s: string): (r: Option<Intent>)
    ensures r.Some? ==> r.value.Keys == {"action", "text"} && r.value["action"] == Str("echo")
    ensures r.Some? ==> r.value["text"].Str? && Stripped(r.value["text"].s)
    ensures '\n' !in s ==> r == PrefixReadingIntent(s, EchoWords, "echo", "text")
  {
    PrefixIntent(s, EchoWords, "echo", "text")
  }

  /** The explicit reading of the tree recogniser. */
  function TreeReading(s: string): Option<Intent> {
    if Argument(s, TreeWords).Some? then PrefixReadingIntent(s, TreeWords, "tree", "path")
    else if LowerStr(Strip(s)) == "tree" then Some(ActionWith("tree", "path", "."))
    else None
  }

  /** `tree <path>` / `show tree of <path>`, or a bare `tree` for ".". */
  function ParseTree(s: string): (r: Option<Intent>)
    ensures r.Some? ==> r.value.Keys == {"action", "path"} && r.value["action"] == Str("tree")
    ensures r.Some? ==> r.value["path"].Str? && Stripped(r.value["path"].s)
    ensures '\n' !in s ==> r == TreeReading(s)
  {
    var m := PrefixIntent(s, TreeWords, "tree", "path");
    if m.Some? then m
    else if LowerStr(Strip(s)) == "tree" then Some(ActionWith("tree", "path", "."))
    else None
  }

  // ---------------------------------------------------------------------
  // Exact-phrase recognisers

  /** `{'action': action}` when the stripped instruction is one of `phrases`, ignoring case. */
  function PhraseIntent(s: string, phrases: seq<string>, action: string): (r: Option<Intent>)
    ensures r.Some? <==> IsPhrase(Strip(s), phrases)
    ensures r.Some? ==> r.value == map["action" := Str(action)]
  {
    PhraseReading(Strip(s), phrases);
    if Match(Strip(s), PhrasePattern(phrases)).Some? then Some(map["action" := Str(action)]) else None
  }

  function ParseUname(s: string): (r: Option<Intent>)
    ensures r.Some? <==> IsPhrase(Strip(s), UnamePhrases)
    ensures r.Some? ==> r.value == map["action" := Str("uname")]
  {
    PhraseIntent(s, UnamePhrases, "uname")
  }

  function ParsePwd(s: string): (r: Option<Intent>)
    ensures r.Some? <==> IsPhrase(Strip(s), PwdPhrases)
    ensures r.Some? ==> r.value == map["action" := Str("pwd")]
  {
    PhraseIntent(s, PwdPhrases, "pwd")
  }

  function ParsePs(s: string): (r: Option<Intent>)
    ensures r.Some? <==> IsPhrase(Strip(s), PsPhrases)
    ensures r.Some? ==> r.value == map["action" := Str("ps")]
  {
    PhraseIntent(s, PsPhrases, "ps")
  }

  // ---------------------------------------------------------------------
  // Properties of particular keyword lists

  /**
    "count words in" is shadowed by "count": whenever it fits, "count" fits
    too and comes first, so the wc recogniser never reads past "count".
  */
  lemma WcCountWordsShadowed(s: string)
    ensures FirstFit(s, WcWords, 0) != Some(2)
  {
    assert WcWords[2] == WcWords[1] + [' '] + "words in";
    if Fits(s, WcWords[2]) {
      FitsShorter(s, WcWords[1], ' ', "words in");
    }
  }

  /** A bare "ls" written at the start and followed by two white-space characters leaves only white space. */
  lemma LsBareFits(s: string)
    requires LowerStr(Strip(s)) in ["ls", "list files"] && Fits(s, "ls")
    ensures Strip(s[3..]) == []
  {
    var m := Strip(s);
    LitAtChar(s, 0, "ls", 0);
    StripFromStart(s);
    assert |m| == 2;
    assert AllSpace(s[3..]) by {
      forall k | 0 <= k < |s| - 3 ensures IsSpace(s[3..][k]) {
        assert s[3..][k] == s[2..][k + 1];
      }
    }
    StripAllSpace(s[3..]);
  }

  /** A bare "ls" or "list files" is too short for "list files in" to fit. */
  lemma LsBareLongDoesNotFit(s: string)
    requires LowerStr(Strip(s)) in ["ls", "list files"]
    ensures !Fits(s, LsWords[1])
  {
    var m := Strip(s);
    var w := LsWords[1];
    assert |m| <= 10 by {
      assert |LowerStr(m)| == |m|;
    }
    if Fits(s, w) {
      LongLsKeepsRoom(s);
    }
  }

  /** When "list files in" fits, the stripped instruction reaches at least its last letter. */
  lemma LongLsKeepsRoom(s: string)
    requires Fits(s, LsWords[1])
    ensures 11 < |Strip(s)|
  {
    var w := LsWords[1];
    assert w == "list files in";
    assert 'a' <= w[0] <= 'z' && 'a' <= w[11] <= 'z';
    KeywordWithinStrip(s, w, 11);
  }

  /**
    The trailing-white-space trap of the bare ls: a bare "ls" or "list files"
    gives ".", except a bare "ls" written at the very start and followed by
    at least two white-space characters, which the prefix form already takes,
    with an empty path.
  */
  lemma LsBareTrap(s: string)
    requires '\n' !in s && LowerStr(Strip(s)) in ["ls", "list files"]
    ensures ParseLs(s) == Some(ActionWith("ls", "path", if Fits(s, "ls") then "" else "."))
  {
    LsBareLongDoesNotFit(s);
    if Fits(s, "ls") {
      LsBareFits(s);
      assert FirstFit(s, LsWords, 0) == Some(0);
    } else {
      assert FirstFit(s, LsWords, 0) == None;
    }
  }
}

=== FILE: cli.dfy ===
/**
  The dispatcher of `agentic_system/cli.py`: how an action key is derived
  from a module's name, how the parser and command registries are filled
  (a Python dict: assignment to an existing key replaces the value in place,
  a new key goes last), and the first-match dispatch of an instruction. The
  module listing that feeds the registries, the parsers and the commands are
  parameters.
*/
module Cli {
  import opened Common
  import opened PyText
  import opened Intents

  // ---------------------------------------------------------------------
  // Action keys

  /** `name.replace('_intentparser','').replace('intentparser','').replace('intent','')` */
  function ParserKey(name: string): (k: string)
    ensures |k| <= |name|
  {
    RemoveAll(RemoveAll(RemoveAll(name, "_intentparser"), "intentparser"), "intent")
  }

  /** `name.replace('_command','').replace('command','')` */
  function CommandKey(name: string): (k: string)
    ensures |k| <= |name|
  {
    RemoveAll(RemoveAll(name, "_command"), "command")
  }

  /** A text that contains `big` contains every part of `big`. */
  lemma ContainsWithin(hay: string, big: string, small: string)
    requires Contains(hay, big) && Contains(big, small)
    ensures Contains(hay, small)
  {
    var i: nat :| OccursAt(hay, big, i);
    var j: nat :| OccursAt(big, small, j);
    forall k | 0 <= k < |small| ensures hay[i + j + k] == small[k] {
      assert hay[i..i + |big|][j + k] == hay[i + j + k];
      assert big[j..j + |small|][k] == big[j + k];
    }
    assert hay[i + j..i + j + |small|] == small;
    assert OccursAt(hay, small, i + j);
  }

  /**
    Removing `p1`, then `p2`, then `p3`, where `p3` occurs in both of the
    others, leaves a text unchanged exactly when `p3` does not occur in it.
  */
  lemma RemoveThreeUnchangedIff(name: string, p1: string, p2: string, p3: string)
    requires |p1| > 0 && |p2| > 0 && |p3| > 0 && Contains(p1, p3) && Contains(p2, p3)
    ensures RemoveAll(RemoveAll(RemoveAll(name, p1), p2), p3) == name <==> !Contains(name, p3)
  {
    var a := RemoveAll(name, p1);
    var b := RemoveAll(a, p2);
    RemoveAllUnchangedIff(name, p1);
    RemoveAllUnchangedIff(a, p2);
    RemoveAllUnchangedIff(b, p3);
    if Contains(name, p3) {
      if Contains(name, p1) {
        RemoveAllShrinks(name, p1);
      } else if Contains(a, p2) {
        RemoveAllShrinks(a, p2);
      } else {
        RemoveAllShrinks(b, p3);
      }
    } else {
      if Contains(name, p1) {
        ContainsWithin(name, p1, p3);
      }
      if Contains(name, p2) {
        ContainsWithin(name, p2, p3);
      }
    }
  }

  /** A module name is its own parser key exactly when it does not mention "intent". */
  lemma ParserKeyUnchangedIff(name: string)
    ensures ParserKey(name) == name <==> !Contains(name, "intent")
  {
    ContainsAppend("_", "intent", "parser");
    ContainsAppend("", "intent", "parser");
    RemoveThreeUnchangedIff(name, "_intentparser", "intentparser", "intent");
  }

  /** A module name is its own command key exactly when it does not mention "command". */
  lemma CommandKeyUnchangedIff(name: string)
    ensures CommandKey(name) == name <==> !Contains(name, "command")
  {
    var a := RemoveAll(name, "_command");
    RemoveAllUnchangedIff(name, "_command");
    RemoveAllUnchangedIff(a, "command");
    ContainsAppend("_", "command", "");
    if Contains(name, "command") {
      if Contains(name, "_command") {
        RemoveAllShrinks(name, "_command");
      } else {
        RemoveAllShrinks(a, "command");
      }
    } else if Contains(name, "_command") {
      ContainsWithin(name, "_command", "command");
    }
  }

  // ---------------------------------------------------------------------
  // Registries

  /** A Python dict in insertion order: a sequence of key/value pairs. */
  type Registry<T> = seq<(string, T)>

  function KeysOf<T>(reg: Registry<T>): (ks: seq<string>)
    ensures |ks| == |reg| && forall i :: 0 <= i < |reg| ==> ks[i] == reg[i].0
  {
    seq(|reg|, i requires 0 <= i < |reg| => reg[i].0)
  }

  predicate UniqueKeys<T>(reg: Registry<T>) {
    forall i, j :: 0 <= i < j < |reg| ==> reg[i].0 != reg[j].0
  }

  /** `reg.get(key)` */
  function Lookup<T>(reg: Registry<T>, key: string): (r: Option<T>)
    ensures r.None? <==> key !in KeysOf(reg)
    ensures r.Some? ==> exists i :: 0 <= i < |reg| && reg[i] == (key, r.value)
  {
    if reg == [] then None
    else if reg[0].0 == key then Some(reg[0].1)
    else
      assert KeysOf(reg) == [reg[0].0] + KeysOf(reg[1..]);
      Lookup(reg[1..], key)
  }

  /** `reg[key] = value` */
  function Assign<T>(reg: Registry<T>, key: string, value: T): Registry<T>
  {
    if reg == [] then [(key, value)]
    else if reg[0].0 == key then [(key, value)] + reg[1..]
    else [reg[0]] + Assign(reg[1..], key, value)
  }

  /** An assignment reads back, and no other key's value changes. */
  lemma {:induction false} AssignLookup<T>(reg: Registry<T>, key: string, value: T, k: string)
    ensures Lookup(Assign(reg, key, value), k) == if k == key then Some(value) else Lookup(reg, k)
  {
    if reg != [] && reg[0].0 != key {
      AssignLookup(reg[1..], key, value, k);
      assert Assign(reg, key, value)[1..] == Assign(reg[1..], key, value);
    } else if reg != [] {
      assert Assign(reg, key, value)[1..] == reg[1..];
    }
  }

  /** An existing key keeps its place; a new key goes last. */
  lemma {:induction false} AssignKeys<T>(reg: Registry<T>, key: string, value: T)
    ensures key in KeysOf(reg) ==> KeysOf(Assign(reg, key, value)) == KeysOf(reg)
    ensures key !in KeysOf(reg) ==> KeysOf(Assign(reg, key, value)) == KeysOf(reg) + [key]
  {
    if reg != [] {
      var rest := KeysOf(reg[1..]);
      KeysOfCons(reg[0], reg[1..]);
      assert reg == [reg[0]] + reg[1..];
      if reg[0].0 == key {
        KeysOfCons((key, value), reg[1..]);
      } else {
        var r := Assign(reg[1..], key, value);
        AssignKeys(reg[1..], key, value);
        KeysOfCons(reg[0], r);
        assert key in KeysOf(reg) <==> key in rest;
        assert key !in rest ==> [reg[0].0] + (rest + [key]) == ([reg[0].0] + rest) + [key];
      }
    }
  }

  lemma KeysOfCons<T>(x: (string, T), rest: Registry<T>)
    ensures KeysOf([x] + rest) == [x.0] + KeysOf(rest)
  {
  }

  /** A dict never holds a key twice. */
  lemma AssignUnique<T>(reg: Registry<T>, key: string, value: T)
    requires UniqueKeys(reg)
    ensures UniqueKeys(Assign(reg, key, value))
  {
    var r := Assign(reg, key, value);
    AssignKeys(reg, key, value);
    forall i, j | 0 <= i < j < |r| ensures r[i].0 != r[j].0 {
      assert KeysOf(r)[i] == r[i].0 && KeysOf(r)[j] == r[j].0;
      if j == |reg| {
        assert KeysOf(reg)[i] == reg[i].0;
      } else {
        assert KeysOf(reg)[i] == reg[i].0 && KeysOf(reg)[j] == reg[j].0;
      }
    }
  }

  /** One module as the loader sees it: its name and the classes it defines, in `dir` order. */
  datatype Module<T> = Module(name: string, classes: seq<T>)

  /** The classes of one module, each assigned in turn under the module's key. */
  function AssignAll<T>(reg: Registry<T>, key: string, classes: seq<T>): Registry<T>
    decreases |classes|
  {
    if classes == [] then reg
    else Assign(AssignAll(reg, key, classes[..|classes| - 1]), key, classes[|classes| - 1])
  }

  /** The loading loop of the CLI over the modules in listing order, "base" skipped. */
  function Load<T>(modules: seq<Module<T>>, keyOf: string -> string): Registry<T>
    decreases |modules|
  {
    if modules == [] then []
    else
      var m := modules[|modules| - 1];
      var reg := Load(modules[..|modules| - 1], keyOf);
      if m.name == "base" then reg else AssignAll(reg, keyOf(m.name), m.classes)
  }

  /** Whether a module puts its key into the registry. */
  predicate Registers<T>(m: Module<T>) {
    m.name != "base" && m.classes != []
  }

  /**
    A reference definition of what a key ends up holding: the last class of
    the last module registering under it.
  */
  function Latest<T>(modules: seq<Module<T>>, keyOf: string -> string, key: string): (r: Option<T>)
    ensures r.Some? <==> exists i :: 0 <= i < |modules| && Registers(modules[i]) && keyOf(modules[i].name) == key
    decreases |modules|
  {
    if modules == [] then None
    else
      var m := modules[|modules| - 1];
      var front := modules[..|modules| - 1];
      assert forall i :: 0 <= i < |front| ==> front[i] == modules[i];
      if Registers(m) && keyOf(m.name) == key then Some(m.classes[|m.classes| - 1])
      else Latest(front, keyOf, key)
  }

  lemma {:induction false} AssignAllSpec<T>(reg: Registry<T>, key: string, classes: seq<T>, k: string)
    requires UniqueKeys(reg)
    ensures UniqueKeys(AssignAll(reg, key, classes))
    ensures Lookup(AssignAll(reg, key, classes), k)
      == if k == key && classes != [] then Some(classes[|classes| - 1]) else Lookup(reg, k)
    decreases |classes|
  {
    if classes != [] {
      var front := AssignAll(reg, key, classes[..|classes| - 1]);
      AssignAllSpec(reg, key, classes[..|classes| - 1], k);
      AssignUnique(front, key, classes[|classes| - 1]);
      AssignLookup(front, key, classes[|classes| - 1], k);
    }
  }

  /**
    The loader's registry never holds a key twice, and each key holds what
    the reference definition says: the last class of the last module
    registering under it; keys no module registers are absent.
  */
  lemma {:induction false} LoadSpec<T>(modules: seq<Module<T>>, keyOf: string -> string, key: string)
    ensures UniqueKeys(Load(modules, keyOf))
    ensures Lookup(Load(modules, keyOf), key) == Latest(modules, keyOf, key)
    decreases |modules|
  {
    if modules != [] {
      var m := modules[|modules| - 1];
      var front := modules[..|modules| - 1];
      LoadSpec(front, keyOf, key);
      if m.name != "base" {
        AssignAllSpec(Load(front, keyOf), keyOf(m.name), m.classes, key);
      }
    }
  }

  // ---------------------------------------------------------------------
  // Dispatch

  /** What `taif` ends with. */
  datatype Outcome<C> =
    | ComplexityReport                              // --analyze-complexity: nothing parsed or run
    | NoCommand(action: string)                     // a parser won but no command has its key
    | Execute(command: C, kwargs: map<string, Value>)  // the command built from the intent's other fields
    | NotUnderstood                                 // no parser won

  const NotUnderstoodMessage: string := "Sorry, I couldn't understand the instruction or no command is available."

  function NoCommandMessage(action: string): string {
    "No command found for action '" + action + "'"
  }

  /** `intent and intent.get('action') == action` */
  predicate Wins(intent: Option<Intent>, key: string) {
    intent.Some? && "action" in intent.value && intent.value["action"] == Str(key)
  }

  /** The intent's fields other than "action": the keyword arguments of the command. */
  function Kwargs(intent: Intent): (kw: map<string, Value>)
    ensures "action" !in kw
    ensures forall k :: k in kw <==> k in intent && k != "action"
    ensures forall k :: k in kw ==> kw[k] == intent[k]
  {
    intent - {"action"}
  }

  /** The parsers from index `i` on; `n` counts the parsers consulted. */
  function DispatchFrom<P, C>(instruction: string, parsers: Registry<P>, parse: (P, string) -> Option<Intent>,
                              commands: Registry<C>, i: nat): (r: (Outcome<C>, nat))
    requires i <= |parsers|
    ensures i <= r.1 <= |parsers|
    ensures forall j :: i <= j < r.1 - 1 ==> !Wins(parse(parsers[j].1, instruction), parsers[j].0)
    ensures r.0.NotUnderstood? <==> forall j :: i <= j < |parsers| ==> !Wins(parse(parsers[j].1, instruction), parsers[j].0)
    ensures r.0.NotUnderstood? ==> r.1 == |parsers|
    ensures !r.0.NotUnderstood? ==> i < r.1 && Wins(parse(parsers[r.1 - 1].1, instruction), parsers[r.1 - 1].0)
    ensures !r.0.NotUnderstood? ==>
      var key := parsers[r.1 - 1].0;
      var intent := parse(parsers[r.1 - 1].1, instruction).value;
      match Lookup(commands, key)
      case None => r.0 == NoCommand(key)
      case Some(c) => r.0 == Execute(c, Kwargs(intent))
    decreases |parsers| - i
  {
    if i == |parsers| then (NotUnderstood, i)
    else
      var intent := parse(parsers[i].1, instruction);
      if Wins(intent, parsers[i].0) then
        match Lookup(commands, parsers[i].0)
        case None => (NoCommand(parsers[i].0), i + 1)
        case Some(c) => (Execute(c, Kwargs(intent.value)), i + 1)
      else DispatchFrom(instruction, parsers, parse, commands, i + 1)
  }

  /** `taif`: the outcome, and how many parsers were consulted. */
  function Dispatch<P, C>(analyzeComplexity: bool, instruction: string, parsers: Registry<P>,
                          parse: (P, string) -> Option<Intent>, commands: Registry<C>): (r: (Outcome<C>, nat))
    ensures analyzeComplexity ==> r == (ComplexityReport, 0)
    ensures !analyzeComplexity ==> r == DispatchFrom(instruction, parsers, parse, commands, 0)
  {
    if analyzeComplexity then (ComplexityReport, 0)
    else DispatchFrom(instruction, parsers, parse, commands, 0)
  }

  /**
    The first winning parser decides: whatever follows it in the registry
    can change neither the outcome nor the number of parsers consulted.
  */
  lemma {:induction false} FirstWinnerDecides<P, C>(instruction: string, parsers: Registry<P>, more: Registry<P>,
                                                    parse: (P, string) -> Option<Intent>, commands: Registry<C>, i: nat)
    requires i <= |parsers|
    requires exists j :: i <= j < |parsers| && Wins(parse(parsers[j].1, instruction), parsers[j].0)
    ensures DispatchFrom(instruction, parsers + more, parse, commands, i) == DispatchFrom(instruction, parsers, parse, commands, i)
    decreases |parsers| - i
  {
    var all := parsers + more;
    assert all[i] == parsers[i];
    if !Wins(parse(parsers[i].1, instruction), parsers[i].0) {
      FirstWinnerDecides(instruction, parsers, more, parse, commands, i + 1);
    }
  }
}

=== FILE: common.dfy ===
/** Types shared by every module of the model. */
module Common {

  /** Python's `Optional[T]`: `None` or a present value. */
  datatype Option<T> = None | Some(value: T)

  /** A value, or the message of the exception that prevented it. */
  datatype Result<T> = Ok(value: T) | Err(error: string)
}

=== FILE: dual_llm.dfy ===
/**
  The decision logic of the dual-LLM intent parser
  (`agentic_system/intent/dual_llm_parser.py`): the thinker prompt, the
  fallback analysis that replaces a failed thinker reply, the formatter
  prompt, and the validation of the decoded formatter reply. The two model
  replies are inputs, and so is the outcome of decoding the formatter's reply
  as JSON.
*/
module DualLlm {
  import opened Common
  import opened PyText
  import opened Intents

  /** One call to a model: the prompt, the model's name and whether a JSON reply is demanded. */
  datatype Request = Request(prompt: string, model: string, requireJson: bool)

  /**
    The outcome of `json.loads` on the formatter's reply: `null`, an object,
    any other JSON value (list, string, number, boolean), or a decode error.
  */
  datatype Decoded = JNull | JObject(fields: map<string, Value>) | JOther | DecodeError

  /** What one parse does: the requests in the order they are issued, and the result. */
  datatype Run = Run(requests: seq<Request>, result: Option<Intent>)

  const ThinkerHead: string :=
    "Analyze this user instruction and determine what action they want to perform.\n\nUser Instruction: \""
  const ThinkerTail: string :=
    "\"\n\nThink through this step by step:\n"
    + "1. What is the user trying to accomplish?\n"
    + "2. What type of file operation is this? (list, read, write, copy, move, delete, etc.)\n"
    + "3. What are the key parameters? (file paths, directories, content, etc.)\n"
    + "4. Are there any special conditions or filters?\n\n"
    + "Provide a clear analysis of the user's intent."

  const FallbackHead: string := "Simple analysis: User wants to perform an operation related to '"

  const FormatterHead: string :=
    "Based on the analysis below, create a JSON response with the appropriate action and parameters.\n\nAnalysis: "
  const FormatterMiddle: string := "\n\nOriginal User Instruction: \""
  const FormatterTail: string :=
    "\"\n\nAvailable actions: ls, cat, write, copy, move, delete, mkdir, rmdir, grep, locate, echo, touch, wc, sort, uname, pwd, ps, wget, ln, tree, rewrite\n\n"
    + "Return ONLY a valid JSON object in this format:\n{\n  \"action\": \"command_name\",\n  \"parameters\": {\n"
    + "    \"param1\": \"value1\",\n    \"param2\": \"value2\"\n  }\n}\n\nExamples:\n"
    + "- \"list files\" \U{2192} {\"action\": \"ls\", \"parameters\": {\"path\": \".\"}}\n"
    + "- \"show contents of file.txt\" \U{2192} {\"action\": \"cat\", \"parameters\": {\"path\": \"file.txt\"}}\n"
    + "- \"create folder backup\" \U{2192} {\"action\": \"mkdir\", \"parameters\": {\"path\": \"backup\"}}\n"
    + "- \"copy file.txt to backup/\" \U{2192} {\"action\": \"copy\", \"parameters\": {\"src\": \"file.txt\", \"dst\": \"backup/\"}}\n"
    + "- \"find all Python files\" \U{2192} {\"action\": \"locate\", \"parameters\": {\"pattern\": \"*.py\"}}\n"
    + "- \"tell me what contains the readme\" \U{2192} {\"action\": \"cat\", \"parameters\": {\"path\": \"README.md\"}}\n"
    + "- \"what contains the guideline\" \U{2192} {\"action\": \"cat\", \"parameters\": {\"path\": \"GUIDELINES.md\"}}\n"
    + "- \"what contains the requirements\" \U{2192} {\"action\": \"cat\", \"parameters\": {\"path\": \"requirements.txt\"}}\n\n"
    + "If the instruction is unclear or doesn't match any available action, return null."

  /** The prompt sent to the thinker model. */
  function ThinkerPrompt(instruction: string): string {
    ThinkerHead + instruction + ThinkerTail
  }

  /**
    A thinker reply counts as a failure when it contains "Failed to
    communicate" (case matters) or, once lower-cased, "timeout".
  */
  predicate ThinkerFailed(reply: string) {
    Contains(reply, "Failed to communicate") || Contains(LowerStr(reply), "timeout")
  }

  function FallbackAnalysis(instruction: string): string {
    FallbackHead + instruction + "'"
  }

  /** The analysis handed to the formatter: the thinker's reply, or the fallback when the thinker failed. */
  function Analysis(reply: string, instruction: string): (a: string)
    ensures ThinkerFailed(reply) ==> a == FallbackAnalysis(instruction)
    ensures !ThinkerFailed(reply) ==> a == reply
  {
    if ThinkerFailed(reply) then FallbackAnalysis(instruction) else reply
  }

  /** The prompt sent to the formatter model. */
  function FormatterPrompt(analysis: string, instruction: string): string {
    FormatterHead + analysis + FormatterMiddle + instruction + FormatterTail
  }

  /**
    The validation of the decoded reply: an object whose "action" is present
    and not null passes unchanged; `null`, an object without a usable action,
    any other JSON value (whose missing `.get` raises and is caught) and a
    decode error all give `None`.
  */
  function Validate(d: Decoded): (r: Option<Intent>)
    ensures r.Some? <==> d.JObject? && "action" in d.fields && d.fields["action"] != Null
    ensures r.Some? ==> r.value == d.fields
  {
    match d
    case JObject(fields) => if "action" in fields && fields["action"] != Null then Some(fields) else None
    case _ => None
  }

  /**
    `DualLLMIntentParser.parse`: the thinker is asked first, without JSON,
    on a prompt that shows it the instruction; the formatter second, with
    JSON, on a prompt that shows it the instruction and the thinker's reply,
    or the fallback analysis when that reply is a failure; the result depends
    on the decoded formatter reply alone, and is that reply when it is an
    object with a non-null "action".
  */
  function Parse(instruction: string, thinkerModel: string, formatterModel: string,
                 thinkerReply: string, formatterDecoded: Decoded): (r: Run)
    ensures |r.requests| == 2
    ensures r.requests[0] == Request(ThinkerPrompt(instruction), thinkerModel, false)
    ensures r.requests[1].model == formatterModel && r.requests[1].requireJson
    ensures Contains(r.requests[0].prompt, instruction) && Contains(r.requests[1].prompt, instruction)
    ensures !ThinkerFailed(thinkerReply) ==>
      r.requests[1].prompt == FormatterPrompt(thinkerReply, instruction) && Contains(r.requests[1].prompt, thinkerReply)
    ensures ThinkerFailed(thinkerReply) ==>
      r.requests[1].prompt == FormatterPrompt(FallbackAnalysis(instruction), instruction)
      && Contains(r.requests[1].prompt, FallbackAnalysis(instruction))
    ensures r.result.Some? <==>
      formatterDecoded.JObject? && "action" in formatterDecoded.fields && formatterDecoded.fields["action"] != Null
    ensures r.result.Some? ==> r.result.value == formatterDecoded.fields
  {
    PromptsEmbed(instruction, Analysis(thinkerReply, instruction));
    Run([Request(ThinkerPrompt(instruction), thinkerModel, false),
         Request(FormatterPrompt(Analysis(thinkerReply, instruction), instruction), formatterModel, true)],
        Validate(formatterDecoded))
  }

  /** Both parts framed by three fixed texts occur in the framed text. */
  lemma FramedContains(h: string, a: string, m: string, i: string, t: string)
    ensures Contains(h + a + m + i + t, a) && Contains(h + a + m + i + t, i)
  {
    var f := h + a + m + i + t;
    assert f == (h + a + m) + i + t;
    ContainsAppend(h + a + m, i, t);
    assert f == h + a + (m + i + t);
    ContainsAppend(h, a, m + i + t);
  }

  /** The thinker is shown the instruction; the formatter is shown the instruction and the analysis. */
  lemma PromptsEmbed(instruction: string, analysis: string)
    ensures Contains(ThinkerPrompt(instruction), instruction)
    ensures Contains(FormatterPrompt(analysis, instruction), instruction)
    ensures Contains(FormatterPrompt(analysis, instruction), analysis)
  {
    ContainsAppend(ThinkerHead, instruction, ThinkerTail);
    FramedContains(FormatterHead, analysis, FormatterMiddle, instruction, FormatterTail);
  }

  // ---------------------------------------------------------------------
  // Properties

  /** A reply that mentions "timeout" in any case is a failure. */
  lemma TimeoutAnyCase(reply: string, w: string)
    requires Contains(reply, w) && EqualsIgnoreCase(w, "timeout")
    ensures ThinkerFailed(reply)
  {
    var i: nat :| OccursAt(reply, w, i);
    var low := LowerStr(reply);
    forall k | 0 <= k < 7 ensures low[i + k] == "timeout"[k] {
      assert reply[i + k] == w[k];
    }
    assert low[i..i + 7] == "timeout";
    assert OccursAt(low, "timeout", i);
  }

  /** Between the same fixed texts, the framed part is determined by the whole. */
  lemma FrameInjective(h: string, a1: string, a2: string, t: string)
    requires h + a1 + t == h + a2 + t
    ensures a1 == a2
  {
    var p := h + a1 + t;
    assert |a1| == |a2|;
    assert a1 == p[|h|..|h| + |a1|];
    assert a2 == (h + a2 + t)[|h|..|h| + |a2|];
  }

  /** The thinker prompt determines the instruction. */
  lemma ThinkerPromptInjective(i1: string, i2: string)
    requires ThinkerPrompt(i1) == ThinkerPrompt(i2)
    ensures i1 == i2
  {
    FrameInjective(ThinkerHead, i1, i2, ThinkerTail);
  }

  /** For one instruction, the formatter prompt determines the analysis it embeds. */
  lemma FormatterPromptDeterminesAnalysis(a1: string, a2: string, instruction: string)
    requires FormatterPrompt(a1, instruction) == FormatterPrompt(a2, instruction)
    ensures a1 == a2
  {
    var rest := FormatterMiddle + instruction + FormatterTail;
    assert FormatterPrompt(a1, instruction) == FormatterHead + a1 + rest;
    assert FormatterPrompt(a2, instruction) == FormatterHead + a2 + rest;
    FrameInjective(FormatterHead, a1, a2, rest);
  }

  /** "Failed to communicate" is matched with its case: a shouted failure is passed on as analysis. */
  lemma ShoutedFailureIsNotCaught(reply: string)
    requires reply == "FAILED TO COMMUNICATE"
    ensures !ThinkerFailed(reply)
  {
    forall i: nat ensures !OccursAt(reply, "Failed to communicate", i) {
      if i + 21 <= |reply| {
        assert reply[i..i + 21][1] == reply[i + 1];
      }
    }
    var low := LowerStr(reply);
    assert low == "failed to communicate";
    forall i: nat ensures !OccursAt(low, "timeout", i) {
      if i + 7 <= |low| {
        assert low[i..i + 7][0] == low[i] && low[i..i + 7][1] == low[i + 1];
      }
    }
  }
}

=== FILE: example_texts.dfy ===
/**
  Fixed example instructions, cut into the words the recognisers read. Kept
  apart from the recognisers so that the character-by-character comparison
  of the literals is done once, in a small context.
*/
module ExampleTexts {
  /** "find all Python files and show their contents", cut after its first three words. */
  lemma FindAllWords(s: string)
    requires s == "find all Python files and show their contents"
    ensures s == "find" + " " + "all" + " " + "Python" + s[15..] && s[15] == ' '
  {
    var h := "find" + " " + "all" + " " + "Python";
    forall i | 0 <= i < 15 ensures s[i] == h[i] {}
    assert s == h + s[15..];
  }
}

=== FILE: filesystem.dfy ===
/**
  The file system the commands of `agentic_system/commands/basic` act on.

  A state maps paths, relative to the working directory, to nodes: a
  regular file with its contents and modification time, or a directory. A
  path is a sequence of names; the working directory itself is `[]` and is
  always a directory, and every other entry sits in a directory. Reading a
  file either yields its UTF-8 decoded text or fails with an error message.

  Operating-system failures are the Linux `errno` values the commands can
  meet, rendered as Python renders an `OSError` about one path.
*/
module FileSystem {
  import opened Common
  import opened PyText
  import opened Sorting

  type Path = seq<string>

  /** What `read_text(encoding='utf-8')` finds: text, or bytes that do not decode. */
  datatype Contents = Text(text: string) | Undecodable(reason: string)

  datatype Node = File(contents: Contents, mtime: nat) | Dir

  type FS = map<Path, Node>

  /**
    What a command gives back: the string it returns together with the state
    after it, or the state at the point where an exception escapes it.
  */
  datatype Reply = Returns(text: string, fs: FS) | Raises(fs: FS)

  /** A name a directory can hold. */
  predicate ValidName(n: string) {
    n != "" && n != "." && n != ".." && '/' !in n && '\0' !in n
  }

  function Parent(p: Path): Path
    requires p != []
  {
    p[..|p| - 1]
  }

  predicate IsDir(fs: FS, p: Path) {
    p in fs && fs[p].Dir?
  }

  predicate IsFile(fs: FS, p: Path) {
    p in fs && fs[p].File?
  }

  /** The working directory is a directory, and every other entry has a valid name and sits in a directory. */
  predicate WellFormed(fs: FS) {
    && IsDir(fs, [])
    && forall p | p in fs && p != [] :: ValidName(p[|p| - 1]) && IsDir(fs, Parent(p))
  }

  /** `str(path)` of a relative path: its names joined by "/", or "." for the working directory. */
  function Display(p: Path): string {
    if p == [] then "." else Join(p, "/")
  }

  /** Different valid paths are displayed differently. */
  lemma DisplayInjective(p: Path, q: Path)
    requires ValidPath(p) && ValidPath(q) && Display(p) == Display(q)
    ensures p == q
  {
    if p != [] && q != [] {
      JoinSlashInjective(p, q);
    } else if p != [] {
      JoinSingleDot(p);
    } else if q != [] {
      JoinSingleDot(q);
    }
  }

  /** Only the one-name path "." is joined into "."; that name is not valid. */
  lemma JoinSingleDot(p: Path)
    requires p != [] && ValidPath(p)
    ensures Join(p, "/") != "."
  {
    if |p| > 1 {
      var j := Join(p, "/");
      assert j == p[0] + "/" + Join(p[1..], "/");
      assert |j| > 1;
    }
  }

  /** Joining names without "/" by "/" loses nothing. */
  lemma {:induction false} JoinSlashInjective(p: Path, q: Path)
    requires p != [] && q != [] && ValidPath(p) && ValidPath(q) && Join(p, "/") == Join(q, "/")
    ensures p == q
    decreases |p|
  {
    var j := Join(p, "/");
    var a, b := p[0], q[0];
    if |p| > 1 && |q| > 1 {
      JoinHead(p);
      JoinHead(q);
      assert a == j[..|a|] == b;
      assert Join(p[1..], "/") == j[|a| + 1..] == Join(q[1..], "/");
      JoinSlashInjective(p[1..], q[1..]);
      assert p == [a] + p[1..] && q == [b] + q[1..];
    } else if |p| > 1 {
      JoinHead(p);
    } else if |q| > 1 {
      JoinHead(q);
    }
  }

  /** The first name, a "/", then the rest. */
  lemma JoinHead(p: Path)
    requires |p| > 1 && ValidPath(p)
    ensures |Join(p, "/")| > |p[0]|
    ensures Join(p, "/")[..|p[0]|] == p[0] && Join(p, "/")[|p[0]|] == '/'
    ensures Join(p, "/")[|p[0]| + 1..] == Join(p[1..], "/")
    ensures forall k | 0 <= k < |p[0]| :: Join(p, "/")[k] == p[0][k] && p[0][k] != '/'
  {
    assert ValidName(p[0]);
  }

  // ---------------------------------------------------------------------
  // Operating-system errors

  datatype Errno = NoEntry | NotADirectory | IsADirectory | InvalidArgument | NotEmpty

  function ErrnoText(e: Errno): string {
    match e
    case NoEntry => "[Errno 2] No such file or directory"
    case NotADirectory => "[Errno 20] Not a directory"
    case IsADirectory => "[Errno 21] Is a directory"
    case InvalidArgument => "[Errno 22] Invalid argument"
    case NotEmpty => "[Errno 39] Directory not empty"
  }

  /** `str(e)` of an `OSError` about path `p`. */
  function OsError(e: Errno, p: Path): string {
    ErrnoText(e) + ": '" + Display(p) + "'"
  }

  /**
    The error of looking up `q` as a directory, as the kernel resolves it
    name by name: none when it is one, "not a directory" when a file stands
    on the way, "no such file" when a name is missing.
  */
  function DirError(fs: FS, q: Path): (r: Option<Errno>)
    ensures r.None? <==> IsDir(fs, q)
    ensures r.Some? ==> r.value == NoEntry || r.value == NotADirectory
    decreases |q|
  {
    if q in fs then (if fs[q].Dir? then None else Some(NotADirectory))
    else if q == [] then Some(NoEntry)
    else
      match DirError(fs, Parent(q))
      case None => Some(NoEntry)
      case Some(e) => Some(e)
  }

  /** Some prefix of `q`, `q` included, is a regular file. */
  predicate FileOnTheWay(fs: FS, q: Path) {
    exists k | 0 <= k <= |q| :: IsFile(fs, q[..k])
  }

  /** In a well-formed state, "not a directory" means exactly that a file stands on the way. */
  lemma {:induction false} DirErrorNotADirectory(fs: FS, q: Path)
    requires WellFormed(fs)
    ensures DirError(fs, q) == Some(NotADirectory) <==> FileOnTheWay(fs, q)
    decreases |q|
  {
    if q in fs {
      if fs[q].File? {
        assert q[..|q|] == q;
      } else {
        forall k | 0 <= k <= |q| ensures !IsFile(fs, q[..k]) {
          if k < |q| {
            AncestorIsDir(fs, q, k);
          } else {
            assert q[..k] == q;
          }
        }
      }
    } else if q != [] {
      DirErrorNotADirectory(fs, Parent(q));
      FileOnTheWayParent(fs, q);
    }
  }

  /** A missing path has a file on the way exactly when its parent has. */
  lemma FileOnTheWayParent(fs: FS, q: Path)
    requires q != [] && q !in fs
    ensures FileOnTheWay(fs, q) <==> FileOnTheWay(fs, Parent(q))
  {
    var pq := Parent(q);
    if FileOnTheWay(fs, q) {
      var k :| 0 <= k <= |q| && IsFile(fs, q[..k]);
      assert q[..|q|] == q;
      assert k < |q| && q[..k] == pq[..k];
    }
    if FileOnTheWay(fs, pq) {
      var k :| 0 <= k <= |pq| && IsFile(fs, pq[..k]);
      assert pq[..k] == q[..k];
    }
  }

  /** A non-empty path is its parent followed by its last name. */
  lemma ParentThenName(q: Path)
    requires q != []
    ensures q == Parent(q) + [q[|q| - 1]]
  {
  }

  /** In a well-formed state, an entry below `d` lies under an entry directly in `d`. */
  lemma ChildOnTheWay(fs: FS, d: Path, q: Path)
    requires WellFormed(fs) && q in fs && Below(d, q)
    ensures d + [q[|d|]] in fs
  {
    BelowChild(d, q);
    if |q| > |d| + 1 {
      AncestorIsDir(fs, q, |d| + 1);
    } else {
      assert q[..|d| + 1] == q;
    }
  }

  /** Every ancestor of an entry of a well-formed state is a directory. */
  lemma {:induction false} AncestorIsDir(fs: FS, q: Path, k: nat)
    requires WellFormed(fs) && q in fs && k < |q|
    ensures IsDir(fs, q[..k])
    decreases |q| - k
  {
    if k < |q| - 1 {
      AncestorIsDir(fs, Parent(q), k);
      assert Parent(q)[..k] == q[..k];
    } else {
      assert q[..k] == Parent(q);
    }
  }

  // ---------------------------------------------------------------------
  // Reading and writing files

  /**
    Universal-newline translation of text mode: "\r\n" and a lone "\r" are
    read as "\n".
  */
  function Universal(s: string): (r: string)
    ensures '\r' !in r
    ensures '\r' !in s ==> r == s
    ensures |r| <= |s|
    decreases |s|
  {
    if s == [] then []
    else if s[0] == '\r' then
      "\n" + Universal(if |s| > 1 && s[1] == '\n' then s[2..] else s[1..])
    else
      assert s == [s[0]] + s[1..];
      [s[0]] + Universal(s[1..])
  }

  /** Reading text already read changes nothing more. */
  lemma UniversalIdempotent(s: string)
    ensures Universal(Universal(s)) == Universal(s)
  {
  }

  /** `path.read_text(encoding='utf-8')` of a file: its text, or the message of the decoding error. */
  function ReadText(c: Contents): (r: Result<string>)
    ensures c.Text? <==> r.Ok?
    ensures r.Ok? ==> '\r' !in r.value
  {
    match c
    case Text(t) => Ok(Universal(t))
    case Undecodable(reason) => Err(reason)
  }

  /**
    `open(p, 'w')` followed by writing `text`: an existing directory cannot
    be opened, the directory that should hold `p` must exist, and the file
    is created or truncated.
  */
  function WriteText(fs: FS, p: Path, text: string, now: nat): (r: Result<FS>)
    ensures r.Ok? <==> p != [] && !IsDir(fs, p) && IsDir(fs, Parent(p))
    ensures r.Ok? ==> r.value == fs[p := File(Text(text), now)]
    ensures r.Err? && (p == [] || IsDir(fs, p)) ==> r.error == OsError(IsADirectory, p)
    ensures r.Err? && p != [] && !IsDir(fs, p) ==> r.error == OsError(DirError(fs, Parent(p)).value, p)
  {
    if p == [] || IsDir(fs, p) then Err(OsError(IsADirectory, p))
    else
      match DirError(fs, Parent(p))
      case Some(e) => Err(OsError(e, p))
      case None => Ok(fs[p := File(Text(text), now)])
  }

  /** Writing a file keeps a well-formed state well-formed. */
  lemma WriteKeepsWellFormed(fs: FS, p: Path, text: string, now: nat)
    requires WellFormed(fs) && p != [] && ValidName(p[|p| - 1]) && WriteText(fs, p, text, now).Ok?
    ensures WellFormed(WriteText(fs, p, text, now).value)
  {
  }

  // ---------------------------------------------------------------------
  // Directories

  /** The names directly inside `d`. */
  function ChildNames(fs: FS, d: Path): set<string> {
    set p | p in fs && |p| == |d| + 1 && p[..|d|] == d :: p[|d|]
  }

  lemma ChildNamesMeans(fs: FS, d: Path, n: string)
    ensures n in ChildNames(fs, d) <==> d + [n] in fs
  {
    if d + [n] in fs {
      assert (d + [n])[..|d|] == d && (d + [n])[|d|] == n;
    }
    if n in ChildNames(fs, d) {
      var p :| p in fs && |p| == |d| + 1 && p[..|d|] == d && p[|d|] == n;
      assert p == d + [n];
    }
  }

  /** The entries of `d` in the order the model lists them: ascending by name. */
  function Listing(fs: FS, d: Path): (r: seq<string>)
    ensures StrictlySorted(r)
    ensures forall n :: n in r <==> d + [n] in fs
  {
    forall n ensures n in ChildNames(fs, d) <==> d + [n] in fs {
      ChildNamesMeans(fs, d, n);
    }
    InOrder(ChildNames(fs, d))
  }

  /** Every name of the path is one a directory can hold. */
  predicate ValidPath(p: Path) {
    forall i | 0 <= i < |p| :: ValidName(p[i])
  }

  /**
    `mkdir(parents=True, exist_ok=True)` once no file stands on the way:
    `p` and every missing ancestor of it become directories, and what
    exists stays.
  */
  function MakeDirs(fs: FS, p: Path): (r: FS)
    requires WellFormed(fs) && ValidPath(p) && DirError(fs, p) != Some(NotADirectory)
    ensures WellFormed(r) && IsDir(r, p)
    ensures forall q | q in fs :: q in r && r[q] == fs[q]
    ensures forall q | q in r && q !in fs :: r[q] == Dir && q <= p
    decreases |p|
  {
    if p in fs then fs
    else
      var r := MakeDirs(fs, Parent(p));
      assert ValidName(p[|p| - 1]);
      r[p := Dir]
  }

  // ---------------------------------------------------------------------
  // Subtrees

  /** `q` lies strictly inside `d`: `d` is a proper prefix of it. */
  predicate Below(d: Path, q: Path) {
    |d| < |q| && q[..|d|] == d
  }

  /** The entries strictly inside `d`. */
  function Inside(fs: FS, d: Path): set<Path> {
    set q | q in fs && Below(d, q)
  }

  /** A proper prefix of the parent, or the parent itself, is a proper prefix. */
  lemma BelowParent(d: Path, q: Path)
    requires q != [] && (Parent(q) == d || Below(d, Parent(q)))
    ensures Below(d, q)
  {
    assert q[..|d|] == Parent(q)[..|d|];
  }

  /** The entry of `d` on the way to something inside it. */
  lemma BelowChild(d: Path, q: Path)
    requires Below(d, q)
    ensures q[..|d| + 1] == d + [q[|d|]]
  {
    assert q[..|d| + 1] == q[..|d|] + [q[|d|]];
  }

  /** Removing an entry nothing sits in keeps the state well-formed. */
  lemma RemoveLeafWellFormed(fs: FS, p: Path)
    requires WellFormed(fs) && p != [] && Inside(fs, p) == {}
    ensures WellFormed(fs - {p})
  {
    forall q | q in fs && q != [] && Parent(q) == p ensures q in Inside(fs, p) {
      BelowParent(p, q);
    }
  }

  /** A file of a well-formed state holds nothing. */
  lemma FileHoldsNothing(fs: FS, p: Path)
    requires WellFormed(fs) && IsFile(fs, p)
    ensures Inside(fs, p) == {}
  {
    if q :| q in Inside(fs, p) {
      AncestorIsDir(fs, q, |p|);
    }
  }
}

=== FILE: intent.dfy ===
/** Intents: what a recogniser hands to the dispatcher. */
module Intents {

  /**
    A parameter value, as a recogniser or a decoded LLM reply produces it:
    a string, a boolean, `None`/`null`, or anything else (numbers, lists,
    nested objects), whose content the model never inspects.
  */
  datatype Value = Str(s: string) | Bool(b: bool) | Null | Other

  /** An intent: a dictionary from parameter names to values, with an "action" key. */
  type Intent = map<string, Value>

  /** `{'action': action, key: text}`, the shape most recognisers return. */
  function ActionWith(action: string, key: string, text: string): (r: Intent)
    requires key != "action"
    ensures r.Keys == {"action", key}
    ensures r["action"] == Str(action) && r[key] == Str(text)
  {
    map["action" := Str(action), key := Str(text)]
  }
}

=== FILE: intent_examples.dfy ===
/**
  Worked instances of the keyword-prefix and exact-phrase recognisers,
  including the edge cases their patterns produce: the shadowed "count words
  in", a bare keyword followed by two spaces, and the overlap of echo and
  pwd on "print working directory".
*/
module IntentExamples {
  import opened Common
  import opened PyText
  import opened Regex
  import opened PyRe
  import opened Intents
  import opened PrefixForm
  import opened PhraseForm
  import opened BasicIntents

  /** "show contents of" followed by a path reads as that path. */
  lemma CatShowContents(rest: string)
    requires rest != [] && Stripped(rest) && '\n' !in rest
    ensures ParseCat("show contents of " + rest) == Some(ActionWith("cat", "path", rest))
  {
    var s := "show contents of " + rest;
    assert s == CatWords[1] + [' '] + rest;
    assert '\n' !in s;
    assert !Fits(s, CatWords[0]) by { FirstLetterDiffers(s, CatWords[0]); }
    StripStripped(rest);
    PrefixIntentAt(s, CatWords, 1, ' ', rest, "cat", "path");
  }

  lemma CatExample(s: string)
    requires s == "show contents of README.md"
    ensures ParseCat(s) == Some(ActionWith("cat", "path", "README.md"))
  {
    assert s == "show contents of " + "README.md";
    CatShowContents("README.md");
  }

  /** Whatever follows "create folder" is the path, filler words included. */
  lemma MkdirCreateFolder(rest: string)
    requires rest != [] && Stripped(rest) && '\n' !in rest
    ensures ParseMkdir("create folder " + rest) == Some(ActionWith("mkdir", "path", rest))
  {
    var s := "create folder " + rest;
    assert s == MkdirWords[2] + [' '] + rest;
    assert '\n' !in s;
    assert !Fits(s, MkdirWords[0]) by { FirstLetterDiffers(s, MkdirWords[0]); }
    assert !Fits(s, MkdirWords[1]) by { FirstLetterDiffers(s, MkdirWords[1]); }
    StripStripped(rest);
    PrefixIntentAt(s, MkdirWords, 2, ' ', rest, "mkdir", "path");
  }

  lemma MkdirExample(s: string)
    requires s == "create folder called test_folder"
    ensures ParseMkdir(s) == Some(ActionWith("mkdir", "path", "called test_folder"))
  {
    assert s == "create folder " + "called test_folder";
    MkdirCreateFolder("called test_folder");
  }

  lemma EchoExample(s: string)
    requires s == "echo hello world"
    ensures ParseEcho(s) == Some(ActionWith("echo", "text", "hello world"))
  {
    assert '\n' !in s;
    assert s == EchoWords[0] + [' '] + "hello world";
    StripStripped("hello world");
    PrefixIntentAt(s, EchoWords, 0, ' ', "hello world", "echo", "text");
  }

  /**
    "count" followed by anything reads as that thing: "count words in" never
    gets a say, so "count words in a.txt" gives "words in a.txt".
  */
  lemma WcCount(rest: string)
    requires rest != [] && Stripped(rest) && '\n' !in rest
    ensures ParseWc("count " + rest) == Some(ActionWith("wc", "path", rest))
  {
    var s := "count " + rest;
    assert s == WcWords[1] + [' '] + rest;
    assert '\n' !in s;
    assert !Fits(s, WcWords[0]) by { FirstLetterDiffers(s, WcWords[0]); }
    StripStripped(rest);
    PrefixIntentAt(s, WcWords, 1, ' ', rest, "wc", "path");
  }

  lemma WcShadowedExample(s: string)
    requires s == "count words in a.txt"
    ensures ParseWc(s) == Some(ActionWith("wc", "path", "words in a.txt"))
  {
    assert s == "count " + "words in a.txt";
    WcCount("words in a.txt");
  }

  /** "print" followed by anything is an echo of it. */
  lemma EchoPrint(rest: string)
    requires rest != [] && Stripped(rest) && '\n' !in rest
    ensures ParseEcho("print " + rest) == Some(ActionWith("echo", "text", rest))
  {
    var s := "print " + rest;
    assert s == EchoWords[1] + [' '] + rest;
    assert '\n' !in s;
    assert !Fits(s, EchoWords[0]) by { FirstLetterDiffers(s, EchoWords[0]); }
    StripStripped(rest);
    PrefixIntentAt(s, EchoWords, 1, ' ', rest, "echo", "text");
  }

  /** "print working directory" is an echo of "working directory"... */
  lemma PrintWorkingDirectoryEcho(s: string)
    requires s == "print working directory"
    ensures ParseEcho(s) == Some(ActionWith("echo", "text", "working directory"))
  {
    assert s == "print " + "working directory";
    EchoPrint("working directory");
  }

  /** ...and also the pwd phrase. */
  lemma PrintWorkingDirectoryPwd(s: string)
    requires s == "print working directory"
    ensures ParsePwd(s) == Some(map["action" := Str("pwd")])
  {
    assert Strip(s) == s by { StripStripped(s); }
    assert PwdPhrases[1] == s;
    assert EqualsIgnoreCase(s, s);
    assert IsPhrase(Strip(s), PwdPhrases);
  }

  /** The bare-word default is never reached when two spaces follow "ls": the path is empty, not ".". */
  lemma LsTwoSpaces(s: string)
    requires s == "ls  "
    ensures ParseLs(s) == Some(ActionWith("ls", "path", ""))
  {
    assert '\n' !in s;
    assert s == LsWords[0] + [' '] + " ";
    assert Strip(" ") == "" by { StripAllSpace(" "); }
    PrefixIntentAt(s, LsWords, 0, ' ', " ", "ls", "path");
  }

  /** A keyword glued to the next word does not fit, and the bare-word test fails too. */
  lemma LsGlued(s: string)
    requires s == "lsx"
    ensures ParseLs(s) == None
  {
    assert '\n' !in s;
    assert !Fits(s, LsWords[0]) && !Fits(s, LsWords[1]);
    assert FirstFit(s, LsWords, 0) == None;
    assert Strip(s) == s by { StripStripped(s); }
    assert LowerStr(s) == "lsx";
  }

  /** The match is anchored at the start of the instruction. */
  lemma LsNotAtStart(s: string)
    requires s == "please ls x"
    ensures ParseLs(s) == None
  {
    assert '\n' !in s;
    assert !Fits(s, LsWords[0]) by { FirstLetterDiffers(s, LsWords[0]); }
    assert !Fits(s, LsWords[1]) by { FirstLetterDiffers(s, LsWords[1]); }
    assert FirstFit(s, LsWords, 0) == None;
    assert |LowerStr(Strip(s))| == |s| by { StripStripped(s); }
  }

  /** The cat recogniser has no default: a bare keyword gives nothing. */
  lemma CatBare(s: string)
    requires s == "cat"
    ensures ParseCat(s) == None
  {
    assert '\n' !in s;
    assert !Fits(s, CatWords[0]);
    assert !Fits(s, CatWords[1]) by { FirstLetterDiffers(s, CatWords[1]); }
    assert !Fits(s, CatWords[2]) by { FirstLetterDiffers(s, CatWords[2]); }
    assert FirstFit(s, CatWords, 0) == None;
  }

  /** A bare "tree", in any case and with white space around it, lists ".". */
  lemma TreeBare(s: string)
    requires s == " Tree "
    ensures ParseTree(s) == Some(ActionWith("tree", "path", "."))
  {
    assert '\n' !in s;
    assert !Fits(s, TreeWords[0]) by { FirstLetterDiffers(s, TreeWords[0]); }
    assert !Fits(s, TreeWords[1]) by { FirstLetterDiffers(s, TreeWords[1]); }
    assert FirstFit(s, TreeWords, 0) == None;
    assert Strip(s) == "Tree" by {
      assert s == " " + "Tree" + " ";
      StripUnique(" ", "Tree", " ");
    }
    assert LowerStr("Tree") == "tree";
  }

  /** "show tree of" has no default. */
  lemma ShowTreeOfBare(s: string)
    requires s == "show tree of"
    ensures ParseTree(s) == None
  {
    assert '\n' !in s;
    assert !Fits(s, TreeWords[0]) by { FirstLetterDiffers(s, TreeWords[0]); }
    assert !Fits(s, TreeWords[1]);
    assert FirstFit(s, TreeWords, 0) == None;
    assert |LowerStr(Strip(s))| == |s| by { StripStripped(s); }
  }

  /** Extra words defeat an exact phrase. */
  lemma UnameExtraWord(s: string)
    requires s == "uname -a"
    ensures ParseUname(s) == None
  {
    assert Strip(s) == s by { StripStripped(s); }
    assert forall j :: 0 <= j < |UnamePhrases| ==> |UnamePhrases[j]| != |s|;
  }

  /** Internal spacing must match exactly. */
  lemma UnameDoubleSpace(s: string)
    requires s == "show  os info"
    ensures ParseUname(s) == None
  {
    assert Strip(s) == s by { StripStripped(s); }
    assert forall j :: 0 <= j < |UnamePhrases| ==> |UnamePhrases[j]| != |s|;
  }

  /** Case and surrounding white space do not matter for an exact phrase. */
  lemma PsCaseAndSpace(s: string)
    requires s == "  PS\t"
    ensures ParsePs(s) == Some(map["action" := Str("ps")])
  {
    assert Strip(s) == "PS" by {
      assert s == "  " + "PS" + "\t";
      StripUnique("  ", "PS", "\t");
    }
    assert EqualsIgnoreCase("PS", PsPhrases[0]);
  }
}

=== FILE: phrase_form.dfy ===
/**
  The pattern shape `^(p0|p1|...)$` that the uname, pwd and ps recognisers
  apply to the stripped instruction, and its explicit reading: a stripped
  instruction matches exactly when it equals one of the phrases, ignoring
  case. The `^` anchor is implied by `re.match`, which only tries the start.
*/
module PhraseForm {
  import opened Common
  import opened PyText
  import opened Regex
  import opened PyRe

  /** `(p0|p1|...)$` */
  function PhrasePattern(phrases: seq<string>): Pattern {
    [Open(1), Alt(phrases), Close(1), End]
  }

  /** `t` equals one of `phrases`, ignoring case. */
  predicate IsPhrase(t: string, phrases: seq<string>) {
    exists j :: 0 <= j < |phrases| && EqualsIgnoreCase(t, phrases[j])
  }

  lemma PhraseParts(phrases: seq<string>)
    ensures PhrasePattern(phrases)[0] == Open(1)
    ensures PhrasePattern(phrases)[1..] == [Alt(phrases), Close(1), End]
    ensures [Alt(phrases), Close(1), End][1..] == [Close(1), End]
    ensures [Close(1), End][1..] == [End] && [End][1..] == []
  {
  }

  /** Any accepted trace on a stripped text spells one of the phrases. */
  lemma AcceptedIsPhrase(t: string, phrases: seq<string>, u: seq<nat>)
    requires Stripped(t) && Accepts(t, 0, PhrasePattern(phrases), u)
    ensures IsPhrase(t, phrases)
  {
    PhraseParts(phrases);
    var u1 := u[1..];
    var j := u1[0];
    var w := phrases[j];
    LitAtBound(t, 0, w);
    var u2 := u1[1..];
    assert Accepts(t, |w|, [Close(1), End], u2);
    var u3 := u2[1..];
    assert Accepts(t, |w|, [End], u3);
    assert AtEnd(t, |w|);
    assert |w| == |t|;
    LitAtMeans(t, 0, w);
    assert t[0..|w|] == t;
  }

  /**
    The shape's theorem: on a stripped text the pattern matches exactly
    when the text is one of the phrases, ignoring case.
  */
  lemma PhraseReading(t: string, phrases: seq<string>)
    requires Stripped(t)
    ensures Match(t, PhrasePattern(phrases)).Some? <==> IsPhrase(t, phrases)
  {
    var p := PhrasePattern(phrases);
    if Match(t, p).Some? {
      var u :| Accepts(t, 0, p, u);
      AcceptedIsPhrase(t, phrases, u);
    }
    if IsPhrase(t, phrases) {
      var j :| 0 <= j < |phrases| && EqualsIgnoreCase(t, phrases[j]);
      PhraseParts(phrases);
      LitAtMeans(t, 0, phrases[j]);
      assert t[0..|t|] == t;
      var u := [0, j, 0, 0];
      assert u[1..] == [j, 0, 0] && u[1..][1..] == [0, 0] && u[1..][1..][1..] == [0];
      assert Accepts(t, |t|, [End], [0]);
      assert Accepts(t, 0, p, u);
    }
  }
}

=== FILE: prefix_form.dfy ===
/**
  The pattern shape `(?:k0|k1|...)\s+(.+)` shared by the ls, cat, mkdir,
  touch, wc, echo and tree recognisers, and its explicit reading: on an
  instruction without a newline, the first keyword (in the order written)
  that opens the instruction and is followed by a white-space character and
  at least one more character wins, and group 1, once stripped, is the rest
  of the instruction after that white-space character, stripped.
*/
module PrefixForm {
  import opened Common
  import opened PyText
  import opened Regex
  import opened PyRe

  /** `\s+(.+)`, what follows the keyword. */
  const Tail: Pattern := [Rep(Space, true, true), Open(1), Rep(AnyButNewline, true, true), Close(1)]
  /** `(.+)` */
  const Rest: Pattern := [Open(1), Rep(AnyButNewline, true, true), Close(1)]
  const Line: Pattern := [Rep(AnyButNewline, true, true), Close(1)]
  const Closing: Pattern := [Close(1)]

  /** `(?:k0|k1|...)\s+(.+)` */
  function PrefixPattern(kws: seq<string>): Pattern {
    [Alt(kws)] + Tail
  }

  /**
    Keyword `k` can begin the match: it opens `s` (ignoring case) and is
    followed by a white-space character and at least one more character.
  */
  predicate Fits(s: string, k: string) {
    |k| + 2 <= |s| && LitAt(s, 0, k) && IsSpace(s[|k|])
  }

  /** The first keyword, from index `j` on, that fits. */
  function FirstFit(s: string, kws: seq<string>, j: nat): (r: Option<nat>)
    ensures r.Some? ==> j <= r.value < |kws| && Fits(s, kws[r.value])
    ensures forall m :: j <= m < |kws| && (r.None? || m < r.value) ==> !Fits(s, kws[m])
    decreases |kws| - j
  {
    if j >= |kws| then None
    else if Fits(s, kws[j]) then Some(j)
    else FirstFit(s, kws, j + 1)
  }

  /** The explicit reading: the text after the first keyword that fits and one white-space character, stripped. */
  function Argument(s: string, kws: seq<string>): Option<string> {
    match FirstFit(s, kws, 0)
    case None => None
    case Some(j) => Some(Strip(s[|kws[j]| + 1..]))
  }

  // ---------------------------------------------------------------------
  // Proof of the reading

  lemma PatternParts(kws: seq<string>)
    ensures PrefixPattern(kws)[0] == Alt(kws) && PrefixPattern(kws)[1..] == Tail
    ensures Tail[1..] == Rest && Rest[1..] == Line && Line[1..] == Closing && Closing[1..] == []
  {
  }

  /** Whatever matches `\s+(.+)` at `b` starts with white space and has a character after it. */
  lemma TailNeedsRoom(s: string, b: nat, u: seq<nat>)
    requires Accepts(s, b, Tail, u)
    ensures b + 2 <= |s| && IsSpace(s[b])
  {
    PatternParts([]);
    var l := u[0];
    assert RunOf(s, b, l, Space);
    assert InClass(s[b], Space);
    var u1 := u[1..];
    assert Accepts(s, b + l, Rest, u1);
    var u2 := u1[1..];
    assert Accepts(s, b + l, Line, u2);
    assert RunOf(s, b + l, u2[0], AnyButNewline);
  }

  lemma TailAtEndFails(s: string)
    ensures NoMatchAt(s, |s|, Rest)
  {
    PatternParts([]);
    forall u ensures !Accepts(s, |s|, Rest, u) {
      if u != [] && u[0] == 0 {
        var u1 := u[1..];
        assert !Accepts(s, |s|, Line, u1);
      }
    }
  }

  /** Every match begins with a keyword that fits. */
  lemma AcceptedFits(s: string, kws: seq<string>, u: seq<nat>)
    requires Accepts(s, 0, PrefixPattern(kws), u)
    ensures u[0] < |kws| && Fits(s, kws[u[0]])
  {
    PatternParts(kws);
    var tail := u[1..];
    LitAtBound(s, 0, kws[u[0]]);
    TailNeedsRoom(s, |kws[u[0]]|, tail);
  }

  lemma KeywordsBeforeFail(s: string, kws: seq<string>, j: nat)
    requires forall m :: 0 <= m < j && m < |kws| ==> !Fits(s, kws[m])
    ensures forall m: nat :: m < j && m < |kws| && LitAt(s, 0, kws[m]) ==> NoMatchAt(s, |kws[m]|, Tail)
  {
    forall m: nat | m < j && m < |kws| && LitAt(s, 0, kws[m]) ensures NoMatchAt(s, |kws[m]|, Tail) {
      LitAtBound(s, 0, kws[m]);
      forall u ensures !Accepts(s, |kws[m]|, Tail, u) {
        if Accepts(s, |kws[m]|, Tail, u) {
          TailNeedsRoom(s, |kws[m]|, u);
        }
      }
    }
  }

  /** After the keyword, `\s+(.+)` takes `l` white-space characters and the `l2` after them. */
  lemma {:induction false} TailFirst(s: string, a: nat, l: nat, l2: nat)
    requires '\n' !in s && a + l + l2 == |s| && l >= 1 && l2 >= 1 && a <= |s|
    requires l == RunLength(s, a, Space) || (l < RunLength(s, a, Space) && a + l + 1 == |s|)
    ensures First(s, a, Tail, [l, 0, l2, 0])
  {
    PatternParts([]);
    RestFirst(s, a + l, l2);
    RunOfIff(s, a, l, Space);
    forall m: nat | m > l && RunOf(s, a, m, Space) ensures NoMatchAt(s, a + m, Rest) {
      RunOfIff(s, a, m, Space);
      TailAtEndFails(s);
    }
    GreedyFirst(s, a, Tail, l, [0, l2, 0]);
    assert [l] + [0, l2, 0] == [l, 0, l2, 0];
  }

  /** The rest of a newline-free line, taken whole by the greedy `(.+)`, and the end of the text. */
  lemma RestFirst(s: string, start: nat, l2: nat)
    requires '\n' !in s && start + l2 == |s| && l2 >= 1
    ensures First(s, start, Rest, [0, l2, 0])
  {
    PatternParts([]);
    assert RunOf(s, start, l2, AnyButNewline) by {
      forall k | start <= k < start + l2 ensures InClass(s[k], AnyButNewline) {
        assert s[k] in s;
      }
    }
    EmptyFirst(s, |s|);
    PlainFirst(s, |s|, Closing, []);
    assert [0] + [] == [0];
    GreedyFirst(s, start, Line, l2, [0]);
    PlainFirst(s, start, Rest, [l2, 0]);
    assert [0] + [l2, 0] == [0, l2, 0];
  }

  lemma {:induction false} TraceSpans(kws: seq<string>, j: nat, l: nat, l2: nat)
    requires j < |kws|
    ensures Spans(PrefixPattern(kws), [j, l, 0, l2, 0], 0, map[], map[]) == map[1 := (|kws[j]| + l, |kws[j]| + l + l2)]
  {
    PatternParts(kws);
    var a := |kws[j]|;
    var t := [j, l, 0, l2, 0];
    assert t[1..] == [l, 0, l2, 0];
    assert Spans(PrefixPattern(kws), t, 0, map[], map[]) == Spans(Tail, [l, 0, l2, 0], a, map[], map[]);
    assert [l, 0, l2, 0][1..] == [0, l2, 0];
    assert Spans(Tail, [l, 0, l2, 0], a, map[], map[]) == Spans(Rest, [0, l2, 0], a + l, map[], map[]);
    assert [0, l2, 0][1..] == [l2, 0];
    assert Spans(Rest, [0, l2, 0], a + l, map[], map[]) == Spans(Line, [l2, 0], a + l, map[1 := a + l], map[]);
    assert [l2, 0][1..] == [0];
    assert Spans(Line, [l2, 0], a + l, map[1 := a + l], map[]) == Spans(Closing, [0], a + l + l2, map[1 := a + l], map[]);
  }

  /**
    On a line without a newline whose keyword `j` is the first that fits,
    the first match takes keyword `j`, the longest white-space run that
    leaves a character, and the whole rest of the line as group 1.
  */
  lemma {:induction false} FirstTrace(s: string, kws: seq<string>, j: nat) returns (t: seq<nat>, start: nat)
    requires '\n' !in s && FirstFit(s, kws, 0) == Some(j)
    ensures First(s, 0, PrefixPattern(kws), t)
    ensures |kws[j]| + 1 <= start <= |s| && AllSpace(s[|kws[j]| + 1..start])
    ensures Spans(PrefixPattern(kws), t, 0, map[], map[]) == map[1 := (start, |s|)]
  {
    PatternParts(kws);
    var a := |kws[j]|;
    var l := SpaceBeforeArgument(s, kws, j);
    start := a + l;
    var l2 := |s| - start;
    TailFirst(s, a, l, l2);
    KeywordsBeforeFail(s, kws, j);
    AltFirst(s, 0, PrefixPattern(kws), j, [l, 0, l2, 0]);
    t := [j, l, 0, l2, 0];
    assert [j] + [l, 0, l2, 0] == t;
    TraceSpans(kws, j, l, l2);
  }

  /**
    How much white space the greedy `\s+` takes after the fitting keyword:
    all of it, or all but the last character when nothing else follows.
  */
  lemma SpaceBeforeArgument(s: string, kws: seq<string>, j: nat) returns (l: nat)
    requires FirstFit(s, kws, 0) == Some(j)
    ensures 1 <= l && |kws[j]| + l < |s| && AllSpace(s[|kws[j]| + 1..|kws[j]| + l])
    ensures l == RunLength(s, |kws[j]|, Space) || (l < RunLength(s, |kws[j]|, Space) && |kws[j]| + l + 1 == |s|)
  {
    PatternParts(kws);
    var a := |kws[j]|;
    var n := RunLength(s, a, Space);
    l := if a + n < |s| then n else n - 1;
    assert RunOf(s, a, 1, Space);
    RunOfIff(s, a, 1, Space);
    RunOfIff(s, a, l, Space);
    forall k | a + 1 <= k < a + l ensures IsSpace(s[k]) {
      assert InClass(s[k], Space);
    }
    AllSpaceSlice(s, a + 1, a + l);
  }

  /** A match always begins with a keyword that fits. */
  lemma PrefixNeedsFit(s: string, kws: seq<string>)
    ensures Match(s, PrefixPattern(kws)).Some? ==> FirstFit(s, kws, 0).Some?
  {
    if Match(s, PrefixPattern(kws)).Some? {
      var u :| Accepts(s, 0, PrefixPattern(kws), u);
      AcceptedFits(s, kws, u);
    }
  }

  /**
    The shape's theorem: on a line without a newline, the instruction
    matches exactly when some keyword fits, and group 1, stripped, is the
    explicit reading.
  */
  lemma PrefixReading(s: string, kws: seq<string>)
    requires '\n' !in s
    ensures Match(s, PrefixPattern(kws)).Some? <==> Argument(s, kws).Some?
    ensures Match(s, PrefixPattern(kws)).Some? ==>
      1 in Match(s, PrefixPattern(kws)).value && Some(Strip(Match(s, PrefixPattern(kws)).value[1])) == Argument(s, kws)
  {
    var p := PrefixPattern(kws);
    PrefixNeedsFit(s, kws);
    if FirstFit(s, kws, 0).Some? {
      var j := FirstFit(s, kws, 0).value;
      var t, start := FirstTrace(s, kws, j);
      var a := |kws[j]|;
      assert Match(s, p) == Some(GroupsOf(s, p, t));
      assert GroupsOf(s, p, t)[1] == s[start..];
      assert s[a + 1..] == s[a + 1..start] + s[start..];
      StripSpacePrefix(s[a + 1..start], s[start..]);
    }
  }

  // ---------------------------------------------------------------------
  // Facts for reading concrete instructions

  /**
    An instruction made of keyword `j`, a white-space character and a
    non-empty rest, where no earlier keyword fits, reads as the rest, stripped.
  */
  lemma ArgumentAt(s: string, kws: seq<string>, j: nat, c: char, rest: string)
    requires j < |kws| && s == kws[j] + [c] + rest && IsSpace(c) && rest != []
    requires forall m :: 0 <= m < j ==> !Fits(s, kws[m])
    ensures Argument(s, kws) == Some(Strip(rest))
  {
    LitAtPrefix(kws[j], [c] + rest);
    assert kws[j] + [c] + rest == kws[j] + ([c] + rest);
    assert s[|kws[j]|] == c;
    assert Fits(s, kws[j]);
    assert s[|kws[j]| + 1..] == rest;
  }

  /**
    A keyword that is a shorter keyword, a white-space character and more
    text only fits where the shorter keyword fits too.
  */
  lemma FitsShorter(s: string, short: string, c: char, more: string)
    requires IsSpace(c) && Fits(s, short + [c] + more)
    ensures Fits(s, short)
  {
    assert short + [c] + more == short + ([c] + more);
    LitAtConcat(s, 0, short, [c] + more);
    LitAtChar(s, |short|, [c] + more, 0);
    LitAtBound(s, 0, short + [c] + more);
  }

  /**
    When a keyword starting with a letter opens `s`, each of its letters
    lies within the stripped instruction.
  */
  lemma KeywordWithinStrip(s: string, w: string, k: nat)
    requires LitAt(s, 0, w) && k < |w| && 'a' <= w[0] <= 'z' && 'a' <= w[k] <= 'z'
    ensures k < |Strip(s)|
  {
    LitAtChar(s, 0, w, 0);
    LitAtChar(s, 0, w, k);
    VisibleWithinStrip(s, k);
  }

  /** A keyword whose first letter differs from the instruction's does not fit. */
  lemma FirstLetterDiffers(s: string, k: string)
    requires s != [] && k != [] && Lower(s[0]) != Lower(k[0])
    ensures !Fits(s, k)
  {
  }
}

=== FILE: pyre.dfy ===
/**
  Correctness of the backtracking engine against the declarative meaning of
  a match, and Python's `re.match(pattern, s, re.IGNORECASE)` on top of it.
*/
module PyRe {
  import opened Common
  import opened PyText
  import opened Regex

  // ---------------------------------------------------------------------
  // Small facts about the declarative side

  lemma {:induction false} LitAtBound(s: string, i: nat, w: string)
    requires LitAt(s, i, w)
    ensures i + |w| <= |s|
    decreases |w|
  {
    if w != [] {
      LitAtBound(s, i + 1, w[1..]);
    }
  }

  /** A literal match covers each of the word's characters, ignoring case. */
  lemma {:induction false} LitAtChar(s: string, i: nat, w: string, k: nat)
    requires LitAt(s, i, w) && k < |w|
    ensures i + k < |s| && Lower(s[i + k]) == Lower(w[k])
    decreases k
  {
    if k > 0 {
      LitAtChar(s, i + 1, w[1..], k - 1);
    }
  }

  /** A literal match of `x + y` is a match of `x` followed by one of `y`. */
  lemma {:induction false} LitAtConcat(s: string, i: nat, x: string, y: string)
    requires LitAt(s, i, x + y)
    ensures LitAt(s, i, x) && LitAt(s, i + |x|, y)
    decreases |x|
  {
    if x == [] {
      assert x + y == y;
    } else {
      assert (x + y)[0] == x[0] && (x + y)[1..] == x[1..] + y;
      LitAtConcat(s, i + 1, x[1..], y);
    }
  }

  lemma LitAtPrefix(x: string, y: string)
    ensures LitAt(x + y, 0, x)
  {
    LitAtMeans(x + y, 0, x);
    assert (x + y)[0..|x|] == x;
  }

  /** Every position an accepted choice leads to lies within the subject. */
  lemma StepBound(s: string, i: nat, p: Pattern, c: nat)
    requires p != [] && i <= |s| && Valid(s, i, p, c)
    ensures Step(p, i, c) <= |s|
  {
    if p[0].Alt? {
      LitAtBound(s, i, p[0].words[c]);
    }
  }

  /** An accepted trace of a non-empty pattern, taken apart. */
  lemma AcceptsCons(s: string, i: nat, p: Pattern, t: seq<nat>)
    requires p != [] && t != []
    ensures Accepts(s, i, p, t) <==> Valid(s, i, p, t[0]) && Accepts(s, Step(p, i, t[0]), Next(p, t[0]), t[1..])
  {
  }

  // ---------------------------------------------------------------------
  // The engine finds exactly the first accepted trace

  /**
    What the engine returns is accepted, and it is found whenever some trace
    is accepted, with no accepted trace preferred to it.
  */
  lemma {:induction false} SearchCorrect(s: string, i: nat, p: Pattern)
    requires i <= |s|
    ensures Search(s, i, p).Some? ==> Accepts(s, i, p, Search(s, i, p).value)
    ensures forall u :: Accepts(s, i, p, u) ==> Search(s, i, p).Some? && !Before(p, u, Search(s, i, p).value)
    decreases PatternSize(p), 1, 0
  {
    if p == [] {
      assert Accepts(s, i, p, []);
    } else {
      match p[0]
      case Alt(_) => BranchesCorrect(s, i, p, 0);
      case Rep(cls, _, greedy) =>
        if greedy {
          var n := RunLength(s, i, cls);
          GreedyCorrect(s, i, p, n);
          forall u | Accepts(s, i, p, u) ensures u[0] <= n {
            RunOfIff(s, i, u[0], cls);
          }
        } else {
          LazyCorrect(s, i, p, MinCount(p[0]));
        }
      case Opt(_) => OptCorrect(s, i, p);
      case End => PlainCorrect(s, i, p);
      case Open(_) => PlainCorrect(s, i, p);
      case Close(_) => PlainCorrect(s, i, p);
    }
  }

  /** An item that always chooses 0 and does not move: a group bound or `$`. */
  lemma {:induction false} PlainCorrect(s: string, i: nat, p: Pattern)
    requires i <= |s| && p != [] && (p[0].Open? || p[0].Close? || p[0].End?)
    ensures Search(s, i, p).Some? ==> Accepts(s, i, p, Search(s, i, p).value)
    ensures forall u :: Accepts(s, i, p, u) ==> Search(s, i, p).Some? && !Before(p, u, Search(s, i, p).value)
    decreases PatternSize(p), 0, 0
  {
    TailSmaller(p);
    SearchCorrect(s, i, p[1..]);
    var r := Search(s, i, p[1..]);
    if r.Some? && (p[0].End? ==> AtEnd(s, i)) {
      var v := [0] + r.value;
      assert Search(s, i, p) == Some(v);
      assert v[1..] == r.value;
      assert Accepts(s, i, p, v);
      forall u | Accepts(s, i, p, u) ensures !Before(p, u, v) {
        assert u[0] == 0;
      }
    }
  }

  lemma {:induction false} OptCorrect(s: string, i: nat, p: Pattern)
    requires i <= |s| && p != [] && p[0].Opt?
    ensures Search(s, i, p).Some? ==> Accepts(s, i, p, Search(s, i, p).value)
    ensures forall u :: Accepts(s, i, p, u) ==> Search(s, i, p).Some? && !Before(p, u, Search(s, i, p).value)
    decreases PatternSize(p), 0, 0
  {
    NextSmaller(p, 0);
    NextSmaller(p, 1);
    SearchCorrect(s, i, Next(p, 0));
    SearchCorrect(s, i, Next(p, 1));
    var taken := Search(s, i, Next(p, 0));
    var skipped := Search(s, i, Next(p, 1));
    if taken.Some? {
      var v := [0] + taken.value;
      assert Search(s, i, p) == Some(v);
      assert v[1..] == taken.value;
      assert Accepts(s, i, p, v);
    } else if skipped.Some? {
      var v := [1] + skipped.value;
      assert Search(s, i, p) == Some(v);
      assert v[1..] == skipped.value;
      assert Accepts(s, i, p, v);
      forall u | Accepts(s, i, p, u) ensures u[0] == 1 {
        assert !Accepts(s, i, Next(p, 0), u[1..]);
      }
    } else {
      forall u ensures !Accepts(s, i, p, u) {
        if u != [] && u[0] <= 1 {
          assert !Accepts(s, i, Next(p, u[0]), u[1..]);
        }
      }
    }
  }

  lemma {:induction false} BranchesCorrect(s: string, i: nat, p: Pattern, j: nat)
    requires i <= |s| && p != [] && p[0].Alt?
    ensures Branches(s, i, p, j).Some? ==> Accepts(s, i, p, Branches(s, i, p, j).value) && Branches(s, i, p, j).value[0] >= j
    ensures forall u :: Accepts(s, i, p, u) && u[0] >= j ==> Branches(s, i, p, j).Some? && !Before(p, u, Branches(s, i, p, j).value)
    decreases PatternSize(p), 0, |p[0].words| - j
  {
    var words := p[0].words;
    TailSmaller(p);
    if j < |words| {
      var w := words[j];
      if LitAt(s, i, w) {
        LitAtBound(s, i, w);
        SearchCorrect(s, i + |w|, p[1..]);
      }
      if LitAt(s, i, w) && Search(s, i + |w|, p[1..]).Some? {
        var v := [j] + Search(s, i + |w|, p[1..]).value;
        assert Branches(s, i, p, j) == Some(v);
        assert v[1..] == Search(s, i + |w|, p[1..]).value;
        assert Accepts(s, i, p, v);
      } else {
        BranchesCorrect(s, i, p, j + 1);
        var k: nat, q := i + |w|, p[1..];
        forall u | Accepts(s, i, p, u) && u[0] >= j ensures u[0] >= j + 1 {
          var tail := u[1..];
          assert u[0] == j ==> Accepts(s, k, q, tail);
        }
      }
    }
  }

  lemma {:induction false} GreedyCorrect(s: string, i: nat, p: Pattern, l: nat)
    requires i <= |s| && p != [] && p[0].Rep? && p[0].greedy && l <= RunLength(s, i, p[0].cls)
    ensures Greedy(s, i, p, l).Some? ==> Accepts(s, i, p, Greedy(s, i, p, l).value) && Greedy(s, i, p, l).value[0] <= l
    ensures forall u :: Accepts(s, i, p, u) && u[0] <= l ==> Greedy(s, i, p, l).Some? && !Before(p, u, Greedy(s, i, p, l).value)
    decreases PatternSize(p), 0, l
  {
    TailSmaller(p);
    if l >= MinCount(p[0]) {
      RunOfIff(s, i, l, p[0].cls);
      SearchCorrect(s, i + l, p[1..]);
      var r := Search(s, i + l, p[1..]);
      if r.Some? {
        var v := [l] + r.value;
        assert Greedy(s, i, p, l) == Some(v);
        assert v[1..] == r.value;
        assert Accepts(s, i, p, v);
      } else if l > 0 {
        GreedyCorrect(s, i, p, l - 1);
        var k: nat, q := i + l, p[1..];
        forall u | Accepts(s, i, p, u) && u[0] <= l ensures u[0] <= l - 1 {
          var tail := u[1..];
          assert u[0] == l ==> Accepts(s, k, q, tail);
        }
      } else {
        forall u | Accepts(s, i, p, u) ensures u[0] > 0 {
          var q, tail := p[1..], u[1..];
          assert u[0] == 0 ==> Accepts(s, i, q, tail);
        }
      }
    }
  }

  lemma {:induction false} LazyCorrect(s: string, i: nat, p: Pattern, l: nat)
    requires i <= |s| && p != [] && p[0].Rep? && !p[0].greedy && l >= MinCount(p[0])
    ensures Lazy(s, i, p, l).Some? ==> Accepts(s, i, p, Lazy(s, i, p, l).value) && Lazy(s, i, p, l).value[0] >= l
    ensures forall u :: Accepts(s, i, p, u) && u[0] >= l ==> Lazy(s, i, p, l).Some? && !Before(p, u, Lazy(s, i, p, l).value)
    decreases PatternSize(p), 0, RunLength(s, i, p[0].cls) - l
  {
    TailSmaller(p);
    var n := RunLength(s, i, p[0].cls);
    if l <= n {
      RunOfIff(s, i, l, p[0].cls);
      SearchCorrect(s, i + l, p[1..]);
      var r := Search(s, i + l, p[1..]);
      if r.Some? {
        var v := [l] + r.value;
        assert Lazy(s, i, p, l) == Some(v);
        assert v[1..] == r.value;
        assert Accepts(s, i, p, v);
      } else {
        LazyCorrect(s, i, p, l + 1);
        var k: nat, q := i + l, p[1..];
        forall u | Accepts(s, i, p, u) && u[0] >= l ensures u[0] >= l + 1 {
          var tail := u[1..];
          assert u[0] == l ==> Accepts(s, k, q, tail);
        }
      }
    } else {
      forall u | Accepts(s, i, p, u) ensures u[0] <= n {
        RunOfIff(s, i, u[0], p[0].cls);
      }
    }
  }

  // ---------------------------------------------------------------------
  // The first accepted trace is unique

  /** Two different accepted traces are always ordered one way or the other. */
  lemma {:induction false} BeforeTotal(s: string, i: nat, p: Pattern, t1: seq<nat>, t2: seq<nat>)
    requires Accepts(s, i, p, t1) && Accepts(s, i, p, t2) && t1 != t2
    ensures Before(p, t1, t2) || Before(p, t2, t1)
    decreases |t1|
  {
    if p != [] && t1[0] == t2[0] {
      assert t1 == [t1[0]] + t1[1..];
      assert t2 == [t2[0]] + t2[1..];
      BeforeTotal(s, Step(p, i, t1[0]), Next(p, t1[0]), t1[1..], t2[1..]);
    }
  }

  lemma FirstUnique(s: string, i: nat, p: Pattern, t1: seq<nat>, t2: seq<nat>)
    requires First(s, i, p, t1) && First(s, i, p, t2)
    ensures t1 == t2
  {
    if t1 != t2 {
      BeforeTotal(s, i, p, t1, t2);
    }
  }

  /**
    The engine's theorem: it succeeds exactly when some trace is accepted,
    and then returns the one first accepted trace.
  */
  lemma SearchFirst(s: string, i: nat, p: Pattern)
    requires i <= |s|
    ensures Search(s, i, p).Some? <==> exists t :: Accepts(s, i, p, t)
    ensures forall t :: First(s, i, p, t) <==> Search(s, i, p) == Some(t)
  {
    SearchCorrect(s, i, p);
    if Search(s, i, p).Some? {
      var v := Search(s, i, p).value;
      assert First(s, i, p, v);
      assert Accepts(s, i, p, v);
      assert exists t :: Accepts(s, i, p, t);
    }
    if exists t :: Accepts(s, i, p, t) {
      var t :| Accepts(s, i, p, t);
      assert Search(s, i, p).Some?;
    }
    forall t ensures First(s, i, p, t) <==> Search(s, i, p) == Some(t) {
      if First(s, i, p, t) {
        FirstUnique(s, i, p, t, Search(s, i, p).value);
      }
    }
  }

  // ---------------------------------------------------------------------
  // Building the first trace item by item

  /** No trace matches `p` at `i`. */
  ghost predicate NoMatchAt(s: string, i: nat, p: Pattern) {
    forall u :: !Accepts(s, i, p, u)
  }

  lemma EmptyFirst(s: string, i: nat)
    ensures First(s, i, [], [])
  {
  }

  /** A group bound or a `$` that holds: the first trace goes straight on. */
  lemma {:induction false} PlainFirst(s: string, i: nat, p: Pattern, v: seq<nat>)
    requires p != [] && (p[0].Open? || p[0].Close? || (p[0].End? && AtEnd(s, i)))
    requires First(s, i, p[1..], v)
    ensures First(s, i, p, [0] + v)
  {
    assert ([0] + v)[1..] == v;
    forall u | Accepts(s, i, p, u) ensures !Before(p, u, [0] + v) {
      assert u[0] == 0;
    }
  }

  /** An alternation picks the first word after which the rest can match. */
  lemma {:induction false} AltFirst(s: string, i: nat, p: Pattern, j: nat, v: seq<nat>)
    requires p != [] && p[0].Alt? && j < |p[0].words| && LitAt(s, i, p[0].words[j])
    requires First(s, i + |p[0].words[j]|, p[1..], v)
    requires forall m: nat :: m < j && LitAt(s, i, p[0].words[m]) ==> NoMatchAt(s, i + |p[0].words[m]|, p[1..])
    ensures First(s, i, p, [j] + v)
  {
    assert ([j] + v)[1..] == v;
    forall u | Accepts(s, i, p, u) ensures !Before(p, u, [j] + v) {
      var tail := u[1..];
      assert Accepts(s, i + |p[0].words[u[0]]|, p[1..], tail);
    }
  }

  /**
    A greedy repetition takes the longest run after which the rest can
    match.
  */
  lemma {:induction false} GreedyFirst(s: string, i: nat, p: Pattern, l: nat, v: seq<nat>)
    requires p != [] && p[0].Rep? && p[0].greedy && l >= MinCount(p[0]) && RunOf(s, i, l, p[0].cls)
    requires First(s, i + l, p[1..], v)
    requires forall m: nat :: m > l && RunOf(s, i, m, p[0].cls) ==> NoMatchAt(s, i + m, p[1..])
    ensures First(s, i, p, [l] + v)
  {
    assert ([l] + v)[1..] == v;
    forall u | Accepts(s, i, p, u) ensures !Before(p, u, [l] + v) {
      var tail := u[1..];
      assert Accepts(s, i + u[0], p[1..], tail);
    }
  }

  /**
    A lazy repetition takes the shortest run after which the rest can
    match.
  */
  lemma {:induction false} LazyFirst(s: string, i: nat, p: Pattern, l: nat, v: seq<nat>)
    requires p != [] && p[0].Rep? && !p[0].greedy && l >= MinCount(p[0]) && RunOf(s, i, l, p[0].cls)
    requires First(s, i + l, p[1..], v)
    requires forall m: nat :: MinCount(p[0]) <= m < l && RunOf(s, i, m, p[0].cls) ==> NoMatchAt(s, i + m, p[1..])
    ensures First(s, i, p, [l] + v)
  {
    assert ([l] + v)[1..] == v;
    forall u | Accepts(s, i, p, u) ensures !Before(p, u, [l] + v) {
      var tail := u[1..];
      assert Accepts(s, i + u[0], p[1..], tail);
    }
  }

  /** An optional group is taken when its body and the rest can match. */
  lemma {:induction false} OptTakenFirst(s: string, i: nat, p: Pattern, v: seq<nat>)
    requires p != [] && p[0].Opt?
    requires First(s, i, p[0].body + p[1..], v)
    ensures First(s, i, p, [0] + v)
  {
    assert ([0] + v)[1..] == v;
    forall u | Accepts(s, i, p, u) ensures !Before(p, u, [0] + v) {
    }
  }

  /** An optional group is skipped only when taking it cannot lead to a match. */
  lemma {:induction false} OptSkippedFirst(s: string, i: nat, p: Pattern, v: seq<nat>)
    requires p != [] && p[0].Opt?
    requires NoMatchAt(s, i, p[0].body + p[1..])
    requires First(s, i, p[1..], v)
    ensures First(s, i, p, [1] + v)
  {
    assert ([1] + v)[1..] == v;
    var q := p[0].body + p[1..];
    forall u | Accepts(s, i, p, u) ensures !Before(p, u, [1] + v) {
      var tail := u[1..];
      assert u[0] == 0 ==> Accepts(s, i, q, tail);
    }
  }

  // ---------------------------------------------------------------------
  // re.match and match.group

  /** `s[a..b]`, or the empty string for a span outside `s`. */
  function Slice(s: string, span: (nat, nat)): string {
    if span.0 <= span.1 <= |s| then s[span.0..span.1] else ""
  }

  /** The text of every group that took part in the match along `t`. */
  function GroupsOf(s: string, p: Pattern, t: seq<nat>): map<nat, string> {
    var spans := Spans(p, t, 0, map[], map[]);
    map n | n in spans :: Slice(s, spans[n])
  }

  /**
    `re.match(p, s, re.IGNORECASE)`: `None` when nothing matches at the
    start of `s`, otherwise the groups of the first match.
  */
  function Match(s: string, p: Pattern): (r: Option<map<nat, string>>)
    ensures r.Some? <==> exists t :: Accepts(s, 0, p, t)
    ensures forall t :: First(s, 0, p, t) ==> r == Some(GroupsOf(s, p, t))
  {
    SearchFirst(s, 0, p);
    match Search(s, 0, p)
    case None => None
    case Some(t) => Some(GroupsOf(s, p, t))
  }

  /** The groups of a match are read off the trace the search finds. */
  lemma MatchOfSearch(s: string, p: Pattern, t: seq<nat>, g: map<nat, string>)
    requires Search(s, 0, p) == Some(t) && GroupsOf(s, p, t) == g
    ensures Match(s, p) == Some(g)
  {
  }

  /** `match.group(n)`: `None` when group `n` did not take part. */
  function Group(m: map<nat, string>, n: nat): Option<string> {
    if n in m then Some(m[n]) else None
  }
}

=== FILE: read_commands.dfy ===
/**
  The commands that read the file system: `cat`, `ls`, `wc` and `sort`
  (`agentic_system/commands/basic/{cat,ls,wc,sort}.py`). Only `sort` with an
  output path changes the state.
*/
module ReadCommands {
  import opened Common
  import opened PyText
  import opened Sorting
  import opened FileSystem

  function FileNotFound(p: Path): string {
    "File not found: " + Display(p)
  }

  function DirectoryNotFound(p: Path): string {
    "Directory not found: " + Display(p)
  }

  // ---------------------------------------------------------------------
  // cat

  /** `CatCommand(path).execute()`. */
  function Cat(fs: FS, p: Path): (r: Reply)
    ensures r.Returns? && r.fs == fs
    ensures !IsFile(fs, p) ==> r.text == FileNotFound(p)
    ensures IsFile(fs, p) && fs[p].contents.Undecodable? ==> r.text == "Error reading file: " + fs[p].contents.reason
    ensures IsFile(fs, p) && fs[p].contents.Text? ==> r.text == Universal(fs[p].contents.text)
  {
    if !IsFile(fs, p) then Returns(FileNotFound(p), fs)
    else
      match ReadText(fs[p].contents)
      case Ok(t) => Returns(t, fs)
      case Err(e) => Returns("Error reading file: " + e, fs)
  }

  /** What `write_text` or `open(p, 'w')` wrote is what `cat` shows, when it holds no carriage return. */
  lemma CatAfterWrite(fs: FS, p: Path, text: string, now: nat)
    requires '\r' !in text && WriteText(fs, p, text, now).Ok?
    ensures Cat(WriteText(fs, p, text, now).value, p) == Returns(text, WriteText(fs, p, text, now).value)
  {
  }

  // ---------------------------------------------------------------------
  // ls

  /** The displayed paths of the entries of `d`, in listing order. */
  function Entries(fs: FS, d: Path): (es: seq<string>)
    ensures |es| == |Listing(fs, d)|
    ensures forall i | 0 <= i < |es| :: es[i] == Display(d + [Listing(fs, d)[i]])
  {
    var names := Listing(fs, d);
    seq(|names|, i requires 0 <= i < |names| => Display(d + [names[i]]))
  }

  /** `LsCommand(path).execute()`. */
  function Ls(fs: FS, d: Path): (r: Reply)
    ensures r.Returns? && r.fs == fs
    ensures !IsDir(fs, d) ==> r.text == DirectoryNotFound(d)
    ensures IsDir(fs, d) ==> r.text == Join(Entries(fs, d), "\n")
  {
    if !IsDir(fs, d) then Returns(DirectoryNotFound(d), fs)
    else Returns(Join(Entries(fs, d), "\n"), fs)
  }

  /**
    The listing is not recursive: an entry of the state is shown by `ls d`
    exactly when it sits directly in `d`.
  */
  lemma LsShowsChildren(fs: FS, d: Path, q: Path)
    requires WellFormed(fs) && IsDir(fs, d) && q in fs
    ensures Display(q) in Entries(fs, d) <==> q != [] && Parent(q) == d
  {
    if Display(q) in Entries(fs, d) {
      ShownIsChild(fs, d, q);
    }
    if q != [] && Parent(q) == d {
      ChildIsShown(fs, d, q);
    }
  }

  lemma ShownIsChild(fs: FS, d: Path, q: Path)
    requires WellFormed(fs) && q in fs && Display(q) in Entries(fs, d)
    ensures q != [] && Parent(q) == d
  {
    var es := Entries(fs, d);
    var names := Listing(fs, d);
    var i :| 0 <= i < |es| && es[i] == Display(q);
    var c := d + [names[i]];
    assert c in fs;
    assert Display(c) == Display(q) by {
      assert es[i] == Display(c);
    }
    ValidEntry(fs, c);
    ValidEntry(fs, q);
    DisplayInjective(c, q);
    assert Parent(c) == d;
  }

  lemma ChildIsShown(fs: FS, d: Path, q: Path)
    requires q in fs && q != [] && Parent(q) == d
    ensures Display(q) in Entries(fs, d)
  {
    var es := Entries(fs, d);
    var names := Listing(fs, d);
    ParentThenName(q);
    assert q[|q| - 1] in names;
    var i :| 0 <= i < |names| && names[i] == q[|q| - 1];
    assert es[i] == Display(q);
  }

  /** Every entry of a well-formed state has a valid path. */
  lemma {:induction false} ValidEntry(fs: FS, q: Path)
    requires WellFormed(fs) && q in fs
    ensures ValidPath(q)
    decreases |q|
  {
    if q != [] {
      ValidEntry(fs, Parent(q));
      ParentThenName(q);
    }
  }

  /** An empty directory is listed as the empty string. */
  lemma LsEmpty(fs: FS, d: Path)
    requires IsDir(fs, d) && forall n :: d + [n] !in fs
    ensures Ls(fs, d).text == ""
  {
    if Listing(fs, d) != [] {
      assert d + [Listing(fs, d)[0]] in fs;
    }
  }

  // ---------------------------------------------------------------------
  // wc

  /** The line count of `wc`, stated without splitting: the breaks, plus an unterminated last line. */
  function LineCount(t: string): nat {
    CountBreaks(t) + (if t != [] && !IsLineBreak(t[|t| - 1]) then 1 else 0)
  }

  function Counts(lines: nat, words: nat, chars: nat): string {
    "Lines: " + NatToString(lines) + ", Words: " + NatToString(words) + ", Characters: " + NatToString(chars)
  }

  /**
    `WcCommand(path).execute()`: `len(text.splitlines())`, `len(text.split())`
    and `len(text)` of the text read.
  */
  function Wc(fs: FS, p: Path): (r: Reply)
    ensures r.Returns? && r.fs == fs
    ensures !IsFile(fs, p) ==> r.text == FileNotFound(p)
    ensures IsFile(fs, p) && fs[p].contents.Undecodable? ==> r.text == "Error counting file: " + fs[p].contents.reason
    ensures IsFile(fs, p) && fs[p].contents.Text? ==>
      var t := Universal(fs[p].contents.text);
      r.text == Counts(LineCount(t), WordStarts(t, 0, false), |t|)
  {
    if !IsFile(fs, p) then Returns(FileNotFound(p), fs)
    else
      match ReadText(fs[p].contents)
      case Err(e) => Returns("Error counting file: " + e, fs)
      case Ok(t) => Returns(WcCounts(t), fs)
  }

  /** The report for text `t`: the lengths of `t.splitlines()` and `t.split()`, and `len(t)`. */
  function WcCounts(t: string): (r: string)
    ensures r == Counts(LineCount(t), WordStarts(t, 0, false), |t|)
  {
    SplitLinesCount(t);
    SplitWordsCount(t, 0);
    Counts(|SplitLines(t)|, |SplitWords(t)|, |t|)
  }

  // ---------------------------------------------------------------------
  // sort

  /** The lines of the text read, sorted, joined by "\n". */
  function SortedText(t: string): (s: string)
    ensures '\r' !in s
  {
    var lines := Sort(SplitLines(t));
    forall k | 0 <= k < |lines| ensures '\r' !in lines[k] {
      SortedKeepsLines(SplitLines(t), k);
    }
    JoinKeepsOut(lines, '\r');
    Join(lines, "\n")
  }

  /** Every sorted line is one of the lines, so it holds no line break. */
  lemma SortedKeepsLines(lines: seq<string>, k: nat)
    requires (forall j | 0 <= j < |lines| :: NoLineBreak(lines[j])) && k < |Sort(lines)|
    ensures NoLineBreak(Sort(lines)[k])
  {
    assert Sort(lines)[k] in multiset(lines);
  }

  /** Joining by "\n" brings in no character other than those of the parts. */
  lemma {:induction false} JoinKeepsOut(parts: seq<string>, c: char)
    requires c != '\n' && forall k | 0 <= k < |parts| :: c !in parts[k]
    ensures c !in Join(parts, "\n")
    decreases |parts|
  {
    if |parts| > 1 {
      JoinKeepsOut(parts[1..], c);
    }
  }

  /**
    `SortCommand(path, output_path).execute()`. An output path that Python
    finds false (`""`) is `None` here.
  */
  function SortFile(fs: FS, p: Path, output: Option<Path>, now: nat): (r: Reply)
    ensures r.Returns?
    ensures !IsFile(fs, p) ==> r == Returns(FileNotFound(p), fs)
    ensures IsFile(fs, p) && fs[p].contents.Undecodable? ==> r == Returns("Error sorting file: " + fs[p].contents.reason, fs)
    ensures output.None? ==> r.fs == fs
    ensures output.Some? && r.fs != fs ==> r.text == "Sorted lines written to: " + Display(output.value)
    ensures IsFile(fs, p) && fs[p].contents.Text? && output.None? ==>
      r.text == SortedText(Universal(fs[p].contents.text))
    ensures IsFile(fs, p) && fs[p].contents.Text? && output.Some? ==>
      var q := output.value;
      if q != [] && !IsDir(fs, q) && IsDir(fs, Parent(q)) then
        r == Returns("Sorted lines written to: " + Display(q), fs[q := File(Text(SortedText(Universal(fs[p].contents.text))), now)])
      else
        r.fs == fs && r.text == "Error sorting file: " + WriteText(fs, q, SortedText(Universal(fs[p].contents.text)), now).error
  {
    if !IsFile(fs, p) then Returns(FileNotFound(p), fs)
    else
      match ReadText(fs[p].contents)
      case Err(e) => Returns("Error sorting file: " + e, fs)
      case Ok(t) =>
        var result := SortedText(t);
        match output
        case None => Returns(result, fs)
        case Some(q) =>
          match WriteText(fs, q, result, now)
          case Ok(fs2) => Returns("Sorted lines written to: " + Display(q), fs2)
          case Err(e) => Returns("Error sorting file: " + e, fs)
  }

  /**
    The printed result, split into lines again, is the input's lines sorted:
    the same lines, in non-decreasing order. Empty lines sort first, so this
    holds whenever some line is not empty.
  */
  lemma SortedLines(t: string)
    requires exists k | 0 <= k < |SplitLines(t)| :: SplitLines(t)[k] != ""
    ensures SplitLines(SortedText(t)) == Sort(SplitLines(t))
    ensures multiset(SplitLines(SortedText(t))) == multiset(SplitLines(t))
    ensures Sorted(SplitLines(SortedText(t)))
  {
    var lines := SplitLines(t);
    LastSortedNotEmpty(lines);
    SortedNoBreaks(lines);
    SplitJoinLines(Sort(lines));
  }

  /** Lines without line breaks stay so when sorted. */
  lemma SortedNoBreaks(lines: seq<string>)
    requires forall j | 0 <= j < |lines| :: NoLineBreak(lines[j])
    ensures forall i | 0 <= i < |Sort(lines)| :: NoLineBreak(Sort(lines)[i])
  {
    forall i | 0 <= i < |Sort(lines)| ensures NoLineBreak(Sort(lines)[i]) {
      SortedKeepsLines(lines, i);
    }
  }

  /** The empty string sorts first, so a non-empty line sorts last. */
  lemma LastSortedNotEmpty(lines: seq<string>)
    requires exists k | 0 <= k < |lines| :: lines[k] != ""
    ensures Sort(lines) != [] && Sort(lines)[|Sort(lines)| - 1] != ""
  {
    var sorted := Sort(lines);
    var k :| 0 <= k < |lines| && lines[k] != "";
    assert lines[k] in multiset(sorted) by {
      assert lines[k] in multiset(lines);
    }
    NotEmptyLast(sorted, lines[k]);
  }

  /** In sorted order nothing but the empty string sorts below the empty string. */
  lemma NotEmptyLast(sorted: seq<string>, x: string)
    requires Sorted(sorted) && x in sorted && x != ""
    ensures sorted[|sorted| - 1] != ""
  {
    var m :| 0 <= m < |sorted| && sorted[m] == x;
    if m < |sorted| - 1 {
      assert StrLe(sorted[m], sorted[|sorted| - 1]);
    }
  }

  /** Sorting a file that `sort` wrote gives the same text again. */
  lemma SortAgain(t: string)
    requires '\r' !in t && exists k | 0 <= k < |SplitLines(t)| :: SplitLines(t)[k] != ""
    ensures SortedText(Universal(SortedText(t))) == SortedText(t)
  {
    SortedLines(t);
    SortOfSorted(Sort(SplitLines(t)));
  }

  /** Writing the result elsewhere leaves the sorted file as it was. */
  lemma SortKeepsSource(fs: FS, p: Path, q: Path, now: nat)
    requires q != p
    ensures var r := SortFile(fs, p, Some(q), now);
      (p in fs ==> p in r.fs && r.fs[p] == fs[p]) && (forall x | x != q && x in fs :: x in r.fs && r.fs[x] == fs[x])
  {
  }
}

=== FILE: reasoning.dfy ===
/**
  The reasoning trace an `Agent` keeps (`agentic_system/core.py`): a chain
  of thoughts, and a tree of thoughts with a cursor naming the node that
  new thoughts go under by default.

  The Python nodes are dictionaries shared by reference; here they live in
  an arena and are named by their index in it. A node is only ever given
  children newer than itself, so the arena is a forest and the tree below
  a node can be read off as a value (`View`). Resetting starts a new root;
  the old nodes stay in the arena, as the old dictionaries stay alive for
  whoever holds them, but are no longer part of the tree.
*/
module Reasoning {
  import opened Common

  datatype ThoughtNode = ThoughtNode(thought: string, children: seq<nat>)

  datatype Agent = Agent(chain: seq<string>, nodes: seq<ThoughtNode>, root: nat, cursor: Option<nat>)

  /** A thought tree as a value: `{"thought": ..., "children": [...]}`. */
  datatype Thought = Thought(text: string, children: seq<Thought>)

  /** The node handles are in the arena, and every child is newer than its parent. */
  predicate Valid(a: Agent) {
    && a.root < |a.nodes|
    && (a.cursor.Some? ==> a.cursor.value < |a.nodes|)
    && forall i, k | 0 <= i < |a.nodes| && 0 <= k < |a.nodes[i].children| :: i < a.nodes[i].children[k] < |a.nodes|
  }

  /** The tree below node `i`. */
  function View(a: Agent, i: nat): (t: Thought)
    requires Valid(a) && i < |a.nodes|
    ensures t.text == a.nodes[i].thought && |t.children| == |a.nodes[i].children|
    decreases |a.nodes| - i
  {
    var kids := a.nodes[i].children;
    Thought(a.nodes[i].thought, seq(|kids|, k requires 0 <= k < |kids| => View(a, kids[k])))
  }

  /** The fields `Agent.__init__` sets for reasoning: an empty chain, a lone "root", the cursor on it. */
  function Initial(): (a: Agent)
    ensures Valid(a) && a.chain == [] && a.cursor == Some(a.root)
    ensures View(a, a.root) == Thought("root", [])
  {
    Agent([], [ThoughtNode("root", [])], 0, Some(0))
  }

  /** `add_chain_thought(thought)`. */
  function AddChainThought(a: Agent, thought: string): (r: Agent)
    ensures |r.chain| == |a.chain| + 1 && r.chain[..|a.chain|] == a.chain && r.chain[|a.chain|] == thought
    ensures r.nodes == a.nodes && r.root == a.root && r.cursor == a.cursor
  {
    a.(chain := a.chain + [thought])
  }

  /** The chain holds the thoughts added, in the order they were added. */
  lemma {:induction false} ChainInOrder(a: Agent, thoughts: seq<string>)
    ensures AddChainThoughts(a, thoughts).chain == a.chain + thoughts
    decreases |thoughts|
  {
    if thoughts != [] {
      var b := AddChainThought(a, thoughts[0]);
      ChainInOrder(b, thoughts[1..]);
      assert b.chain + thoughts[1..] == a.chain + thoughts;
    }
  }

  function AddChainThoughts(a: Agent, thoughts: seq<string>): Agent
    decreases |thoughts|
  {
    if thoughts == [] then a else AddChainThoughts(AddChainThought(a, thoughts[0]), thoughts[1..])
  }

  /** Where `add_tree_thought` attaches when given `parent`: that node, else the cursor, else the root. */
  function Target(a: Agent, parent: Option<nat>): nat {
    if parent.Some? then parent.value
    else if a.cursor.Some? then a.cursor.value
    else a.root
  }

  /**
    `add_tree_thought(thought, parent)`: a new leaf, appended as the last
    child of the target node; its handle is returned.
  */
  function AddTreeThought(a: Agent, thought: string, parent: Option<nat>): (r: (Agent, nat))
    requires Valid(a) && (parent.Some? ==> parent.value < |a.nodes|)
    ensures Valid(r.0)
    ensures r.1 == |a.nodes| && |r.0.nodes| == |a.nodes| + 1 && r.0.nodes[r.1] == ThoughtNode(thought, [])
    ensures var p := Target(a, parent);
      r.0.nodes[p].thought == a.nodes[p].thought && r.0.nodes[p].children == a.nodes[p].children + [r.1]
    ensures forall i | 0 <= i < |a.nodes| && i != Target(a, parent) :: r.0.nodes[i] == a.nodes[i]
    ensures r.0.chain == a.chain && r.0.root == a.root && r.0.cursor == a.cursor
  {
    var p := Target(a, parent);
    var node := |a.nodes|;
    var nodes := a.nodes[p := a.nodes[p].(children := a.nodes[p].children + [node])] + [ThoughtNode(thought, [])];
    (a.(nodes := nodes), node)
  }

  /** `set_current_tree_node(node)`; `None` sends later additions to the root. */
  function SetCurrentTreeNode(a: Agent, node: Option<nat>): (r: Agent)
    requires Valid(a) && (node.Some? ==> node.value < |a.nodes|)
    ensures Valid(r) && r.cursor == node
    ensures r.chain == a.chain && r.nodes == a.nodes && r.root == a.root
  {
    a.(cursor := node)
  }

  /** `reset_reasoning()`: an empty chain and a fresh lone "root" with the cursor on it. */
  function ResetReasoning(a: Agent): (r: Agent)
    requires Valid(a)
    ensures Valid(r) && r.chain == [] && r.cursor == Some(r.root)
    ensures View(r, r.root) == Thought("root", [])
    ensures |r.nodes| == |a.nodes| + 1 && r.nodes[..|a.nodes|] == a.nodes
  {
    var root := |a.nodes|;
    Agent([], a.nodes + [ThoughtNode("root", [])], root, Some(root))
  }

  // ---------------------------------------------------------------------
  // Properties

  /**
    After adding a thought, the tree below the target node is the old one
    with the new leaf as its last child.
  */
  lemma AddTreeThoughtView(a: Agent, thought: string, parent: Option<nat>)
    requires Valid(a) && (parent.Some? ==> parent.value < |a.nodes|)
    ensures var p := Target(a, parent); var r := AddTreeThought(a, thought, parent).0;
      View(r, p) == Thought(View(a, p).text, View(a, p).children + [Thought(thought, [])])
  {
    var p := Target(a, parent);
    var r := AddTreeThought(a, thought, parent).0;
    var kids := a.nodes[p].children;
    var vr, va := View(r, p), View(a, p);
    forall k | 0 <= k < |kids| ensures vr.children[k] == va.children[k] {
      ViewUnchangedAbove(a, r, p, kids[k]);
    }
    assert vr.children[|kids|] == View(r, |a.nodes|) == Thought(thought, []);
    assert vr.children == va.children + [Thought(thought, [])];
  }

  /**
    Only node `p` changed and nodes were only appended. A node newer than `p`
    cannot reach it, so the tree below that node is as it was.
  */
  lemma ViewUnchangedAbove(a: Agent, r: Agent, p: nat, j: nat)
    requires Valid(a) && Valid(r) && p < j < |a.nodes| <= |r.nodes|
    requires forall i | 0 <= i < |a.nodes| && i != p :: r.nodes[i] == a.nodes[i]
    ensures View(r, j) == View(a, j)
  {
    if Reaches(a, j, p) {
      ReachesNewer(a, j, p);
      assert false;
    }
    ViewUnchangedOutside(a, r, p, j);
  }

  /** Node `p` lies in the tree below node `j`, `j` itself included. */
  predicate Reaches(a: Agent, j: nat, p: nat)
    requires Valid(a) && j < |a.nodes|
    decreases |a.nodes| - j
  {
    j == p || exists k | 0 <= k < |a.nodes[j].children| :: Reaches(a, a.nodes[j].children[k], p)
  }

  /**
    Only node `p` changed and nodes were only appended, so the tree below
    any node whose tree does not reach `p` is as it was.
  */
  lemma {:induction false} ViewUnchangedOutside(a: Agent, r: Agent, p: nat, j: nat)
    requires Valid(a) && Valid(r) && j < |a.nodes| <= |r.nodes|
    requires forall i | 0 <= i < |a.nodes| && i != p :: r.nodes[i] == a.nodes[i]
    requires !Reaches(a, j, p)
    ensures View(r, j) == View(a, j)
    decreases |a.nodes| - j
  {
    var kids := a.nodes[j].children;
    forall k | 0 <= k < |kids| ensures View(r, kids[k]) == View(a, kids[k]) {
      ViewUnchangedOutside(a, r, p, kids[k]);
    }
  }

  /** The tree below `j` holds only nodes at least as new as `j`. */
  lemma {:induction false} ReachesNewer(a: Agent, j: nat, p: nat)
    requires Valid(a) && j < |a.nodes| && Reaches(a, j, p)
    ensures j <= p
    decreases |a.nodes| - j
  {
    if j != p {
      var k :| 0 <= k < |a.nodes[j].children| && Reaches(a, a.nodes[j].children[k], p);
      ReachesNewer(a, a.nodes[j].children[k], p);
    }
  }

  /** Adding a thought does not move the cursor, and a thought added without a parent goes under the cursor. */
  lemma AddUnderCursor(a: Agent, n: nat, thought: string)
    requires Valid(a) && n < |a.nodes|
    ensures var b := SetCurrentTreeNode(a, Some(n)); var r := AddTreeThought(b, thought, None);
      r.0.cursor == Some(n) && r.0.nodes[n].children == a.nodes[n].children + [r.1]
  {
  }
}

=== FILE: regex.dfy ===
/**
  The fragment of Python's `re.match` the rule-based recognisers rely on.

  A pattern is a flat sequence of items; `(?:...)?` nests a sub-pattern.
  Matching is anchored at the start and need not reach the end of the
  subject, and every literal compares ignoring (ASCII) case, as with
  `re.IGNORECASE`.

  Two descriptions of a match are given. `Search` is the backtracking engine:
  greedy repetitions try their longest run first, lazy ones their shortest,
  an optional group tries its body first and an alternation tries its words
  left to right. `Accepts` says which choice sequences ("traces") match at
  all, and `Before` is the preference order those rules induce on traces.
  The theorem `SearchFirst` ties the two together: the engine returns the
  most preferred accepted trace, and fails exactly when no trace is accepted.
*/
module Regex {
  import opened Common
  import opened PyText

  /** The three character classes the patterns use: `\s`, `\S` and `.`. */
  datatype CharClass = Space | NonSpace | AnyButNewline

  predicate InClass(c: char, cls: CharClass) {
    match cls
    case Space => IsSpace(c)
    case NonSpace => !IsSpace(c)
    case AnyButNewline => c != '\n'
  }

  /**
    One element of a pattern.
    - `Alt(words)`: `(?:w0|w1|...)` over literal words, tried left to right;
      a single literal is an alternation of one word.
    - `Rep(cls, atLeastOne, greedy)`: `cls*` or `cls+`, lazy when not greedy.
    - `Opt(body)`: `(?:body)?`, greedy.
    - `Open(n)` / `Close(n)`: the two ends of capture group `n`.
    - `End`: `$` without MULTILINE.
  */
  datatype Item =
    | Alt(words: seq<string>)
    | Rep(cls: CharClass, atLeastOne: bool, greedy: bool)
    | Opt(body: seq<Item>)
    | Open(group: nat)
    | Close(group: nat)
    | End

  type Pattern = seq<Item>

  /** A literal: the alternation of a single word. */
  function Word(w: string): Item {
    Alt([w])
  }

  function ItemSize(it: Item): nat
    decreases it
  {
    match it
    case Opt(body) => 1 + PatternSize(body)
    case _ => 1
  }

  function PatternSize(p: Pattern): nat
    decreases p
  {
    if p == [] then 0 else ItemSize(p[0]) + PatternSize(p[1..])
  }

  lemma {:induction false} SizeAppend(p: Pattern, q: Pattern)
    ensures PatternSize(p + q) == PatternSize(p) + PatternSize(q)
    decreases |p|
  {
    if p != [] {
      assert (p + q)[0] == p[0];
      assert (p + q)[1..] == p[1..] + q;
      SizeAppend(p[1..], q);
      assert PatternSize(p + q) == ItemSize(p[0]) + PatternSize(p[1..] + q);
      assert PatternSize(p) == ItemSize(p[0]) + PatternSize(p[1..]);
    } else {
      assert p + q == q;
    }
  }

  // ---------------------------------------------------------------------
  // Character-level tests

  /** `w` occurs at `s[i..]`, ignoring ASCII case. */
  predicate LitAt(s: string, i: nat, w: string)
    decreases |w|
  {
    if w == [] then i <= |s|
    else i < |s| && Lower(s[i]) == Lower(w[0]) && LitAt(s, i + 1, w[1..])
  }

  lemma {:induction false} LitAtMeans(s: string, i: nat, w: string)
    ensures LitAt(s, i, w) <==> i + |w| <= |s| && EqualsIgnoreCase(s[i..i + |w|], w)
    decreases |w|
  {
    if w != [] {
      LitAtMeans(s, i + 1, w[1..]);
      if i + |w| <= |s| {
        var a := s[i..i + |w|];
        assert a[1..] == s[i + 1..i + 1 + |w[1..]|];
        if EqualsIgnoreCase(a, w) {
          assert Lower(a[0]) == Lower(w[0]);
          forall k | 0 <= k < |w| - 1 ensures Lower(a[1..][k]) == Lower(w[1..][k]) {
            assert a[1..][k] == a[k + 1] && w[1..][k] == w[k + 1];
          }
        }
        if LitAt(s, i, w) {
          forall k | 0 <= k < |w| ensures Lower(a[k]) == Lower(w[k]) {
            if k > 0 {
              assert a[k] == a[1..][k - 1] && w[k] == w[1..][k - 1];
            }
          }
        }
      }
    }
  }

  /** `$`: at the end of the subject, or just before a final newline. */
  predicate AtEnd(s: string, i: nat) {
    i == |s| || (i + 1 == |s| && s[i] == '\n')
  }

  /** Every character of `s[i..i + n]` exists and belongs to `cls`. */
  predicate RunOf(s: string, i: nat, n: nat, cls: CharClass) {
    i + n <= |s| && forall k {:trigger InClass(s[k], cls)} :: i <= k < i + n ==> InClass(s[k], cls)
  }

  /** Length of the longest run of `cls` characters starting at `i`. */
  function RunLength(s: string, i: nat, cls: CharClass): (n: nat)
    ensures i <= |s| ==> RunOf(s, i, n, cls)
    ensures i + n >= |s| || !InClass(s[i + n], cls)
    decreases |s| - i
  {
    if i < |s| && InClass(s[i], cls) then
      var m := RunLength(s, i + 1, cls);
      1 + m
    else 0
  }

  /** A run of length `n` is available exactly when `n` is at most the longest one. */
  lemma RunOfIff(s: string, i: nat, n: nat, cls: CharClass)
    requires i <= |s|
    ensures RunOf(s, i, n, cls) <==> n <= RunLength(s, i, cls)
  {
    var m := RunLength(s, i, cls);
    if n <= m {
      assert RunOf(s, i, m, cls);
    }
  }

  // ---------------------------------------------------------------------
  // Declarative meaning: traces, acceptance and preference

  /** Least number of characters item `it` must consume. */
  function MinCount(it: Item): nat {
    if it.Rep? && it.atLeastOne then 1 else 0
  }

  /** Choice `c` is possible for the first item of `p` at position `i`. */
  predicate Valid(s: string, i: nat, p: Pattern, c: nat)
    requires p != []
  {
    match p[0]
    case Alt(words) => c < |words| && LitAt(s, i, words[c])
    case Rep(cls, _, _) => c >= MinCount(p[0]) && RunOf(s, i, c, cls)
    case Opt(_) => c <= 1
    case End => c == 0 && AtEnd(s, i)
    case _ => c == 0
  }

  /** The position after choice `c` for the first item of `p`. */
  function Step(p: Pattern, i: nat, c: nat): nat
    requires p != []
  {
    match p[0]
    case Alt(words) => if c < |words| then i + |words[c]| else i
    case Rep(_, _, _) => i + c
    case _ => i
  }

  /** The pattern still to match after choice `c` for its first item. */
  function Next(p: Pattern, c: nat): Pattern
    requires p != []
  {
    match p[0]
    case Opt(body) => if c == 0 then body + p[1..] else p[1..]
    case _ => p[1..]
  }

  /**
    Trace `t` matches `p` at position `i`: one choice per item met, where a
    repetition's choice is its count, an alternation's is the word's index,
    and an optional group's is 0 when taken and 1 when skipped.
  */
  predicate Accepts(s: string, i: nat, p: Pattern, t: seq<nat>)
    decreases |t|
  {
    if p == [] then t == []
    else t != [] && Valid(s, i, p, t[0]) && Accepts(s, Step(p, i, t[0]), Next(p, t[0]), t[1..])
  }

  /** A trace accepted by a repetition and then `q`: a run of the class, then a trace `q` accepts. */
  lemma AcceptsRepHead(s: string, i: nat, cls: CharClass, one: bool, greedy: bool, q: Pattern, t: seq<nat>)
    requires Accepts(s, i, [Rep(cls, one, greedy)] + q, t)
    ensures t != [] && (one ==> t[0] >= 1) && RunOf(s, i, t[0], cls) && Accepts(s, i + t[0], q, t[1..])
  {
    assert ([Rep(cls, one, greedy)] + q)[1..] == q;
  }

  /** A trace accepted by a group boundary and then `q`: a zero choice, then a trace `q` accepts. */
  lemma AcceptsMarkHead(s: string, i: nat, it: Item, q: Pattern, t: seq<nat>)
    requires (it.Open? || it.Close?) && Accepts(s, i, [it] + q, t)
    ensures t != [] && t[0] == 0 && Accepts(s, i, q, t[1..])
  {
    assert ([it] + q)[1..] == q;
  }

  /** Which of two different choices for item `it` the engine tries first. */
  predicate Prefer(it: Item, a: nat, b: nat) {
    match it
    case Rep(_, _, greedy) => if greedy then a > b else a < b
    case Opt(_) => a < b
    case Alt(_) => a < b
    case _ => false
  }

  /** `t1` is tried before `t2`: at their first difference, `t1`'s choice is preferred. */
  predicate Before(p: Pattern, t1: seq<nat>, t2: seq<nat>)
    decreases |t1|
  {
    p != [] && t1 != [] && t2 != [] &&
    if t1[0] != t2[0] then Prefer(p[0], t1[0], t2[0])
    else Before(Next(p, t1[0]), t1[1..], t2[1..])
  }

  /** `t` is the accepted trace no other accepted trace precedes. */
  ghost predicate First(s: string, i: nat, p: Pattern, t: seq<nat>) {
    Accepts(s, i, p, t) && forall u :: Accepts(s, i, p, u) ==> !Before(p, u, t)
  }

  // ---------------------------------------------------------------------
  // The backtracking engine

  function Prepend(c: nat, r: Option<seq<nat>>): Option<seq<nat>> {
    match r
    case None => None
    case Some(t) => Some([c] + t)
  }

  lemma TailSmaller(p: Pattern)
    requires p != []
    ensures PatternSize(p[1..]) < PatternSize(p)
  {
  }

  lemma NextSmaller(p: Pattern, c: nat)
    requires p != [] && (p[0].Opt? ==> c <= 1)
    ensures PatternSize(Next(p, c)) < PatternSize(p)
  {
    if p[0].Opt? && c == 0 {
      SizeAppend(p[0].body, p[1..]);
    }
  }

  /** The engine: the first trace found by trying each item's choices in preference order. */
  function Search(s: string, i: nat, p: Pattern): Option<seq<nat>>
    decreases PatternSize(p), 1, 0
  {
    if p == [] then Some([])
    else
      match p[0]
      case Alt(_) => Branches(s, i, p, 0)
      case Rep(cls, _, greedy) =>
        if greedy then Greedy(s, i, p, RunLength(s, i, cls)) else Lazy(s, i, p, MinCount(p[0]))
      case Opt(_) =>
        NextSmaller(p, 0);
        NextSmaller(p, 1);
        if Search(s, i, Next(p, 0)).Some? then Prepend(0, Search(s, i, Next(p, 0)))
        else Prepend(1, Search(s, i, Next(p, 1)))
      case End => if AtEnd(s, i) then Prepend(0, Search(s, i, p[1..])) else None
      case _ => Prepend(0, Search(s, i, p[1..]))
  }

  /** Alternation: words `j`, `j + 1`, ... in turn. */
  function Branches(s: string, i: nat, p: Pattern, j: nat): Option<seq<nat>>
    requires p != [] && p[0].Alt?
    decreases PatternSize(p), 0, |p[0].words| - j
  {
    TailSmaller(p);
    if j >= |p[0].words| then None
    else if LitAt(s, i, p[0].words[j]) && Search(s, i + |p[0].words[j]|, p[1..]).Some? then
      Prepend(j, Search(s, i + |p[0].words[j]|, p[1..]))
    else Branches(s, i, p, j + 1)
  }

  /** Greedy repetition: counts `l`, `l - 1`, ... down to the minimum. */
  function Greedy(s: string, i: nat, p: Pattern, l: nat): Option<seq<nat>>
    requires p != [] && p[0].Rep?
    decreases PatternSize(p), 0, l
  {
    TailSmaller(p);
    if l < MinCount(p[0]) then None
    else if Search(s, i + l, p[1..]).Some? then Prepend(l, Search(s, i + l, p[1..]))
    else if l == 0 then None
    else Greedy(s, i, p, l - 1)
  }

  /** Lazy repetition: counts `l`, `l + 1`, ... up to the longest run. */
  function Lazy(s: string, i: nat, p: Pattern, l: nat): Option<seq<nat>>
    requires p != [] && p[0].Rep?
    decreases PatternSize(p), 0, RunLength(s, i, p[0].cls) - l
  {
    TailSmaller(p);
    if l > RunLength(s, i, p[0].cls) then None
    else if Search(s, i + l, p[1..]).Some? then Prepend(l, Search(s, i + l, p[1..]))
    else Lazy(s, i, p, l + 1)
  }

  // ---------------------------------------------------------------------
  // Capture groups

  /**
    The spans of the capture groups along trace `t`, given the groups opened
    so far and the spans recorded so far; a group closed again replaces its
    earlier span, as Python keeps the last one.
  */
  function Spans(p: Pattern, t: seq<nat>, i: nat, open: map<nat, nat>, acc: map<nat, (nat, nat)>): map<nat, (nat, nat)>
    decreases |t|
  {
    if p == [] || t == [] then acc
    else
      var c := t[0];
      var j := Step(p, i, c);
      match p[0]
      case Open(n) => Spans(Next(p, c), t[1..], j, open[n := i], acc)
      case Close(n) => Spans(Next(p, c), t[1..], j, open, if n in open then acc[n := (open[n], i)] else acc)
      case _ => Spans(Next(p, c), t[1..], j, open, acc)
  }
}

=== FILE: remove_commands.dfy ===
/**
  The commands that remove: `rmdir` and `delete`
  (`agentic_system/commands/basic/{rmdir,delete}.py`).
*/
module RemoveCommands {
  import opened Common
  import opened FileSystem

  /** The state without `d` and everything inside it (`shutil.rmtree`). */
  function RemoveTree(fs: FS, d: Path): (r: FS)
    ensures forall q :: q in r <==> q in fs && q != d && !Below(d, q)
    ensures forall q | q in r :: r[q] == fs[q]
  {
    map q | q in fs && q != d && !Below(d, q) :: fs[q]
  }

  /** The state without what is inside `d`, `d` kept. */
  function RemoveInside(fs: FS, d: Path): (r: FS)
    ensures forall q :: q in r <==> q in fs && !Below(d, q)
    ensures forall q | q in r :: r[q] == fs[q]
  {
    map q | q in fs && !Below(d, q) :: fs[q]
  }

  /** Removing a whole subtree other than the working directory keeps the state well-formed. */
  lemma RemoveTreeWellFormed(fs: FS, d: Path)
    requires WellFormed(fs) && d != []
    ensures WellFormed(RemoveTree(fs, d))
  {
    var r := RemoveTree(fs, d);
    forall q | q in r && q != [] ensures IsDir(r, Parent(q)) {
      if Parent(q) == d || Below(d, Parent(q)) {
        BelowParent(d, q);
      }
    }
  }

  lemma RemoveInsideWellFormed(fs: FS, d: Path)
    requires WellFormed(fs)
    ensures WellFormed(RemoveInside(fs, d))
  {
    var r := RemoveInside(fs, d);
    forall q | q in r && q != [] ensures IsDir(r, Parent(q)) {
      if Below(d, Parent(q)) {
        BelowParent(d, q);
      }
    }
  }

  /** A directory of a well-formed state is empty exactly when nothing sits directly in it. */
  lemma EmptyIffNoChild(fs: FS, d: Path)
    requires WellFormed(fs)
    ensures Inside(fs, d) == {} <==> forall n :: d + [n] !in fs
  {
    if q :| q in Inside(fs, d) {
      ChildOnTheWay(fs, d, q);
    }
    forall n | d + [n] in fs ensures d + [n] in Inside(fs, d) {
      BelowParent(d, d + [n]);
    }
  }

  // ---------------------------------------------------------------------
  // rmdir

  /** `os.rmdir(d)` on a directory: "." cannot be removed, and a directory with entries cannot either. */
  function RemoveEmptyDir(fs: FS, d: Path): (r: Result<FS>)
    ensures r.Ok? <==> d != [] && Inside(fs, d) == {}
    ensures r.Ok? ==> r.value == fs - {d}
  {
    if d == [] then Err(OsError(InvalidArgument, d))
    else if Inside(fs, d) != {} then Err(OsError(NotEmpty, d))
    else Ok(fs - {d})
  }

  /** `RmdirCommand(path, force).execute()`. */
  function Rmdir(fs: FS, d: Path, force: bool): (r: Reply)
    ensures r.Returns?
    ensures !IsDir(fs, d) ==> r == Returns("Directory not found: " + Display(d), fs)
    ensures IsDir(fs, d) && force && d != [] ==> r == Returns("Directory and contents removed: " + Display(d), RemoveTree(fs, d))
    ensures IsDir(fs, d) && force && d == [] ==>
      r == Returns("Error removing directory: " + OsError(InvalidArgument, d), RemoveInside(fs, d))
    ensures IsDir(fs, d) && !force && d != [] && Inside(fs, d) == {} ==> r == Returns("Empty directory removed: " + Display(d), fs - {d})
    ensures IsDir(fs, d) && !force && d == [] ==> r == Returns("Error removing directory: " + OsError(InvalidArgument, d), fs)
    ensures IsDir(fs, d) && !force && d != [] && Inside(fs, d) != {} ==> r == Returns("Error removing directory: " + OsError(NotEmpty, d), fs)
  {
    if !IsDir(fs, d) then Returns("Directory not found: " + Display(d), fs)
    else if force then
      if d == [] then Returns("Error removing directory: " + OsError(InvalidArgument, d), RemoveInside(fs, d))
      else Returns("Directory and contents removed: " + Display(d), RemoveTree(fs, d))
    else
      match RemoveEmptyDir(fs, d)
      case Ok(fs2) => Returns("Empty directory removed: " + Display(d), fs2)
      case Err(e) => Returns("Error removing directory: " + e, fs)
  }

  /** Whatever `rmdir` does, it leaves a well-formed state and touches nothing outside the directory. */
  lemma RmdirFrame(fs: FS, d: Path, force: bool)
    requires WellFormed(fs)
    ensures WellFormed(Rmdir(fs, d, force).fs)
    ensures forall q | q in fs && q != d && !Below(d, q) :: q in Rmdir(fs, d, force).fs && Rmdir(fs, d, force).fs[q] == fs[q]
    ensures forall q | q in Rmdir(fs, d, force).fs :: q in fs
  {
    var r := Rmdir(fs, d, force).fs;
    if !IsDir(fs, d) {
      assert r == fs;
    } else if force && d == [] {
      assert r == RemoveInside(fs, d);
      RemoveInsideWellFormed(fs, d);
    } else if force {
      assert r == RemoveTree(fs, d);
      RemoveTreeWellFormed(fs, d);
    } else if d != [] && Inside(fs, d) == {} {
      assert r == fs - {d};
      RemoveLeafWellFormed(fs, d);
    } else {
      assert r == fs;
    }
  }

  /**
    Without force, a directory below the working directory that holds
    anything is left as it was; the working directory itself is refused
    as an invalid argument before its contents matter.
  */
  lemma RmdirKeepsNonEmpty(fs: FS, d: Path, n: string)
    requires IsDir(fs, d) && d != [] && d + [n] in fs
    ensures Rmdir(fs, d, false) == Returns("Error removing directory: " + OsError(NotEmpty, d), fs)
  {
    BelowParent(d, d + [n]);
    assert d + [n] in Inside(fs, d);
  }

  // ---------------------------------------------------------------------
  // delete

  /** `DeleteCommand(path).execute()`. */
  function Delete(fs: FS, p: Path): (r: Reply)
    ensures r.Returns?
    ensures IsFile(fs, p) ==> r == Returns("Deleted file: " + Display(p), fs - {p})
    ensures IsDir(fs, p) && p != [] && Inside(fs, p) == {} ==> r == Returns("Deleted directory: " + Display(p), fs - {p})
    ensures IsDir(fs, p) && p == [] ==> r == Returns("Error deleting: " + OsError(InvalidArgument, p), fs)
    ensures IsDir(fs, p) && p != [] && Inside(fs, p) != {} ==> r == Returns("Error deleting: " + OsError(NotEmpty, p), fs)
    ensures p !in fs ==> r == Returns("Path not found: " + Display(p), fs)
  {
    if IsFile(fs, p) then Returns("Deleted file: " + Display(p), fs - {p})
    else if IsDir(fs, p) then
      match RemoveEmptyDir(fs, p)
      case Ok(fs2) => Returns("Deleted directory: " + Display(p), fs2)
      case Err(e) => Returns("Error deleting: " + e, fs)
    else Returns("Path not found: " + Display(p), fs)
  }

  /** At most the one path is removed, nothing is added, and the state stays well-formed. */
  lemma DeleteRemovesAtMostOne(fs: FS, p: Path)
    requires WellFormed(fs)
    ensures Delete(fs, p).fs == fs || Delete(fs, p).fs == fs - {p}
    ensures WellFormed(Delete(fs, p).fs)
  {
    var r := Delete(fs, p);
    if r.fs != fs {
      if IsFile(fs, p) {
        FileHoldsNothing(fs, p);
      }
      RemoveLeafWellFormed(fs, p);
    }
  }
}

=== FILE: rmdir_form.dfy ===
/**
  The pattern of the rmdir recogniser,
  `(?:k0|k1|...)\s+(.+?)(?:\s+(w0|w1|...))?$`, and its explicit reading: on
  an instruction without a newline, the first keyword that fits (as for the
  keyword-prefix shape) opens the match; the instruction carries a flag
  exactly when it ends with white space and a flag word and some visible
  text stands between the keyword and that white space; the path is the
  text between the keyword and the flag (or the end), stripped.

  The proof follows the backtracking engine itself: the lazy `(.+?)` stops
  at the first position after its first character where the optional flag
  and `$` can both succeed.
*/
module RmdirForm {
  import opened Common
  import opened PyText
  import opened Regex
  import opened PyRe
  import opened PrefixForm

  /** `(force|recursively)` of the rmdir recogniser. */
  const RmdirFlags: seq<string> := ["force", "recursively"]

  /** `\s+(w0|w1|...)` */
  function Flag(fws: seq<string>): Pattern {
    [Rep(Space, true, true), Open(2), Alt(fws), Close(2)]
  }

  /** The flag taken, then `$`. */
  function FlagThenEnd(fws: seq<string>): Pattern {
    [Rep(Space, true, true), Open(2), Alt(fws), Close(2), End]
  }

  function FlagWordEnd(fws: seq<string>): Pattern {
    [Alt(fws), Close(2), End]
  }

  /** `(?:\s+(w0|w1|...))?$` */
  function OptFlagEnd(fws: seq<string>): Pattern {
    [Opt(Flag(fws)), End]
  }

  function CloseThenEnd(fws: seq<string>): Pattern {
    [Close(1)] + OptFlagEnd(fws)
  }

  function LazyRest(fws: seq<string>): Pattern {
    [Rep(AnyButNewline, true, false)] + CloseThenEnd(fws)
  }

  /** `(.+?)(?:\s+(w0|w1|...))?$` */
  function PathGroup(fws: seq<string>): Pattern {
    [Open(1)] + LazyRest(fws)
  }

  /** `\s+(.+?)(?:\s+(w0|w1|...))?$`, what follows the keyword. */
  function PathTail(fws: seq<string>): Pattern {
    [Rep(Space, true, true)] + PathGroup(fws)
  }

  /** `(?:k0|k1|...)\s+(.+?)(?:\s+(w0|w1|...))?$` */
  function RmdirPattern(kws: seq<string>, fws: seq<string>): Pattern {
    [Alt(kws)] + PathTail(fws)
  }

  /**
    Flag words the reading below is right for: none is empty or begins with
    white space, and no two end in the same letter (ignoring case), so at
    most one of them can end a line.
  */
  predicate FlagWordsFit(fws: seq<string>) {
    && (forall k :: 0 <= k < |fws| ==> fws[k] != [] && !IsSpace(Lower(fws[k][0])))
    && (forall k1, k2 :: 0 <= k1 < k2 < |fws| && fws[k1] != [] && fws[k2] != [] ==>
          Lower(fws[k1][|fws[k1]| - 1]) != Lower(fws[k2][|fws[k2]| - 1]))
  }

  lemma RmdirFlagsFit()
    ensures FlagWordsFit(RmdirFlags)
  {
  }

  // ---------------------------------------------------------------------
  // The explicit reading

  /**
    Flag word `w` ends `s` with a white-space character before it, and the
    text from just after the keyword's white space (`a + 1`) up to the flag
    is not all white space.
  */
  predicate FlagAfter(s: string, a: nat, w: string) {
    && a + 1 + |w| < |s|
    && LitAt(s, |s| - |w|, w)
    && IsSpace(s[|s| - |w| - 1])
    && Strip(s[a + 1..|s| - |w|]) != []
  }

  /** The first flag word, from index `k` on, that ends the instruction as the reading requires. */
  function FlagIndex(s: string, a: nat, fws: seq<string>, k: nat): (r: Option<nat>)
    ensures r.Some? ==> k <= r.value < |fws| && FlagAfter(s, a, fws[r.value])
    ensures forall m {:trigger FlagAfter(s, a, fws[m])} :: k <= m < |fws| && (r.None? || m < r.value) ==> !FlagAfter(s, a, fws[m])
    decreases |fws| - k
  {
    if k >= |fws| then None
    else if FlagAfter(s, a, fws[k]) then Some(k)
    else FlagIndex(s, a, fws, k + 1)
  }

  /**
    The explicit reading: the path, stripped, and whether a flag was given;
    `None` when no keyword fits.
  */
  function RmdirArgs(s: string, kws: seq<string>, fws: seq<string>): (r: Option<(string, bool)>)
    ensures r.Some? <==> FirstFit(s, kws, 0).Some?
    ensures r.Some? ==> Stripped(r.value.0)
  {
    match FirstFit(s, kws, 0)
    case None => None
    case Some(j) =>
      var a := |kws[j]|;
      match FlagIndex(s, a, fws, 0)
      case Some(k) => Some((Strip(s[a + 1..|s| - |fws[k]|]), true))
      case None => Some((Strip(s[a + 1..]), false))
  }

  // ---------------------------------------------------------------------
  // Runs of the engine, for any pattern

  /** A greedy repetition fails when the rest fails after every count it may try. */
  lemma {:induction false} GreedyNone(s: string, i: nat, p: Pattern, l: nat)
    requires p != [] && p[0].Rep?
    requires forall x :: i + MinCount(p[0]) <= x <= i + l ==> Search(s, x, p[1..]).None?
    ensures Greedy(s, i, p, l) == None
    decreases l
  {
    if l >= MinCount(p[0]) && l > 0 {
      GreedyNone(s, i, p, l - 1);
    }
  }

  /** A lazy repetition stops at the first count, from `l` up, after which the rest succeeds. */
  lemma {:induction false} LazyStops(s: string, i: nat, p: Pattern, l: nat, n: nat)
    requires p != [] && p[0].Rep?
    requires l <= n <= RunLength(s, i, p[0].cls) && Search(s, i + n, p[1..]).Some?
    requires forall x :: i + l <= x < i + n ==> Search(s, x, p[1..]).None?
    ensures Lazy(s, i, p, l) == Prepend(n, Search(s, i + n, p[1..]))
    decreases n - l
  {
    if l < n {
      LazyStops(s, i, p, l + 1, n);
    }
  }

  /** An alternation takes the first word, from `j0` on, that occurs and after which the rest succeeds. */
  lemma {:induction false} BranchesStops(s: string, i: nat, p: Pattern, j0: nat, j: nat)
    requires p != [] && p[0].Alt? && j0 <= j < |p[0].words|
    requires LitAt(s, i, p[0].words[j]) && Search(s, i + |p[0].words[j]|, p[1..]).Some?
    requires forall m :: j0 <= m < j ==> !LitAt(s, i, p[0].words[m]) || Search(s, i + |p[0].words[m]|, p[1..]).None?
    ensures Branches(s, i, p, j0) == Prepend(j, Search(s, i + |p[0].words[j]|, p[1..]))
    decreases j - j0
  {
    if j0 < j {
      BranchesStops(s, i, p, j0 + 1, j);
    }
  }

  /** An alternation fails when no word from `j0` on both occurs and lets the rest succeed. */
  lemma {:induction false} BranchesNone(s: string, i: nat, p: Pattern, j0: nat)
    requires p != [] && p[0].Alt?
    requires forall m :: j0 <= m < |p[0].words| ==> !LitAt(s, i, p[0].words[m]) || Search(s, i + |p[0].words[m]|, p[1..]).None?
    ensures Branches(s, i, p, j0) == None
    decreases |p[0].words| - j0
  {
    if j0 < |p[0].words| {
      BranchesNone(s, i, p, j0 + 1);
    }
  }

  /** On a line without a newline, `.` runs to the end. */
  lemma {:induction false} RunToEnd(s: string, b: nat)
    requires '\n' !in s && b <= |s|
    ensures RunLength(s, b, AnyButNewline) == |s| - b
    decreases |s| - b
  {
    if b < |s| {
      assert s[b] in s;
      RunToEnd(s, b + 1);
    }
  }

  // ---------------------------------------------------------------------
  // The flag and the end

  /** `$` on a line without a newline: only at the very end. */
  lemma EndSearch(s: string, y: nat)
    requires '\n' !in s && y <= |s|
    ensures Search(s, y, [End]) == if y == |s| then Some([0]) else None
  {
    if y < |s| {
      assert s[y] in s;
    } else {
      assert [End][1..] == [];
      assert Search(s, y, []) == Some([]);
      assert [0] + [] == [0];
    }
  }

  lemma CloseEndSearch(s: string, y: nat)
    requires '\n' !in s && y <= |s|
    ensures Search(s, y, [Close(2), End]) == if y == |s| then Some([0, 0]) else None
  {
    EndSearch(s, y);
    assert [Close(2), End][1..] == [End];
    assert [0] + [0] == [0, 0];
  }

  /** The first flag word, from index `k` on, that begins at `x` and ends the line. */
  function WordEnding(s: string, x: nat, fws: seq<string>, k: nat): (r: Option<nat>)
    ensures r.Some? ==> k <= r.value < |fws| && LitAt(s, x, fws[r.value]) && x + |fws[r.value]| == |s|
    ensures forall m {:trigger LitAt(s, x, fws[m])} :: k <= m < |fws| && (r.None? || m < r.value) ==> !LitAt(s, x, fws[m]) || x + |fws[m]| != |s|
    decreases |fws| - k
  {
    if k >= |fws| then None
    else if LitAt(s, x, fws[k]) && x + |fws[k]| == |s| then Some(k)
    else WordEnding(s, x, fws, k + 1)
  }

  lemma WordEndSearch(s: string, x: nat, fws: seq<string>)
    requires '\n' !in s && x <= |s|
    ensures Search(s, x, FlagWordEnd(fws)) ==
      if WordEnding(s, x, fws, 0).Some? then Some([WordEnding(s, x, fws, 0).value, 0, 0]) else None
  {
    var p := FlagWordEnd(fws);
    assert p[1..] == [Close(2), End];
    forall m | 0 <= m < |fws| && LitAt(s, x, fws[m])
      ensures Search(s, x + |fws[m]|, p[1..]).Some? <==> x + |fws[m]| == |s|
    {
      LitAtBound(s, x, fws[m]);
      CloseEndSearch(s, x + |fws[m]|);
    }
    match WordEnding(s, x, fws, 0)
    case Some(k) =>
      BranchesStops(s, x, p, 0, k);
      CloseEndSearch(s, x + |fws[k]|);
      assert [k] + [0, 0] == [k, 0, 0];
    case None =>
      BranchesNone(s, x, p, 0);
  }

  /** A flag word cannot begin on a white-space character. */
  lemma NoFlagOnSpace(s: string, x: nat, fws: seq<string>)
    requires FlagWordsFit(fws) && x < |s| && IsSpace(s[x])
    ensures WordEnding(s, x, fws, 0).None?
  {
  }

  /** `\s+(w0|w1|...)$` matches at `c`: white space, then a flag word that ends the line. */
  predicate FlagsAt(s: string, c: nat, fws: seq<string>) {
    var r := RunLength(s, c, Space);
    c <= |s| && r >= 1 && WordEnding(s, c + r, fws, 0).Some?
  }

  lemma OpenWordSearch(s: string, x: nat, fws: seq<string>)
    ensures Search(s, x, FlagThenEnd(fws)[1..]) == Prepend(0, Search(s, x, FlagWordEnd(fws)))
  {
    assert FlagThenEnd(fws)[1..][1..] == FlagWordEnd(fws);
  }

  /** `\s+(w0|w1|...)$` where it matches: the whole white-space run, then the flag word. */
  lemma FlagFound(s: string, c: nat, fws: seq<string>)
    requires '\n' !in s && FlagsAt(s, c, fws)
    ensures var r := RunLength(s, c, Space);
      Search(s, c, FlagThenEnd(fws)) == Some([r, 0, WordEnding(s, c + r, fws, 0).value, 0, 0])
  {
    var r := RunLength(s, c, Space);
    var wi := WordEnding(s, c + r, fws, 0).value;
    assert Search(s, c, FlagThenEnd(fws)) == Greedy(s, c, FlagThenEnd(fws), r);
    OpenWordSearch(s, c + r, fws);
    WordEndSearch(s, c + r, fws);
    assert [0] + [wi, 0, 0] == [0, wi, 0, 0];
    assert Search(s, c + r, FlagThenEnd(fws)[1..]) == Some([0, wi, 0, 0]);
    assert [r] + [0, wi, 0, 0] == [r, 0, wi, 0, 0];
  }

  lemma FlagMissing(s: string, c: nat, fws: seq<string>)
    requires '\n' !in s && FlagWordsFit(fws) && c <= |s| && !FlagsAt(s, c, fws)
    ensures Search(s, c, FlagThenEnd(fws)) == None
  {
    var r := RunLength(s, c, Space);
    var p := FlagThenEnd(fws);
    assert Search(s, c, p) == Greedy(s, c, p, r);
    if r >= 1 {
      forall x | c + 1 <= x <= c + r ensures Search(s, x, p[1..]).None? {
        OpenWordSearch(s, x, fws);
        if x < c + r {
          assert InClass(s[x], Space);
          NoFlagOnSpace(s, x, fws);
        }
        WordEndSearch(s, x, fws);
      }
      GreedyNone(s, c, p, r);
    }
  }

  /** What follows `(.+?)` when it stops at `c`: the flag taken, or skipped at the end. */
  function StopTrace(s: string, c: nat, fws: seq<string>): seq<nat> {
    if FlagsAt(s, c, fws) then
      var r := RunLength(s, c, Space);
      [0, 0, r, 0, WordEnding(s, c + r, fws, 0).value, 0, 0]
    else [0, 1, 0]
  }

  lemma ClosedSearch(s: string, c: nat, fws: seq<string>)
    requires '\n' !in s && FlagWordsFit(fws) && c <= |s|
    ensures Search(s, c, CloseThenEnd(fws)) ==
      if FlagsAt(s, c, fws) || c == |s| then Some(StopTrace(s, c, fws)) else None
  {
    var p := OptFlagEnd(fws);
    assert CloseThenEnd(fws)[1..] == p;
    assert Next(p, 0) == FlagThenEnd(fws) by {
      assert Flag(fws) + [End] == FlagThenEnd(fws);
    }
    assert Next(p, 1) == [End];
    EndSearch(s, c);
    if FlagsAt(s, c, fws) {
      FlagFound(s, c, fws);
      var r := RunLength(s, c, Space);
      var wi := WordEnding(s, c + r, fws, 0).value;
      assert Search(s, c, p) == Some([0] + [r, 0, wi, 0, 0]);
      assert [0] + ([0] + [r, 0, wi, 0, 0]) == [0, 0, r, 0, wi, 0, 0];
    } else {
      FlagMissing(s, c, fws);
      if c == |s| {
        assert Search(s, c, p) == Some([1] + [0]);
        assert [0] + ([1] + [0]) == [0, 1, 0];
      }
    }
  }

  /** The first position from `c` on where `(.+?)` may stop: before a final flag, or at the end. */
  function FirstStop(s: string, c: nat, fws: seq<string>): (e: nat)
    requires c <= |s|
    ensures c <= e <= |s| && (e == |s| || FlagsAt(s, e, fws))
    ensures forall m :: c <= m < e ==> !FlagsAt(s, m, fws)
    decreases |s| - c
  {
    if c == |s| || FlagsAt(s, c, fws) then c else FirstStop(s, c + 1, fws)
  }

  // ---------------------------------------------------------------------
  // The engine on the rmdir pattern

  /** `(.+?)...$` from a position before the end: the group runs to the first place it may stop. */
  lemma PathSearch(s: string, b: nat, fws: seq<string>)
    requires '\n' !in s && FlagWordsFit(fws) && b < |s|
    ensures var c := FirstStop(s, b + 1, fws);
      Search(s, b, PathGroup(fws)) == Some([0, c - b] + StopTrace(s, c, fws))
  {
    var c := FirstStop(s, b + 1, fws);
    ClosedSearch(s, c, fws);
    NoStopBefore(s, b, c, fws);
    PathStopsAt(s, b, c, fws);
  }

  /** `(.+?)...$` from `b` when the rest first succeeds at `c`. */
  lemma PathStopsAt(s: string, b: nat, c: nat, fws: seq<string>)
    requires '\n' !in s && b < c <= |s| && Search(s, c, CloseThenEnd(fws)).Some?
    requires forall x :: b + 1 <= x < c ==> Search(s, x, CloseThenEnd(fws)).None?
    ensures Search(s, b, PathGroup(fws)) == Some([0, c - b] + Search(s, c, CloseThenEnd(fws)).value)
  {
    var tr := Search(s, c, CloseThenEnd(fws)).value;
    LazyPart(s, b, c, fws);
    OpenPath(s, b, fws);
    assert [0] + ([c - b] + tr) == [0, c - b] + tr;
  }

  /** `(` records the group and leaves the search to `.+?`. */
  lemma OpenPath(s: string, b: nat, fws: seq<string>)
    ensures Search(s, b, PathGroup(fws)) == Prepend(0, Search(s, b, LazyRest(fws)))
  {
    assert PathGroup(fws)[1..] == LazyRest(fws);
  }

  /** `.+?` stops at the first place after one character where the rest succeeds. */
  lemma LazyPart(s: string, b: nat, c: nat, fws: seq<string>)
    requires '\n' !in s && b < c <= |s| && Search(s, c, CloseThenEnd(fws)).Some?
    requires forall x :: b + 1 <= x < c ==> Search(s, x, CloseThenEnd(fws)).None?
    ensures Search(s, b, LazyRest(fws)) == Some([c - b] + Search(s, c, CloseThenEnd(fws)).value)
  {
    var p := LazyRest(fws);
    assert p[1..] == CloseThenEnd(fws);
    RunToEnd(s, b);
    LazyStops(s, b, p, 1, c - b);
  }

  /** Before the first stopping point, `)...$` fails everywhere. */
  lemma NoStopBefore(s: string, b: nat, c: nat, fws: seq<string>)
    requires '\n' !in s && FlagWordsFit(fws) && b < |s| && c == FirstStop(s, b + 1, fws)
    ensures forall x :: b + 1 <= x < c ==> Search(s, x, CloseThenEnd(fws)).None?
  {
    forall x | b + 1 <= x < c ensures Search(s, x, CloseThenEnd(fws)).None? {
      ClosedSearch(s, x, fws);
    }
  }

  /** `(.+?)` needs a character. */
  lemma PathAtEnd(s: string, fws: seq<string>)
    ensures Search(s, |s|, PathGroup(fws)) == None
  {
    assert PathGroup(fws)[1..] == LazyRest(fws);
    assert Lazy(s, |s|, LazyRest(fws), 1) == None;
  }

  /** `\s+` takes `l` white-space characters, as after a keyword that fits, and the path group follows. */
  lemma TailSearch(s: string, a: nat, l: nat, fws: seq<string>)
    requires '\n' !in s && FlagWordsFit(fws) && 1 <= l && a + l < |s|
    requires l == RunLength(s, a, Space) || (l < RunLength(s, a, Space) && a + l + 1 == |s|)
    ensures Search(s, a + l, PathGroup(fws)).Some?
    ensures Search(s, a, PathTail(fws)) == Some([l] + Search(s, a + l, PathGroup(fws)).value)
  {
    var p := PathTail(fws);
    assert p[1..] == PathGroup(fws);
    PathSearch(s, a + l, fws);
    var n := RunLength(s, a, Space);
    assert Search(s, a, p) == Greedy(s, a, p, n);
    if l < n {
      assert n == l + 1;
      PathAtEnd(s, fws);
      assert Search(s, a + n, p[1..]) == None;
      assert Greedy(s, a, p, n) == Greedy(s, a, p, l);
    }
  }

  /** Without a white-space character and one more character after it, `\s+(.+?)` fails. */
  lemma TailFails(s: string, a: nat, fws: seq<string>)
    requires !(a + 2 <= |s| && IsSpace(s[a]))
    ensures Search(s, a, PathTail(fws)) == None
  {
    var p := PathTail(fws);
    assert p[1..] == PathGroup(fws);
    var n := RunLength(s, a, Space);
    assert p[0] == Rep(Space, true, true);
    assert Search(s, a, p) == Greedy(s, a, p, n);
    if n >= 1 {
      assert InClass(s[a], Space);
      assert a + 1 == |s| && n == 1;
      PathAtEnd(s, fws);
      assert Search(s, a + 1, p[1..]) == None;
      assert Greedy(s, a, p, 1) == Greedy(s, a, p, 0);
    }
  }

  /** Whether `\s+(.+?)...$` succeeds after a keyword that occurs is whether the keyword fits. */
  lemma TailIffFits(s: string, k: string, fws: seq<string>)
    requires '\n' !in s && FlagWordsFit(fws) && LitAt(s, 0, k)
    ensures Search(s, |k|, PathTail(fws)).Some? <==> Fits(s, k)
  {
    LitAtBound(s, 0, k);
    var a := |k|;
    if Fits(s, k) {
      var n := RunLength(s, a, Space);
      assert InClass(s[a], Space);
      var l := if a + n < |s| then n else n - 1;
      TailSearch(s, a, l, fws);
    } else {
      TailFails(s, a, fws);
    }
  }

  /** When keyword `j` is the first that fits, the match takes it, the white space after it, and the path group. */
  lemma RmdirSearch(s: string, kws: seq<string>, fws: seq<string>, j: nat) returns (l: nat)
    requires '\n' !in s && FlagWordsFit(fws) && FirstFit(s, kws, 0) == Some(j)
    ensures 1 <= l && |kws[j]| + l < |s| && AllSpace(s[|kws[j]| + 1..|kws[j]| + l])
    ensures l == RunLength(s, |kws[j]|, Space) || (l < RunLength(s, |kws[j]|, Space) && |kws[j]| + l + 1 == |s|)
    ensures Search(s, |kws[j]| + l, PathGroup(fws)).Some?
    ensures Search(s, 0, RmdirPattern(kws, fws)) == Some([j, l] + Search(s, |kws[j]| + l, PathGroup(fws)).value)
  {
    var p := RmdirPattern(kws, fws);
    assert p[1..] == PathTail(fws);
    l := SpaceBeforeArgument(s, kws, j);
    var a := |kws[j]|;
    TailSearch(s, a, l, fws);
    forall m | 0 <= m < j ensures !LitAt(s, 0, kws[m]) || Search(s, |kws[m]|, p[1..]).None? {
      if LitAt(s, 0, kws[m]) {
        TailIffFits(s, kws[m], fws);
      }
    }
    assert p[0] == Alt(kws);
    BranchesStops(s, 0, p, 0, j);
    var v := Search(s, a + l, PathGroup(fws)).value;
    assert Search(s, 0, p) == Branches(s, 0, p, 0) == Some([j] + ([l] + v));
    assert [j] + ([l] + v) == [j, l] + v;
  }

  /** Without a keyword that fits, nothing matches. */
  lemma RmdirNoSearch(s: string, kws: seq<string>, fws: seq<string>)
    requires '\n' !in s && FlagWordsFit(fws) && FirstFit(s, kws, 0).None?
    ensures Search(s, 0, RmdirPattern(kws, fws)) == None
  {
    var p := RmdirPattern(kws, fws);
    assert p[1..] == PathTail(fws);
    forall m | 0 <= m < |kws| ensures !LitAt(s, 0, kws[m]) || Search(s, |kws[m]|, p[1..]).None? {
      if LitAt(s, 0, kws[m]) {
        TailIffFits(s, kws[m], fws);
      }
    }
    BranchesNone(s, 0, p, 0);
  }

  // ---------------------------------------------------------------------
  // The groups along the trace

  lemma SpansToClose(kws: seq<string>, fws: seq<string>, j: nat, l: nat, n: nat, tr: seq<nat>)
    requires j < |kws|
    ensures var b := |kws[j]| + l;
      Spans(RmdirPattern(kws, fws), [j, l] + ([0, n] + tr), 0, map[], map[]) == Spans(CloseThenEnd(fws), tr, b + n, map[1 := b], map[])
  {
    var a, b := |kws[j]|, |kws[j]| + l;
    var t := [j, l] + ([0, n] + tr);
    assert RmdirPattern(kws, fws)[1..] == PathTail(fws);
    assert PathTail(fws)[1..] == PathGroup(fws);
    assert PathGroup(fws)[1..] == LazyRest(fws);
    assert LazyRest(fws)[1..] == CloseThenEnd(fws);
    assert t[1..] == [l] + ([0, n] + tr);
    assert ([l] + ([0, n] + tr))[1..] == [0, n] + tr;
    assert ([0, n] + tr)[1..] == [n] + tr;
    assert ([n] + tr)[1..] == tr;
    calc {
      Spans(RmdirPattern(kws, fws), t, 0, map[], map[]);
      Spans(PathTail(fws), [l] + ([0, n] + tr), a, map[], map[]);
      Spans(PathGroup(fws), [0, n] + tr, b, map[], map[]);
      Spans(LazyRest(fws), [n] + tr, b, map[1 := b], map[]);
    }
  }

  lemma SpansFlag(fws: seq<string>, b: nat, c: nat, r: nat, wi: nat)
    requires wi < |fws|
    ensures Spans(CloseThenEnd(fws), [0, 0, r, 0, wi, 0, 0], c, map[1 := b], map[]) ==
      map[1 := (b, c), 2 := (c + r, c + r + |fws[wi]|)]
  {
    var o: map<nat, nat> := map[1 := b];
    var acc: map<nat, (nat, nat)> := map[1 := (b, c)];
    SpansTakeFlag(fws, r, wi, c, o, acc);
    SpansFlagRun(fws, r, wi, c, o, acc);
    SpansFlagWord(fws, wi, c + r, o, acc);
    assert acc[2 := (c + r, c + r + |fws[wi]|)] == map[1 := (b, c), 2 := (c + r, c + r + |fws[wi]|)];
  }

  /** `)` closes group 1 at `c`, and `(...)?` takes its body. */
  lemma SpansTakeFlag(fws: seq<string>, r: nat, wi: nat, c: nat, o: map<nat, nat>, acc: map<nat, (nat, nat)>)
    requires 1 in o && acc == map[1 := (o[1], c)]
    ensures Spans(CloseThenEnd(fws), [0, 0, r, 0, wi, 0, 0], c, o, map[]) == Spans(FlagThenEnd(fws), [r, 0, wi, 0, 0], c, o, acc)
  {
    assert CloseThenEnd(fws)[1..] == OptFlagEnd(fws);
    assert Next(OptFlagEnd(fws), 0) == FlagThenEnd(fws) by {
      assert Flag(fws) + [End] == FlagThenEnd(fws);
    }
    assert [0, 0, r, 0, wi, 0, 0][1..] == [0, r, 0, wi, 0, 0];
    assert [0, r, 0, wi, 0, 0][1..] == [r, 0, wi, 0, 0];
  }

  /** `\s+` takes the white space before the flag, and group 2 opens after it. */
  lemma SpansFlagRun(fws: seq<string>, r: nat, wi: nat, c: nat, o: map<nat, nat>, acc: map<nat, (nat, nat)>)
    ensures Spans(FlagThenEnd(fws), [r, 0, wi, 0, 0], c, o, acc) == Spans(FlagWordEnd(fws), [wi, 0, 0], c + r, o[2 := c + r], acc)
  {
    assert FlagThenEnd(fws)[1..] == [Open(2)] + FlagWordEnd(fws);
    assert ([Open(2)] + FlagWordEnd(fws))[1..] == FlagWordEnd(fws);
  }

  /** `(w0|w1|...))$` after group 2 opened at `p`: group 2 closes after the word. */
  lemma SpansFlagWord(fws: seq<string>, wi: nat, p: nat, o: map<nat, nat>, acc: map<nat, (nat, nat)>)
    requires wi < |fws|
    ensures Spans(FlagWordEnd(fws), [wi, 0, 0], p, o[2 := p], acc) == acc[2 := (p, p + |fws[wi]|)]
  {
    var e := p + |fws[wi]|;
    assert FlagWordEnd(fws)[1..] == [Close(2), End];
    calc {
      Spans(FlagWordEnd(fws), [wi, 0, 0], p, o[2 := p], acc);
      Spans([Close(2), End], [0, 0], e, o[2 := p], acc);
      Spans([End], [0], e, o[2 := p], acc[2 := (p, e)]);
    }
  }

  lemma SpansNoFlag(fws: seq<string>, b: nat, c: nat)
    ensures Spans(CloseThenEnd(fws), [0, 1, 0], c, map[1 := b], map[]) == map[1 := (b, c)]
  {
    var o: map<nat, nat> := map[1 := b];
    var acc: map<nat, (nat, nat)> := map[1 := (b, c)];
    assert CloseThenEnd(fws)[1..] == OptFlagEnd(fws);
    assert Next(OptFlagEnd(fws), 1) == [End];
    calc {
      Spans(CloseThenEnd(fws), [0, 1, 0], c, o, map[]);
      Spans(OptFlagEnd(fws), [1, 0], c, o, acc);
      Spans([End], [0], c, o, acc);
    }
  }

  // ---------------------------------------------------------------------
  // The engine's stopping point against the explicit reading

  /** Two flag words that both end a line are the same word. */
  lemma OneFlagEnds(s: string, fws: seq<string>, k1: nat, k2: nat)
    requires FlagWordsFit(fws) && k1 < |fws| && k2 < |fws|
    requires |fws[k1]| <= |s| && LitAt(s, |s| - |fws[k1]|, fws[k1])
    requires |fws[k2]| <= |s| && LitAt(s, |s| - |fws[k2]|, fws[k2])
    ensures k1 == k2
  {
    LitAtChar(s, |s| - |fws[k1]|, fws[k1], |fws[k1]| - 1);
    LitAtChar(s, |s| - |fws[k2]|, fws[k2], |fws[k2]| - 1);
    assert !(k1 < k2) && !(k2 < k1);
  }

  /** The text before a flag at the stopping point: the path with white space at both ends. */
  lemma PathAroundFlag(s: string, a: nat, b: nat, c: nat, p: nat)
    requires a + 1 <= b < c <= p <= |s| && AllSpace(s[a + 1..b]) && AllSpace(s[c..p]) && !IsSpace(s[b])
    ensures Strip(s[b..c]) == Strip(s[a + 1..p]) && Strip(s[a + 1..p]) != []
  {
    assert s[a + 1..p] == s[a + 1..b] + (s[b..c] + s[c..p]);
    StripSpacePrefix(s[a + 1..b], s[b..c] + s[c..p]);
    StripSpaceSuffix(s[b..c], s[c..p]);
    StripEmpty(s[a + 1..p]);
    assert s[a + 1..p][b - a - 1] == s[b];
  }

  /** With the flag at the stopping point, the reading finds the same flag word, and the path is the text between. */
  lemma FlagReading(s: string, fws: seq<string>, a: nat, l: nat, c: nat, r: nat, wi: nat)
    requires FlagWordsFit(fws) && 1 <= l && a + l < c <= |s| && AllSpace(s[a + 1..a + l])
    requires l == RunLength(s, a, Space) || (l < RunLength(s, a, Space) && a + l + 1 == |s|)
    requires FlagsAt(s, c, fws)
    requires r == RunLength(s, c, Space) && WordEnding(s, c + r, fws, 0) == Some(wi)
    ensures wi < |fws| && FlagIndex(s, a, fws, 0) == Some(wi) && c + r == |s| - |fws[wi]| && c + r < |s|
    ensures !IsSpace(s[a + l]) && AllSpace(s[c..|s| - |fws[wi]|])
  {
    var p := |s| - |fws[wi]|;
    assert p == c + r && LitAt(s, p, fws[wi]);
    assert !IsSpace(s[a + l]) by {
      PathStart(s, fws, a, l, c);
    }
    FlagGap(s, c, r, p);
    assert Strip(s[a + 1..p]) != [] by {
      PathAroundFlag(s, a, a + l, c, p);
    }
    FlagIndexIs(s, a, fws, wi);
  }

  /** The path begins with the first character after the keyword's white space. */
  lemma PathStart(s: string, fws: seq<string>, a: nat, l: nat, c: nat)
    requires 1 <= l && a + l < c <= |s| && FlagsAt(s, c, fws)
    requires l == RunLength(s, a, Space) || (l < RunLength(s, a, Space) && a + l + 1 == |s|)
    ensures !IsSpace(s[a + l])
  {
    if l < RunLength(s, a, Space) {
      assert false;
    }
  }

  /** The white space before a flag word: all of it, and a white-space character just before the word. */
  lemma FlagGap(s: string, c: nat, r: nat, p: nat)
    requires 1 <= r && p == c + r <= |s| && r == RunLength(s, c, Space)
    ensures AllSpace(s[c..p]) && IsSpace(s[p - 1])
  {
    var gap := s[c..p];
    forall k | 0 <= k < r ensures IsSpace(gap[k]) {
      assert InClass(s[c + k], Space);
    }
    assert InClass(s[c + r - 1], Space);
  }

  /** A flag word that ends the line after a path is the one the reading finds. */
  lemma FlagIndexIs(s: string, a: nat, fws: seq<string>, wi: nat)
    requires FlagWordsFit(fws) && wi < |fws| && FlagAfter(s, a, fws[wi])
    ensures FlagIndex(s, a, fws, 0) == Some(wi)
  {
    match FlagIndex(s, a, fws, 0)
    case Some(k) =>
      OneFlagEnds(s, fws, k, wi);
    case None =>
  }

  /** Without the flag at the stopping point, the line ends there and the reading finds no flag. */
  lemma NoFlagReading(s: string, fws: seq<string>, a: nat, b: nat)
    requires FlagWordsFit(fws) && a + 1 <= b < |s| && AllSpace(s[a + 1..b])
    requires !FlagsAt(s, FirstStop(s, b + 1, fws), fws)
    ensures FirstStop(s, b + 1, fws) == |s| && FlagIndex(s, a, fws, 0).None?
  {
    var e := FirstStop(s, b + 1, fws);
    assert e == |s|;
    if FlagIndex(s, a, fws, 0).Some? {
      FlagBeforeStop(s, fws, a, b, FlagIndex(s, a, fws, 0).value);
      assert false;
    }
  }

  /** A flag word the reading finds leaves a place after the path's first character where `(.+?)` may stop. */
  lemma FlagBeforeStop(s: string, fws: seq<string>, a: nat, b: nat, k: nat)
    requires FlagWordsFit(fws) && a + 1 <= b < |s| && AllSpace(s[a + 1..b])
    requires k < |fws| && FlagAfter(s, a, fws[k])
    ensures b + 1 <= |s| - |fws[k]| - 1 && FlagsAt(s, |s| - |fws[k]| - 1, fws)
  {
    var p := |s| - |fws[k]|;
    SpaceThenWord(s, fws, k, p);
    NonSpaceInside(s, a, b, p);
  }

  /** A white-space character, then a flag word that ends the line: `\s+(w0|w1|...)$` matches there. */
  lemma SpaceThenWord(s: string, fws: seq<string>, k: nat, p: nat)
    requires FlagWordsFit(fws) && k < |fws| && 1 <= p && p + |fws[k]| == |s|
    requires LitAt(s, p, fws[k]) && IsSpace(s[p - 1])
    ensures FlagsAt(s, p - 1, fws)
  {
    LitAtChar(s, p, fws[k], 0);
    assert !IsSpace(s[p]);
    assert RunLength(s, p, Space) == 0;
    assert RunLength(s, p - 1, Space) == 1;
    assert WordEnding(s, p, fws, 0).Some?;
  }

  /** Text that is not all white space, after white space up to `b` and before a white-space character at `p - 1`, leaves room after `b`. */
  lemma NonSpaceInside(s: string, a: nat, b: nat, p: nat)
    requires a + 1 <= b <= |s| && a + 1 <= p <= |s| && AllSpace(s[a + 1..b]) && Strip(s[a + 1..p]) != []
    requires IsSpace(s[p - 1])
    ensures b + 1 <= p - 1
  {
    StripEmpty(s[a + 1..p]);
    var i :| 0 <= i < p - a - 1 && !IsSpace(s[a + 1..p][i]);
    assert !IsSpace(s[a + 1 + i]);
  }

  /** The groups along the trace that takes the flag. */
  lemma GroupsWithFlag(s: string, kws: seq<string>, fws: seq<string>, j: nat, l: nat, n: nat, c: nat, r: nat, wi: nat)
    requires j < |kws| && wi < |fws| && |kws[j]| + l < c && c + r + |fws[wi]| == |s| && n == c - (|kws[j]| + l)
    ensures var b := |kws[j]| + l;
      GroupsOf(s, RmdirPattern(kws, fws), [j, l] + ([0, n] + [0, 0, r, 0, wi, 0, 0])) == map[1 := s[b..c], 2 := s[c + r..]]
  {
    var b := |kws[j]| + l;
    var t := [j, l] + ([0, n] + [0, 0, r, 0, wi, 0, 0]);
    SpansToClose(kws, fws, j, l, n, [0, 0, r, 0, wi, 0, 0]);
    assert b + n == c;
    SpansFlag(fws, b, c, r, wi);
    var spans := map[1 := (b, c), 2 := (c + r, |s|)];
    assert Spans(RmdirPattern(kws, fws), t, 0, map[], map[]) == spans;
    var g := GroupsOf(s, RmdirPattern(kws, fws), t);
    assert g.Keys == spans.Keys;
    assert g[1] == Slice(s, (b, c)) == s[b..c];
    assert g[2] == Slice(s, (c + r, |s|)) == s[c + r..];
  }

  /** The groups along the trace that skips the flag. */
  lemma GroupsWithoutFlag(s: string, kws: seq<string>, fws: seq<string>, j: nat, l: nat, n: nat)
    requires j < |kws| && |kws[j]| + l < |s| && n == |s| - (|kws[j]| + l)
    ensures var b := |kws[j]| + l;
      GroupsOf(s, RmdirPattern(kws, fws), [j, l] + ([0, n] + [0, 1, 0])) == map[1 := s[b..]]
  {
    var b := |kws[j]| + l;
    var t := [j, l] + ([0, n] + [0, 1, 0]);
    SpansToClose(kws, fws, j, l, n, [0, 1, 0]);
    assert b + n == |s|;
    SpansNoFlag(fws, b, |s|);
    var spans := map[1 := (b, |s|)];
    assert Spans(RmdirPattern(kws, fws), t, 0, map[], map[]) == spans;
    var g := GroupsOf(s, RmdirPattern(kws, fws), t);
    assert g.Keys == spans.Keys;
    assert g[1] == Slice(s, (b, |s|)) == s[b..];
  }

  /** The path group's trace when `(.+?)` stops before a flag. */
  lemma PathTraceWithFlag(s: string, fws: seq<string>, b: nat, c: nat, r: nat, wi: nat)
    requires '\n' !in s && FlagWordsFit(fws) && b < |s|
    requires c == FirstStop(s, b + 1, fws) && FlagsAt(s, c, fws)
    requires r == RunLength(s, c, Space) && WordEnding(s, c + r, fws, 0) == Some(wi)
    ensures Search(s, b, PathGroup(fws)) == Some([0, c - b] + [0, 0, r, 0, wi, 0, 0])
  {
    PathSearch(s, b, fws);
    assert StopTrace(s, c, fws) == [0, 0, r, 0, wi, 0, 0];
  }

  /** The path group's trace when `(.+?)` runs to the end. */
  lemma PathTraceWithoutFlag(s: string, fws: seq<string>, b: nat)
    requires '\n' !in s && FlagWordsFit(fws) && b < |s|
    requires FirstStop(s, b + 1, fws) == |s|
    ensures Search(s, b, PathGroup(fws)) == Some([0, |s| - b] + [0, 1, 0])
  {
    PathSearch(s, b, fws);
    assert StopTrace(s, |s|, fws) == [0, 1, 0];
  }

  /** Replaces the tail of a trace by its value, keeping the search terms out of sight. */
  lemma TraceTail(x: Option<seq<nat>>, y: Option<seq<nat>>, head: seq<nat>, v: seq<nat>)
    requires y.Some? && x == Some(head + y.value) && y == Some(v)
    ensures x == Some(head + v)
  {
  }

  /** The match when `(.+?)` stops before a flag: the path group, then the flag word as group 2. */
  lemma MatchWithFlag(s: string, kws: seq<string>, fws: seq<string>, j: nat, l: nat, n: nat, c: nat, r: nat, wi: nat)
    requires j < |kws| && wi < |fws| && |kws[j]| + l < c && c + r + |fws[wi]| == |s| && n == c - (|kws[j]| + l)
    requires Search(s, 0, RmdirPattern(kws, fws)) == Some([j, l] + ([0, n] + [0, 0, r, 0, wi, 0, 0]))
    ensures Match(s, RmdirPattern(kws, fws)) == Some(map[1 := s[|kws[j]| + l..c], 2 := s[c + r..]])
  {
    var b := |kws[j]| + l;
    GroupsWithFlag(s, kws, fws, j, l, n, c, r, wi);
    MatchOfSearch(s, RmdirPattern(kws, fws), [j, l] + ([0, n] + [0, 0, r, 0, wi, 0, 0]), map[1 := s[b..c], 2 := s[c + r..]]);
  }

  /** The match when `(.+?)` runs to the end: the path group alone. */
  lemma MatchWithoutFlag(s: string, kws: seq<string>, fws: seq<string>, j: nat, l: nat, n: nat)
    requires j < |kws| && |kws[j]| + l < |s| && n == |s| - (|kws[j]| + l)
    requires Search(s, 0, RmdirPattern(kws, fws)) == Some([j, l] + ([0, n] + [0, 1, 0]))
    ensures Match(s, RmdirPattern(kws, fws)) == Some(map[1 := s[|kws[j]| + l..]])
  {
    var b := |kws[j]| + l;
    GroupsWithoutFlag(s, kws, fws, j, l, n);
    MatchOfSearch(s, RmdirPattern(kws, fws), [j, l] + ([0, n] + [0, 1, 0]), map[1 := s[b..]]);
  }

  /** The reading when the flag is found. */
  lemma ArgsWithFlag(s: string, kws: seq<string>, fws: seq<string>, j: nat, wi: nat)
    requires FirstFit(s, kws, 0) == Some(j) && FlagIndex(s, |kws[j]|, fws, 0) == Some(wi)
    ensures RmdirArgs(s, kws, fws) == Some((Strip(s[|kws[j]| + 1..|s| - |fws[wi]|]), true))
  {
  }

  /** The reading when no flag is found. */
  lemma ArgsWithoutFlag(s: string, kws: seq<string>, fws: seq<string>, j: nat, path: string)
    requires FirstFit(s, kws, 0) == Some(j) && FlagIndex(s, |kws[j]|, fws, 0).None?
    requires path == Strip(s[|kws[j]| + 1..])
    ensures RmdirArgs(s, kws, fws) == Some((path, false))
  {
  }

  /** The conclusion of the theorem when the match has both groups and the reading a flag. */
  lemma AgreeWithFlag(s: string, kws: seq<string>, fws: seq<string>, g1: string, g2: string, path: string)
    requires Match(s, RmdirPattern(kws, fws)) == Some(map[1 := g1, 2 := g2])
    requires RmdirArgs(s, kws, fws) == Some((path, true)) && Strip(g1) == path && g2 != []
    ensures Match(s, RmdirPattern(kws, fws)).Some? <==> RmdirArgs(s, kws, fws).Some?
    ensures Match(s, RmdirPattern(kws, fws)).Some? ==>
      var g := Match(s, RmdirPattern(kws, fws)).value;
      1 in g && RmdirArgs(s, kws, fws) == Some((Strip(g[1]), 2 in g && g[2] != ""))
  {
  }

  /** The conclusion of the theorem when the match has the path group alone and the reading no flag. */
  lemma AgreeWithoutFlag(s: string, kws: seq<string>, fws: seq<string>, g1: string, path: string)
    requires Match(s, RmdirPattern(kws, fws)) == Some(map[1 := g1])
    requires RmdirArgs(s, kws, fws) == Some((path, false)) && path == Strip(g1)
    ensures Match(s, RmdirPattern(kws, fws)).Some? <==> RmdirArgs(s, kws, fws).Some?
    ensures Match(s, RmdirPattern(kws, fws)).Some? ==>
      var g := Match(s, RmdirPattern(kws, fws)).value;
      1 in g && RmdirArgs(s, kws, fws) == Some((Strip(g[1]), 2 in g && g[2] != ""))
  {
  }

  /** The whole trace when `(.+?)` stops before a flag, with its positions named. */
  lemma SearchWithFlag(s: string, kws: seq<string>, fws: seq<string>, j: nat, l: nat) returns (n: nat, c: nat, r: nat, wi: nat)
    requires '\n' !in s && FlagWordsFit(fws) && j < |kws| && |kws[j]| + l < |s|
    requires Search(s, |kws[j]| + l, PathGroup(fws)).Some?
    requires Search(s, 0, RmdirPattern(kws, fws)) == Some([j, l] + Search(s, |kws[j]| + l, PathGroup(fws)).value)
    requires FlagsAt(s, FirstStop(s, |kws[j]| + l + 1, fws), fws)
    ensures c == FirstStop(s, |kws[j]| + l + 1, fws) && FlagsAt(s, c, fws) && r == RunLength(s, c, Space)
    ensures WordEnding(s, c + r, fws, 0) == Some(wi) && |kws[j]| + l < c && n == c - (|kws[j]| + l)
    ensures Search(s, 0, RmdirPattern(kws, fws)) == Some([j, l] + ([0, n] + [0, 0, r, 0, wi, 0, 0]))
  {
    var b := |kws[j]| + l;
    c := FirstStop(s, b + 1, fws);
    r := RunLength(s, c, Space);
    wi := WordEnding(s, c + r, fws, 0).value;
    n := c - b;
    PathTraceWithFlag(s, fws, b, c, r, wi);
    TraceTail(Search(s, 0, RmdirPattern(kws, fws)), Search(s, b, PathGroup(fws)), [j, l], [0, n] + [0, 0, r, 0, wi, 0, 0]);
  }

  /** The reading when `(.+?)` stops before a flag at `c`: it finds that flag word, and its path is the same. */
  lemma FlagArgs(s: string, fws: seq<string>, a: nat, l: nat, c: nat, r: nat, wi: nat)
    requires FlagWordsFit(fws) && 1 <= l && a + l < c <= |s| && AllSpace(s[a + 1..a + l])
    requires l == RunLength(s, a, Space) || (l < RunLength(s, a, Space) && a + l + 1 == |s|)
    requires FlagsAt(s, c, fws)
    requires r == RunLength(s, c, Space) && WordEnding(s, c + r, fws, 0) == Some(wi)
    ensures wi < |fws| && FlagIndex(s, a, fws, 0) == Some(wi) && c + r + |fws[wi]| == |s| && s[c + r..] != []
    ensures Strip(s[a + l..c]) == Strip(s[a + 1..|s| - |fws[wi]|])
  {
    FlagReading(s, fws, a, l, c, r, wi);
    PathAroundFlag(s, a, a + l, c, |s| - |fws[wi]|);
  }

  /** The whole trace when `(.+?)` runs to the end. */
  lemma SearchWithoutFlag(s: string, kws: seq<string>, fws: seq<string>, j: nat, l: nat) returns (n: nat)
    requires '\n' !in s && FlagWordsFit(fws) && j < |kws| && |kws[j]| + l < |s|
    requires Search(s, |kws[j]| + l, PathGroup(fws)).Some?
    requires Search(s, 0, RmdirPattern(kws, fws)) == Some([j, l] + Search(s, |kws[j]| + l, PathGroup(fws)).value)
    requires !FlagsAt(s, FirstStop(s, |kws[j]| + l + 1, fws), fws)
    ensures n == |s| - (|kws[j]| + l)
    ensures Search(s, 0, RmdirPattern(kws, fws)) == Some([j, l] + ([0, n] + [0, 1, 0]))
  {
    var b := |kws[j]| + l;
    n := |s| - b;
    assert FirstStop(s, b + 1, fws) == |s|;
    PathTraceWithoutFlag(s, fws, b);
    TraceTail(Search(s, 0, RmdirPattern(kws, fws)), Search(s, b, PathGroup(fws)), [j, l], [0, n] + [0, 1, 0]);
  }

  /** The reading when `(.+?)` runs to the end: no flag, and the same path. */
  lemma ArgsOffFlag(s: string, kws: seq<string>, fws: seq<string>, j: nat, l: nat) returns (path: string)
    requires FlagWordsFit(fws) && FirstFit(s, kws, 0) == Some(j)
    requires 1 <= l && |kws[j]| + l < |s| && AllSpace(s[|kws[j]| + 1..|kws[j]| + l])
    requires !FlagsAt(s, FirstStop(s, |kws[j]| + l + 1, fws), fws)
    ensures RmdirArgs(s, kws, fws) == Some((path, false)) && path == Strip(s[|kws[j]| + l..])
  {
    var a := |kws[j]|;
    var b := a + l;
    assert FlagIndex(s, a, fws, 0).None? by {
      NoFlagReading(s, fws, a, b);
    }
    path := Strip(s[a + 1..]);
    ArgsWithoutFlag(s, kws, fws, j, path);
    SpaceBeforePath(s, a + 1, b);
  }

  /** White space at the front of the rest of the line does not change it once stripped. */
  lemma SpaceBeforePath(s: string, a: nat, b: nat)
    requires a <= b <= |s| && AllSpace(s[a..b])
    ensures Strip(s[a..]) == Strip(s[b..])
  {
    assert s[a..] == s[a..b] + s[b..];
    StripSpacePrefix(s[a..b], s[b..]);
  }

  /** The theorem once a keyword fits. */
  lemma ReadingAfterKeyword(s: string, kws: seq<string>, fws: seq<string>, j: nat)
    requires '\n' !in s && FlagWordsFit(fws) && FirstFit(s, kws, 0) == Some(j)
    ensures Match(s, RmdirPattern(kws, fws)).Some? <==> RmdirArgs(s, kws, fws).Some?
    ensures Match(s, RmdirPattern(kws, fws)).Some? ==>
      var g := Match(s, RmdirPattern(kws, fws)).value;
      1 in g && RmdirArgs(s, kws, fws) == Some((Strip(g[1]), 2 in g && g[2] != ""))
  {
    var l := RmdirSearch(s, kws, fws, j);
    if FlagsAt(s, FirstStop(s, |kws[j]| + l + 1, fws), fws) {
      ReadingWithFlag(s, kws, fws, j, l);
    } else {
      ReadingWithoutFlag(s, kws, fws, j, l);
    }
  }

  /** The theorem when `(.+?)` stops before a flag. */
  lemma ReadingWithFlag(s: string, kws: seq<string>, fws: seq<string>, j: nat, l: nat)
    requires '\n' !in s && FlagWordsFit(fws) && FirstFit(s, kws, 0) == Some(j)
    requires 1 <= l && |kws[j]| + l < |s| && AllSpace(s[|kws[j]| + 1..|kws[j]| + l])
    requires l == RunLength(s, |kws[j]|, Space) || (l < RunLength(s, |kws[j]|, Space) && |kws[j]| + l + 1 == |s|)
    requires Search(s, |kws[j]| + l, PathGroup(fws)).Some?
    requires Search(s, 0, RmdirPattern(kws, fws)) == Some([j, l] + Search(s, |kws[j]| + l, PathGroup(fws)).value)
    requires FlagsAt(s, FirstStop(s, |kws[j]| + l + 1, fws), fws)
    ensures Match(s, RmdirPattern(kws, fws)).Some? <==> RmdirArgs(s, kws, fws).Some?
    ensures Match(s, RmdirPattern(kws, fws)).Some? ==>
      var g := Match(s, RmdirPattern(kws, fws)).value;
      1 in g && RmdirArgs(s, kws, fws) == Some((Strip(g[1]), 2 in g && g[2] != ""))
  {
    var n, c, r, wi := SearchWithFlag(s, kws, fws, j, l);
    FlagArgs(s, fws, |kws[j]|, l, c, r, wi);
    ArgsWithFlag(s, kws, fws, j, wi);
    MatchWithFlag(s, kws, fws, j, l, n, c, r, wi);
    AgreeWithFlag(s, kws, fws, s[|kws[j]| + l..c], s[c + r..], Strip(s[|kws[j]| + 1..|s| - |fws[wi]|]));
  }

  /** The theorem when `(.+?)` runs to the end of the line. */
  lemma ReadingWithoutFlag(s: string, kws: seq<string>, fws: seq<string>, j: nat, l: nat)
    requires '\n' !in s && FlagWordsFit(fws) && FirstFit(s, kws, 0) == Some(j)
    requires 1 <= l && |kws[j]| + l < |s| && AllSpace(s[|kws[j]| + 1..|kws[j]| + l])
    requires Search(s, |kws[j]| + l, PathGroup(fws)).Some?
    requires Search(s, 0, RmdirPattern(kws, fws)) == Some([j, l] + Search(s, |kws[j]| + l, PathGroup(fws)).value)
    requires !FlagsAt(s, FirstStop(s, |kws[j]| + l + 1, fws), fws)
    ensures Match(s, RmdirPattern(kws, fws)).Some? <==> RmdirArgs(s, kws, fws).Some?
    ensures Match(s, RmdirPattern(kws, fws)).Some? ==>
      var g := Match(s, RmdirPattern(kws, fws)).value;
      1 in g && RmdirArgs(s, kws, fws) == Some((Strip(g[1]), 2 in g && g[2] != ""))
  {
    var n := SearchWithoutFlag(s, kws, fws, j, l);
    var path := ArgsOffFlag(s, kws, fws, j, l);
    MatchWithoutFlag(s, kws, fws, j, l, n);
    AgreeWithoutFlag(s, kws, fws, s[|kws[j]| + l..], path);
  }

  /**
    The theorem of the rmdir pattern: on a line without a newline, the
    instruction matches exactly when some keyword fits; group 1, stripped,
    is the reading's path, and group 2 is present and non-empty exactly
    when the reading finds a flag.
  */
  lemma RmdirReading(s: string, kws: seq<string>, fws: seq<string>)
    requires FlagWordsFit(fws)
    ensures '\n' !in s ==> (Match(s, RmdirPattern(kws, fws)).Some? <==> RmdirArgs(s, kws, fws).Some?)
    ensures '\n' !in s && Match(s, RmdirPattern(kws, fws)).Some? ==>
      var g := Match(s, RmdirPattern(kws, fws)).value;
      1 in g && RmdirArgs(s, kws, fws) == Some((Strip(g[1]), 2 in g && g[2] != ""))
  {
    if '\n' !in s {
      match FirstFit(s, kws, 0)
      case None =>
        RmdirNoSearch(s, kws, fws);
      case Some(j) =>
        ReadingAfterKeyword(s, kws, fws, j);
    }
  }
}

=== FILE: sorting.dfy ===
/**
  Ordering strings as Python does: `list.sort()` on a list of `str`, and the
  name order in which the model lists the entries of a directory.
*/
module Sorting {
  import opened PyText

  predicate Sorted(s: seq<string>) {
    forall i, j | 0 <= i < j < |s| :: StrLe(s[i], s[j])
  }

  /** No string twice. */
  predicate Distinct(s: seq<string>) {
    forall i, j | 0 <= i < j < |s| :: s[i] != s[j]
  }

  /** Sorted, and no string twice. */
  predicate StrictlySorted(s: seq<string>) {
    Sorted(s) && Distinct(s)
  }

  /** `x` placed in the sorted `s` before the first element it does not follow. */
  function Insert(x: string, s: seq<string>): (r: seq<string>)
    requires Sorted(s)
    ensures Sorted(r)
    ensures multiset(r) == multiset(s) + multiset{x}
    ensures forall y | y in r :: y == x || y in s
  {
    if s == [] then [x]
    else if StrLe(x, s[0]) then
      assert forall k | 0 <= k < |s| :: StrLe(x, s[k]) by {
        forall k | 0 <= k < |s| ensures StrLe(x, s[k]) {
          if k > 0 {
            StrLeTransitive(x, s[0], s[k]);
          }
        }
      }
      [x] + s
    else
      StrLeTotal(x, s[0]);
      var t := Insert(x, s[1..]);
      assert s == [s[0]] + s[1..];
      assert forall y | y in t :: StrLe(s[0], y);
      [s[0]] + t
  }

  /** `list.sort()`: the same strings, in non-decreasing order. */
  function Sort(s: seq<string>): (r: seq<string>)
    ensures Sorted(r) && multiset(r) == multiset(s)
  {
    if s == [] then []
    else
      assert s == [s[0]] + s[1..];
      Insert(s[0], Sort(s[1..]))
  }

  /** Two sorted arrangements of the same strings are the same sequence. */
  lemma {:induction false} SortedUnique(a: seq<string>, b: seq<string>)
    requires Sorted(a) && Sorted(b) && multiset(a) == multiset(b)
    ensures a == b
    decreases |a|
  {
    if a != [] {
      assert a[0] in multiset(b);
      assert b != [] && b[0] in multiset(a);
      SortedFirstIsLeast(b, a[0]);
      SortedFirstIsLeast(a, b[0]);
      StrLeAntisymmetric(a[0], b[0]);
      SameTails(a, b);
      SortedUnique(a[1..], b[1..]);
    } else {
      assert |b| == |multiset(b)| == 0;
    }
  }

  /** In sorted order the first string sorts below every string present. */
  lemma SortedFirstIsLeast(a: seq<string>, x: string)
    requires Sorted(a) && x in multiset(a)
    ensures a != [] && StrLe(a[0], x)
  {
    var j :| 0 <= j < |a| && a[j] == x;
    if j > 0 {
      assert StrLe(a[0], a[j]);
    } else {
      StrLeReflexive(a[0]);
    }
  }

  /** Two arrangements of the same strings with the same first string have their remainders arranged from the same strings. */
  lemma SameTails(a: seq<string>, b: seq<string>)
    requires a != [] && b != [] && a[0] == b[0] && multiset(a) == multiset(b)
    ensures multiset(a[1..]) == multiset(b[1..])
  {
    assert a == [a[0]] + a[1..] && b == [b[0]] + b[1..];
    assert multiset(a[1..]) == multiset(a) - multiset{a[0]};
    assert multiset(b[1..]) == multiset(b) - multiset{b[0]};
  }

  /** Sorting is the only sorted rearrangement, so sorting sorted lines changes nothing. */
  lemma SortOfSorted(s: seq<string>)
    requires Sorted(s)
    ensures Sort(s) == s
  {
    SortedUnique(Sort(s), s);
  }

  lemma SortIdempotent(s: seq<string>)
    ensures Sort(Sort(s)) == Sort(s)
  {
    SortOfSorted(Sort(s));
  }

  // ---------------------------------------------------------------------
  // Sets of names in order

  predicate IsLeast(m: string, names: set<string>) {
    m in names && forall n | n in names :: StrLe(m, n)
  }

  lemma {:induction false} LeastExists(names: set<string>)
    requires names != {}
    ensures exists m :: IsLeast(m, names)
    decreases |names|
  {
    var x :| x in names;
    var rest := names - {x};
    if rest == {} {
      assert names == {x};
      StrLeReflexive(x);
      assert IsLeast(x, names);
    } else {
      LeastExists(rest);
      var m :| IsLeast(m, rest);
      StrLeTotal(m, x);
      if StrLe(m, x) {
        assert IsLeast(m, names);
      } else {
        forall n | n in names ensures StrLe(x, n) {
          if n == x {
            StrLeReflexive(x);
          } else {
            StrLeTransitive(x, m, n);
          }
        }
        assert IsLeast(x, names);
      }
    }
  }

  lemma LeastUnique(names: set<string>)
    ensures forall a, b | IsLeast(a, names) && IsLeast(b, names) :: a == b
  {
    forall a, b | IsLeast(a, names) && IsLeast(b, names) ensures a == b {
      StrLeAntisymmetric(a, b);
    }
  }

  /** The least of a non-empty set of names. */
  function Least(names: set<string>): (m: string)
    requires names != {}
    ensures IsLeast(m, names)
  {
    LeastExists(names);
    LeastUnique(names);
    var m :| IsLeast(m, names);
    m
  }

  /** The names of a set in ascending order, each once. */
  function InOrder(names: set<string>): (r: seq<string>)
    ensures StrictlySorted(r)
    ensures |r| == |names|
    ensures forall n :: n in r <==> n in names
    decreases names
  {
    if names == {} then []
    else
      var m := Least(names);
      var t := InOrder(names - {m});
      assert forall y | y in t :: StrLe(m, y) && y != m;
      [m] + t
  }

  /** Listing a set in order is the same as sorting any duplicate-free enumeration of it. */
  lemma InOrderIsSort(names: set<string>, s: seq<string>)
    requires Distinct(s)
    requires forall n :: n in s <==> n in names
    ensures InOrder(names) == Sort(s)
  {
    var r := InOrder(names);
    forall x ensures multiset(r)[x] == multiset(s)[x] {
      NoDuplicatesCount(r, x);
      NoDuplicatesCount(s, x);
    }
    assert multiset(r) == multiset(s);
    SortedUnique(r, Sort(s));
  }

  /** In a sequence without repetitions, every string occurs at most once. */
  lemma {:induction false} NoDuplicatesCount(s: seq<string>, x: string)
    requires Distinct(s)
    ensures multiset(s)[x] == if x in s then 1 else 0
    decreases |s|
  {
    if s != [] {
      assert s == [s[0]] + s[1..];
      NoDuplicatesCount(s[1..], x);
      assert s[0] !in s[1..];
    }
  }
}

=== FILE: split_examples.dfy ===
/**
  Worked instructions for the write, rewrite and rmdir recognisers, each
  read through the explicit readings of their patterns.
*/
module SplitExamples {
  import opened Common
  import opened PyText
  import opened Regex
  import opened PyRe
  import opened Intents
  import opened PrefixForm
  import opened SplitForm
  import opened RmdirForm
  import opened SplitIntents

  /** One white-space character, then text already stripped: stripping leaves the text. */
  lemma StripAfterSpace(s: string, i: nat, j: nat, m: string)
    requires j == i + 1 + |m| <= |s| && s[i] == ' ' && Stripped(m)
    requires forall k | 0 <= k < |m| :: s[i + 1 + k] == m[k]
    ensures Strip(s[i..j]) == m
  {
    assert s[i..j] == [' '] + m + "";
    StripUnique([' '], m, "");
  }

  /** Text already stripped, standing alone between `i` and `j`: stripping leaves it. */
  lemma StripWhole(s: string, i: nat, j: nat, m: string)
    requires j == i + |m| <= |s| && Stripped(m)
    requires forall k | 0 <= k < |m| :: s[i + k] == m[k]
    ensures Strip(s[i..j]) == m
  {
    assert s[i..j] == "" + m + "";
    StripUnique("", m, "");
  }

  /** Text already stripped, then one white-space character: stripping leaves the text. */
  lemma StripBeforeSpace(s: string, i: nat, j: nat, m: string)
    requires j == i + |m| + 1 <= |s| && s[j - 1] == ' ' && Stripped(m)
    requires forall k | 0 <= k < |m| :: s[i + k] == m[k]
    ensures Strip(s[i..j]) == m
  {
    assert s[i..j] == "" + m + [' '];
    StripUnique("", m, [' ']);
  }

  /** A word that stands in the instruction as it is written is there for `LitAt`. */
  lemma WordAt(s: string, i: nat, w: string)
    requires i + |w| <= |s| && forall k | 0 <= k < |w| :: s[i + k] == w[k]
    ensures LitAt(s, i, w)
  {
    assert s[i..i + |w|] == w;
    LitAtMeans(s, i, w);
  }

  /** A spaced separator word written out between two blanks is a cut when enough room follows. */
  lemma SpacedCut(s: string, j: nat, w: string, u: int)
    requires j + 1 + |w| < |s| && s[j] == ' ' && s[j + 1 + |w|] == ' ' && j + 2 + |w| < u
    requires forall k | 0 <= k < |w| :: s[j + 1 + k] == w[k]
    ensures CutAt(s, Spaced(w), j, u)
  {
    WordAt(s, j + 1, w);
  }

  /** An instruction that starts with the keyword written out and a blank opens the pattern. */
  lemma OpensWith(s: string, k: string, u: int)
    requires |k| < |s| && s[|k|] == ' ' && |k| + 1 < u
    requires forall i | 0 <= i < |k| :: s[0 + i] == k[i]
    ensures Opens(s, k, u)
  {
    WordAt(s, 0, k);
  }

  const WriteBoth: string := "write to a.txt: go to bed"

  /** In `WriteBoth` the last " to " with room after it starts at 18. */
  lemma WriteBothTo(s: string)
    requires s == WriteBoth
    ensures Opens(s, "write", 18) && CutAt(s, Spaced("to"), 18, |s|)
    ensures forall j: nat | 18 < j < |s| :: !CutAt(s, Spaced("to"), j, |s|)
  {
    forall j: nat | 18 < j < |s| ensures !CutAt(s, Spaced("to"), j, |s|) {
      assert j != 21 ==> !IsSpace(s[j]);
    }
  }

  /** In `WriteBoth` the last ":" with room after it is at 14. */
  lemma WriteBothColon(s: string)
    requires s == WriteBoth
    ensures CutAt(s, Tight(":"), 14, |s|)
    ensures forall j: nat | 14 < j < |s| :: !CutAt(s, Tight(":"), j, |s|)
  {
    forall j: nat | 14 < j < |s| ensures !CutAt(s, Tight(":"), j, |s|) {
      assert s[j] != ':';
    }
  }

  lemma WriteBothOpens(s: string)
    requires s == WriteBoth
    ensures Opens(s, "write to", 14)
  {
    assert forall k | 0 <= k < |"write to"| :: s[0 + k] == "write to"[k];
    WordAt(s, 0, "write to");
  }

  lemma WriteBothText(s: string)
    requires s == WriteBoth
    ensures Strip(s[5..18]) == "to a.txt: go"
  {
    assert forall k | 0 <= k < |"to a.txt: go"| :: s[5 + 1 + k] == "to a.txt: go"[k];
    StripAfterSpace(s, 5, 18, "to a.txt: go");
  }

  lemma WriteBothFile(s: string)
    requires s == WriteBoth
    ensures Strip(s[21..|s|]) == "bed"
  {
    assert forall k | 0 <= k < |"bed"| :: s[21 + 1 + k] == "bed"[k];
    StripAfterSpace(s, 21, |s|, "bed");
  }

  lemma WriteBothColonFile(s: string)
    requires s == WriteBoth
    ensures Strip(s[8..14]) == "a.txt"
  {
    assert forall k | 0 <= k < |"a.txt"| :: s[8 + 1 + k] == "a.txt"[k];
    StripAfterSpace(s, 8, 14, "a.txt");
  }

  lemma WriteBothColonText(s: string)
    requires s == WriteBoth
    ensures Strip(s[15..|s|]) == "go to bed"
  {
    assert forall k | 0 <= k < |"go to bed"| :: s[15 + 1 + k] == "go to bed"[k];
    StripAfterSpace(s, 15, |s|, "go to bed");
  }

  lemma WriteBothOneLine(s: string)
    requires s == WriteBoth
    ensures '\n' !in s
  {
  }

  /**
    Both write forms match "write to a.txt: go to bed", and they read it
    differently; the `... to <file>` form is tried first, so the file is
    "bed" and the text "to a.txt: go".
  */
  lemma WriteFirstFormWins(s: string)
    requires s == WriteBoth
    ensures TwoTexts(s, "write", Spaced("to")) == Some(("to a.txt: go", "bed"))
    ensures TwoTexts(s, "write to", Tight(":")) == Some(("a.txt", "go to bed"))
    ensures ParseWrite(s) == Some(WriteIntent("bed", "to a.txt: go"))
  {
    WriteBothOneLine(s);
    WriteBothFirst(s);
    WriteBothSecond(s);
  }

  lemma WriteBothFirst(s: string)
    requires s == WriteBoth
    ensures TwoTexts(s, "write", Spaced("to")) == Some(("to a.txt: go", "bed"))
  {
    WriteBothTo(s);
    WriteBothText(s);
    WriteBothFile(s);
    TwoTextsAt(s, "write", Spaced("to"), 18);
  }

  lemma WriteBothSecond(s: string)
    requires s == WriteBoth
    ensures TwoTexts(s, "write to", Tight(":")) == Some(("a.txt", "go to bed"))
  {
    WriteBothColon(s);
    WriteBothOpens(s);
    WriteBothColonFile(s);
    WriteBothColonText(s);
    TwoTextsAt(s, "write to", Tight(":"), 14);
  }

  const RewriteBoth: string := "rewrite a to b with convert to french"

  lemma RewriteBothTo(s: string)
    requires s == RewriteBoth
    ensures CutAt(s, Spaced("to"), 27, |s|)
    ensures forall j: nat | 27 < j < |s| :: !CutAt(s, Spaced("to"), j, |s|)
  {
    forall j: nat | 27 < j < |s| ensures !CutAt(s, Spaced("to"), j, |s|) {
      assert j != 30 ==> !IsSpace(s[j]);
    }
  }

  lemma RewriteBothOpens(s: string)
    requires s == RewriteBoth
    ensures Opens(s, "rewrite", 14)
  {
    assert forall k | 0 <= k < |"rewrite"| :: s[0 + k] == "rewrite"[k];
    assert s[7] == ' ';
    OpensWith(s, "rewrite", 14);
  }

  lemma RewriteBothWithCut(s: string)
    requires s == RewriteBoth
    ensures CutAt(s, Spaced("with"), 14, 27)
  {
    assert forall k | 0 <= k < |"with"| :: s[14 + 1 + k] == "with"[k];
    assert s[14] == ' ' && s[19] == ' ';
    SpacedCut(s, 14, "with", 27);
  }

  lemma RewriteBothWith(s: string)
    requires s == RewriteBoth
    ensures forall j: nat | 14 < j < 27 :: !CutAt(s, Spaced("with"), j, 27)
  {
    forall j: nat | 14 < j < 27 ensures !CutAt(s, Spaced("with"), j, 27) {
      assert j != 19 ==> !IsSpace(s[j]);
    }
  }

  lemma RewriteBothFile(s: string)
    requires s == RewriteBoth
    ensures Strip(s[7..14]) == "a to b"
  {
    assert forall k | 0 <= k < |"a to b"| :: s[7 + 1 + k] == "a to b"[k];
    StripAfterSpace(s, 7, 14, "a to b");
  }

  lemma RewriteBothPrompt(s: string)
    requires s == RewriteBoth
    ensures Strip(s[19..27]) == "convert"
  {
    assert forall k | 0 <= k < |"convert"| :: s[19 + 1 + k] == "convert"[k];
    StripAfterSpace(s, 19, 27, "convert");
  }

  lemma RewriteBothOutput(s: string)
    requires s == RewriteBoth
    ensures Strip(s[30..|s|]) == "french"
  {
    assert forall k | 0 <= k < |"french"| :: s[30 + 1 + k] == "french"[k];
    StripAfterSpace(s, 30, |s|, "french");
  }

  lemma RewriteBothOneLine(s: string)
    requires s == RewriteBoth
    ensures '\n' !in s
  {
  }

  lemma RewriteBothThree(s: string)
    requires s == RewriteBoth
    ensures ThreeTexts(s, "rewrite", Spaced("with"), Spaced("to")) == Some(("a to b", "convert", "french"))
  {
    RewriteBothTo(s);
    RewriteBothOpens(s);
    RewriteBothWithCut(s);
    RewriteBothWith(s);
    RewriteBothFile(s);
    RewriteBothPrompt(s);
    RewriteBothOutput(s);
    ThreeTextsAt(s, "rewrite", Spaced("with"), Spaced("to"), 14, 27);
  }

  /**
    "rewrite a to b with convert to french": the `with ... to ...` order is
    tried first; the file keeps its inner "to" and the output is "french".
  */
  lemma RewriteExample(s: string)
    requires s == RewriteBoth
    ensures ParseRewrite(s) == Some(RewriteIntent("a to b", "convert", "french"))
  {
    RewriteBothOneLine(s);
    RewriteBothThree(s);
  }

  /** "rmdir" is the first keyword, and it fits any instruction that starts with it, white space and one more character. */
  lemma RmdirFits(s: string)
    requires |s| >= 7 && s[5] == ' ' && forall k | 0 <= k < |"rmdir"| :: s[0 + k] == "rmdir"[k]
    ensures FirstFit(s, RmdirWords, 0) == Some(0)
  {
    WordAt(s, 0, "rmdir");
    assert Fits(s, RmdirWords[0]);
  }

  const RmdirOnlyFlagText: string := "rmdir force"

  lemma RmdirOnlyFlagNoFlag(s: string)
    requires s == RmdirOnlyFlagText
    ensures FlagIndex(s, 5, RmdirFlags, 0) == None
  {
  }

  lemma RmdirOnlyFlagPath(s: string)
    requires s == RmdirOnlyFlagText
    ensures Strip(s[6..]) == "force"
  {
    assert forall k | 0 <= k < |"force"| :: s[6 + k] == "force"[k];
    StripWhole(s, 6, |s|, "force");
    assert s[6..] == s[6..|s|];
  }

  lemma RmdirOnlyFlagOneLine(s: string)
    requires s == RmdirOnlyFlagText
    ensures '\n' !in s && |s| >= 7 && s[5] == ' ' && forall k | 0 <= k < |"rmdir"| :: s[0 + k] == "rmdir"[k]
  {
  }

  /** A lone flag word is the path: the path group needs a character before the flag's white space. */
  lemma RmdirOnlyFlag(s: string)
    requires s == RmdirOnlyFlagText
    ensures ParseRmdir(s) == Some(RmdirIntent("force", false))
  {
    RmdirOnlyFlagOneLine(s);
    RmdirFits(s);
    RmdirOnlyFlagNoFlag(s);
    RmdirOnlyFlagPath(s);
  }

  const RmdirForceText: string := "rmdir x force"

  lemma RmdirForceFlag(s: string)
    requires s == RmdirForceText
    ensures FlagIndex(s, 5, RmdirFlags, 0) == Some(0)
  {
    assert forall k | 0 <= k < |"force"| :: s[8 + k] == "force"[k];
    WordAt(s, 8, "force");
    assert forall k | 0 <= k < |"x"| :: s[6 + k] == "x"[k];
    StripBeforeSpace(s, 6, 8, "x");
  }

  lemma RmdirForcePath(s: string)
    requires s == RmdirForceText
    ensures Strip(s[6..|s| - |RmdirFlags[0]|]) == "x"
  {
    assert forall k | 0 <= k < |"x"| :: s[6 + k] == "x"[k];
    StripBeforeSpace(s, 6, 8, "x");
  }

  lemma RmdirForceOneLine(s: string)
    requires s == RmdirForceText
    ensures '\n' !in s && |s| >= 7 && s[5] == ' ' && forall k | 0 <= k < |"rmdir"| :: s[0 + k] == "rmdir"[k]
  {
  }

  /** A flag word at the very end, after white space and a path, sets `force`. */
  lemma RmdirForce(s: string)
    requires s == RmdirForceText
    ensures ParseRmdir(s) == Some(RmdirIntent("x", true))
  {
    RmdirForceOneLine(s);
    RmdirFits(s);
    RmdirForceFlag(s);
    RmdirForcePath(s);
  }

  const RmdirTrailingSpaceText: string := "rmdir x force "

  lemma RmdirTrailingSpaceNoFlag(s: string)
    requires s == RmdirTrailingSpaceText
    ensures FlagIndex(s, 5, RmdirFlags, 0) == None
  {
    assert s[|s| - 1] != "force"[4];
    assert !LitAt(s, |s| - 5, "force");
  }

  lemma RmdirTrailingSpacePath(s: string)
    requires s == RmdirTrailingSpaceText
    ensures Strip(s[6..]) == "x force"
  {
    assert forall k | 0 <= k < |"x force"| :: s[6 + k] == "x force"[k];
    StripBeforeSpace(s, 6, |s|, "x force");
    assert s[6..] == s[6..|s|];
  }

  lemma RmdirTrailingSpaceOneLine(s: string)
    requires s == RmdirTrailingSpaceText
    ensures '\n' !in s && |s| >= 7 && s[5] == ' ' && forall k | 0 <= k < |"rmdir"| :: s[0 + k] == "rmdir"[k]
  {
  }

  /** White space after the flag word keeps `$` from matching after it, so the flag becomes part of the path. */
  lemma RmdirTrailingSpace(s: string)
    requires s == RmdirTrailingSpaceText
    ensures ParseRmdir(s) == Some(RmdirIntent("x force", false))
  {
    RmdirTrailingSpaceOneLine(s);
    RmdirFits(s);
    RmdirTrailingSpaceNoFlag(s);
    RmdirTrailingSpacePath(s);
  }
}

=== FILE: split_form.dfy ===
/**
  The pattern shapes of the write and rewrite recognisers: greedy `(.+)`
  groups cut by separators,

    write\s+(.+)\s+to\s+(.+)                 write <text> to <file>
    write to\s+(.+):\s*(.+)                  write to <file>: <text>
    rewrite\s+(.+)\s+with\s+(.+)\s+to\s+(.+)  and the same with "to" and "with" swapped

  and their explicit reading on an instruction without a newline. Each
  greedy group reaches as far right as the rest of the pattern allows, so,
  working from the right, each separator is cut at its last occurrence that
  leaves room for what follows it; and each group, once stripped, is the
  text between the separators around it, stripped.
*/
module SplitForm {
  import opened Common
  import opened PyText
  import opened Regex
  import opened PyRe

  /** A separator between two groups: `\s+w\s+` (spaced) or `w\s*` (tight). */
  datatype Mark = Spaced(w: string) | Tight(w: string)

  /** A spaced separator word must start with a lower-case letter, so that it cannot be taken for white space. */
  predicate MarkOk(mark: Mark) {
    mark.Spaced? ==> mark.w != [] && 'a' <= mark.w[0] <= 'z'
  }

  const Sp: Item := Rep(Space, true, true)

  /** `(.+)` as group `g`. */
  function Grp(g: nat): Pattern {
    [Open(g), Rep(AnyButNewline, true, true), Close(g)]
  }

  /** The white space after a separator word: `\s+` when spaced, `\s*` when tight. */
  function Gap(mark: Mark): Item {
    Rep(Space, mark.Spaced?, true)
  }

  /** The separator word, its gap, group `g`, then `q`. */
  function AfterMark(mark: Mark, g: nat, q: Pattern): Pattern {
    [Word(mark.w)] + ([Gap(mark)] + (Grp(g) + q))
  }

  /** The whole separator, group `g`, then `q`. */
  function MarkThen(mark: Mark, g: nat, q: Pattern): Pattern {
    if mark.Spaced? then [Sp] + AfterMark(mark, g, q) else AfterMark(mark, g, q)
  }

  /** `k\s+(.+)` followed by separator `mark` and `(.+)`. */
  function TwoPart(k: string, mark: Mark): Pattern {
    AfterMark(Spaced(k), 1, MarkThen(mark, 2, []))
  }

  /** `k\s+(.+)`, separator `m1`, `(.+)`, separator `m2`, `(.+)`. */
  function ThreePart(k: string, m1: Mark, m2: Mark): Pattern {
    AfterMark(Spaced(k), 1, MarkThen(m1, 2, MarkThen(m2, 3, [])))
  }

  // ---------------------------------------------------------------------
  // The explicit reading

  /** Where the separator word starts when the separator starts at `j`. */
  function WordStart(mark: Mark, j: nat): nat {
    if mark.Spaced? then j + 1 else j
  }

  /** Just past the separator word. */
  function After(mark: Mark, j: nat): nat {
    WordStart(mark, j) + |mark.w|
  }

  function MinGap(mark: Mark): nat {
    if mark.Spaced? then 1 else 0
  }

  /**
    The separator can cut at `j` and still leave room, before `u`, for the
    white space it needs and a group of at least one character.
  */
  predicate CutAt(s: string, mark: Mark, j: nat, u: int) {
    && (mark.Spaced? ==> j < |s| && IsSpace(s[j]))
    && LitAt(s, WordStart(mark, j), mark.w)
    && After(mark, j) + MinGap(mark) < u
    && (mark.Spaced? ==> After(mark, j) < |s| && IsSpace(s[After(mark, j)]))
  }

  /** The last position below `n` where the separator cuts with room before `u`. */
  function LastCut(s: string, mark: Mark, u: int, n: nat): (r: Option<nat>)
    ensures r.Some? ==> r.value < n && CutAt(s, mark, r.value, u)
    ensures forall j: nat | j < n && (r.Some? ==> r.value < j) :: !CutAt(s, mark, j, u)
  {
    if n == 0 then None
    else if CutAt(s, mark, n - 1, u) then Some(n - 1)
    else LastCut(s, mark, u, n - 1)
  }

  /** The last cut of all: no cut lies at or beyond `u`. */
  function Last(s: string, mark: Mark, u: nat): (r: Option<nat>)
    ensures r.Some? ==> CutAt(s, mark, r.value, u)
    ensures forall j: nat | r.None? || r.value < j :: !CutAt(s, mark, j, u)
  {
    LastCut(s, mark, u, u)
  }

  /** Conversely, a cut with no cut after it below `n` is the one `LastCut` finds. */
  lemma {:induction false} LastCutIs(s: string, mark: Mark, u: int, n: nat, j: nat)
    requires j < n && CutAt(s, mark, j, u) && forall j': nat | j < j' < n :: !CutAt(s, mark, j', u)
    ensures LastCut(s, mark, u, n) == Some(j)
    decreases n
  {
    if n - 1 != j {
      LastCutIs(s, mark, u, n - 1, j);
    }
  }

  /** The keyword opens the instruction and is followed by white space and room for a group before `u`. */
  predicate Opens(s: string, k: string, u: int) {
    |k| < |s| && LitAt(s, 0, k) && IsSpace(s[|k|]) && |k| + 1 < u
  }

  /** The reading of the two-part shape: where the separator cuts. */
  function TwoCut(s: string, k: string, mark: Mark): Option<nat> {
    match Last(s, mark, |s|)
    case None => None
    case Some(j) => if Opens(s, k, j) then Some(j) else None
  }

  /** The two groups of the two-part shape, stripped. */
  function TwoTexts(s: string, k: string, mark: Mark): Option<(string, string)> {
    match TwoCut(s, k, mark)
    case None => None
    case Some(j) =>
      assert Opens(s, k, j) && CutAt(s, mark, j, |s|);
      Some((Strip(s[|k|..j]), Strip(s[After(mark, j)..|s|])))
  }

  /** The reading of the three-part shape: where the two separators cut. */
  function ThreeCuts(s: string, k: string, m1: Mark, m2: Mark): Option<(nat, nat)> {
    match Last(s, m2, |s|)
    case None => None
    case Some(j2) =>
      match Last(s, m1, j2)
      case None => None
      case Some(j1) => if Opens(s, k, j1) then Some((j1, j2)) else None
  }

  /** The three groups of the three-part shape, stripped. */
  function ThreeTexts(s: string, k: string, m1: Mark, m2: Mark): Option<(string, string, string)> {
    match ThreeCuts(s, k, m1, m2)
    case None => None
    case Some((j1, j2)) =>
      assert Opens(s, k, j1) && CutAt(s, m1, j1, j2) && CutAt(s, m2, j2, |s|);
      Some((Strip(s[|k|..j1]), Strip(s[After(m1, j1)..j2]), Strip(s[After(m2, j2)..|s|])))
  }

  /** The two texts when the keyword opens the instruction and `j` is the separator's last cut. */
  lemma TwoTextsAt(s: string, k: string, mark: Mark, j: nat)
    requires Opens(s, k, j) && CutAt(s, mark, j, |s|) && forall j': nat | j < j' < |s| :: !CutAt(s, mark, j', |s|)
    ensures TwoTexts(s, k, mark) == Some((Strip(s[|k|..j]), Strip(s[After(mark, j)..|s|])))
  {
    LastCutIs(s, mark, |s|, |s|, j);
  }

  /** The three texts when the keyword opens the instruction and `j1`, `j2` are the separators' last cuts. */
  lemma ThreeTextsAt(s: string, k: string, m1: Mark, m2: Mark, j1: nat, j2: nat)
    requires Opens(s, k, j1) && CutAt(s, m1, j1, j2) && forall j: nat | j1 < j < j2 :: !CutAt(s, m1, j, j2)
    requires CutAt(s, m2, j2, |s|) && forall j: nat | j2 < j < |s| :: !CutAt(s, m2, j, |s|)
    ensures ThreeTexts(s, k, m1, m2) == Some((Strip(s[|k|..j1]), Strip(s[After(m1, j1)..j2]), Strip(s[After(m2, j2)..|s|])))
  {
    LastCutIs(s, m2, |s|, |s|, j2);
    LastCutIs(s, m1, j2, j2, j1);
  }

  /** What `TwoCut` finding `j` says, spelled out. */
  ghost predicate TwoCutAt(s: string, k: string, mark: Mark, j: nat) {
    Opens(s, k, j) && CutAt(s, mark, j, |s|) && forall j': nat | j < j' :: !CutAt(s, mark, j', |s|)
  }

  /** What `ThreeCuts` finding `j1` and `j2` says, spelled out. */
  ghost predicate ThreeCutsAt(s: string, k: string, m1: Mark, m2: Mark, j1: nat, j2: nat) {
    && Opens(s, k, j1)
    && CutAt(s, m1, j1, j2) && (forall j: nat | j1 < j :: !CutAt(s, m1, j, j2))
    && CutAt(s, m2, j2, |s|) && (forall j: nat | j2 < j :: !CutAt(s, m2, j, |s|))
  }

  lemma TwoCutMeans(s: string, k: string, mark: Mark, j: nat)
    requires TwoCut(s, k, mark) == Some(j)
    ensures TwoCutAt(s, k, mark, j)
  {
  }

  lemma ThreeCutsMeans(s: string, k: string, m1: Mark, m2: Mark, j1: nat, j2: nat)
    requires ThreeCuts(s, k, m1, m2) == Some((j1, j2))
    ensures ThreeCutsAt(s, k, m1, m2, j1, j2)
  {
  }

  // ---------------------------------------------------------------------
  // Taking the patterns apart

  /** Nothing matches `q` anywhere after `u`, up to the end of the subject. */
  ghost predicate NoneAfter(s: string, q: Pattern, u: int) {
    forall y: nat | u < y <= |s| :: NoMatchAt(s, y, q)
  }

  /**
    On a line, the engine's trace of `q` from `u` is `v`, and `q` matches
    nowhere after `u`: a greedy group in front of `q` must end at `u`.
  */
  ghost predicate Settled(s: string, q: Pattern, u: nat, v: seq<nat>) {
    '\n' !in s && u <= |s| && Search(s, u, q) == Some(v) && NoneAfter(s, q, u)
  }

  lemma GrpParts(g: nat, q: Pattern)
    ensures (Grp(g) + q)[0] == Open(g)
    ensures (Grp(g) + q)[1..] == [Rep(AnyButNewline, true, true), Close(g)] + q
    ensures ([Rep(AnyButNewline, true, true), Close(g)] + q)[1..] == [Close(g)] + q
    ensures ([Close(g)] + q)[1..] == q
  {
  }

  lemma HeadParts(it: Item, q: Pattern)
    ensures ([it] + q)[0] == it && ([it] + q)[1..] == q
  {
  }

  /** An accepted trace of a non-empty pattern, taken apart. */
  lemma Unfold(s: string, i: nat, p: Pattern, t: seq<nat>)
    requires p != [] && Accepts(s, i, p, t)
    ensures t != [] && Valid(s, i, p, t[0]) && Accepts(s, Step(p, i, t[0]), Next(p, t[0]), t[1..])
  {
  }

  lemma CloseNoMatch(s: string, y: nat, g: nat, q: Pattern)
    requires NoMatchAt(s, y, q)
    ensures NoMatchAt(s, y, [Close(g)] + q)
  {
    HeadParts(Close(g), q);
    forall u ensures !Accepts(s, y, [Close(g)] + q, u) {
      if Accepts(s, y, [Close(g)] + q, u) {
        Unfold(s, y, [Close(g)] + q, u);
      }
    }
  }

  /** A newline-free subject is one run of `.` characters. */
  lemma AnyRun(s: string, x: nat, l: nat)
    requires '\n' !in s && x + l <= |s|
    ensures RunOf(s, x, l, AnyButNewline)
  {
    forall k | x <= k < x + l ensures InClass(s[k], AnyButNewline) {
      assert s[k] in s;
    }
  }

  // ---------------------------------------------------------------------
  // The engine's choices, one item at a time

  /** A group bound that holds: the engine goes straight on. */
  lemma PlainSearch(s: string, i: nat, p: Pattern, v: seq<nat>)
    requires p != [] && (p[0].Open? || p[0].Close?) && i <= |s|
    requires Search(s, i, p[1..]) == Some(v)
    ensures Search(s, i, p) == Some([0] + v)
  {
    SearchFirst(s, i, p[1..]);
    PlainFirst(s, i, p, v);
    SearchFirst(s, i, p);
  }

  /** A greedy repetition: the engine takes the longest run after which the rest matches. */
  lemma GreedySearch(s: string, i: nat, p: Pattern, l: nat, v: seq<nat>)
    requires p != [] && p[0].Rep? && p[0].greedy && l >= MinCount(p[0]) && RunOf(s, i, l, p[0].cls)
    requires i + l <= |s| && Search(s, i + l, p[1..]) == Some(v)
    requires forall m: nat :: m > l && RunOf(s, i, m, p[0].cls) ==> NoMatchAt(s, i + m, p[1..])
    ensures Search(s, i, p) == Some([l] + v)
  {
    SearchFirst(s, i + l, p[1..]);
    GreedyFirst(s, i, p, l, v);
    SearchFirst(s, i, p);
  }

  // ---------------------------------------------------------------------
  // A greedy group

  /** Whatever matches `(.+)` then `q` at `x` has `q` match at some later position. */
  lemma GroupAccepts(s: string, x: nat, g: nat, q: Pattern, u: seq<nat>) returns (y: nat)
    requires Accepts(s, x, Grp(g) + q, u)
    ensures |u| >= 3 && x < y <= |s| && Accepts(s, y, q, u[3..])
  {
    GrpParts(g, q);
    var p := Grp(g) + q;
    Unfold(s, x, p, u);
    var u1 := u[1..];
    Unfold(s, x, p[1..], u1);
    y := x + u1[0];
    var u2 := u1[1..];
    Unfold(s, y, p[1..][1..], u2);
    assert u2[1..] == u[3..];
  }

  /** When `q` matches nowhere after `u`, `(.+)` then `q` can only match before `u`. */
  lemma GroupAcceptsBelow(s: string, x: nat, g: nat, q: Pattern, u: int, t: seq<nat>) returns (y: nat)
    requires Accepts(s, x, Grp(g) + q, t) && NoneAfter(s, q, u)
    ensures |t| >= 3 && x < y <= u && Accepts(s, y, q, t[3..])
  {
    y := GroupAccepts(s, x, g, q, t);
    assert y <= u || NoMatchAt(s, y, q);
  }

  lemma GroupNoMatch(s: string, x: nat, g: nat, q: Pattern, u: int)
    requires NoneAfter(s, q, u) && x >= u
    ensures NoMatchAt(s, x, Grp(g) + q)
  {
    forall t ensures !Accepts(s, x, Grp(g) + q, t) {
      if Accepts(s, x, Grp(g) + q, t) {
        var y := GroupAcceptsBelow(s, x, g, q, u, t);
      }
    }
  }

  /** The greedy group ends where `q` last matches. */
  lemma GroupFirst(s: string, x: nat, g: nat, q: Pattern, u: nat, v: seq<nat>)
    requires x < u && Settled(s, q, u, v)
    ensures Search(s, x, Grp(g) + q) == Some([0, u - x, 0] + v)
  {
    GrpParts(g, q);
    var p := Grp(g) + q;
    var p1 := p[1..];
    var p2 := p1[1..];
    PlainSearch(s, u, p2, v);
    AnyRun(s, x, u - x);
    forall m: nat | m > u - x && RunOf(s, x, m, AnyButNewline) ensures NoMatchAt(s, x + m, p2) {
      CloseNoMatch(s, x + m, g, q);
    }
    GreedySearch(s, x, p1, u - x, [0] + v);
    PlainSearch(s, x, p, [u - x] + ([0] + v));
    assert [0] + ([u - x] + ([0] + v)) == [0, u - x, 0] + v;
  }

  // ---------------------------------------------------------------------
  // A gap of white space before a group

  /** Whatever matches the gap, the group and `q` at `z` leaves the gap's minimum and a character before `u`. */
  lemma GapGroupAccepts(s: string, z: nat, one: bool, g: nat, q: Pattern, u: int, t: seq<nat>)
    requires Accepts(s, z, [Rep(Space, one, true)] + (Grp(g) + q), t) && NoneAfter(s, q, u)
    ensures one ==> z < |s| && IsSpace(s[z])
    ensures z + (if one then 1 else 0) < u
  {
    HeadParts(Rep(Space, one, true), Grp(g) + q);
    Unfold(s, z, [Rep(Space, one, true)] + (Grp(g) + q), t);
    var m := t[0];
    assert RunOf(s, z, m, Space);
    var y := GroupAcceptsBelow(s, z + m, g, q, u, t[1..]);
    if one {
      assert InClass(s[z], Space);
    }
  }

  /**
    The greedy gap takes all the white space there is, or all but the last
    character when the group would otherwise reach `u`.
  */
  lemma GapGroupFirst(s: string, z: nat, one: bool, g: nat, q: Pattern, u: nat, v: seq<nat>) returns (m: nat, t: seq<nat>)
    requires Settled(s, q, u, v)
    requires (one ==> z < |s| && IsSpace(s[z])) && z + (if one then 1 else 0) < u
    ensures z + m < u && (one ==> m >= 1)
    ensures forall k :: z <= k < z + m ==> IsSpace(s[k])
    ensures t == [m, 0, u - (z + m), 0] + v
    ensures Search(s, z, [Rep(Space, one, true)] + (Grp(g) + q)) == Some(t)
  {
    var p := [Rep(Space, one, true)] + (Grp(g) + q);
    HeadParts(Rep(Space, one, true), Grp(g) + q);
    var n := RunLength(s, z, Space);
    m := if z + n < u then n else u - z - 1;
    RunOfIff(s, z, m, Space);
    assert forall k :: z <= k < z + m ==> InClass(s[k], Space);
    var l: nat := u - (z + m);
    var tg := [0, l, 0] + v;
    GroupFirst(s, z + m, g, q, u, v);
    forall m2: nat | m2 > m && RunOf(s, z, m2, Space) ensures NoMatchAt(s, z + m2, Grp(g) + q) {
      RunOfIff(s, z, m2, Space);
      GroupNoMatch(s, z + m2, g, q, u);
    }
    GreedySearch(s, z, p, m, tg);
    t := [m] + tg;
  }

  // ---------------------------------------------------------------------
  // A separator word, its gap and a group

  lemma AfterMarkParts(mark: Mark, g: nat, q: Pattern)
    ensures AfterMark(mark, g, q)[0] == Alt([mark.w])
    ensures AfterMark(mark, g, q)[1..] == [Gap(mark)] + (Grp(g) + q)
  {
  }

  lemma WordGapAccepts(s: string, p: nat, mark: Mark, g: nat, q: Pattern, u: int, t: seq<nat>)
    requires Accepts(s, p, AfterMark(mark, g, q), t) && NoneAfter(s, q, u)
    ensures LitAt(s, p, mark.w)
    ensures mark.Spaced? ==> p + |mark.w| < |s| && IsSpace(s[p + |mark.w|])
    ensures p + |mark.w| + MinGap(mark) < u
  {
    AfterMarkParts(mark, g, q);
    assert t[0] == 0;
    GapGroupAccepts(s, p + |mark.w|, mark.Spaced?, g, q, u, t[1..]);
  }

  /** A literal word that is there: the first trace goes on with what follows it. */
  lemma WordFirst(s: string, p: nat, w: string, rest: Pattern, tr: seq<nat>)
    requires LitAt(s, p, w) && p + |w| <= |s| && Search(s, p + |w|, rest) == Some(tr)
    ensures Search(s, p, [Word(w)] + rest) == Some([0] + tr)
  {
    HeadParts(Word(w), rest);
    SearchFirst(s, p + |w|, rest);
    AltFirst(s, p, [Word(w)] + rest, 0, tr);
    SearchFirst(s, p, [Word(w)] + rest);
  }

  lemma WordGapFirst(s: string, p: nat, mark: Mark, g: nat, q: Pattern, u: nat, v: seq<nat>) returns (m: nat, t: seq<nat>)
    requires Settled(s, q, u, v)
    requires LitAt(s, p, mark.w)
    requires mark.Spaced? ==> p + |mark.w| < |s| && IsSpace(s[p + |mark.w|])
    requires p + |mark.w| + MinGap(mark) < u
    ensures p + |mark.w| + m < u && (mark.Spaced? ==> m >= 1)
    ensures forall k :: p + |mark.w| <= k < p + |mark.w| + m ==> IsSpace(s[k])
    ensures t == [0, m, 0, u - (p + |mark.w| + m), 0] + v
    ensures Search(s, p, AfterMark(mark, g, q)) == Some(t)
  {
    var a := p + |mark.w|;
    var tr;
    m, tr := GapGroupFirst(s, a, mark.Spaced?, g, q, u, v);
    WordFirst(s, p, mark.w, [Gap(mark)] + (Grp(g) + q), tr);
    t := [0] + tr;
  }

  // ---------------------------------------------------------------------
  // A whole separator and a group

  /** What the engine's trace records before the separator word: the one white-space character of a spaced separator. */
  function Lead(mark: Mark): seq<nat> {
    if mark.Spaced? then [1] else []
  }

  /** Every match of a separator and a group at `y` has a cut at or after `y`. */
  lemma MarkAccepts(s: string, y: nat, mark: Mark, g: nat, q: Pattern, u: int, t: seq<nat>) returns (j: nat)
    requires Accepts(s, y, MarkThen(mark, g, q), t) && NoneAfter(s, q, u)
    ensures y <= j && CutAt(s, mark, j, u)
  {
    if mark.Spaced? {
      HeadParts(Sp, AfterMark(mark, g, q));
      var m := t[0];
      assert RunOf(s, y, m, Space) && m >= 1;
      j := y + m - 1;
      assert InClass(s[j], Space);
      WordGapAccepts(s, j + 1, mark, g, q, u, t[1..]);
    } else {
      j := y;
      WordGapAccepts(s, j, mark, g, q, u, t);
    }
  }

  /** Past the last cut, a separator and a group match nowhere. */
  lemma MarkNoneAfter(s: string, mark: Mark, g: nat, q: Pattern, u: int, last: int)
    requires NoneAfter(s, q, u)
    requires forall j: nat | last < j :: !CutAt(s, mark, j, u)
    ensures NoneAfter(s, MarkThen(mark, g, q), last)
  {
    forall y: nat | last < y <= |s| ensures NoMatchAt(s, y, MarkThen(mark, g, q)) {
      forall t ensures !Accepts(s, y, MarkThen(mark, g, q), t) {
        if Accepts(s, y, MarkThen(mark, g, q), t) {
          var j := MarkAccepts(s, y, mark, g, q, u, t);
        }
      }
    }
  }

  /** A white-space character followed by a letter is a run of exactly one. */
  lemma RunBeforeLetter(s: string, j: nat, w: string)
    requires j < |s| && IsSpace(s[j]) && LitAt(s, j + 1, w) && w != [] && 'a' <= w[0] <= 'z'
    ensures RunLength(s, j, Space) == 1
  {
    LitAtChar(s, j + 1, w, 0);
    assert !IsSpace(s[j + 1]);
  }

  /** One white-space character before a letter: the greedy `\s+` takes just it. */
  lemma OneSpaceFirst(s: string, j: nat, w: string, rest: Pattern, tr: seq<nat>)
    requires j < |s| && IsSpace(s[j]) && LitAt(s, j + 1, w) && w != [] && 'a' <= w[0] <= 'z'
    requires Search(s, j + 1, rest) == Some(tr)
    ensures Search(s, j, [Sp] + rest) == Some([1] + tr)
  {
    HeadParts(Sp, rest);
    RunBeforeLetter(s, j, w);
    RunOfIff(s, j, 1, Space);
    forall m2: nat | RunOf(s, j, m2, Space) ensures m2 <= 1 {
      RunOfIff(s, j, m2, Space);
    }
    GreedySearch(s, j, [Sp] + rest, 1, tr);
  }

  /** At a cut, the separator takes its one leading white-space character, its word, and its greedy gap. */
  lemma MarkFirst(s: string, mark: Mark, g: nat, q: Pattern, u: nat, v: seq<nat>, j: nat) returns (m: nat, t: seq<nat>)
    requires MarkOk(mark) && Settled(s, q, u, v)
    requires CutAt(s, mark, j, u)
    ensures After(mark, j) + m < u && (mark.Spaced? ==> m >= 1)
    ensures forall k :: After(mark, j) <= k < After(mark, j) + m ==> IsSpace(s[k])
    ensures t == Lead(mark) + [0, m, 0, u - (After(mark, j) + m), 0] + v
    ensures Search(s, j, MarkThen(mark, g, q)) == Some(t)
  {
    var tr;
    m, tr := WordGapFirst(s, WordStart(mark, j), mark, g, q, u, v);
    if mark.Spaced? {
      OneSpaceFirst(s, j, mark.w, AfterMark(mark, g, q), tr);
      t := [1] + tr;
      assert MarkThen(mark, g, q) == [Sp] + AfterMark(mark, g, q);
    } else {
      t := tr;
      assert MarkThen(mark, g, q) == AfterMark(mark, g, q);
    }
  }

  // ---------------------------------------------------------------------
  // Group spans along a trace

  lemma SpansEmpty(i: nat, open: map<nat, nat>, acc: map<nat, (nat, nat)>)
    ensures Spans([], [], i, open, acc) == acc
  {
  }

  /** Along a separator word, its gap and a group: the group's span is recorded. */
  lemma {:induction false} SpansAfterMark(mark: Mark, g: nat, q: Pattern, m: nat, l: nat, v: seq<nat>,
                                          i: nat, open: map<nat, nat>, acc: map<nat, (nat, nat)>)
    ensures var b := i + |mark.w| + m;
      Spans(AfterMark(mark, g, q), [0, m, 0, l, 0] + v, i, open, acc)
      == Spans(q, v, b + l, open[g := b], acc[g := (b, b + l)])
  {
    AfterMarkParts(mark, g, q);
    var p := AfterMark(mark, g, q);
    var t := [0, m, 0, l, 0] + v;
    var a := i + |mark.w|;
    var b := a + m;
    assert t[0] == 0 && t[1..] == [m, 0, l, 0] + v;
    assert Spans(p, t, i, open, acc) == Spans(p[1..], [m, 0, l, 0] + v, a, open, acc);
    var p1 := p[1..];
    HeadParts(Gap(mark), Grp(g) + q);
    assert ([m, 0, l, 0] + v)[1..] == [0, l, 0] + v;
    assert Spans(p1, [m, 0, l, 0] + v, a, open, acc) == Spans(Grp(g) + q, [0, l, 0] + v, b, open, acc);
    SpansGroup(g, q, l, v, b, open, acc);
  }

  /** Along a group: its span is recorded. */
  lemma SpansGroup(g: nat, q: Pattern, l: nat, v: seq<nat>, b: nat, open: map<nat, nat>, acc: map<nat, (nat, nat)>)
    ensures Spans(Grp(g) + q, [0, l, 0] + v, b, open, acc) == Spans(q, v, b + l, open[g := b], acc[g := (b, b + l)])
  {
    GrpParts(g, q);
    var p2 := Grp(g) + q;
    assert ([0, l, 0] + v)[1..] == [l, 0] + v;
    assert Spans(p2, [0, l, 0] + v, b, open, acc) == Spans(p2[1..], [l, 0] + v, b, open[g := b], acc);
    assert ([l, 0] + v)[1..] == [0] + v;
    assert Spans(p2[1..], [l, 0] + v, b, open[g := b], acc) == Spans([Close(g)] + q, [0] + v, b + l, open[g := b], acc);
    assert ([0] + v)[1..] == v;
    assert g in open[g := b] && open[g := b][g] == b;
  }

  /** Along a whole separator and a group. */
  lemma SpansMark(mark: Mark, g: nat, q: Pattern, m: nat, l: nat, v: seq<nat>,
                  i: nat, open: map<nat, nat>, acc: map<nat, (nat, nat)>)
    ensures var b := After(mark, i) + m;
      Spans(MarkThen(mark, g, q), Lead(mark) + [0, m, 0, l, 0] + v, i, open, acc)
      == Spans(q, v, b + l, open[g := b], acc[g := (b, b + l)])
  {
    var tail := [0, m, 0, l, 0] + v;
    if mark.Spaced? {
      HeadParts(Sp, AfterMark(mark, g, q));
      assert Lead(mark) + [0, m, 0, l, 0] + v == [1] + tail;
      assert ([1] + tail)[1..] == tail;
      SpansAfterMark(mark, g, q, m, l, v, i + 1, open, acc);
    } else {
      assert Lead(mark) + [0, m, 0, l, 0] + v == tail;
      SpansAfterMark(mark, g, q, m, l, v, i, open, acc);
    }
  }

  // ---------------------------------------------------------------------
  // Steps of a first trace, with the group they record

  /**
    Along the trace `t` of `p` from `i`, group `g` is recorded as spanning
    `b` to `u`, and what follows is the trace `v` of `q` from `u`.
  */
  ghost predicate Through(p: Pattern, t: seq<nat>, i: nat, q: Pattern, v: seq<nat>, u: nat, g: nat, b: nat) {
    forall open: map<nat, nat>, acc: map<nat, (nat, nat)> ::
      Spans(p, t, i, open, acc) == Spans(q, v, u, open[g := b], acc[g := (b, u)])
  }

  /** A separator word, its gap and group `g` record the group's span. */
  lemma AfterMarkThrough(mark: Mark, g: nat, q: Pattern, m: nat, l: nat, v: seq<nat>, i: nat)
    ensures Through(AfterMark(mark, g, q), [0, m, 0, l, 0] + v, i, q, v, i + |mark.w| + m + l, g, i + |mark.w| + m)
  {
    forall open: map<nat, nat>, acc: map<nat, (nat, nat)> {
      SpansAfterMark(mark, g, q, m, l, v, i, open, acc);
    }
  }

  /** A whole separator and group `g` record the group's span. */
  lemma MarkThrough(mark: Mark, g: nat, q: Pattern, m: nat, l: nat, v: seq<nat>, i: nat)
    ensures Through(MarkThen(mark, g, q), Lead(mark) + [0, m, 0, l, 0] + v, i, q, v, After(mark, i) + m + l, g, After(mark, i) + m)
  {
    forall open: map<nat, nat>, acc: map<nat, (nat, nat)> {
      SpansMark(mark, g, q, m, l, v, i, open, acc);
    }
  }

  /** The keyword, its gap and the first group, when the first group must end at `u`. */
  lemma KeyFirst(s: string, k: string, q: Pattern, u: nat, v: seq<nat>) returns (b: nat, t: seq<nat>)
    requires Settled(s, q, u, v) && Opens(s, k, u)
    ensures |k| <= b < u && forall i :: |k| <= i < b ==> IsSpace(s[i])
    ensures Match(s, AfterMark(Spaced(k), 1, q)) == Some(GroupsOf(s, AfterMark(Spaced(k), 1, q), t))
    ensures Through(AfterMark(Spaced(k), 1, q), t, 0, q, v, u, 1, b)
  {
    var m;
    m, t := WordGapFirst(s, 0, Spaced(k), 1, q, u, v);
    b := |k| + m;
    AfterMarkThrough(Spaced(k), 1, q, m, u - b, v, 0);
  }

  /** A separator at its last cut `j` and the group after it, when that group must end at `u`. */
  lemma MarkStep(s: string, mark: Mark, g: nat, q: Pattern, u: nat, v: seq<nat>, j: nat) returns (b: nat, t: seq<nat>)
    requires MarkOk(mark) && Settled(s, q, u, v)
    requires CutAt(s, mark, j, u) && forall j': nat | j < j' :: !CutAt(s, mark, j', u)
    ensures After(mark, j) <= b < u && forall i :: After(mark, j) <= i < b ==> IsSpace(s[i])
    ensures Settled(s, MarkThen(mark, g, q), j, t)
    ensures Through(MarkThen(mark, g, q), t, j, q, v, u, g, b)
  {
    var m;
    m, t := MarkFirst(s, mark, g, q, u, v, j);
    b := After(mark, j) + m;
    MarkSettled(s, mark, g, q, u, v, j, t);
    MarkThrough(mark, g, q, m, u - b, v, j);
  }

  /** The last cut before `u` is where the separator and the group after it match, and nowhere later. */
  lemma MarkSettled(s: string, mark: Mark, g: nat, q: Pattern, u: nat, v: seq<nat>, j: nat, t: seq<nat>)
    requires Settled(s, q, u, v) && j <= u
    requires forall j': nat | j < j' :: !CutAt(s, mark, j', u)
    requires Search(s, j, MarkThen(mark, g, q)) == Some(t)
    ensures Settled(s, MarkThen(mark, g, q), j, t)
  {
    MarkNoneAfter(s, mark, g, q, u, j);
  }

  /** Two steps that record groups 1 and 2 and end the pattern give the trace's spans. */
  lemma ThroughTwo(p: Pattern, t: seq<nat>, q: Pattern, v: seq<nat>, j: nat, n: nat, b1: nat, b2: nat)
    requires Through(p, t, 0, q, v, j, 1, b1) && Through(q, v, j, [], [], n, 2, b2)
    ensures Spans(p, t, 0, map[], map[]) == map[1 := (b1, j), 2 := (b2, n)]
  {
    var o1: map<nat, nat>, a1: map<nat, (nat, nat)> := map[1 := b1], map[1 := (b1, j)];
    assert Spans(p, t, 0, map[], map[]) == Spans(q, v, j, o1, a1);
    assert Spans(q, v, j, o1, a1) == Spans([], [], n, o1[2 := b2], a1[2 := (b2, n)]);
    SpansEmpty(n, o1[2 := b2], a1[2 := (b2, n)]);
  }

  /** Three steps that record groups 1, 2 and 3 and end the pattern give the trace's spans. */
  lemma ThroughThree(p: Pattern, t: seq<nat>, q1: Pattern, v1: seq<nat>, j1: nat, q2: Pattern, v2: seq<nat>, j2: nat,
                     n: nat, b0: nat, b1: nat, b2: nat)
    requires Through(p, t, 0, q1, v1, j1, 1, b0)
    requires Through(q1, v1, j1, q2, v2, j2, 2, b1)
    requires Through(q2, v2, j2, [], [], n, 3, b2)
    ensures SpansThree(Spans(p, t, 0, map[], map[]), b0, j1, b1, j2, b2, n)
  {
    var o1: map<nat, nat>, a1: map<nat, (nat, nat)> := map[1 := b0], map[1 := (b0, j1)];
    var o2: map<nat, nat>, a2: map<nat, (nat, nat)> := o1[2 := b1], a1[2 := (b1, j2)];
    assert Spans(p, t, 0, map[], map[]) == Spans(q1, v1, j1, o1, a1);
    assert Spans(q1, v1, j1, o1, a1) == Spans(q2, v2, j2, o2, a2);
    assert Spans(q2, v2, j2, o2, a2) == Spans([], [], n, o2[3 := b2], a2[3 := (b2, n)]);
    SpansEmpty(n, o2[3 := b2], a2[3 := (b2, n)]);
  }

  // ---------------------------------------------------------------------
  // The readings

  /** The pattern of one final group: `[]` matches at the end, and not after it. */
  lemma EndOnly(s: string)
    ensures First(s, |s|, [], []) && NoneAfter(s, [], |s|)
    ensures '\n' !in s ==> Settled(s, [], |s|, [])
  {
    EmptyFirst(s, |s|);
    SearchFirst(s, |s|, []);
  }

  /** White space in front of a slice does not change what `strip` gives. */
  lemma StripFrom(s: string, a: nat, b: nat, e: nat)
    requires a <= b <= e <= |s| && forall k :: a <= k < b ==> IsSpace(s[k])
    ensures Strip(s[a..e]) == Strip(s[b..e])
  {
    AllSpaceSlice(s, a, b);
    assert s[a..e] == s[a..b] + s[b..e];
    StripSpacePrefix(s[a..b], s[b..e]);
  }

  /** Nothing matches the two-part pattern when it has no reading. */
  lemma TwoNoMatch(s: string, k: string, mark: Mark)
    requires TwoCut(s, k, mark).None?
    ensures Match(s, TwoPart(k, mark)).None?
  {
    var q := MarkThen(mark, 2, []);
    EndOnly(s);
    var last: int := if Last(s, mark, |s|).Some? then Last(s, mark, |s|).value else -1;
    MarkNoneAfter(s, mark, 2, [], |s|, last);
    forall t ensures !Accepts(s, 0, TwoPart(k, mark), t) {
      if Accepts(s, 0, TwoPart(k, mark), t) {
        WordGapAccepts(s, 0, Spaced(k), 1, q, last, t);
      }
    }
  }

  /** The first trace of the two-part pattern and its group spans, when the reading finds a cut at `j`. */
  lemma TwoFirst(s: string, k: string, mark: Mark, j: nat) returns (b1: nat, b2: nat, t: seq<nat>)
    requires '\n' !in s && MarkOk(mark) && TwoCutAt(s, k, mark, j)
    ensures |k| <= b1 < j < |s| && After(mark, j) <= b2 < |s|
    ensures forall i :: |k| <= i < b1 ==> IsSpace(s[i])
    ensures forall i :: After(mark, j) <= i < b2 ==> IsSpace(s[i])
    ensures Match(s, TwoPart(k, mark)) == Some(GroupsOf(s, TwoPart(k, mark), t))
    ensures Spans(TwoPart(k, mark), t, 0, map[], map[]) == map[1 := (b1, j), 2 := (b2, |s|)]
  {
    var q := MarkThen(mark, 2, []);
    EndOnly(s);
    var v;
    b2, v := MarkStep(s, mark, 2, [], |s|, [], j);
    b1, t := KeyFirst(s, k, q, j, v);
    assert TwoPart(k, mark) == AfterMark(Spaced(k), 1, q);
    ThroughTwo(AfterMark(Spaced(k), 1, q), t, q, v, j, |s|, b1, b2);
  }

  /** The text of two groups whose spans are known. */
  lemma GroupsTwo(s: string, p: Pattern, t: seq<nat>, a1: nat, e1: nat, a2: nat, e2: nat)
    requires Spans(p, t, 0, map[], map[]) == map[1 := (a1, e1), 2 := (a2, e2)]
    requires a1 <= e1 <= |s| && a2 <= e2 <= |s|
    ensures var g := GroupsOf(s, p, t); 1 in g && 2 in g && g[1] == s[a1..e1] && g[2] == s[a2..e2]
  {
  }

  /** The groups of the first match of the two-part pattern, when the reading finds a cut at `j`. */
  lemma TwoGroups(s: string, k: string, mark: Mark, j: nat) returns (b1: nat, b2: nat)
    requires '\n' !in s && MarkOk(mark) && TwoCut(s, k, mark) == Some(j)
    ensures |k| <= b1 < j && After(mark, j) <= b2 < |s|
    ensures forall i :: |k| <= i < b1 ==> IsSpace(s[i])
    ensures forall i :: After(mark, j) <= i < b2 ==> IsSpace(s[i])
    ensures Match(s, TwoPart(k, mark)).Some?
    ensures var g := Match(s, TwoPart(k, mark)).value; 1 in g && 2 in g && g[1] == s[b1..j] && g[2] == s[b2..|s|]
  {
    var p := TwoPart(k, mark);
    var t;
    TwoCutMeans(s, k, mark, j);
    b1, b2, t := TwoFirst(s, k, mark, j);
    GroupsTwo(s, p, t, b1, j, b2, |s|);
  }

  /**
    The two-part shape's theorem: on a line without a newline, the pattern
    matches exactly when the reading finds a cut, and the two groups,
    stripped, are the reading's texts.
  */
  lemma TwoReading(s: string, k: string, mark: Mark)
    requires MarkOk(mark)
    ensures '\n' !in s ==> (Match(s, TwoPart(k, mark)).Some? <==> TwoTexts(s, k, mark).Some?)
    ensures '\n' !in s && Match(s, TwoPart(k, mark)).Some? ==>
      var g := Match(s, TwoPart(k, mark)).value;
      1 in g && 2 in g && (Strip(g[1]), Strip(g[2])) == TwoTexts(s, k, mark).value
  {
    if '\n' in s {
    } else if TwoCut(s, k, mark).None? {
      TwoNoMatch(s, k, mark);
    } else {
      TwoMatched(s, k, mark);
    }
  }

  /** When the reading finds a cut, the pattern matches and its groups, stripped, are the reading's texts. */
  lemma TwoMatched(s: string, k: string, mark: Mark)
    requires '\n' !in s && MarkOk(mark) && TwoCut(s, k, mark).Some?
    ensures Match(s, TwoPart(k, mark)).Some? && TwoTexts(s, k, mark).Some?
    ensures var g := Match(s, TwoPart(k, mark)).value;
      1 in g && 2 in g && (Strip(g[1]), Strip(g[2])) == TwoTexts(s, k, mark).value
  {
    var j := TwoCut(s, k, mark).value;
    var a2 := After(mark, j);
    var b1, b2 := TwoGroups(s, k, mark, j);
    StripFrom(s, |k|, b1, j);
    StripFrom(s, a2, b2, |s|);
  }

  // ---------------------------------------------------------------------
  // The three-part shape

  /** Nothing matches the three-part pattern when it has no reading. */
  lemma ThreeNoMatch(s: string, k: string, m1: Mark, m2: Mark)
    requires ThreeCuts(s, k, m1, m2).None?
    ensures Match(s, ThreePart(k, m1, m2)).None?
  {
    var q2 := MarkThen(m2, 3, []);
    var q1 := MarkThen(m1, 2, q2);
    EndOnly(s);
    var last2: int := if Last(s, m2, |s|).Some? then Last(s, m2, |s|).value else -1;
    MarkNoneAfter(s, m2, 3, [], |s|, last2);
    var last1: int := if last2 >= 0 && Last(s, m1, last2).Some? then Last(s, m1, last2).value else -1;
    MarkNoneAfter(s, m1, 2, q2, last2, last1);
    forall t ensures !Accepts(s, 0, ThreePart(k, m1, m2), t) {
      if Accepts(s, 0, ThreePart(k, m1, m2), t) {
        WordGapAccepts(s, 0, Spaced(k), 1, q1, last1, t);
      }
    }
  }

  /** Groups 1, 2 and 3 have the given spans. */
  predicate SpansThree(sp: map<nat, (nat, nat)>, a1: nat, e1: nat, a2: nat, e2: nat, a3: nat, e3: nat) {
    1 in sp && 2 in sp && 3 in sp && sp[1] == (a1, e1) && sp[2] == (a2, e2) && sp[3] == (a3, e3)
  }

  /** Groups 1, 2 and 3 took part and hold the given texts. */
  predicate GroupsAre(g: map<nat, string>, x1: string, x2: string, x3: string) {
    1 in g && 2 in g && 3 in g && g[1] == x1 && g[2] == x2 && g[3] == x3
  }

  /** The text of three groups whose spans are known. */
  lemma GroupsThree(s: string, p: Pattern, t: seq<nat>, a1: nat, e1: nat, a2: nat, e2: nat, a3: nat, e3: nat)
    requires SpansThree(Spans(p, t, 0, map[], map[]), a1, e1, a2, e2, a3, e3)
    requires a1 <= e1 <= |s| && a2 <= e2 <= |s| && a3 <= e3 <= |s|
    ensures GroupsAre(GroupsOf(s, p, t), s[a1..e1], s[a2..e2], s[a3..e3])
  {
  }

  /** The two separators and the groups after the first group, given their last cuts. */
  lemma ThreeTail(s: string, m1: Mark, m2: Mark, j1: nat, j2: nat) returns (b1: nat, b2: nat, v1: seq<nat>, v2: seq<nat>)
    requires '\n' !in s && MarkOk(m1) && MarkOk(m2)
    requires CutAt(s, m2, j2, |s|) && forall j: nat | j2 < j :: !CutAt(s, m2, j, |s|)
    requires CutAt(s, m1, j1, j2) && forall j: nat | j1 < j :: !CutAt(s, m1, j, j2)
    ensures j1 < j2 < |s| && After(m1, j1) <= b1 < j2 && After(m2, j2) <= b2 < |s|
    ensures forall i :: After(m1, j1) <= i < b1 ==> IsSpace(s[i])
    ensures forall i :: After(m2, j2) <= i < b2 ==> IsSpace(s[i])
    ensures Settled(s, MarkThen(m1, 2, MarkThen(m2, 3, [])), j1, v1)
    ensures Through(MarkThen(m1, 2, MarkThen(m2, 3, [])), v1, j1, MarkThen(m2, 3, []), v2, j2, 2, b1)
    ensures Through(MarkThen(m2, 3, []), v2, j2, [], [], |s|, 3, b2)
  {
    EndOnly(s);
    b2, v2 := MarkStep(s, m2, 3, [], |s|, [], j2);
    b1, v1 := MarkStep(s, m1, 2, MarkThen(m2, 3, []), j2, v2, j1);
  }

  /** The first trace of the three-part pattern and its group spans, when the reading finds cuts at `j1` and `j2`. */
  lemma ThreeFirst(s: string, k: string, m1: Mark, m2: Mark, j1: nat, j2: nat) returns (b0: nat, b1: nat, b2: nat, t: seq<nat>)
    requires '\n' !in s && MarkOk(m1) && MarkOk(m2) && ThreeCutsAt(s, k, m1, m2, j1, j2)
    ensures |k| <= b0 < j1 < j2 < |s| && After(m1, j1) <= b1 < j2 && After(m2, j2) <= b2 < |s|
    ensures forall i :: |k| <= i < b0 ==> IsSpace(s[i])
    ensures forall i :: After(m1, j1) <= i < b1 ==> IsSpace(s[i])
    ensures forall i :: After(m2, j2) <= i < b2 ==> IsSpace(s[i])
    ensures Match(s, ThreePart(k, m1, m2)) == Some(GroupsOf(s, ThreePart(k, m1, m2), t))
    ensures SpansThree(Spans(ThreePart(k, m1, m2), t, 0, map[], map[]), b0, j1, b1, j2, b2, |s|)
  {
    var q2 := MarkThen(m2, 3, []);
    var q1 := MarkThen(m1, 2, q2);
    var v1, v2;
    b1, b2, v1, v2 := ThreeTail(s, m1, m2, j1, j2);
    b0, t := KeyFirst(s, k, q1, j1, v1);
    assert ThreePart(k, m1, m2) == AfterMark(Spaced(k), 1, q1);
    ThroughThree(AfterMark(Spaced(k), 1, q1), t, q1, v1, j1, q2, v2, j2, |s|, b0, b1, b2);
  }

  /** The groups of the first match of the three-part pattern, when the reading finds cuts at `j1` and `j2`. */
  lemma ThreeGroups(s: string, k: string, m1: Mark, m2: Mark, j1: nat, j2: nat) returns (b0: nat, b1: nat, b2: nat)
    requires '\n' !in s && MarkOk(m1) && MarkOk(m2) && ThreeCuts(s, k, m1, m2) == Some((j1, j2))
    ensures |k| <= b0 < j1 && After(m1, j1) <= b1 < j2 && After(m2, j2) <= b2 < |s|
    ensures forall i :: |k| <= i < b0 ==> IsSpace(s[i])
    ensures forall i :: After(m1, j1) <= i < b1 ==> IsSpace(s[i])
    ensures forall i :: After(m2, j2) <= i < b2 ==> IsSpace(s[i])
    ensures Match(s, ThreePart(k, m1, m2)).Some?
    ensures GroupsAre(Match(s, ThreePart(k, m1, m2)).value, s[b0..j1], s[b1..j2], s[b2..|s|])
  {
    var p := ThreePart(k, m1, m2);
    var t;
    ThreeCutsMeans(s, k, m1, m2, j1, j2);
    b0, b1, b2, t := ThreeFirst(s, k, m1, m2, j1, j2);
    GroupsThree(s, p, t, b0, j1, b1, j2, b2, |s|);
  }

  /**
    The three-part shape's theorem: on a line without a newline, the
    pattern matches exactly when the reading finds both cuts, and the three
    groups, stripped, are the reading's texts.
  */
  lemma ThreeReading(s: string, k: string, m1: Mark, m2: Mark)
    requires MarkOk(m1) && MarkOk(m2)
    ensures '\n' !in s ==> (Match(s, ThreePart(k, m1, m2)).Some? <==> ThreeTexts(s, k, m1, m2).Some?)
    ensures '\n' !in s && Match(s, ThreePart(k, m1, m2)).Some? ==>
      var g := Match(s, ThreePart(k, m1, m2)).value;
      1 in g && 2 in g && 3 in g && (Strip(g[1]), Strip(g[2]), Strip(g[3])) == ThreeTexts(s, k, m1, m2).value
  {
    if '\n' in s {
    } else if ThreeCuts(s, k, m1, m2).None? {
      ThreeNoMatch(s, k, m1, m2);
    } else {
      ThreeMatched(s, k, m1, m2);
    }
  }

  /** When the reading finds both cuts, the pattern matches and its groups, stripped, are the reading's texts. */
  lemma ThreeMatched(s: string, k: string, m1: Mark, m2: Mark)
    requires '\n' !in s && MarkOk(m1) && MarkOk(m2) && ThreeCuts(s, k, m1, m2).Some?
    ensures Match(s, ThreePart(k, m1, m2)).Some? && ThreeTexts(s, k, m1, m2).Some?
    ensures var g := Match(s, ThreePart(k, m1, m2)).value;
      1 in g && 2 in g && 3 in g && (Strip(g[1]), Strip(g[2]), Strip(g[3])) == ThreeTexts(s, k, m1, m2).value
  {
    var (j1, j2) := ThreeCuts(s, k, m1, m2).value;
    var a1, a2 := After(m1, j1), After(m2, j2);
    var b0, b1, b2 := ThreeGroups(s, k, m1, m2, j1, j2);
    StripFrom(s, |k|, b0, j1);
    StripFrom(s, a1, b1, j2);
    StripFrom(s, a2, b2, |s|);
  }
}

=== FILE: split_intents.dfy ===
/**
  The recognisers of `agentic_system/intent/basic/write.py`,
  `agentic_system/intent/interraction/rewrite.py` and
  `agentic_system/intent/basic/rmdir.py`. Write and rewrite try two
  patterns in turn and the first that matches decides; rmdir has a single
  pattern with an optional trailing flag word, reported as a boolean.
  Each recogniser carries, next to the shape of its result, the explicit
  reading of its patterns on an instruction without a newline.
*/
module SplitIntents {
  import opened Common
  import opened PyText
  import opened Regex
  import opened PyRe
  import opened Intents
  import opened PrefixForm
  import opened SplitForm
  import opened RmdirForm
  import opened BasicIntents

  // ---------------------------------------------------------------------
  // write

  /** `write\s+(.+)\s+to\s+(.+)`: the text, then the file. */
  function WriteTextTo(): Pattern {
    TwoPart("write", Spaced("to"))
  }

  /** `write to\s+(.+):\s*(.+)`: the file, then the text. */
  function WriteToFile(): Pattern {
    TwoPart("write to", Tight(":"))
  }

  function WriteIntent(file: string, text: string): (r: Intent)
    ensures r.Keys == {"action", "file", "text"}
    ensures r["action"] == Str("write") && r["file"] == Str(file) && r["text"] == Str(text)
  {
    map["action" := Str("write"), "file" := Str(file), "text" := Str(text)]
  }

  /** The explicit reading of the write recogniser: the `... to <file>` form first, the `write to <file>: ...` form second. */
  function WriteReading(s: string): Option<Intent> {
    match TwoTexts(s, "write", Spaced("to"))
    case Some((text, file)) => Some(WriteIntent(file, text))
    case None =>
      match TwoTexts(s, "write to", Tight(":"))
      case Some((file, text)) => Some(WriteIntent(file, text))
      case None => None
  }

  /** `WriteIntentParser.parse`. */
  function ParseWrite(s: string): (r: Option<Intent>)
    ensures r.Some? ==> r.value.Keys == {"action", "file", "text"} && r.value["action"] == Str("write")
    ensures r.Some? ==> r.value["file"].Str? && Stripped(r.value["file"].s) && r.value["text"].Str? && Stripped(r.value["text"].s)
    ensures '\n' !in s ==> r == WriteReading(s)
  {
    TwoReading(s, "write", Spaced("to"));
    TwoReading(s, "write to", Tight(":"));
    match Match(s, WriteTextTo())
    case Some(g) => Some(WriteIntent(Strip(Captured(g, 2)), Strip(Captured(g, 1))))
    case None =>
      match Match(s, WriteToFile())
      case Some(g) => Some(WriteIntent(Strip(Captured(g, 1)), Strip(Captured(g, 2))))
      case None => None
  }

  // ---------------------------------------------------------------------
  // rewrite

  /** `rewrite\s+(.+)\s+with\s+(.+)\s+to\s+(.+)`: file, prompt, output. */
  function RewriteWithTo(): Pattern {
    ThreePart("rewrite", Spaced("with"), Spaced("to"))
  }

  /** `rewrite\s+(.+)\s+to\s+(.+)\s+with\s+(.+)`: file, output, prompt. */
  function RewriteToWith(): Pattern {
    ThreePart("rewrite", Spaced("to"), Spaced("with"))
  }

  function RewriteIntent(file: string, prompt: string, output: string): (r: Intent)
    ensures r.Keys == {"action", "file", "prompt", "output"}
    ensures r["action"] == Str("rewrite") && r["file"] == Str(file) && r["prompt"] == Str(prompt) && r["output"] == Str(output)
  {
    map["action" := Str("rewrite"), "file" := Str(file), "prompt" := Str(prompt), "output" := Str(output)]
  }

  /** The explicit reading of the rewrite recogniser: the `with ... to ...` order first, `to ... with ...` second. */
  function RewriteReading(s: string): Option<Intent> {
    match ThreeTexts(s, "rewrite", Spaced("with"), Spaced("to"))
    case Some((file, prompt, output)) => Some(RewriteIntent(file, prompt, output))
    case None =>
      match ThreeTexts(s, "rewrite", Spaced("to"), Spaced("with"))
      case Some((file, output, prompt)) => Some(RewriteIntent(file, prompt, output))
      case None => None
  }

  /** `RewriteIntentParser.parse`. */
  function ParseRewrite(s: string): (r: Option<Intent>)
    ensures r.Some? ==> r.value.Keys == {"action", "file", "prompt", "output"} && r.value["action"] == Str("rewrite")
    ensures r.Some? ==> forall key | key in {"file", "prompt", "output"} :: r.value[key].Str? && Stripped(r.value[key].s)
    ensures '\n' !in s ==> r == RewriteReading(s)
  {
    ThreeReading(s, "rewrite", Spaced("with"), Spaced("to"));
    ThreeReading(s, "rewrite", Spaced("to"), Spaced("with"));
    match Match(s, RewriteWithTo())
    case Some(g) => Some(RewriteIntent(Strip(Captured(g, 1)), Strip(Captured(g, 2)), Strip(Captured(g, 3))))
    case None =>
      match Match(s, RewriteToWith())
      case Some(g) => Some(RewriteIntent(Strip(Captured(g, 1)), Strip(Captured(g, 3)), Strip(Captured(g, 2))))
      case None => None
  }

  // ---------------------------------------------------------------------
  // rmdir

  const RmdirWords: seq<string> := ["rmdir", "remove directory", "delete folder"]

  function RmdirIntent(path: string, force: bool): (r: Intent)
    ensures r.Keys == {"action", "path", "force"}
    ensures r["action"] == Str("rmdir") && r["path"] == Str(path) && r["force"] == Bool(force)
  {
    map["action" := Str("rmdir"), "path" := Str(path), "force" := Bool(force)]
  }

  /** The explicit reading of the rmdir recogniser. */
  function RmdirReadingIntent(s: string): Option<Intent> {
    match RmdirArgs(s, RmdirWords, RmdirFlags)
    case Some((path, force)) => Some(RmdirIntent(path, force))
    case None => None
  }

  /** `RmdirIntentParser.parse`: `force` is `bool(match.group(2))`, false when the flag group took no part. */
  function ParseRmdir(s: string): (r: Option<Intent>)
    ensures r.Some? ==> r.value.Keys == {"action", "path", "force"} && r.value["action"] == Str("rmdir")
    ensures r.Some? ==> r.value["path"].Str? && Stripped(r.value["path"].s) && r.value["force"].Bool?
    ensures '\n' !in s ==> r == RmdirReadingIntent(s)
  {
    RmdirFlagsFit();
    RmdirReading(s, RmdirWords, RmdirFlags);
    match Match(s, RmdirPattern(RmdirWords, RmdirFlags))
    case Some(g) => Some(RmdirIntent(Strip(Captured(g, 1)), 2 in g && g[2] != ""))
    case None => None
  }
}

=== FILE: text.dfy ===
/**
  The fragment of Python's `str` behaviour the recognisers and commands rely on:
  white space as `str.isspace()` and the `\s` class see it, ASCII case folding,
  `strip`, `in`, `replace(old, "")`, `join`, `split()`, `splitlines()`,
  decimal rendering of counts, and code-point ordering of strings.
*/
module PyText {

  /** White space as Python's `str.isspace()` and the `\s` class of a `str` pattern see it. */
  predicate IsSpace(c: char) {
    || ('\t' <= c <= '\r')
    || ('\U{1C}' <= c <= '\U{1F}')
    || c == ' ' || c == '\U{85}' || c == '\U{A0}' || c == '\U{1680}'
    || ('\U{2000}' <= c <= '\U{200A}')
    || c == '\U{2028}' || c == '\U{2029}' || c == '\U{202F}' || c == '\U{205F}' || c == '\U{3000}'
  }

  predicate AllSpace(s: string) {
    forall i :: 0 <= i < |s| ==> IsSpace(s[i])
  }

  /** ASCII lower-casing of one character. */
  function Lower(c: char): (r: char)
    ensures 'A' <= c <= 'Z' ==> 'a' <= r <= 'z'
    ensures !('A' <= c <= 'Z') ==> r == c
  {
    if 'A' <= c <= 'Z' then (c as int + 32) as char else c
  }

  /** `s.lower()`, restricted to ASCII letters. */
  function LowerStr(s: string): (r: string)
    ensures |r| == |s|
    ensures forall i :: 0 <= i < |s| ==> r[i] == Lower(s[i])
  {
    seq(|s|, i requires 0 <= i < |s| => Lower(s[i]))
  }

  /** The first index at or after `i` that does not hold white space, or `|s|`. */
  function SkipSpace(s: string, i: nat): (j: nat)
    requires i <= |s|
    ensures i <= j <= |s|
    ensures j == |s| || !IsSpace(s[j])
    decreases |s| - i
  {
    if i == |s| || !IsSpace(s[i]) then i else SkipSpace(s, i + 1)
  }

  /** Everything `SkipSpace` passes over is white space. */
  lemma {:induction false} SkipSpaceSkips(s: string, i: nat)
    requires i <= |s|
    ensures forall k :: i <= k < SkipSpace(s, i) ==> IsSpace(s[k])
    decreases |s| - i
  {
    if i < |s| && IsSpace(s[i]) {
      SkipSpaceSkips(s, i + 1);
    }
  }

  /** Going down from `j`, the index just past the last character at or after `lo` that is not white space, or `lo`. */
  function TrimEnd(s: string, lo: nat, j: nat): (e: nat)
    requires lo <= j <= |s|
    ensures lo <= e <= j
    ensures e == lo || !IsSpace(s[e - 1])
    decreases j
  {
    if j == lo || !IsSpace(s[j - 1]) then j else TrimEnd(s, lo, j - 1)
  }

  /** Everything `TrimEnd` passes over is white space. */
  lemma {:induction false} TrimEndTrims(s: string, lo: nat, j: nat)
    requires lo <= j <= |s|
    ensures forall k :: TrimEnd(s, lo, j) <= k < j ==> IsSpace(s[k])
    decreases j
  {
    if j > lo && IsSpace(s[j - 1]) {
      TrimEndTrims(s, lo, j - 1);
    }
  }

  /** A string with no white space at either end. */
  predicate Stripped(s: string) {
    s == [] || (!IsSpace(s[0]) && !IsSpace(s[|s| - 1]))
  }

  /** `s.strip()`: `s` without its leading and trailing white space. */
  function Strip(s: string): (r: string)
    ensures Stripped(r) && |r| <= |s|
  {
    var a := SkipSpace(s, 0);
    var e := TrimEnd(s, a, |s|);
    SliceStripped(s, a, e);
    s[a..e]
  }

  lemma SliceStripped(s: string, i: nat, j: nat)
    requires i <= j <= |s| && (i < j ==> !IsSpace(s[i]) && !IsSpace(s[j - 1]))
    ensures Stripped(s[i..j])
  {
    if i < j {
      assert s[i..j][0] == s[i] && s[i..j][j - i - 1] == s[j - 1];
    }
  }

  lemma AllSpaceSlice(s: string, i: nat, j: nat)
    requires i <= j <= |s| && forall k :: i <= k < j ==> IsSpace(s[k])
    ensures AllSpace(s[i..j])
  {
    forall k | 0 <= k < j - i ensures IsSpace(s[i..j][k]) {
      assert s[i..j][k] == s[i + k];
    }
  }

  /** `SkipSpace` stops at the first character that is not white space, wherever that is. */
  lemma {:induction false} SkipSpaceIs(s: string, i: nat, n: nat)
    requires i <= n <= |s| && (forall k :: i <= k < n ==> IsSpace(s[k])) && (n == |s| || !IsSpace(s[n]))
    ensures SkipSpace(s, i) == n
    decreases n - i
  {
    if i < n {
      SkipSpaceIs(s, i + 1, n);
    }
  }

  /** `TrimEnd` stops just past the last character that is not white space, wherever that is. */
  lemma {:induction false} TrimEndIs(s: string, lo: nat, e: nat, j: nat)
    requires lo <= e <= j <= |s| && (forall k :: e <= k < j ==> IsSpace(s[k])) && (e == lo || !IsSpace(s[e - 1]))
    ensures TrimEnd(s, lo, j) == e
    decreases j
  {
    if e < j {
      TrimEndIs(s, lo, e, j - 1);
    }
  }

  /**
    `strip` is characterised by its two promises: whatever white space
    surrounds a string that neither starts nor ends with white space,
    stripping gives back exactly that string.
  */
  lemma StripUnique(x: string, m: string, y: string)
    requires AllSpace(x) && AllSpace(y) && Stripped(m)
    ensures Strip(x + m + y) == m
  {
    var s := x + m + y;
    assert forall k :: 0 <= k < |x| ==> s[k] == x[k];
    assert forall k :: |x| + |m| <= k < |s| ==> s[k] == y[k - |x| - |m|];
    if m == [] {
      SkipSpaceIs(s, 0, |s|);
    } else {
      assert s[|x|] == m[0] && s[|x| + |m| - 1] == m[|m| - 1];
      SkipSpaceIs(s, 0, |x|);
      TrimEndIs(s, |x|, |x| + |m|, |s|);
      assert s[|x|..|x| + |m|] == m;
    }
  }

  lemma AllSpaceConcat(x: string, y: string)
    requires AllSpace(x) && AllSpace(y)
    ensures AllSpace(x + y)
  {
    forall k | 0 <= k < |x + y| ensures IsSpace((x + y)[k]) {
      if k >= |x| {
        assert (x + y)[k] == y[k - |x|];
      }
    }
  }

  /** `s` is its stripped text with white space on both sides. */
  lemma StripSplit(s: string) returns (a: nat)
    ensures a + |Strip(s)| <= |s|
    ensures s == s[..a] + Strip(s) + s[a + |Strip(s)|..]
    ensures AllSpace(s[..a]) && AllSpace(s[a + |Strip(s)|..])
  {
    a := SkipSpace(s, 0);
    var e := TrimEnd(s, a, |s|);
    SkipSpaceSkips(s, 0);
    TrimEndTrims(s, a, |s|);
    assert Strip(s) == s[a..e];
    AllSpaceSlice(s, 0, a);
    AllSpaceSlice(s, e, |s|);
    ThreeSlices(s, a, e);
  }

  lemma ThreeSlices(s: string, i: nat, j: nat)
    requires i <= j <= |s|
    ensures s == s[..i] + s[i..j] + s[j..]
  {
  }

  /** A string that starts with a visible character is its stripped text followed by white space. */
  lemma StripFromStart(s: string)
    requires s != [] && !IsSpace(s[0])
    ensures |Strip(s)| <= |s| && s == Strip(s) + s[|Strip(s)|..] && AllSpace(s[|Strip(s)|..])
  {
    var a := StripSplit(s);
    assert s[..a] == [];
  }

  /** In a string that starts with a visible character, every visible character lies within the stripped text. */
  lemma VisibleWithinStrip(s: string, i: nat)
    requires s != [] && !IsSpace(s[0]) && i < |s| && !IsSpace(s[i])
    ensures i < |Strip(s)|
  {
    StripFromStart(s);
  }

  /** White space in front of a string does not change what `strip` gives. */
  lemma StripSpacePrefix(x: string, y: string)
    requires AllSpace(x)
    ensures Strip(x + y) == Strip(y)
  {
    var a := StripSplit(y);
    var m := Strip(y);
    var pre, post := y[..a], y[a + |m|..];
    assert x + y == (x + pre) + m + post by {
      ConcatAssoc(x, pre, m, post);
    }
    AllSpaceConcat(x, pre);
    StripUnique(x + pre, m, post);
  }

  /** White space after a string does not change what `strip` gives. */
  lemma StripSpaceSuffix(x: string, y: string)
    requires AllSpace(y)
    ensures Strip(x + y) == Strip(x)
  {
    var a := StripSplit(x);
    var m := Strip(x);
    var pre, post := x[..a], x[a + |m|..];
    assert x + y == pre + m + (post + y);
    AllSpaceConcat(post, y);
    StripUnique(pre, m, post + y);
  }

  /** `strip` gives nothing exactly when the string is all white space. */
  lemma StripEmpty(x: string)
    ensures Strip(x) == [] <==> AllSpace(x)
  {
    if Strip(x) == [] {
      var a := StripSplit(x);
      assert x == x[..a] + x[a..];
      AllSpaceConcat(x[..a], x[a..]);
    }
    if AllSpace(x) {
      StripAllSpace(x);
    }
  }

  lemma ConcatAssoc(x: string, p: string, m: string, q: string)
    ensures x + (p + m + q) == (x + p) + m + q
  {
  }

  lemma StripIdempotent(s: string)
    ensures Strip(Strip(s)) == Strip(s)
  {
    StripUnique([], Strip(s), []);
    assert [] + Strip(s) + [] == Strip(s);
  }

  lemma StripStripped(m: string)
    requires Stripped(m)
    ensures Strip(m) == m
  {
    StripUnique([], m, []);
    assert [] + m + [] == m;
  }

  lemma StripAllSpace(x: string)
    requires AllSpace(x)
    ensures Strip(x) == []
  {
    StripUnique(x, [], []);
    assert x + [] + [] == x;
  }

  /** ASCII case-insensitive equality of two strings. */
  predicate EqualsIgnoreCase(a: string, b: string) {
    |a| == |b| && forall i :: 0 <= i < |a| ==> Lower(a[i]) == Lower(b[i])
  }

  lemma LowerStrEquals(s: string, lit: string)
    requires forall i :: 0 <= i < |lit| ==> Lower(lit[i]) == lit[i]
    ensures LowerStr(s) == lit <==> EqualsIgnoreCase(s, lit)
  {
    if EqualsIgnoreCase(s, lit) {
      assert forall i :: 0 <= i < |s| ==> LowerStr(s)[i] == lit[i];
    }
  }

  /** `needle` occurs in `hay` starting at index `i`. */
  ghost predicate OccursAt(hay: string, needle: string, i: nat) {
    i + |needle| <= |hay| && hay[i..i + |needle|] == needle
  }

  /** Python's `needle in hay` for strings. */
  function Contains(hay: string, needle: string): (b: bool)
    ensures b <==> exists i: nat :: OccursAt(hay, needle, i)
    decreases |hay|
  {
    if |needle| > |hay| then false
    else if hay[..|needle|] == needle then
      assert OccursAt(hay, needle, 0);
      true
    else
      ContainsShift(hay, needle);
      Contains(hay[1..], needle)
  }

  /** An occurrence in `hay[1..]` is an occurrence in `hay` one place later, and back. */
  lemma ContainsShift(hay: string, needle: string)
    requires |hay| > 0 && !OccursAt(hay, needle, 0)
    ensures (exists i: nat :: OccursAt(hay[1..], needle, i)) <==> (exists i: nat :: OccursAt(hay, needle, i))
  {
    if exists i: nat :: OccursAt(hay[1..], needle, i) {
      var i: nat :| OccursAt(hay[1..], needle, i);
      assert hay[1..][i..i + |needle|] == hay[i + 1..i + 1 + |needle|];
      assert OccursAt(hay, needle, i + 1);
    }
    if exists i: nat :: OccursAt(hay, needle, i) {
      var i: nat :| OccursAt(hay, needle, i);
      assert i != 0;
      assert hay[1..][i - 1..i - 1 + |needle|] == hay[i..i + |needle|];
      assert OccursAt(hay[1..], needle, i - 1);
    }
  }

  lemma ContainsAppend(a: string, b: string, c: string)
    ensures Contains(a + b + c, b)
  {
    assert (a + b + c)[|a|..|a| + |b|] == b;
    assert OccursAt(a + b + c, b, |a|);
  }

  /** Python's `s.replace(old, "")`: every non-overlapping occurrence of `old` (here `pat`), scanned left to right, removed. */
  function RemoveAll(s: string, pat: string): (r: string)
    requires |pat| > 0
    ensures |r| <= |s|
    decreases |s|
  {
    if |s| < |pat| then s
    else if s[..|pat|] == pat then RemoveAll(s[|pat|..], pat)
    else [s[0]] + RemoveAll(s[1..], pat)
  }

  /** Removing a substring changes the string exactly when the substring occurs in it. */
  lemma {:induction false} RemoveAllUnchangedIff(s: string, pat: string)
    requires |pat| > 0
    ensures RemoveAll(s, pat) == s <==> !Contains(s, pat)
    decreases |s|
  {
    if |s| < |pat| {
      assert forall i: nat :: !OccursAt(s, pat, i);
    } else if s[..|pat|] == pat {
      assert OccursAt(s, pat, 0);
      assert |RemoveAll(s, pat)| < |s|;
    } else {
      assert !OccursAt(s, pat, 0);
      ContainsShift(s, pat);
      RemoveAllUnchangedIff(s[1..], pat);
      if Contains(s, pat) {
        RemoveAllShrinks(s[1..], pat);
      } else {
        assert s == [s[0]] + s[1..];
      }
    }
  }

  /** Removing an occurring substring makes the string strictly shorter. */
  lemma {:induction false} RemoveAllShrinks(s: string, pat: string)
    requires |pat| > 0 && Contains(s, pat)
    ensures |RemoveAll(s, pat)| < |s|
    decreases |s|
  {
    if s[..|pat|] != pat {
      assert !OccursAt(s, pat, 0);
      ContainsShift(s, pat);
      RemoveAllShrinks(s[1..], pat);
    }
  }

  /** Python's `sep.join(parts)`. */
  function Join(parts: seq<string>, sep: string): (r: string)
    ensures |parts| == 1 ==> r == parts[0]
    ensures |parts| > 1 ==> r == parts[0] + sep + Join(parts[1..], sep)
  {
    if parts == [] then ""
    else if |parts| == 1 then parts[0]
    else parts[0] + sep + Join(parts[1..], sep)
  }

  // ---------------------------------------------------------------------
  // str.split() with no argument

  /** The first index at or after `i` that holds white space, or `|s|`. */
  function WordEnd(s: string, i: nat): (j: nat)
    requires i <= |s|
    ensures i <= j <= |s|
    ensures forall k :: i <= k < j ==> !IsSpace(s[k])
    ensures j == |s| || IsSpace(s[j])
    decreases |s| - i
  {
    if i == |s| || IsSpace(s[i]) then i else WordEnd(s, i + 1)
  }

  /** A non-empty string without white space. */
  predicate IsWord(w: string) {
    w != [] && forall j :: 0 <= j < |w| ==> !IsSpace(w[j])
  }

  lemma SliceIsWord(s: string, i: nat, j: nat)
    requires i < j <= |s| && forall k :: i <= k < j ==> !IsSpace(s[k])
    ensures IsWord(s[i..j])
  {
    forall k | 0 <= k < j - i ensures !IsSpace(s[i..j][k]) {
      assert s[i..j][k] == s[i + k];
    }
  }

  /** The words of `s` from index `i` on: the maximal runs of non-white-space characters, in order. */
  function SplitWordsFrom(s: string, i: nat): (words: seq<string>)
    requires i <= |s|
    ensures forall k :: 0 <= k < |words| ==> IsWord(words[k])
    decreases |s| - i
  {
    var a := SkipSpace(s, i);
    if a == |s| then []
    else
      var e := WordEnd(s, a);
      SliceIsWord(s, a, e);
      [s[a..e]] + SplitWordsFrom(s, e)
  }

  /** `s.split()`. */
  function SplitWords(s: string): (words: seq<string>)
    ensures forall k :: 0 <= k < |words| ==> IsWord(words[k])
  {
    SplitWordsFrom(s, 0)
  }

  /**
    Independent count of words: a scan from index `i` that adds one whenever
    a non-white-space character follows white space (or the start).
  */
  function WordStarts(s: string, i: nat, inWord: bool): nat
    requires i <= |s|
    decreases |s| - i
  {
    if i == |s| then 0
    else if IsSpace(s[i]) then WordStarts(s, i + 1, false)
    else (if inWord then 0 else 1) + WordStarts(s, i + 1, true)
  }

  lemma {:induction false} WordStartsSkipSpace(s: string, i: nat, j: nat)
    requires i <= j <= |s| && forall k :: i <= k < j ==> IsSpace(s[k])
    ensures WordStarts(s, i, false) == WordStarts(s, j, false)
    decreases j - i
  {
    if i < j {
      WordStartsSkipSpace(s, i + 1, j);
    }
  }

  lemma {:induction false} WordStartsSkipWord(s: string, i: nat, j: nat)
    requires i <= j <= |s| && forall k :: i <= k < j ==> !IsSpace(s[k])
    ensures WordStarts(s, i, true) == WordStarts(s, j, true)
    decreases j - i
  {
    if i < j {
      WordStartsSkipWord(s, i + 1, j);
    }
  }

  /** A word counts one start, and the scan goes on after it as if outside a word. */
  lemma WordStartsWord(s: string, a: nat)
    requires a < |s| && !IsSpace(s[a])
    ensures WordStarts(s, a, false) == 1 + WordStarts(s, WordEnd(s, a), false)
  {
    var e := WordEnd(s, a);
    WordStartsSkipWord(s, a + 1, e);
  }

  /** `len(s.split())` counts the places where a word starts. */
  lemma {:induction false} SplitWordsCount(s: string, i: nat)
    requires i <= |s|
    ensures |SplitWordsFrom(s, i)| == WordStarts(s, i, false)
    decreases |s| - i
  {
    var a := SkipSpace(s, i);
    SkipSpaceSkips(s, i);
    WordStartsSkipSpace(s, i, a);
    if a < |s| {
      WordStartsWord(s, a);
      SplitWordsCount(s, WordEnd(s, a));
    }
  }

  // ---------------------------------------------------------------------
  // str.splitlines()

  /** The characters `str.splitlines()` breaks lines at ("\r\n" counts as one break). */
  predicate IsLineBreak(c: char) {
    || c == '\n' || c == '\r' || c == '\U{B}' || c == '\U{C}'
    || ('\U{1C}' <= c <= '\U{1E}')
    || c == '\U{85}' || c == '\U{2028}' || c == '\U{2029}'
  }

  predicate NoLineBreak(s: string) {
    forall i :: 0 <= i < |s| ==> !IsLineBreak(s[i])
  }

  /** Length of the text before the first line break of `s`. */
  function LineLength(s: string): (n: nat)
    ensures n <= |s|
    ensures forall i :: 0 <= i < n ==> !IsLineBreak(s[i])
    ensures n == |s| || IsLineBreak(s[n])
  {
    if s == [] || IsLineBreak(s[0]) then 0 else 1 + LineLength(s[1..])
  }

  /** Width of the line break at index `i`: 2 for "\r\n", otherwise 1. */
  function BreakWidth(s: string, i: nat): nat
    requires i < |s|
  {
    if s[i] == '\r' && i + 1 < |s| && s[i + 1] == '\n' then 2 else 1
  }

  /** `s.splitlines()`: the lines of `s` without their line breaks; a final break opens no extra line. */
  function SplitLines(s: string): (lines: seq<string>)
    ensures forall k :: 0 <= k < |lines| ==> NoLineBreak(lines[k])
    decreases |s|
  {
    if s == [] then []
    else
      var n := LineLength(s);
      if n == |s| then [s]
      else [s[..n]] + SplitLines(s[n + BreakWidth(s, n)..])
  }

  /** Number of line breaks in `s`, "\r\n" counted once. */
  function CountBreaks(s: string): nat
    decreases |s|
  {
    if s == [] then 0
    else if IsLineBreak(s[0]) then 1 + CountBreaks(s[BreakWidth(s, 0)..])
    else CountBreaks(s[1..])
  }

  lemma {:induction false} CountBreaksSkipLine(s: string, n: nat)
    requires n <= |s| && forall i :: 0 <= i < n ==> !IsLineBreak(s[i])
    ensures CountBreaks(s) == CountBreaks(s[n..])
    decreases n
  {
    if n > 0 {
      CountBreaksSkipLine(s[1..], n - 1);
      assert s[1..][n - 1..] == s[n..];
    }
  }

  /** One line and its break: the break is counted once and the rest is split on. */
  lemma SplitLinesStep(s: string)
    requires s != [] && LineLength(s) < |s|
    ensures var n := LineLength(s); var rest := s[n + BreakWidth(s, n)..];
      |SplitLines(s)| == 1 + |SplitLines(rest)| && CountBreaks(s) == 1 + CountBreaks(rest)
      && (rest != [] ==> rest[|rest| - 1] == s[|s| - 1])
      && (rest == [] ==> IsLineBreak(s[|s| - 1]))
  {
    var n := LineLength(s);
    CountBreaksSkipLine(s, n);
    var t := s[n..];
    var w := BreakWidth(s, n);
    assert BreakWidth(t, 0) == w;
    assert t[w..] == s[n + w..];
  }

  /**
    `len(s.splitlines())` is the number of line breaks, plus one when the
    text is non-empty and does not end with a break.
  */
  lemma {:induction false} SplitLinesCount(s: string)
    ensures |SplitLines(s)| == CountBreaks(s) + (if s != [] && !IsLineBreak(s[|s| - 1]) then 1 else 0)
    decreases |s|
  {
    if s != [] {
      var n := LineLength(s);
      if n < |s| {
        SplitLinesStep(s);
        SplitLinesCount(s[n + BreakWidth(s, n)..]);
      } else {
        CountBreaksSkipLine(s, n);
        assert s[n..] == [];
      }
    }
  }

  /**
    Joining lines with "\n" and splitting again gives the lines back,
    provided no line holds a break and the last line is not empty.
  */
  lemma {:induction false} SplitJoinLines(lines: seq<string>)
    requires forall k :: 0 <= k < |lines| ==> NoLineBreak(lines[k])
    requires lines == [] || lines[|lines| - 1] != []
    ensures SplitLines(Join(lines, "\n")) == lines
    decreases |lines|
  {
    if |lines| == 1 {
      assert LineLength(lines[0]) == |lines[0]|;
    } else if |lines| > 1 {
      var s := Join(lines, "\n");
      var head := lines[0];
      var tail := Join(lines[1..], "\n");
      assert s == head + "\n" + tail;
      assert s[|head|] == '\n';
      assert LineLength(s) == |head|;
      assert BreakWidth(s, |head|) == 1;
      assert s[..|head|] == head;
      assert s[|head| + 1..] == tail;
      SplitJoinLines(lines[1..]);
      assert s != [];
    }
  }

  // ---------------------------------------------------------------------
  // Decimal rendering (f-string of an int)

  function DigitChar(d: nat): char
    requires d < 10
  {
    "0123456789"[d]
  }

  /** `str(n)` for a non-negative integer. */
  function NatToString(n: nat): (r: string)
    ensures |r| > 0
    ensures forall i :: 0 <= i < |r| ==> '0' <= r[i] <= '9'
    ensures n > 0 ==> r[0] != '0'
  {
    if n < 10 then [DigitChar(n)] else NatToString(n / 10) + [DigitChar(n % 10)]
  }

  /** Value of a string of decimal digits. */
  function DecimalValue(s: string): nat
    requires forall i :: 0 <= i < |s| ==> '0' <= s[i] <= '9'
  {
    if s == [] then 0 else 10 * DecimalValue(s[..|s| - 1]) + ((s[|s| - 1] as int) - ('0' as int))
  }

  /** Reading the rendered count back gives the count. */
  lemma {:induction false} NatToStringRoundTrip(n: nat)
    ensures DecimalValue(NatToString(n)) == n
  {
    if n >= 10 {
      NatToStringRoundTrip(n / 10);
      var r := NatToString(n);
      assert r[..|r| - 1] == NatToString(n / 10);
    }
  }

  // ---------------------------------------------------------------------
  // Code-point ordering of strings, as Python's `<=` on `str`

  /** `a <= b` on Python strings: lexicographic by code point, a prefix before its extensions. */
  predicate StrLe(a: string, b: string)
    decreases |a|
  {
    a == [] || (b != [] && (a[0] < b[0] || (a[0] == b[0] && StrLe(a[1..], b[1..]))))
  }

  lemma {:induction false} StrLeTotal(a: string, b: string)
    ensures StrLe(a, b) || StrLe(b, a)
    decreases |a|
  {
    if a != [] && b != [] && a[0] == b[0] {
      StrLeTotal(a[1..], b[1..]);
    }
  }

  lemma {:induction false} StrLeAntisymmetric(a: string, b: string)
    requires StrLe(a, b) && StrLe(b, a)
    ensures a == b
    decreases |a|
  {
    if a != [] {
      StrLeAntisymmetric(a[1..], b[1..]);
      assert a == [a[0]] + a[1..];
      assert b == [b[0]] + b[1..];
    }
  }

  lemma {:induction false} StrLeTransitive(a: string, b: string, c: string)
    requires StrLe(a, b) && StrLe(b, c)
    ensures StrLe(a, c)
    decreases |a|
  {
    if a != [] && a[0] == b[0] && b[0] == c[0] {
      StrLeTransitive(a[1..], b[1..], c[1..]);
    }
  }

  lemma {:induction false} StrLeReflexive(a: string)
    ensures StrLe(a, a)
    decreases |a|
  {
    if a != [] {
      StrLeReflexive(a[1..]);
    }
  }
}

=== FILE: token_examples.dfy ===
/**
  The token recognisers on instructions built word by word: which words
  become which parameters, when the optional second token is taken, and
  when a recogniser gives nothing.
*/
module TokenExamples {
  import opened Common
  import opened PyText
  import opened Regex
  import opened PyRe
  import opened Intents
  import opened TokenForm
  import opened TokenIntents
  import opened ExampleTexts

  /** White space that is there: at least one white-space character. */
  predicate Gap(sp: string) {
    sp != [] && AllSpace(sp)
  }

  /** What may follow the last token read: nothing, or text that starts with white space. */
  predicate Tail(t: string) {
    t == [] || IsSpace(t[0])
  }

  /** A keyword, white space, a word and a tail, joined: each part is a slice of the whole. */
  lemma OneWordSlices(a: string, b: string, c: string, d: string)
    ensures var s := a + b + c + d;
      var i1 := |a|; var i2 := i1 + |b|; var i3 := i2 + |c|;
      && |s| == i3 + |d| && s[..i1] == a && s[i1..i2] == b && s[i2..i3] == c && s[i3..] == d
  {
  }

  /** A keyword and two words with white space before each, and a tail, joined: each part is a slice of the whole. */
  lemma TwoWordSlices(a: string, b: string, c: string, d: string, e: string, f: string)
    ensures var s := a + b + c + d + e + f;
      var i1 := |a|; var i2 := i1 + |b|; var i3 := i2 + |c|; var i4 := i3 + |d|; var i5 := i4 + |e|;
      && |s| == i5 + |f| && s[..i1] == a && s[i1..i2] == b && s[i2..i3] == c && s[i3..i4] == d
      && s[i4..i5] == e && s[i5..] == f
  {
  }

  /** A keyword, a word, a separator and a word with white space before each, and a tail, joined: each part is a slice of the whole. */
  lemma SeparatedSlices(a: string, b: string, c: string, d: string, e: string, f: string, g: string, h: string)
    ensures var s := a + b + c + d + e + f + g + h;
      var i1 := |a|; var i2 := i1 + |b|; var i3 := i2 + |c|; var i4 := i3 + |d|;
      var i5 := i4 + |e|; var i6 := i5 + |f|; var i7 := i6 + |g|;
      && |s| == i7 + |h| && s[..i1] == a && s[i1..i2] == b && s[i2..i3] == c && s[i3..i4] == d
      && s[i4..i5] == e && s[i5..i6] == f && s[i6..i7] == g && s[i7..] == h
  {
  }

  /** An instruction made of a keyword and two words with white space between, at the positions of its parts. */
  lemma KeywordTwoWords(k: string, sp1: string, w1: string, sp2: string, w2: string, t: string) returns (b1: nat, c1: nat, d: nat, e: nat)
    requires Gap(sp1) && IsWord(w1) && Gap(sp2) && IsWord(w2) && Tail(t)
    ensures var s := k + sp1 + w1 + sp2 + w2 + t;
      && |k| < b1 < c1 < d < e <= |s| && s[..|k|] == k
      && AllSpace(s[|k|..b1]) && s[b1..c1] == w1 && AllSpace(s[c1..d]) && s[d..e] == w2
      && (e == |s| || IsSpace(s[e]))
  {
    var s := k + sp1 + w1 + sp2 + w2 + t;
    TwoWordSlices(k, sp1, w1, sp2, w2, t);
    b1, c1 := |k| + |sp1|, |k| + |sp1| + |w1|;
    d, e := c1 + |sp2|, c1 + |sp2| + |w2|;
    assert e < |s| ==> s[e] == s[e..][0];
  }

  /** An instruction made of a keyword, a word, a separator and a word with white space between, at the positions of its parts. */
  lemma KeywordSeparatedWords(k: string, sp1: string, w1: string, sp2: string, sep: string, sp3: string, w2: string, t: string)
    returns (b1: nat, c1: nat, d: nat, e: nat, f: nat, g: nat)
    requires Gap(sp1) && IsWord(w1) && Gap(sp2) && sep != [] && Gap(sp3) && IsWord(w2) && Tail(t)
    ensures var s := k + sp1 + w1 + sp2 + sep + sp3 + w2 + t;
      && |k| < b1 < c1 < d < e < f < g <= |s| && s[..|k|] == k
      && AllSpace(s[|k|..b1]) && s[b1..c1] == w1 && AllSpace(s[c1..d]) && s[d..e] == sep
      && AllSpace(s[e..f]) && s[f..g] == w2 && (g == |s| || IsSpace(s[g]))
  {
    var s := k + sp1 + w1 + sp2 + sep + sp3 + w2 + t;
    SeparatedSlices(k, sp1, w1, sp2, sep, sp3, w2, t);
    b1, c1 := |k| + |sp1|, |k| + |sp1| + |w1|;
    d, e := c1 + |sp2|, c1 + |sp2| + |sep|;
    f, g := e + |sp3|, e + |sp3| + |w2|;
    assert g < |s| ==> s[g] == s[g..][0];
  }

  /** A word equal, ignoring case, to a lower-case separator is a word. */
  lemma SeparatorIsWord(w: string, sep: string)
    requires LowerWord(sep) && EqualsIgnoreCase(w, sep)
    ensures IsWord(w)
  {
    forall k | 0 <= k < |w| ensures !IsSpace(w[k]) {
      LetterNotSpace(w[k], sep[k]);
    }
  }

  /**
    An instruction that starts with keyword `j`, where every other keyword
    starts with another letter: only keyword `j` can fit, and it does when
    what follows it reads.
  */
  lemma KeywordDecides(s: string, kws: seq<string>, shape: Shape, j: nat)
    requires j < |kws| && kws[j] != [] && |kws[j]| <= |s| && s[..|kws[j]|] == kws[j]
    requires forall m :: 0 <= m < |kws| && m != j ==> kws[m] != [] && Lower(kws[m][0]) != Lower(kws[j][0])
    ensures FirstTokenFit(s, kws, shape, 0) == if ReadAfter(s, |kws[j]|, shape).Some? then Some(j) else None
  {
    var k := kws[j];
    assert s[0..|k|] == k;
    LitAtMeans(s, 0, k);
    assert s[0] == k[0];
    assert forall m :: 0 <= m < |kws| && m != j ==> !LitAt(s, 0, kws[m]);
    if ReadAfter(s, |k|, shape).Some? {
      FirstFitIs(s, kws, shape, j);
    } else {
      assert forall m :: 0 <= m < |kws| ==> !TokenFits(s, kws[m], shape);
    }
  }

  /** The keys and values of an intent the reading gives, once the keyword and the words are known. */
  lemma ReadsAs(s: string, kws: seq<string>, shape: Shape, action: string, key1: string, key2: string,
                j: nat, b1: nat, c1: nat, span2: Option<(nat, nat)>)
    requires KeysOk(action, key1, key2) && j < |kws| && kws[j] != [] && |kws[j]| <= |s| && s[..|kws[j]|] == kws[j]
    requires forall m :: 0 <= m < |kws| && m != j ==> kws[m] != [] && Lower(kws[m][0]) != Lower(kws[j][0])
    requires ReadAfter(s, |kws[j]|, shape) == Some(((b1, c1), span2))
    requires b1 <= c1 <= |s| && (span2.Some? ==> span2.value.0 <= span2.value.1 <= |s|)
    ensures TokenReadingIntent(s, kws, shape, action, key1, key2)
         == Some(if span2.Some?
                 then map["action" := Str(action), key1 := Str(s[b1..c1]), key2 := Str(s[span2.value.0..span2.value.1])]
                 else map["action" := Str(action), key1 := Str(s[b1..c1])])
  {
    KeywordDecides(s, kws, shape, j);
    ReadingIntentIs(s, kws, shape, action, key1, key2, j, (b1, c1), span2);
    if span2.Some? {
      TwoKeys(action, key1, s[b1..c1], key2, s[span2.value.0..span2.value.1]);
    }
  }

  /** The keyword the instruction starts with is the only one that could fit, and what follows it does not read. */
  lemma NoReading(s: string, kws: seq<string>, shape: Shape, action: string, key1: string, key2: string, j: nat)
    requires KeysOk(action, key1, key2) && j < |kws| && kws[j] != [] && |kws[j]| <= |s| && s[..|kws[j]|] == kws[j]
    requires forall m :: 0 <= m < |kws| && m != j ==> kws[m] != [] && Lower(kws[m][0]) != Lower(kws[j][0])
    requires ReadAfter(s, |kws[j]|, shape).None?
    ensures TokenReadingIntent(s, kws, shape, action, key1, key2) == None
  {
    KeywordDecides(s, kws, shape, j);
  }

  lemma TwoKeys(action: string, key1: string, x: string, key2: string, y: string)
    requires KeysOk(action, key1, key2)
    ensures ActionWith(action, key1, x)[key2 := Str(y)] == map["action" := Str(action), key1 := Str(x), key2 := Str(y)]
  {
  }

  /** The keyword at index `j` is the first that fits. */
  lemma FirstFitIs(s: string, kws: seq<string>, shape: Shape, j: nat)
    requires j < |kws| && TokenFits(s, kws[j], shape)
    requires forall m :: 0 <= m < j ==> !TokenFits(s, kws[m], shape)
    ensures FirstTokenFit(s, kws, shape, 0) == Some(j)
  {
  }

  // ---------------------------------------------------------------------
  // ln

  /** `ln` or `create symlink`, then two words: the target and the link; anything after them is ignored. */
  lemma LnReads(k: string, sp1: string, w1: string, sp2: string, w2: string, t: string)
    requires k in LnWords && Gap(sp1) && IsWord(w1) && Gap(sp2) && IsWord(w2) && Tail(t)
    ensures ParseLn(k + sp1 + w1 + sp2 + w2 + t)
         == Some(map["action" := Str("ln"), "target_path" := Str(w1), "link_path" := Str(w2)])
  {
    var s := k + sp1 + w1 + sp2 + w2 + t;
    var b1, c1, b2, c2 := KeywordTwoWords(k, sp1, w1, sp2, w2, t);
    TwoWordsAt(s, |k|, b1, c1, b2, c2);
    LnAt(s, k, b1, c1, b2, c2, w1, w2);
  }

  lemma LnAt(s: string, k: string, b1: nat, c1: nat, b2: nat, c2: nat, w1: string, w2: string)
    requires k in LnWords && |k| <= |s| && s[..|k|] == k && b1 <= c1 <= b2 <= c2 <= |s|
    requires ReadAfter(s, |k|, TwoTokens) == Some(((b1, c1), Some((b2, c2))))
    requires s[b1..c1] == w1 && s[b2..c2] == w2
    ensures ParseLn(s) == Some(map["action" := Str("ln"), "target_path" := Str(w1), "link_path" := Str(w2)])
  {
    ReadsAs(s, LnWords, LnShape, "ln", "target_path", "link_path", if k == LnWords[0] then 0 else 1, b1, c1, Some((b2, c2)));
  }

  /** White space, a word, white space and a word after `a`: the two-token reading. */
  lemma TwoWordsAt(s: string, a: nat, b1: nat, c1: nat, b2: nat, c2: nat)
    requires a < b1 < c1 < b2 < c2 <= |s|
    requires AllSpace(s[a..b1]) && IsWord(s[b1..c1]) && AllSpace(s[c1..b2]) && IsWord(s[b2..c2])
    requires c2 == |s| || IsSpace(s[c2])
    ensures ReadAfter(s, a, TwoTokens) == Some(((b1, c1), Some((b2, c2))))
  {
    assert s[c1] == s[c1..b2][0];
    NextWordAt(s, a, b1, c1);
    NextWordAt(s, c1, b2, c2);
    ReadTwo(s, a, b1, c1, b2, c2);
  }

  /** `ln` or `create symlink` and a single word: no link path, no intent. */
  lemma LnNeedsTwo(k: string, sp1: string, w1: string, t: string)
    requires k in LnWords && Gap(sp1) && IsWord(w1) && AllSpace(t)
    ensures ParseLn(k + sp1 + w1 + t) == None
  {
    var s := k + sp1 + w1 + t;
    OneWordSlices(k, sp1, w1, t);
    OneWordAt(s, |k|, |k| + |sp1|, |k| + |sp1| + |w1|);
    NoReading(s, LnWords, LnShape, "ln", "target_path", "link_path", if k == LnWords[0] then 0 else 1);
  }

  // ---------------------------------------------------------------------
  // sort

  lemma SortAt(s: string, b1: nat, c1: nat, span2: Option<(nat, nat)>)
    requires |s| >= 4 && s[..4] == "sort" && ReadAfter(s, 4, SortShape) == Some(((b1, c1), span2))
    requires b1 <= c1 <= |s| && (span2.Some? ==> span2.value.0 <= span2.value.1 <= |s|)
    ensures ParseSort(s) == Some(if span2.Some?
                                 then map["action" := Str("sort"), "path" := Str(s[b1..c1]), "output_path" := Str(s[span2.value.0..span2.value.1])]
                                 else map["action" := Str("sort"), "path" := Str(s[b1..c1])])
  {
    ReadsAs(s, SortWords, SortShape, "sort", "path", "output_path", 0, b1, c1, span2);
  }

  /** `sort`, a word, `to` in any case and a word: the path and the output path; anything after is ignored. */
  lemma SortTo(sp1: string, w1: string, sp2: string, to: string, sp3: string, w2: string, t: string)
    requires Gap(sp1) && IsWord(w1) && Gap(sp2) && EqualsIgnoreCase(to, "to") && Gap(sp3) && IsWord(w2) && Tail(t)
    ensures ParseSort("sort" + sp1 + w1 + sp2 + to + sp3 + w2 + t)
         == Some(map["action" := Str("sort"), "path" := Str(w1), "output_path" := Str(w2)])
  {
    var s := "sort" + sp1 + w1 + sp2 + to + sp3 + w2 + t;
    var b1, c1, d, e, f, g := KeywordSeparatedWords("sort", sp1, w1, sp2, to, sp3, w2, t);
    ThreeWordsAt(s, 4, b1, c1, d, e, f, g, "to");
    SortAt(s, b1, c1, Some((f, g)));
  }

  /** `sort` and a single word: the path, and no output path. */
  lemma SortAlone(sp1: string, w1: string, t: string)
    requires Gap(sp1) && IsWord(w1) && AllSpace(t)
    ensures ParseSort("sort" + sp1 + w1 + t) == Some(map["action" := Str("sort"), "path" := Str(w1)])
  {
    var s := "sort" + sp1 + w1 + t;
    OneWordSlices("sort", sp1, w1, t);
    var b1 := 4 + |sp1|;
    var c1 := b1 + |w1|;
    OneWordAt(s, 4, b1, c1);
    SortAt(s, b1, c1, None);
    assert s[b1..c1] == w1;
  }

  /** `sort`, a word and a word other than `to`: no output path, and the rest is ignored. */
  lemma SortNotTo(sp1: string, w1: string, sp2: string, w2: string, t: string)
    requires Gap(sp1) && IsWord(w1) && Gap(sp2) && IsWord(w2) && Tail(t) && !EqualsIgnoreCase(w2, "to")
    ensures ParseSort("sort" + sp1 + w1 + sp2 + w2 + t) == Some(map["action" := Str("sort"), "path" := Str(w1)])
  {
    var s := "sort" + sp1 + w1 + sp2 + w2 + t;
    var b1, c1, d, e := KeywordTwoWords("sort", sp1, w1, sp2, w2, t);
    OtherWordAt(s, 4, b1, c1, d, e, "to");
    SortAt(s, b1, c1, None);
  }

  // ---------------------------------------------------------------------
  // locate

  lemma LocateAt(s: string, k: string, b1: nat, c1: nat, span2: Option<(nat, nat)>)
    requires k in LocateWords && |k| <= |s| && s[..|k|] == k && ReadAfter(s, |k|, LocateShape) == Some(((b1, c1), span2))
    requires b1 <= c1 <= |s| && (span2.Some? ==> span2.value.0 <= span2.value.1 <= |s|)
    ensures ParseLocate(s) == Some(if span2.Some?
                                   then map["action" := Str("locate"), "pattern" := Str(s[b1..c1]), "directory" := Str(s[span2.value.0..span2.value.1])]
                                   else map["action" := Str("locate"), "pattern" := Str(s[b1..c1])])
  {
    ReadsAs(s, LocateWords, LocateShape, "locate", "pattern", "directory", if k == LocateWords[0] then 0 else 1, b1, c1, span2);
  }

  /** `locate` or `find`, a word, `in` in any case and a word: the pattern and the directory. */
  lemma LocateIn(k: string, sp1: string, w1: string, sp2: string, inw: string, sp3: string, w2: string, t: string)
    requires k in LocateWords && Gap(sp1) && IsWord(w1) && Gap(sp2) && EqualsIgnoreCase(inw, "in") && Gap(sp3) && IsWord(w2) && Tail(t)
    ensures ParseLocate(k + sp1 + w1 + sp2 + inw + sp3 + w2 + t)
         == Some(map["action" := Str("locate"), "pattern" := Str(w1), "directory" := Str(w2)])
  {
    var s := k + sp1 + w1 + sp2 + inw + sp3 + w2 + t;
    var b1, c1, d, e, f, g := KeywordSeparatedWords(k, sp1, w1, sp2, inw, sp3, w2, t);
    ThreeWordsAt(s, |k|, b1, c1, d, e, f, g, "in");
    LocateAt(s, k, b1, c1, Some((f, g)));
  }

  /** `locate` or `find`, a word and a word other than `in`: only the first word, as the pattern. */
  lemma LocateNotIn(k: string, sp1: string, w1: string, sp2: string, w2: string, t: string)
    requires k in LocateWords && Gap(sp1) && IsWord(w1) && Gap(sp2) && IsWord(w2) && Tail(t) && !EqualsIgnoreCase(w2, "in")
    ensures ParseLocate(k + sp1 + w1 + sp2 + w2 + t) == Some(map["action" := Str("locate"), "pattern" := Str(w1)])
  {
    var s := k + sp1 + w1 + sp2 + w2 + t;
    var b1, c1, d, e := KeywordTwoWords(k, sp1, w1, sp2, w2, t);
    OtherWordAt(s, |k|, b1, c1, d, e, "in");
    LocateAt(s, k, b1, c1, None);
  }

  /**
    "find all Python files and show their contents" is read as a search for
    the pattern "all": the word after it is not "in", so no directory.
  */
  lemma LocateFindAll(s: string)
    requires s == "find all Python files and show their contents"
    ensures ParseLocate(s) == Some(map["action" := Str("locate"), "pattern" := Str("all")])
  {
    FindAllWords(s);
    var t := s[15..];
    assert IsWord("all") && IsWord("Python") && Gap(" ") && Tail(t);
    assert !EqualsIgnoreCase("Python", "in");
    LocateNotIn("find", " ", "all", " ", "Python", t);
  }

  // ---------------------------------------------------------------------
  // wget

  lemma WgetAt(s: string, k: string, b1: nat, c1: nat, b2: nat, c2: nat)
    requires k in WgetWords && |k| <= |s| && s[..|k|] == k && b1 <= c1 <= b2 <= c2 <= |s|
    requires ReadAfter(s, |k|, WgetShape) == Some(((b1, c1), Some((b2, c2))))
    ensures ParseWget(s) == Some(map["action" := Str("wget"), "url" := Str(s[b1..c1]), "output_path" := Str(s[b2..c2])])
  {
    ReadsAs(s, WgetWords, WgetShape, "wget", "url", "output_path", if k == WgetWords[0] then 0 else 1, b1, c1, Some((b2, c2)));
  }

  /** `wget` or `download`, a word, `to` in any case and a word: the url and the output path; the rest is ignored. */
  lemma WgetTo(k: string, sp1: string, w1: string, sp2: string, to: string, sp3: string, w2: string, t: string)
    requires k in WgetWords && Gap(sp1) && IsWord(w1) && Gap(sp2) && EqualsIgnoreCase(to, "to") && Gap(sp3) && IsWord(w2) && Tail(t)
    ensures ParseWget(k + sp1 + w1 + sp2 + to + sp3 + w2 + t)
         == Some(map["action" := Str("wget"), "url" := Str(w1), "output_path" := Str(w2)])
  {
    var s := k + sp1 + w1 + sp2 + to + sp3 + w2 + t;
    var b1, c1, d, e, f, g := KeywordSeparatedWords(k, sp1, w1, sp2, to, sp3, w2, t);
    ThreeWordsAt(s, |k|, b1, c1, d, e, f, g, "to");
    WgetAt(s, k, b1, c1, f, g);
  }

  /** Without the word `to` after the url there is no intent. */
  lemma WgetNeedsTo(k: string, sp1: string, w1: string, sp2: string, w2: string, t: string)
    requires k in WgetWords && Gap(sp1) && IsWord(w1) && Gap(sp2) && IsWord(w2) && Tail(t) && !EqualsIgnoreCase(w2, "to")
    ensures ParseWget(k + sp1 + w1 + sp2 + w2 + t) == None
  {
    var s := k + sp1 + w1 + sp2 + w2 + t;
    var b1, c1, d, e := KeywordTwoWords(k, sp1, w1, sp2, w2, t);
    OtherWordAt(s, |k|, b1, c1, d, e, "to");
    NoReading(s, WgetWords, WgetShape, "wget", "url", "output_path", if k == WgetWords[0] then 0 else 1);
  }

  /** Without a word after `to` there is no intent. */
  lemma WgetNeedsOutput(k: string, sp1: string, w1: string, sp2: string, to: string, t: string)
    requires k in WgetWords && Gap(sp1) && IsWord(w1) && Gap(sp2) && EqualsIgnoreCase(to, "to") && AllSpace(t)
    ensures ParseWget(k + sp1 + w1 + sp2 + to + t) == None
  {
    var s := k + sp1 + w1 + sp2 + to + t;
    TwoWordSlices(k, sp1, w1, sp2, to, t);
    var b1 := |k| + |sp1|;
    var c1 := b1 + |w1|;
    var d := c1 + |sp2|;
    SeparatorLastAt(s, |k|, b1, c1, d, d + |to|, "to");
    NoReading(s, WgetWords, WgetShape, "wget", "url", "output_path", if k == WgetWords[0] then 0 else 1);
  }

  // ---------------------------------------------------------------------
  // Readings at known positions

  /** White space and a word after `a`, then only white space. */
  lemma OneWordAt(s: string, a: nat, b1: nat, c1: nat)
    requires a < b1 < c1 <= |s| && AllSpace(s[a..b1]) && IsWord(s[b1..c1]) && AllSpace(s[c1..])
    ensures forall w :: ReadAfter(s, a, TokenThenOptional(w)) == Some(((b1, c1), None))
    ensures ReadAfter(s, a, TwoTokens) == None
    ensures forall w :: ReadAfter(s, a, TokenWordToken(w)) == None
  {
    assert c1 < |s| ==> s[c1] == s[c1..][0];
    NextWordAt(s, a, b1, c1);
    NoWordAfter(s, c1);
  }

  /** White space, a word, the separator `sep` in any case and a word after `a`. */
  lemma ThreeWordsAt(s: string, a: nat, b1: nat, c1: nat, d: nat, e: nat, f: nat, g: nat, sep: string)
    requires a < b1 < c1 < d < e < f < g <= |s| && LowerWord(sep)
    requires AllSpace(s[a..b1]) && IsWord(s[b1..c1]) && AllSpace(s[c1..d]) && EqualsIgnoreCase(s[d..e], sep)
    requires AllSpace(s[e..f]) && IsWord(s[f..g]) && (g == |s| || IsSpace(s[g]))
    ensures ReadAfter(s, a, TokenWordToken(sep)) == Some(((b1, c1), Some((f, g))))
    ensures ReadAfter(s, a, TokenThenOptional(sep)) == Some(((b1, c1), Some((f, g))))
  {
    assert s[c1] == s[c1..d][0];
    NextWordAt(s, a, b1, c1);
    SeparatorThenWordAt(s, c1, d, e, f, g, sep);
    ReadSeparated(s, a, b1, c1, sep, f, g);
  }

  /** White space, the separator `sep` in any case, white space and a word after `c`. */
  lemma SeparatorThenWordAt(s: string, c: nat, d: nat, e: nat, f: nat, g: nat, sep: string)
    requires c < d < e < f < g <= |s| && LowerWord(sep)
    requires AllSpace(s[c..d]) && EqualsIgnoreCase(s[d..e], sep)
    requires AllSpace(s[e..f]) && IsWord(s[f..g]) && (g == |s| || IsSpace(s[g]))
    ensures WordThenToken(s, c, sep) == Some((f, g))
  {
    SeparatorIsWord(s[d..e], sep);
    assert s[e] == s[e..f][0];
    NextWordAt(s, c, d, e);
    LitAtMeans(s, d, sep);
    NextWordAt(s, e, f, g);
    ReadWordThenToken(s, c, sep, d, e, f, g);
  }

  /** White space, a word, white space and a word other than `sep` after `a`: the separator is missing. */
  lemma OtherWordAt(s: string, a: nat, b1: nat, c1: nat, d: nat, e: nat, sep: string)
    requires a < b1 < c1 < d < e <= |s|
    requires AllSpace(s[a..b1]) && IsWord(s[b1..c1]) && AllSpace(s[c1..d]) && IsWord(s[d..e]) && (e == |s| || IsSpace(s[e]))
    requires !EqualsIgnoreCase(s[d..e], sep)
    ensures ReadAfter(s, a, TokenThenOptional(sep)) == Some(((b1, c1), None))
    ensures ReadAfter(s, a, TokenWordToken(sep)) == None
  {
    assert s[c1] == s[c1..d][0];
    NextWordAt(s, a, b1, c1);
    NextWordAt(s, c1, d, e);
    LitAtMeans(s, d, sep);
    ReadAlone(s, a, b1, c1, sep);
  }

  /** White space, a word, white space and the separator after `a`, then only white space. */
  lemma SeparatorLastAt(s: string, a: nat, b1: nat, c1: nat, d: nat, e: nat, sep: string)
    requires a < b1 < c1 < d < e <= |s| && LowerWord(sep)
    requires AllSpace(s[a..b1]) && IsWord(s[b1..c1]) && AllSpace(s[c1..d]) && EqualsIgnoreCase(s[d..e], sep) && AllSpace(s[e..])
    ensures ReadAfter(s, a, TokenWordToken(sep)) == None
  {
    SeparatorIsWord(s[d..e], sep);
    assert s[c1] == s[c1..d][0];
    assert e < |s| ==> s[e] == s[e..][0];
    NextWordAt(s, a, b1, c1);
    NextWordAt(s, c1, d, e);
    NoWordAfter(s, e);
    ReadAlone(s, a, b1, c1, sep);
  }
}

=== FILE: token_form.dfy ===
/**
  The pattern shapes built from white-space-separated tokens, shared by the
  sort, locate, ln and wget recognisers:

    k\s+(\S+)(?:\s+w\s+(\S+))?    sort (w = "to"), locate (w = "in")
    k\s+(\S+)\s+(\S+)             ln
    k\s+(\S+)\s+w\s+(\S+)         wget (w = "to")

  and their explicit reading in terms of the words of the instruction. No
  item of these patterns is `.`, so the reading holds of every instruction,
  newlines included.
*/
module TokenForm {
  import opened Common
  import opened PyText
  import opened Regex
  import opened PyRe

  /** `\s+(\S+)`, the token captured as group `g`. */
  function Tok(g: nat): Pattern {
    [Rep(Space, true, true), Open(g), Rep(NonSpace, true, true), Close(g)]
  }

  /** `\s+w` */
  function Lit(w: string): Pattern {
    [Rep(Space, true, true), Word(w)]
  }

  datatype Shape =
    | TokenThenOptional(word: string)   // k\s+(\S+)(?:\s+word\s+(\S+))?
    | TwoTokens                         // k\s+(\S+)\s+(\S+)
    | TokenWordToken(word: string)      // k\s+(\S+)\s+word\s+(\S+)

  /** What follows the first token. */
  function After(shape: Shape): Pattern {
    match shape
    case TokenThenOptional(w) => [Opt(Lit(w) + Tok(2))]
    case TwoTokens => Tok(2)
    case TokenWordToken(w) => Lit(w) + Tok(2)
  }

  function TokenPattern(kws: seq<string>, shape: Shape): Pattern {
    [Alt(kws)] + (Tok(1) + After(shape))
  }

  /** A separator word the shapes use: lower-case ASCII letters only. */
  predicate LowerWord(w: string) {
    w != [] && forall k :: 0 <= k < |w| ==> 'a' <= w[k] <= 'z'
  }

  predicate WordsOk(shape: Shape) {
    !shape.TwoTokens? ==> LowerWord(shape.word)
  }

  // ---------------------------------------------------------------------
  // The explicit reading

  /**
    The next word after position `i`, when at least one white-space
    character comes first: its start and end.
  */
  function NextWord(s: string, i: nat): (r: Option<(nat, nat)>)
    ensures r.Some? ==> i < r.value.0 < r.value.1 <= |s|
    ensures r.Some? ==> forall k :: i <= k < r.value.0 ==> IsSpace(s[k])
    ensures r.Some? ==> forall k :: r.value.0 <= k < r.value.1 ==> !IsSpace(s[k])
    ensures r.Some? ==> r.value.1 == |s| || IsSpace(s[r.value.1])
  {
    if i >= |s| then None
    else
      var b := i + RunLength(s, i, Space);
      var e := b + RunLength(s, b, NonSpace);
      assert forall k :: i <= k < b ==> InClass(s[k], Space);
      assert forall k :: b <= k < e ==> InClass(s[k], NonSpace);
      if i < b < e then Some((b, e))
      else
        assert i == b || b == |s|;
        None
  }

  /** The word after `i` is `w`, ignoring case, and another word follows it: that word's bounds. */
  function WordThenToken(s: string, i: nat, w: string): Option<(nat, nat)> {
    match NextWord(s, i)
    case None => None
    case Some((d, e)) => if e == d + |w| && LitAt(s, d, w) then NextWord(s, e) else None
  }

  /**
    The reading after the first token, which ends at `c`: `None` when the
    shape fails there, otherwise the bounds of group 2 when it takes part.
  */
  function ReadRest(s: string, c: nat, shape: Shape): Option<Option<(nat, nat)>> {
    match shape
    case TokenThenOptional(w) => Some(WordThenToken(s, c, w))
    case TwoTokens => if NextWord(s, c).Some? then Some(NextWord(s, c)) else None
    case TokenWordToken(w) => if WordThenToken(s, c, w).Some? then Some(WordThenToken(s, c, w)) else None
  }

  /** The reading after a keyword ending at `a`: the bounds of group 1, and of group 2 when it takes part. */
  function ReadAfter(s: string, a: nat, shape: Shape): Option<((nat, nat), Option<(nat, nat)>)> {
    match NextWord(s, a)
    case None => None
    case Some(g1) =>
      match ReadRest(s, g1.1, shape)
      case None => None
      case Some(g2) => Some((g1, g2))
  }

  /** Keyword `k` opens `s` and what follows it reads. */
  predicate TokenFits(s: string, k: string, shape: Shape) {
    LitAt(s, 0, k) && ReadAfter(s, |k|, shape).Some?
  }

  /** The first keyword, from index `j` on, that fits. */
  function FirstTokenFit(s: string, kws: seq<string>, shape: Shape, j: nat): (r: Option<nat>)
    ensures r.Some? ==> j <= r.value < |kws| && TokenFits(s, kws[r.value], shape)
    ensures forall m :: j <= m < |kws| && (r.None? || m < r.value) ==> !TokenFits(s, kws[m], shape)
    decreases |kws| - j
  {
    if j >= |kws| then None
    else if TokenFits(s, kws[j], shape) then Some(j)
    else FirstTokenFit(s, kws, shape, j + 1)
  }

  /** The groups the reading gives: group 1, and group 2 when it takes part. */
  function ReadingGroups(s: string, r: ((nat, nat), Option<(nat, nat)>)): map<nat, string> {
    var g1 := map[1 := Slice(s, r.0)];
    match r.1
    case None => g1
    case Some(g2) => g1[2 := Slice(s, g2)]
  }

  function TokenReading(s: string, kws: seq<string>, shape: Shape): Option<map<nat, string>> {
    match FirstTokenFit(s, kws, shape, 0)
    case None => None
    case Some(j) => Some(ReadingGroups(s, ReadAfter(s, |kws[j]|, shape).value))
  }

  /** The next word as the two longest runs. */
  lemma NextWordIs(s: string, i: nat)
    requires i < |s|
    requires var b := i + RunLength(s, i, Space); i < b && b < b + RunLength(s, b, NonSpace)
    ensures var b := i + RunLength(s, i, Space); NextWord(s, i) == Some((b, b + RunLength(s, b, NonSpace)))
  {
  }

  /** The next word, given as the bounds of its two runs. */
  lemma NextWordFromRuns(s: string, i: nat, b: nat, c: nat)
    requires i < b < c <= |s| && RunLength(s, i, Space) == b - i && RunLength(s, b, NonSpace) == c - b
    ensures NextWord(s, i) == Some((b, c))
  {
    NextWordIs(s, i);
  }

  /** The next word, given as white space `s[i..b]` followed by the word `s[b..c]`. */
  lemma NextWordAt(s: string, i: nat, b: nat, c: nat)
    requires i < b < c <= |s| && AllSpace(s[i..b]) && IsWord(s[b..c]) && (c == |s| || IsSpace(s[c]))
    ensures NextWord(s, i) == Some((b, c))
  {
    forall k | i <= k < b ensures InClass(s[k], Space) {
      assert s[k] == s[i..b][k - i];
    }
    forall k | b <= k < c ensures InClass(s[k], NonSpace) {
      assert s[k] == s[b..c][k - b];
    }
    assert !InClass(s[b], Space) by {
      assert s[b] == s[b..c][0];
    }
    RunEndsAt(s, i, b, Space);
    RunEndsAt(s, b, c, NonSpace);
    NextWordFromRuns(s, i, b, c);
  }

  /** Only white space follows `i`: there is no next word. */
  lemma NoWordAfter(s: string, i: nat)
    requires i <= |s| && AllSpace(s[i..])
    ensures NextWord(s, i) == None
  {
    forall k | i <= k < |s| ensures IsSpace(s[k]) {
      assert s[k] == s[i..][k - i];
    }
  }

  /** The reading of `\s+(\S+)\s+(\S+)`, from the bounds of its two words. */
  lemma ReadTwo(s: string, a: nat, b: nat, c: nat, f: nat, g: nat)
    requires NextWord(s, a) == Some((b, c)) && NextWord(s, c) == Some((f, g))
    ensures ReadAfter(s, a, TwoTokens) == Some(((b, c), Some((f, g))))
  {
  }

  /** The separator `w` is the next word after `c`, and another word follows it. */
  lemma ReadWordThenToken(s: string, c: nat, w: string, d: nat, e: nat, f: nat, g: nat)
    requires NextWord(s, c) == Some((d, e)) && e == d + |w| && LitAt(s, d, w) && NextWord(s, e) == Some((f, g))
    ensures WordThenToken(s, c, w) == Some((f, g))
  {
  }

  /** The reading of the separator shapes when the separator and the word after it are there. */
  lemma ReadSeparated(s: string, a: nat, b: nat, c: nat, w: string, f: nat, g: nat)
    requires NextWord(s, a) == Some((b, c)) && WordThenToken(s, c, w) == Some((f, g))
    ensures ReadAfter(s, a, TokenWordToken(w)) == Some(((b, c), Some((f, g))))
    ensures ReadAfter(s, a, TokenThenOptional(w)) == Some(((b, c), Some((f, g))))
  {
  }

  /** The reading of the optional shape when the separator and the word after it are not both there. */
  lemma ReadAlone(s: string, a: nat, b: nat, c: nat, w: string)
    requires NextWord(s, a) == Some((b, c)) && WordThenToken(s, c, w) == None
    ensures ReadAfter(s, a, TokenThenOptional(w)) == Some(((b, c), None))
    ensures ReadAfter(s, a, TokenWordToken(w)) == None
  {
  }

  // ---------------------------------------------------------------------
  // Runs

  lemma RunLengthExact(s: string, i: nat, n: nat, cls: CharClass)
    requires RunOf(s, i, n, cls) && (i + n == |s| || !InClass(s[i + n], cls))
    ensures RunLength(s, i, cls) == n
  {
    RunOfIff(s, i, n, cls);
  }

  /** A longer run than the longest does not exist. */
  lemma NoLongerRun(s: string, i: nat, cls: CharClass)
    requires i <= |s|
    ensures forall m: nat :: m > RunLength(s, i, cls) ==> !RunOf(s, i, m, cls)
  {
    forall m: nat | m > RunLength(s, i, cls) ensures !RunOf(s, i, m, cls) {
      RunOfIff(s, i, m, cls);
    }
  }

  // ---------------------------------------------------------------------
  // Taking accepted traces apart

  lemma TokParts(g: nat, q: Pattern)
    ensures (Tok(g) + q)[0] == Rep(Space, true, true)
    ensures (Tok(g) + q)[1..] == [Open(g), Rep(NonSpace, true, true), Close(g)] + q
    ensures ([Open(g), Rep(NonSpace, true, true), Close(g)] + q)[1..] == [Rep(NonSpace, true, true), Close(g)] + q
    ensures ([Rep(NonSpace, true, true), Close(g)] + q)[1..] == [Close(g)] + q
    ensures ([Close(g)] + q)[1..] == q
  {
  }

  lemma LitParts(w: string, q: Pattern)
    ensures (Lit(w) + q)[0] == Rep(Space, true, true)
    ensures (Lit(w) + q)[1..] == [Word(w)] + q
    ensures ([Word(w)] + q)[1..] == q
  {
  }

  /** A pattern that starts with `\s+` needs a white-space character where it starts. */
  lemma SpaceFirst(s: string, j: nat, q: Pattern, v: seq<nat>)
    requires q != [] && q[0] == Rep(Space, true, true) && Accepts(s, j, q, v)
    ensures j < |s| && IsSpace(s[j])
  {
    assert RunOf(s, j, v[0], Space);
    assert InClass(s[j], Space);
  }

  /** An accepted trace of `\s+(\S+)` followed by `q`, taken apart item by item. */
  lemma {:induction false} TokUnfold(s: string, i: nat, g: nat, q: Pattern, u: seq<nat>) returns (b: nat, m: nat, v: seq<nat>)
    requires Accepts(s, i, Tok(g) + q, u)
    ensures b > i && m >= 1 && RunOf(s, i, b - i, Space) && RunOf(s, b, m, NonSpace)
    ensures u == [b - i, 0, m, 0] + v && Accepts(s, b + m, q, v)
  {
    var q3 := [Close(g)] + q;
    var q2 := [Rep(NonSpace, true, true)] + q3;
    var q1 := [Open(g)] + q2;
    assert Tok(g) + q == [Rep(Space, true, true)] + q1;
    AcceptsRepHead(s, i, Space, true, true, q1, u);
    b := i + u[0];
    var u1 := u[1..];
    AcceptsMarkHead(s, b, Open(g), q2, u1);
    var u2 := u1[1..];
    AcceptsRepHead(s, b, NonSpace, true, true, q3, u2);
    m := u2[0];
    var u3 := u2[1..];
    AcceptsMarkHead(s, b + m, Close(g), q, u3);
    v := u3[1..];
    assert u == [b - i, 0, m, 0] + v;
  }

  /**
    An accepted trace of `\s+(\S+)` followed by `q` takes the whole white-space
    run and then a non-empty part `m` of the next word; all of it when `q`
    starts with white space.
  */
  lemma {:induction false} TokAccepted(s: string, i: nat, g: nat, q: Pattern, u: seq<nat>) returns (b: nat, c: nat, m: nat, v: seq<nat>)
    requires Accepts(s, i, Tok(g) + q, u)
    ensures NextWord(s, i) == Some((b, c))
    ensures 1 <= m <= c - b && u == [b - i, 0, m, 0] + v && Accepts(s, b + m, q, v)
    ensures q != [] && q[0] == Rep(Space, true, true) ==> m == c - b
  {
    b, m, v := TokStart(s, i, g, q, u);
    c := b + RunLength(s, b, NonSpace);
    TokWholeIf(s, b, m, q, v);
  }

  lemma TokStart(s: string, i: nat, g: nat, q: Pattern, u: seq<nat>) returns (b: nat, m: nat, v: seq<nat>)
    requires Accepts(s, i, Tok(g) + q, u)
    ensures NextWord(s, i) == Some((b, b + RunLength(s, b, NonSpace)))
    ensures 1 <= m <= RunLength(s, b, NonSpace) && RunOf(s, b, m, NonSpace)
    ensures u == [b - i, 0, m, 0] + v && Accepts(s, b + m, q, v)
  {
    b, m, v := TokUnfold(s, i, g, q, u);
    TokWord(s, i, b, m);
  }

  lemma TokWholeIf(s: string, b: nat, m: nat, q: Pattern, v: seq<nat>)
    requires RunOf(s, b, m, NonSpace) && Accepts(s, b + m, q, v)
    ensures q != [] && q[0] == Rep(Space, true, true) ==> RunLength(s, b, NonSpace) == m
  {
    if q != [] && q[0] == Rep(Space, true, true) {
      TokWhole(s, b, m, q, v);
    }
  }

  /** A white-space run followed by a non-white-space character is the longest one, and a word follows it. */
  lemma TokWord(s: string, i: nat, b: nat, m: nat)
    requires b > i && m >= 1 && RunOf(s, i, b - i, Space) && RunOf(s, b, m, NonSpace)
    ensures NextWord(s, i) == Some((b, b + RunLength(s, b, NonSpace)))
    ensures m <= RunLength(s, b, NonSpace)
  {
    assert InClass(s[b], NonSpace);
    RunLengthExact(s, i, b - i, Space);
    RunOfIff(s, b, m, NonSpace);
    NextWordIs(s, i);
  }

  /** A word part followed by white space is the whole word. */
  lemma TokWhole(s: string, b: nat, m: nat, q: Pattern, v: seq<nat>)
    requires RunOf(s, b, m, NonSpace) && q != [] && q[0] == Rep(Space, true, true) && Accepts(s, b + m, q, v)
    ensures RunLength(s, b, NonSpace) == m
  {
    SpaceFirst(s, b + m, q, v);
    assert !InClass(s[b + m], NonSpace);
    RunLengthExact(s, b, m, NonSpace);
  }

  /** A letter, matched ignoring case, is not white space. */
  lemma LetterNotSpace(c: char, l: char)
    requires 'a' <= l <= 'z' && Lower(c) == Lower(l)
    ensures !IsSpace(c)
  {
  }

  /**
    An accepted trace of `\s+w` followed by `q` takes the whole white-space
    run, then `w`.
  */
  lemma {:induction false} LitAccepted(s: string, i: nat, w: string, q: Pattern, u: seq<nat>) returns (d: nat, v: seq<nat>)
    requires LowerWord(w) && Accepts(s, i, Lit(w) + q, u)
    ensures d > i && d - i == RunLength(s, i, Space)
    ensures LitAt(s, d, w) && Accepts(s, d + |w|, q, v)
  {
    LitParts(w, q);
    var n := u[0];
    d := i + n;
    var u1 := u[1..];
    v := u1[1..];
    assert RunOf(s, i, n, Space) && n >= 1;
    assert Accepts(s, d, [Word(w)] + q, u1);
    assert u1[0] == 0 && LitAt(s, d, w);
    LitAtChar(s, d, w, 0);
    LetterNotSpace(s[d], w[0]);
    assert !InClass(s[d], Space);
    RunLengthExact(s, i, n, Space);
  }

  /** The characters a lower-case word matches are not white space. */
  lemma LitAtNoSpace(s: string, d: nat, w: string)
    requires LowerWord(w) && LitAt(s, d, w)
    ensures d + |w| <= |s| && RunOf(s, d, |w|, NonSpace)
  {
    LitAtBound(s, d, w);
    forall k | d <= k < d + |w| ensures InClass(s[k], NonSpace) {
      LitAtChar(s, d, w, k - d);
      LetterNotSpace(s[k], w[k - d]);
    }
  }

  /** `\s+(\S+)` closing the pattern accepted: a word follows. */
  lemma LastTokAccepted(s: string, e: nat, g: nat, v: seq<nat>)
    requires Accepts(s, e, Tok(g), v)
    ensures NextWord(s, e).Some? && e < |s| && IsSpace(s[e])
  {
    assert Tok(g) + [] == Tok(g);
    var b, c, m, v2 := TokAccepted(s, e, g, [], v);
    NextWordSpaced(s, e);
  }

  /** A lower-case word after a white-space run, with white space after it, is the next word. */
  lemma WordIsNext(s: string, i: nat, d: nat, w: string)
    requires LowerWord(w) && d > i && d - i == RunLength(s, i, Space) && LitAt(s, d, w)
    requires d + |w| < |s| && IsSpace(s[d + |w|])
    ensures NextWord(s, i) == Some((d, d + |w|))
  {
    LitAtNoSpace(s, d, w);
    assert !InClass(s[d + |w|], NonSpace);
    RunLengthExact(s, d, |w|, NonSpace);
    NextWordIs(s, i);
  }

  /** `\s+w\s+(\S+)` accepted: the next word is `w` and a word follows it. */
  lemma {:induction false} WordTokAccepted(s: string, i: nat, w: string, u: seq<nat>)
    requires LowerWord(w) && Accepts(s, i, Lit(w) + Tok(2), u)
    ensures WordThenToken(s, i, w).Some?
  {
    var d := WordTokAcceptedParts(s, i, w, 2, u);
    WordIsNext(s, i, d, w);
  }

  /** Where the accepted `w` starts, and what the accepted tail says about what follows it. */
  lemma WordTokAcceptedParts(s: string, i: nat, w: string, g: nat, u: seq<nat>) returns (d: nat)
    requires LowerWord(w) && Accepts(s, i, Lit(w) + Tok(g), u)
    ensures d > i && d - i == RunLength(s, i, Space) && LitAt(s, d, w)
    ensures NextWord(s, d + |w|).Some? && d + |w| < |s| && IsSpace(s[d + |w|])
  {
    var v;
    d, v := LitAccepted(s, i, w, Tok(g), u);
    LastTokAccepted(s, d + |w|, g, v);
  }

  /** A next word is found only after white space. */
  lemma NextWordSpaced(s: string, e: nat)
    requires NextWord(s, e).Some?
    ensures e < |s| && IsSpace(s[e])
  {
  }

  // ---------------------------------------------------------------------
  // Building first traces

  /** The run, when it is followed by no further `cls` character, has length `e - i`. */
  lemma RunEndsAt(s: string, i: nat, e: nat, cls: CharClass)
    requires i <= e <= |s| && (e == |s| || !InClass(s[e], cls))
    requires forall k :: i <= k < e ==> InClass(s[k], cls)
    ensures RunLength(s, i, cls) == e - i
  {
    RunLengthExact(s, i, e - i, cls);
  }

  /** A greedy `+` followed by `rest` takes the whole run when `rest` matches after it. */
  lemma {:induction false} WholeRunFirst(s: string, i: nat, cls: CharClass, rest: Pattern, e: nat, v: seq<nat>)
    requires i < e <= |s| && RunLength(s, i, cls) == e - i
    requires First(s, e, rest, v)
    ensures First(s, i, [Rep(cls, true, true)] + rest, [e - i] + v)
  {
    var p := [Rep(cls, true, true)] + rest;
    assert p[0] == Rep(cls, true, true) && p[1..] == rest;
    NoLongerRun(s, i, cls);
    GreedyFirst(s, i, p, e - i, v);
  }

  /** A group bound followed by `rest`: the first trace goes straight on. */
  lemma BoundFirst(s: string, i: nat, it: Item, rest: Pattern, v: seq<nat>)
    requires it.Open? || it.Close?
    requires First(s, i, rest, v)
    ensures First(s, i, [it] + rest, [0] + v)
  {
    assert ([it] + rest)[1..] == rest;
    PlainFirst(s, i, [it] + rest, v);
  }

  /** `(\S+)` at a word's start takes the whole word. */
  lemma {:induction false} WordGroupFirst(s: string, g: nat, q: Pattern, v: seq<nat>, b: nat, c: nat)
    requires b < c <= |s| && RunLength(s, b, NonSpace) == c - b
    requires First(s, c, q, v)
    ensures First(s, b, [Open(g)] + ([Rep(NonSpace, true, true)] + ([Close(g)] + q)), [0] + ([c - b] + ([0] + v)))
  {
    BoundFirst(s, c, Close(g), q, v);
    WholeRunFirst(s, b, NonSpace, [Close(g)] + q, c, [0] + v);
    BoundFirst(s, b, Open(g), [Rep(NonSpace, true, true)] + ([Close(g)] + q), [c - b] + ([0] + v));
  }

  /** The two runs the next word is made of. */
  lemma NextWordRuns(s: string, i: nat, b: nat, c: nat)
    requires NextWord(s, i) == Some((b, c))
    ensures RunLength(s, i, Space) == b - i && RunLength(s, b, NonSpace) == c - b
  {
    RunEndsAt(s, i, b, Space);
    RunEndsAt(s, b, c, NonSpace);
  }

  /** `\s+(\S+)` takes the whole white-space run and the whole next word. */
  lemma {:induction false} TokFirst(s: string, i: nat, g: nat, q: Pattern, v: seq<nat>, b: nat, c: nat)
    requires NextWord(s, i) == Some((b, c))
    requires First(s, c, q, v)
    ensures First(s, i, Tok(g) + q, [b - i, 0, c - b, 0] + v)
  {
    NextWordRuns(s, i, b, c);
    TokRunsFirst(s, i, g, q, v, b, c);
  }

  lemma {:induction false} TokRunsFirst(s: string, i: nat, g: nat, q: Pattern, v: seq<nat>, b: nat, c: nat)
    requires i < b < c <= |s| && RunLength(s, i, Space) == b - i && RunLength(s, b, NonSpace) == c - b
    requires First(s, c, q, v)
    ensures First(s, i, Tok(g) + q, [b - i, 0, c - b, 0] + v)
  {
    NestedTokFirst(s, i, g, q, v, b, c);
    TokNested(g, q);
    assert [b - i] + ([0] + ([c - b] + ([0] + v))) == [b - i, 0, c - b, 0] + v;
  }

  lemma {:induction false} NestedTokFirst(s: string, i: nat, g: nat, q: Pattern, v: seq<nat>, b: nat, c: nat)
    requires i < b < c <= |s| && RunLength(s, i, Space) == b - i && RunLength(s, b, NonSpace) == c - b
    requires First(s, c, q, v)
    ensures First(s, i, [Rep(Space, true, true)] + ([Open(g)] + ([Rep(NonSpace, true, true)] + ([Close(g)] + q))),
                  [b - i] + ([0] + ([c - b] + ([0] + v))))
  {
    WordGroupFirst(s, g, q, v, b, c);
    WholeRunFirst(s, i, Space, [Open(g)] + ([Rep(NonSpace, true, true)] + ([Close(g)] + q)), b, [0] + ([c - b] + ([0] + v)));
  }

  lemma TokNested(g: nat, q: Pattern)
    ensures Tok(g) + q == [Rep(Space, true, true)] + ([Open(g)] + ([Rep(NonSpace, true, true)] + ([Close(g)] + q)))
  {
  }

  lemma LitNested(w: string, q: Pattern)
    ensures Lit(w) + q == [Rep(Space, true, true)] + ([Word(w)] + q)
  {
  }

  /** A single word followed by `rest`, where the word occurs. */
  lemma WordAtFirst(s: string, d: nat, w: string, q: Pattern, v: seq<nat>)
    requires LitAt(s, d, w) && First(s, d + |w|, q, v)
    ensures First(s, d, [Word(w)] + q, [0] + v)
  {
    var p1 := [Word(w)] + q;
    assert p1[0].words[0] == w && p1[1..] == q;
    AltFirst(s, d, p1, 0, v);
  }

  /** `\s+w` takes the whole white-space run and then `w`. */
  lemma {:induction false} LitFirst(s: string, i: nat, w: string, q: Pattern, v: seq<nat>, d: nat)
    requires i < d <= |s| && RunLength(s, i, Space) == d - i && LitAt(s, d, w)
    requires First(s, d + |w|, q, v)
    ensures First(s, i, Lit(w) + q, [d - i, 0] + v)
  {
    WordAtFirst(s, d, w, q, v);
    WholeRunFirst(s, i, Space, [Word(w)] + q, d, [0] + v);
    LitNested(w, q);
    assert [d - i] + ([0] + v) == [d - i, 0] + v;
  }

  // ---------------------------------------------------------------------
  // Spans along those traces

  lemma {:induction false} TokSpans(g: nat, q: Pattern, n: nat, m: nat, v: seq<nat>, i: nat, open: map<nat, nat>, acc: map<nat, (nat, nat)>)
    ensures Spans(Tok(g) + q, [n, 0, m, 0] + v, i, open, acc)
      == Spans(q, v, i + n + m, open[g := i + n], acc[g := (i + n, i + n + m)])
  {
    TokParts(g, q);
    var t := [n, 0, m, 0] + v;
    assert t[1..] == [0, m, 0] + v;
    assert t[1..][1..] == [m, 0] + v;
    assert t[1..][1..][1..] == [0] + v;
    assert t[1..][1..][1..][1..] == v;
    var o := open[g := i + n];
    assert Spans(Tok(g) + q, t, i, open, acc)
      == Spans([Open(g), Rep(NonSpace, true, true), Close(g)] + q, [0, m, 0] + v, i + n, open, acc);
    assert Spans([Open(g), Rep(NonSpace, true, true), Close(g)] + q, [0, m, 0] + v, i + n, open, acc)
      == Spans([Rep(NonSpace, true, true), Close(g)] + q, [m, 0] + v, i + n, o, acc);
    assert Spans([Rep(NonSpace, true, true), Close(g)] + q, [m, 0] + v, i + n, o, acc)
      == Spans([Close(g)] + q, [0] + v, i + n + m, o, acc);
  }

  lemma TokSpansAt(g: nat, q: Pattern, i: nat, b: nat, c: nat, v: seq<nat>, open: map<nat, nat>, acc: map<nat, (nat, nat)>)
    requires i <= b <= c
    ensures Spans(Tok(g) + q, [b - i, 0, c - b, 0] + v, i, open, acc) == Spans(q, v, c, open[g := b], acc[g := (b, c)])
  {
    TokSpans(g, q, b - i, c - b, v, i, open, acc);
  }

  lemma {:induction false} LitSpans(w: string, q: Pattern, n: nat, v: seq<nat>, i: nat, open: map<nat, nat>, acc: map<nat, (nat, nat)>)
    ensures Spans(Lit(w) + q, [n, 0] + v, i, open, acc) == Spans(q, v, i + n + |w|, open, acc)
  {
    LitParts(w, q);
    var t := [n, 0] + v;
    assert t[1..] == [0] + v;
    assert t[1..][1..] == v;
    assert Spans(Lit(w) + q, t, i, open, acc) == Spans([Word(w)] + q, [0] + v, i + n, open, acc);
  }

  lemma {:induction false} OptTakenSpans(body: Pattern, v: seq<nat>, i: nat, open: map<nat, nat>, acc: map<nat, (nat, nat)>)
    ensures Spans([Opt(body)], [0] + v, i, open, acc) == Spans(body, v, i, open, acc)
  {
    assert ([0] + v)[1..] == v;
    assert body + [Opt(body)][1..] == body;
  }

  // ---------------------------------------------------------------------
  // The reading of each shape

  lemma ShapeParts(kws: seq<string>, shape: Shape)
    ensures TokenPattern(kws, shape)[0] == Alt(kws)
    ensures TokenPattern(kws, shape)[1..] == Tok(1) + After(shape)
    ensures Tok(2) + [] == Tok(2)
  {
  }

  /** The next word's start is where the white-space run ends. */
  lemma NextWordStart(s: string, i: nat)
    requires NextWord(s, i).Some?
    ensures RunLength(s, i, Space) == NextWord(s, i).value.0 - i
  {
    var b := NextWord(s, i).value.0;
    assert forall k :: i <= k < b ==> InClass(s[k], Space);
    RunLengthExact(s, i, b - i, Space);
  }

  /** Whatever follows a keyword ending at `a` is accepted only where the reading finds its words. */
  lemma {:induction false} AfterAccepted(s: string, a: nat, shape: Shape, u: seq<nat>)
    requires WordsOk(shape) && Accepts(s, a, Tok(1) + After(shape), u)
    ensures ReadAfter(s, a, shape).Some?
  {
    var b, c, m, v := TokAccepted(s, a, 1, After(shape), u);
    RestAccepted(s, b, c, m, shape, v);
  }

  /** What follows the first token is accepted only where the reading finds its words. */
  lemma {:induction false} RestAccepted(s: string, b: nat, c: nat, m: nat, shape: Shape, v: seq<nat>)
    requires WordsOk(shape) && Accepts(s, b + m, After(shape), v)
    requires After(shape) != [] && After(shape)[0] == Rep(Space, true, true) ==> m == c - b
    ensures ReadRest(s, c, shape).Some?
  {
    match shape {
      case TokenThenOptional(w) =>
      case TwoTokens =>
        LastTokAccepted(s, c, 2, v);
      case TokenWordToken(w) =>
        assert (Lit(w) + Tok(2))[0] == Rep(Space, true, true);
        WordTokAccepted(s, c, w, v);
    }
  }

  /** Every match begins with a keyword that fits. */
  lemma AcceptedTokenFits(s: string, kws: seq<string>, shape: Shape, u: seq<nat>)
    requires WordsOk(shape) && Accepts(s, 0, TokenPattern(kws, shape), u)
    ensures u[0] < |kws| && TokenFits(s, kws[u[0]], shape)
  {
    ShapeParts(kws, shape);
    var tail := u[1..];
    AfterAccepted(s, |kws[u[0]]|, shape, tail);
  }

  lemma KeywordsBeforeMiss(s: string, kws: seq<string>, shape: Shape, j: nat)
    requires WordsOk(shape)
    requires forall m :: 0 <= m < j && m < |kws| ==> !TokenFits(s, kws[m], shape)
    ensures forall m: nat :: m < j && m < |kws| && LitAt(s, 0, kws[m]) ==> NoMatchAt(s, |kws[m]|, Tok(1) + After(shape))
  {
    forall m: nat | m < j && m < |kws| && LitAt(s, 0, kws[m]) ensures NoMatchAt(s, |kws[m]|, Tok(1) + After(shape)) {
      forall u ensures !Accepts(s, |kws[m]|, Tok(1) + After(shape), u) {
        if Accepts(s, |kws[m]|, Tok(1) + After(shape), u) {
          AfterAccepted(s, |kws[m]|, shape, u);
        }
      }
    }
  }

  /** `\s+(\S+)` closing the pattern takes the next word. */
  lemma {:induction false} LastTokFirst(s: string, e: nat, f: nat, g: nat)
    requires NextWord(s, e) == Some((f, g))
    ensures First(s, e, Tok(2), [f - e, 0, g - f, 0])
  {
    EmptyFirst(s, g);
    ShapeParts([], TwoTokens);
    TokFirst(s, e, 2, [], [], f, g);
    assert [f - e, 0, g - f, 0] + [] == [f - e, 0, g - f, 0];
  }

  /** `\s+w\s+(\S+)` at `c` takes the next word, when it is `w`, and the word after it. */
  lemma {:induction false} WordTokFirst(s: string, c: nat, w: string, d: nat, e: nat, f: nat, g: nat)
    requires NextWord(s, c) == Some((d, e)) && e == d + |w| && LitAt(s, d, w) && NextWord(s, e) == Some((f, g))
    ensures First(s, c, Lit(w) + Tok(2), [d - c, 0, f - e, 0, g - f, 0])
  {
    assert RunLength(s, c, Space) == d - c by {
      NextWordStart(s, c);
    }
    assert First(s, e, Tok(2), [f - e, 0, g - f, 0]) by {
      LastTokFirst(s, e, f, g);
    }
    LitFirst(s, c, w, Tok(2), [f - e, 0, g - f, 0], d);
    assert [d - c, 0] + [f - e, 0, g - f, 0] == [d - c, 0, f - e, 0, g - f, 0];
  }

  lemma {:induction false} LitTokSpans(w: string, n: nat, m1: nat, m2: nat, c: nat, open: map<nat, nat>, acc: map<nat, (nat, nat)>)
    ensures Spans(Lit(w) + Tok(2), [n, 0, m1, 0, m2, 0], c, open, acc) == acc[2 := (c + n + |w| + m1, c + n + |w| + m1 + m2)]
  {
    ShapeParts([], TwoTokens);
    var t2 := [m1, 0, m2, 0];
    assert [m1, 0, m2, 0] + [] == t2;
    assert [n, 0] + t2 == [n, 0, m1, 0, m2, 0];
    LitSpans(w, Tok(2), n, t2, c, open, acc);
    TokSpans(2, [], m1, m2, [], c + n + |w|, open, acc);
  }

  lemma OptSkippedSpans(body: Pattern, i: nat, open: map<nat, nat>, acc: map<nat, (nat, nat)>)
    ensures Spans([Opt(body)], [1], i, open, acc) == acc
  {
    assert [1][1..] == [];
  }

  /** `(?:\s+w\s+(\S+))?` at `c` is taken when the reading finds `w` and a word after it. */
  lemma {:induction false} OptionalTaken(s: string, c: nat, w: string, open: map<nat, nat>, acc: map<nat, (nat, nat)>) returns (v: seq<nat>)
    requires WordThenToken(s, c, w).Some?
    ensures First(s, c, [Opt(Lit(w) + Tok(2))], v)
    ensures Spans([Opt(Lit(w) + Tok(2))], v, c, open, acc) == acc[2 := WordThenToken(s, c, w).value]
  {
    var v2 := WordFirst(s, c, w, open, acc);
    OptBodyFirst(s, c, Lit(w) + Tok(2), v2);
    v := [0] + v2;
    OptTakenSpans(Lit(w) + Tok(2), v2, c, open, acc);
  }

  lemma OptBodyFirst(s: string, c: nat, body: Pattern, v: seq<nat>)
    requires First(s, c, body, v)
    ensures First(s, c, [Opt(body)], [0] + v)
  {
    assert [Opt(body)][0].body + [Opt(body)][1..] == body;
    OptTakenFirst(s, c, [Opt(body)], v);
  }

  /** It is skipped otherwise. */
  lemma {:induction false} OptionalSkipped(s: string, c: nat, w: string, open: map<nat, nat>, acc: map<nat, (nat, nat)>)
    requires LowerWord(w) && WordThenToken(s, c, w).None?
    ensures First(s, c, [Opt(Lit(w) + Tok(2))], [1])
    ensures Spans([Opt(Lit(w) + Tok(2))], [1], c, open, acc) == acc
  {
    var p := [Opt(Lit(w) + Tok(2))];
    assert p[0].body + p[1..] == Lit(w) + Tok(2);
    forall u ensures !Accepts(s, c, Lit(w) + Tok(2), u) {
      if Accepts(s, c, Lit(w) + Tok(2), u) {
        WordTokAccepted(s, c, w, u);
      }
    }
    EmptyFirst(s, c);
    OptSkippedFirst(s, c, p, []);
    assert [1] + [] == [1];
    OptSkippedSpans(Lit(w) + Tok(2), c, open, acc);
  }

  /** The spans group 2 adds to `acc`. */
  function WithRest(acc: map<nat, (nat, nat)>, g2: Option<(nat, nat)>): map<nat, (nat, nat)> {
    match g2
    case None => acc
    case Some(span) => acc[2 := span]
  }

  /** The spans the reading assigns: group 1, and group 2 when it takes part. */
  function ReadingSpans(r: ((nat, nat), Option<(nat, nat)>)): map<nat, (nat, nat)> {
    WithRest(map[1 := r.0], r.1)
  }

  lemma {:induction false} TwoFirst(s: string, c: nat, open: map<nat, nat>, acc: map<nat, (nat, nat)>) returns (v: seq<nat>)
    requires NextWord(s, c).Some?
    ensures First(s, c, Tok(2), v)
    ensures Spans(Tok(2), v, c, open, acc) == acc[2 := NextWord(s, c).value]
  {
    var (f, g) := NextWord(s, c).value;
    LastTokFirst(s, c, f, g);
    v := [f - c, 0, g - f, 0];
    ShapeParts([], TwoTokens);
    assert [f - c, 0, g - f, 0] + [] == v;
    TokSpans(2, [], f - c, g - f, [], c, open, acc);
  }

  /** The bounds the reading of `\s+w\s+(\S+)` finds. */
  lemma WordThenTokenParts(s: string, c: nat, w: string) returns (d: nat, e: nat, f: nat, g: nat)
    requires WordThenToken(s, c, w).Some?
    ensures NextWord(s, c) == Some((d, e)) && e == d + |w| && LitAt(s, d, w)
    ensures NextWord(s, e) == Some((f, g)) && WordThenToken(s, c, w) == Some((f, g))
  {
    d, e := NextWord(s, c).value.0, NextWord(s, c).value.1;
    f, g := NextWord(s, e).value.0, NextWord(s, e).value.1;
  }

  lemma {:induction false} WordFirst(s: string, c: nat, w: string, open: map<nat, nat>, acc: map<nat, (nat, nat)>) returns (v: seq<nat>)
    requires WordThenToken(s, c, w).Some?
    ensures First(s, c, Lit(w) + Tok(2), v)
    ensures Spans(Lit(w) + Tok(2), v, c, open, acc) == acc[2 := WordThenToken(s, c, w).value]
  {
    var d, e, f, g := WordThenTokenParts(s, c, w);
    v := [d - c, 0, f - e, 0, g - f, 0];
    WordTokFirst(s, c, w, d, e, f, g);
    LitTokSpans(w, d - c, f - e, g - f, c, open, acc);
  }

  /** What follows the first token, when the reading finds it, and the spans the first match adds. */
  lemma {:induction false} RestFirst(s: string, c: nat, shape: Shape, open: map<nat, nat>, acc: map<nat, (nat, nat)>) returns (v: seq<nat>)
    requires WordsOk(shape) && ReadRest(s, c, shape).Some?
    ensures First(s, c, After(shape), v)
    ensures Spans(After(shape), v, c, open, acc) == WithRest(acc, ReadRest(s, c, shape).value)
  {
    match shape {
      case TokenThenOptional(w) =>
        if WordThenToken(s, c, w).Some? {
          v := OptionalTaken(s, c, w, open, acc);
        } else {
          v := [1];
          OptionalSkipped(s, c, w, open, acc);
        }
      case TwoTokens =>
        v := TwoFirst(s, c, open, acc);
      case TokenWordToken(w) =>
        v := WordFirst(s, c, w, open, acc);
    }
  }

  /** The bounds of the first token the reading finds. */
  lemma ReadAfterParts(s: string, a: nat, shape: Shape) returns (b: nat, c: nat)
    requires ReadAfter(s, a, shape).Some?
    ensures NextWord(s, a) == Some((b, c)) && ReadRest(s, c, shape).Some?
    ensures ReadAfter(s, a, shape) == Some(((b, c), ReadRest(s, c, shape).value))
  {
    b, c := NextWord(s, a).value.0, NextWord(s, a).value.1;
  }

  /** What follows the keyword, when the reading finds it, and the spans the first match gives. */
  lemma {:induction false} AfterFirst(s: string, a: nat, shape: Shape) returns (t: seq<nat>)
    requires WordsOk(shape) && ReadAfter(s, a, shape).Some?
    ensures First(s, a, Tok(1) + After(shape), t)
    ensures Spans(Tok(1) + After(shape), t, a, map[], map[]) == ReadingSpans(ReadAfter(s, a, shape).value)
  {
    var b, c := ReadAfterParts(s, a, shape);
    t := AfterFirstAt(s, a, shape, b, c);
  }

  /** `AfterFirst`, with the bounds of the first token given. */
  lemma {:induction false} AfterFirstAt(s: string, a: nat, shape: Shape, b: nat, c: nat) returns (t: seq<nat>)
    requires WordsOk(shape) && NextWord(s, a) == Some((b, c)) && ReadRest(s, c, shape).Some?
    ensures First(s, a, Tok(1) + After(shape), t)
    ensures Spans(Tok(1) + After(shape), t, a, map[], map[]) == ReadingSpans(((b, c), ReadRest(s, c, shape).value))
  {
    var none: map<nat, (nat, nat)> := map[];
    var open: map<nat, nat> := map[];
    var v := RestFirst(s, c, shape, open[1 := b], none[1 := (b, c)]);
    TokFirst(s, a, 1, After(shape), v, b, c);
    t := [b - a, 0, c - b, 0] + v;
    TokSpansAt(1, After(shape), a, b, c, v, open, none);
  }

  /** Groups read off spans that are the reading's spans are the reading's groups. */
  lemma GroupsOfReading(s: string, p: Pattern, t: seq<nat>, r: ((nat, nat), Option<(nat, nat)>))
    requires Spans(p, t, 0, map[], map[]) == ReadingSpans(r)
    ensures GroupsOf(s, p, t) == ReadingGroups(s, r)
  {
    var g := GroupsOf(s, p, t);
    assert g.Keys == ReadingGroups(s, r).Keys;
    forall n | n in g ensures g[n] == ReadingGroups(s, r)[n] {
    }
  }

  /** No keyword fits: nothing matches. */
  lemma ShapeNoMatch(s: string, kws: seq<string>, shape: Shape)
    requires WordsOk(shape) && FirstTokenFit(s, kws, shape, 0).None?
    ensures Match(s, TokenPattern(kws, shape)).None?
  {
    forall u ensures !Accepts(s, 0, TokenPattern(kws, shape), u) {
      if Accepts(s, 0, TokenPattern(kws, shape), u) {
        AcceptedTokenFits(s, kws, shape, u);
      }
    }
  }

  /** The keywords before the first that fits leave nothing to match. */
  lemma AltSpans(kws: seq<string>, shape: Shape, j: nat, v: seq<nat>)
    requires j < |kws|
    ensures Spans(TokenPattern(kws, shape), [j] + v, 0, map[], map[]) == Spans(Tok(1) + After(shape), v, |kws[j]|, map[], map[])
  {
    ShapeParts(kws, shape);
    assert ([j] + v)[1..] == v;
  }

  lemma KeywordFirst(s: string, kws: seq<string>, shape: Shape, j: nat, v: seq<nat>)
    requires WordsOk(shape) && FirstTokenFit(s, kws, shape, 0) == Some(j)
    requires First(s, |kws[j]|, Tok(1) + After(shape), v)
    ensures First(s, 0, TokenPattern(kws, shape), [j] + v)
  {
    KeywordsBeforeMiss(s, kws, shape, j);
    AltAtStartFirst(s, kws, Tok(1) + After(shape), j, v);
  }

  /** A keyword alternation at the start picks the first keyword after which the rest matches. */
  lemma AltAtStartFirst(s: string, kws: seq<string>, rest: Pattern, j: nat, v: seq<nat>)
    requires j < |kws| && LitAt(s, 0, kws[j]) && First(s, |kws[j]|, rest, v)
    requires forall m: nat :: m < j && m < |kws| && LitAt(s, 0, kws[m]) ==> NoMatchAt(s, |kws[m]|, rest)
    ensures First(s, 0, [Alt(kws)] + rest, [j] + v)
  {
    var p := [Alt(kws)] + rest;
    assert p[0].words == kws && p[1..] == rest;
    AltFirst(s, 0, p, j, v);
  }

  /** Keyword `j` is the first that fits: the first match takes it and follows its reading. */
  lemma ShapeFirst(s: string, kws: seq<string>, shape: Shape, j: nat) returns (t: seq<nat>)
    requires WordsOk(shape) && FirstTokenFit(s, kws, shape, 0) == Some(j)
    ensures First(s, 0, TokenPattern(kws, shape), t)
    ensures Spans(TokenPattern(kws, shape), t, 0, map[], map[]) == ReadingSpans(ReadAfter(s, |kws[j]|, shape).value)
  {
    var v := AfterFirst(s, |kws[j]|, shape);
    KeywordFirst(s, kws, shape, j, v);
    t := [j] + v;
    AltSpans(kws, shape, j, v);
  }

  /** Keyword `j` is the first that fits: the match follows its reading. */
  lemma ShapeMatchAt(s: string, kws: seq<string>, shape: Shape, j: nat)
    requires WordsOk(shape) && FirstTokenFit(s, kws, shape, 0) == Some(j)
    ensures Match(s, TokenPattern(kws, shape)) == Some(ReadingGroups(s, ReadAfter(s, |kws[j]|, shape).value))
  {
    var t := ShapeFirst(s, kws, shape, j);
    GroupsOfReading(s, TokenPattern(kws, shape), t, ReadAfter(s, |kws[j]|, shape).value);
  }

  /**
    The first match of a token shape is the explicit reading: it exists
    exactly when some keyword fits, and its groups are the words the first
    fitting keyword's reading finds.
  */
  lemma TokenShapeReading(s: string, kws: seq<string>, shape: Shape)
    requires WordsOk(shape)
    ensures Match(s, TokenPattern(kws, shape)) == TokenReading(s, kws, shape)
  {
    match FirstTokenFit(s, kws, shape, 0)
    case None => ShapeNoMatch(s, kws, shape);
    case Some(j) => ShapeMatchAt(s, kws, shape, j);
  }
}

=== FILE: token_intents.dfy ===
/**
  The token recognisers of `agentic_system/intent/basic`: sort, locate, ln
  and wget. Each is `re.match` with `re.IGNORECASE` on a pattern of
  white-space-separated tokens (module `TokenForm`), followed by the
  stripping of the captured groups; the optional second token of sort and
  locate is added only when it is not empty.
*/
module TokenIntents {
  import opened Common
  import opened PyText
  import opened Regex
  import opened PyRe
  import opened Intents
  import opened TokenForm
  import opened BasicIntents

  const SortWords: seq<string> := ["sort"]
  const LocateWords: seq<string> := ["locate", "find"]
  const LnWords: seq<string> := ["ln", "create symlink"]
  const WgetWords: seq<string> := ["wget", "download"]

  const SortShape: Shape := TokenThenOptional("to")
  const LocateShape: Shape := TokenThenOptional("in")
  const LnShape: Shape := TwoTokens
  const WgetShape: Shape := TokenWordToken("to")

  /** The keys a token recogniser fills: the action, the first token's and the second token's. */
  predicate KeysOk(action: string, key1: string, key2: string) {
    key1 != "action" && key2 != "action" && key1 != key2
  }

  /**
    The intent the explicit reading yields: the first token under `key1`,
    and the second under `key2` when the reading finds one. Both are words.
  */
  function TokenReadingIntent(s: string, kws: seq<string>, shape: Shape, action: string, key1: string, key2: string): (r: Option<Intent>)
    requires KeysOk(action, key1, key2)
    ensures r.Some? ==> "action" in r.value && key1 in r.value && r.value["action"] == Str(action)
    ensures r.Some? ==> r.value.Keys <= {"action", key1, key2}
    ensures r.Some? && !shape.TokenThenOptional? ==> r.value.Keys == {"action", key1, key2}
    ensures r.Some? ==> forall k | k in r.value && k != "action" :: r.value[k].Str? && IsWord(r.value[k].s)
  {
    match FirstTokenFit(s, kws, shape, 0)
    case None => None
    case Some(j) =>
      ReadAfterWords(s, |kws[j]|, shape);
      var r := ReadAfter(s, |kws[j]|, shape).value;
      var i := ActionWith(action, key1, Slice(s, r.0));
      Some(if r.1.Some? then i[key2 := Str(Slice(s, r.1.value))] else i)
  }

  /**
    What the recogniser does with the groups of the match: `{'action':
    action, key1: m.group(1).strip()}`; for the optional form `key2` is added
    when `m.group(2)` is truthy and still non-empty once stripped, for the
    other forms it is always added.
  */
  function Interpret(m: Option<map<nat, string>>, optional: bool, action: string, key1: string, key2: string): Option<Intent>
    requires KeysOk(action, key1, key2)
  {
    match m
    case None => None
    case Some(g) =>
      var i := ActionWith(action, key1, Strip(Captured(g, 1)));
      if optional then
        var second := if Captured(g, 2) != "" then Strip(Captured(g, 2)) else "";
        Some(if second != "" then i[key2 := Str(second)] else i)
      else
        Some(i[key2 := Str(Strip(Captured(g, 2)))])
  }

  /** `m = re.match(pattern, s, re.I)`, interpreted; it is the explicit reading. */
  function TokenIntent(s: string, kws: seq<string>, shape: Shape, action: string, key1: string, key2: string): (r: Option<Intent>)
    requires KeysOk(action, key1, key2) && WordsOk(shape)
    ensures r == TokenReadingIntent(s, kws, shape, action, key1, key2)
  {
    TokenShapeReading(s, kws, shape);
    InterpretReading(s, kws, shape, action, key1, key2);
    Interpret(Match(s, TokenPattern(kws, shape)), shape.TokenThenOptional?, action, key1, key2)
  }

  /** The explicit reading, once the fitting keyword and the bounds of the words are known. */
  lemma ReadingIntentIs(s: string, kws: seq<string>, shape: Shape, action: string, key1: string, key2: string,
                        j: nat, span1: (nat, nat), span2: Option<(nat, nat)>)
    requires KeysOk(action, key1, key2) && j < |kws|
    requires FirstTokenFit(s, kws, shape, 0) == Some(j) && ReadAfter(s, |kws[j]|, shape) == Some((span1, span2))
    ensures TokenReadingIntent(s, kws, shape, action, key1, key2)
         == Some(if span2.Some? then ActionWith(action, key1, Slice(s, span1))[key2 := Str(Slice(s, span2.value))]
                 else ActionWith(action, key1, Slice(s, span1)))
  {
  }

  /** Stripping the groups of the reading changes nothing, and the second is never empty. */
  lemma InterpretReading(s: string, kws: seq<string>, shape: Shape, action: string, key1: string, key2: string)
    requires KeysOk(action, key1, key2)
    ensures Interpret(TokenReading(s, kws, shape), shape.TokenThenOptional?, action, key1, key2)
         == TokenReadingIntent(s, kws, shape, action, key1, key2)
  {
    match FirstTokenFit(s, kws, shape, 0)
    case None =>
    case Some(j) =>
      ReadAfterWords(s, |kws[j]|, shape);
      var r := ReadAfter(s, |kws[j]|, shape).value;
      StripStripped(Slice(s, r.0));
      if r.1.Some? {
        StripStripped(Slice(s, r.1.value));
      }
  }

  /** A word the reading finds: non-empty and without white space. */
  lemma NextWordIsWord(s: string, i: nat)
    requires NextWord(s, i).Some?
    ensures IsWord(Slice(s, NextWord(s, i).value))
  {
    var (b, c) := NextWord(s, i).value;
    var w := Slice(s, (b, c));
    assert w == s[b..c];
    forall k | 0 <= k < |w| ensures !IsSpace(w[k]) {
      assert w[k] == s[b + k];
    }
  }

  /** The word the reading finds after the first, which it always finds outside the optional form. */
  lemma RestIsWord(s: string, c: nat, shape: Shape)
    requires ReadRest(s, c, shape).Some?
    ensures !shape.TokenThenOptional? ==> ReadRest(s, c, shape).value.Some?
    ensures ReadRest(s, c, shape).value.Some? ==> IsWord(Slice(s, ReadRest(s, c, shape).value.value))
  {
    match shape {
      case TwoTokens =>
        NextWordIsWord(s, c);
      case TokenThenOptional(w) =>
        if WordThenToken(s, c, w).Some? {
          NextWordIsWord(s, NextWord(s, c).value.1);
        }
      case TokenWordToken(w) =>
        NextWordIsWord(s, NextWord(s, c).value.1);
    }
  }

  /** Both groups of the reading after a keyword are words; outside the optional form group 2 is there. */
  lemma ReadAfterWords(s: string, a: nat, shape: Shape)
    requires ReadAfter(s, a, shape).Some?
    ensures IsWord(Slice(s, ReadAfter(s, a, shape).value.0))
    ensures !shape.TokenThenOptional? ==> ReadAfter(s, a, shape).value.1.Some?
    ensures ReadAfter(s, a, shape).value.1.Some? ==> IsWord(Slice(s, ReadAfter(s, a, shape).value.1.value))
  {
    var b, c := ReadAfterParts(s, a, shape);
    NextWordIsWord(s, a);
    RestIsWord(s, c, shape);
  }

  // ---------------------------------------------------------------------
  // The four recognisers

  /** `sort <path>`, optionally followed by `to <output_path>`. */
  function ParseSort(s: string): (r: Option<Intent>)
    ensures r.Some? ==> "action" in r.value && "path" in r.value && r.value["action"] == Str("sort")
    ensures r.Some? ==> r.value.Keys <= {"action", "path", "output_path"}
    ensures r == TokenReadingIntent(s, SortWords, SortShape, "sort", "path", "output_path")
  {
    TokenIntent(s, SortWords, SortShape, "sort", "path", "output_path")
  }

  /** `locate <pattern>` / `find <pattern>`, optionally followed by `in <directory>`. */
  function ParseLocate(s: string): (r: Option<Intent>)
    ensures r.Some? ==> "action" in r.value && "pattern" in r.value && r.value["action"] == Str("locate")
    ensures r.Some? ==> r.value.Keys <= {"action", "pattern", "directory"}
    ensures r == TokenReadingIntent(s, LocateWords, LocateShape, "locate", "pattern", "directory")
  {
    TokenIntent(s, LocateWords, LocateShape, "locate", "pattern", "directory")
  }

  /** `ln <target> <link>` / `create symlink <target> <link>`. */
  function ParseLn(s: string): (r: Option<Intent>)
    ensures r.Some? ==> r.value.Keys == {"action", "target_path", "link_path"} && r.value["action"] == Str("ln")
    ensures r == TokenReadingIntent(s, LnWords, LnShape, "ln", "target_path", "link_path")
  {
    TokenIntent(s, LnWords, LnShape, "ln", "target_path", "link_path")
  }

  /** `wget <url> to <output>` / `download <url> to <output>`. */
  function ParseWget(s: string): (r: Option<Intent>)
    ensures r.Some? ==> r.value.Keys == {"action", "url", "output_path"} && r.value["action"] == Str("wget")
    ensures r == TokenReadingIntent(s, WgetWords, WgetShape, "wget", "url", "output_path")
  {
    TokenIntent(s, WgetWords, WgetShape, "wget", "url", "output_path")
  }
}

=== FILE: transfer_commands.dfy ===
/**
  The commands that transfer the regular files of one directory into
  another: `move` and `copy` (`agentic_system/commands/basic/{move,copy}.py`).

  Both list the source directory once, after creating a missing
  destination, then visit the listed names in order; a name that is a
  regular file at its turn and passes the command's filter is handed to
  `shutil.move` or `shutil.copy2` with the target `dst/name`. An exception
  from either escapes the command: the reply is then `Raises` with the
  state reached so far.
*/
module TransferCommands {
  import opened Common
  import opened PyText
  import opened Sorting
  import opened FileSystem

  /** How a run over the listed names ends: the names handled and the state, or an escaping exception. */
  datatype Outcome = Done(names: seq<string>, fs: FS) | Failed(fs: FS)

  function SourceNotFound(src: Path): string {
    "Source directory not found: " + Display(src)
  }

  /**
    The state in which the command starts its loop: a missing destination
    is created with its ancestors, or `mkdir` raises because a file stands
    on the way.
  */
  function Prepare(fs: FS, dst: Path): (r: Option<FS>)
    requires WellFormed(fs) && ValidPath(dst)
    ensures r.None? <==> dst !in fs && FileOnTheWay(fs, dst)
    ensures r.Some? ==> WellFormed(r.value) && dst in r.value
    ensures r.Some? && !IsFile(fs, dst) ==> IsDir(r.value, dst)
    ensures r.Some? ==> forall q | q in fs :: q in r.value && r.value[q] == fs[q]
    ensures r.Some? ==> forall q | q in r.value && q !in fs :: r.value[q] == Dir
  {
    DirErrorNotADirectory(fs, dst);
    if dst in fs then Some(fs)
    else if FileOnTheWay(fs, dst) then None
    else Some(MakeDirs(fs, dst))
  }

  /**
    The file `f` under the new path `t`, which is not a directory: a file
    already there is replaced, and renaming a path onto itself changes
    nothing (`os.rename`).
  */
  function Rename(fs: FS, f: Path, t: Path): (r: FS)
    requires f in fs
    ensures t in r && r[t] == fs[f]
    ensures f != t ==> f !in r
    ensures forall q | q != f && q != t :: (q in r <==> q in fs) && (q in r ==> r[q] == fs[q])
  {
    if f == t then fs else (fs - {f})[t := fs[f]]
  }

  /** Moving a file of a well-formed state into a directory, onto a path that is not a directory, keeps it well-formed. */
  lemma RenameWellFormed(fs: FS, f: Path, t: Path)
    requires WellFormed(fs) && IsFile(fs, f) && t != [] && IsDir(fs, Parent(t)) && !IsDir(fs, t)
    requires ValidName(t[|t| - 1])
    ensures WellFormed(Rename(fs, f, t))
  {
    if f != t {
      FileHoldsNothing(fs, f);
      RemoveLeafWellFormed(fs, f);
      var g := fs - {f};
      assert IsDir(g, Parent(t));
      PutWellFormed(g, t, fs[f]);
    }
  }

  /** Putting a node on a path that is not a directory, in a directory, with a valid name, keeps a state well-formed. */
  lemma PutWellFormed(g: FS, t: Path, e: Node)
    requires WellFormed(g) && t != [] && ValidName(t[|t| - 1]) && IsDir(g, Parent(t)) && !IsDir(g, t)
    ensures WellFormed(g[t := e])
  {
    var r := g[t := e];
    forall p | p in r && p != [] ensures ValidName(p[|p| - 1]) && IsDir(r, Parent(p)) {
      if p != t {
        assert p in g && IsDir(g, Parent(p));
      }
    }
  }

  /**
    Which regular files of the source a command takes: `move` takes every
    file when no names are given (an empty list is false in Python) and
    otherwise only those named; `copy` skips a file whose name contains the
    exclusion string, unless that string is empty.
  */
  datatype Filter = Named(files: seq<string>) | Excluding(pattern: string)

  predicate Keeps(k: Filter, n: string) {
    match k
    case Named(files) => files == [] || n in files
    case Excluding(pattern) => pattern == "" || !Contains(n, pattern)
  }

  /** The names of `names` that are regular files of `src` and that the filter keeps, in order. */
  function Selection(fs: FS, src: Path, names: seq<string>, k: Filter): (sel: seq<string>)
    ensures forall n :: n in sel <==> n in names && IsFile(fs, src + [n]) && Keeps(k, n)
    ensures Distinct(names) ==> Distinct(sel)
    decreases |names|
  {
    if names == [] then []
    else
      var rest := Selection(fs, src, names[1..], k);
      if IsFile(fs, src + [names[0]]) && Keeps(k, names[0]) then
        assert Distinct(names) ==> names[0] !in names[1..];
        [names[0]] + rest
      else rest
  }

  /** The selection depends only on which listed names are files of `src`. */
  lemma {:induction false} SelectionFrame(fs: FS, fs2: FS, src: Path, names: seq<string>, k: Filter)
    requires forall m | m in names :: IsFile(fs, src + [m]) == IsFile(fs2, src + [m])
    ensures Selection(fs2, src, names, k) == Selection(fs, src, names, k)
    decreases |names|
  {
    if names != [] {
      SelectionFrame(fs, fs2, src, names[1..], k);
    }
  }

  /** `q` is `d/n` for a name `n` of `sel`. */
  predicate Into(q: Path, d: Path, sel: seq<string>) {
    q != [] && q[|q| - 1] in sel && Parent(q) == d
  }

  // ---------------------------------------------------------------------
  // move

  /**
    `shutil.move(src/n, dst/n)` of a regular file: onto a directory
    `dst/n` it lands inside it, as `dst/n/n`, which must not exist yet;
    otherwise it is renamed to `dst/n`. When `dst` is not a directory the
    rename fails, and so does the copying fallback.
  */
  function MoveOne(fs: FS, src: Path, dst: Path, n: string): (r: Option<FS>)
    requires IsFile(fs, src + [n])
    ensures r.None? <==> !IsDir(fs, dst) || (IsDir(fs, dst + [n]) && dst + [n, n] in fs)
    ensures r.Some? && !IsDir(fs, dst + [n]) ==> r.value == Rename(fs, src + [n], dst + [n])
    ensures r.Some? && IsDir(fs, dst + [n]) ==> r.value == Rename(fs, src + [n], dst + [n, n])
  {
    var f := src + [n];
    var t := dst + [n];
    assert t + [n] == dst + [n, n];
    if !IsDir(fs, dst) then None
    else if IsDir(fs, t) then
      if t + [n] in fs then None else Some(Rename(fs, f, t + [n]))
    else Some(Rename(fs, f, t))
  }

  /** The loop of `MoveCommand.execute` over the listed names. */
  function MoveFiles(fs: FS, src: Path, dst: Path, names: seq<string>, files: seq<string>): (o: Outcome)
    ensures o.Done? ==> forall n | n in o.names :: n in names && Keeps(Named(files), n)
    ensures WellFormed(fs) ==> WellFormed(o.fs)
    decreases |names|
  {
    if names == [] then Done([], fs)
    else
      var n := names[0];
      if !IsFile(fs, src + [n]) || !Keeps(Named(files), n) then MoveFiles(fs, src, dst, names[1..], files)
      else
        match MoveOne(fs, src, dst, n)
        case None => Failed(fs)
        case Some(fs2) =>
          MoveOneWellFormed(fs, src, dst, n);
          match MoveFiles(fs2, src, dst, names[1..], files)
          case Done(m, fs3) => Done([n] + m, fs3)
          case Failed(fs3) => Failed(fs3)
  }

  lemma MoveOneWellFormed(fs: FS, src: Path, dst: Path, n: string)
    requires IsFile(fs, src + [n]) && MoveOne(fs, src, dst, n).Some?
    ensures WellFormed(fs) ==> WellFormed(MoveOne(fs, src, dst, n).value)
  {
    if WellFormed(fs) {
      var t := dst + [n];
      assert ValidName(n) by {
        assert (src + [n])[|src + [n]| - 1] == n;
      }
      assert Parent(t) == dst;
      if IsDir(fs, t) {
        assert Parent(dst + [n, n]) == t;
        RenameWellFormed(fs, src + [n], dst + [n, n]);
      } else {
        RenameWellFormed(fs, src + [n], t);
      }
    }
  }

  function MovedMessage(m: seq<string>): string {
    if m == [] then "No files moved." else "Moved files: " + Join(m, ", ")
  }

  /** `MoveCommand(src, dst, files).execute()`; an empty `files` is Python's false list. */
  function Move(fs: FS, src: Path, dst: Path, files: seq<string>): (r: Reply)
    requires WellFormed(fs) && ValidPath(dst)
    ensures !IsDir(fs, src) ==> r == Returns(SourceNotFound(src), fs)
    ensures IsDir(fs, src) && dst !in fs && FileOnTheWay(fs, dst) ==> r == Raises(fs)
    ensures WellFormed(r.fs)
  {
    if !IsDir(fs, src) then Returns(SourceNotFound(src), fs)
    else
      match Prepare(fs, dst)
      case None => Raises(fs)
      case Some(fs1) =>
        match MoveFiles(fs1, src, dst, Listing(fs1, src), files)
        case Done(m, fs2) => Returns(MovedMessage(m), fs2)
        case Failed(fs2) => Raises(fs2)
  }

  /**
    `r` is `fs` with the files `src/n`, for the names `n` of `sel`, moved to
    `dst/n`, and nothing else changed.
  */
  predicate MovedAll(fs: FS, r: FS, src: Path, dst: Path, sel: seq<string>) {
    && (forall n | n in sel :: IsFile(fs, src + [n]) && src + [n] !in r && dst + [n] in r && r[dst + [n]] == fs[src + [n]])
    && (forall q | q in fs && !Touched(q, src, dst, sel) :: q in r && r[q] == fs[q])
    && (forall q | q in r && q !in fs :: Touched(q, src, dst, sel))
  }

  /** `q` is `src/n` or `dst/n` for a name `n` of `sel`. */
  predicate Touched(q: Path, src: Path, dst: Path, sel: seq<string>) {
    Into(q, src, sel) || Into(q, dst, sel)
  }

  /**
    Into a directory other than the source, where no selected name is a
    directory already, the loop moves every selected file and nothing else.
  */
  lemma {:induction false} MoveFilesHappy(fs: FS, src: Path, dst: Path, names: seq<string>, files: seq<string>)
    requires IsDir(fs, dst) && src != dst && Distinct(names)
    requires forall n | n in names && IsFile(fs, src + [n]) && Keeps(Named(files), n) :: !IsDir(fs, dst + [n])
    ensures MoveFiles(fs, src, dst, names, files).Done?
    ensures MoveFiles(fs, src, dst, names, files).names == Selection(fs, src, names, Named(files))
    ensures MovedAll(fs, MoveFiles(fs, src, dst, names, files).fs, src, dst, Selection(fs, src, names, Named(files)))
    decreases |names|
  {
    if names != [] {
      var n := names[0];
      var tail := names[1..];
      assert Distinct(tail) && n !in tail;
      if !IsFile(fs, src + [n]) || !Keeps(Named(files), n) {
        MoveFilesHappy(fs, src, dst, tail, files);
      } else {
        var fs2 := Rename(fs, src + [n], dst + [n]);
        assert Parent(src + [n]) == src && Parent(dst + [n]) == dst;
        MoveStepFrame(fs, fs2, src, dst, n, tail, files);
        MoveFilesHappy(fs2, src, dst, tail, files);
        var r := MoveFiles(fs2, src, dst, tail, files).fs;
        MovedAllStep(fs, fs2, r, src, dst, n, Selection(fs, src, tail, Named(files)));
      }
    }
  }

  /** After one move, the rest of the loop sees the same candidates and still meets the happy case. */
  lemma MoveStepFrame(fs: FS, fs2: FS, src: Path, dst: Path, n: string, tail: seq<string>, files: seq<string>)
    requires IsDir(fs, dst) && src != dst && IsFile(fs, src + [n]) && !IsDir(fs, dst + [n]) && n !in tail
    requires fs2 == Rename(fs, src + [n], dst + [n])
    requires forall m | m in tail && IsFile(fs, src + [m]) && Keeps(Named(files), m) :: !IsDir(fs, dst + [m])
    ensures IsDir(fs2, dst)
    ensures Selection(fs2, src, tail, Named(files)) == Selection(fs, src, tail, Named(files))
    ensures forall m | m in tail && IsFile(fs2, src + [m]) && Keeps(Named(files), m) :: !IsDir(fs2, dst + [m])
  {
    assert dst != src + [n] && dst != dst + [n];
    forall m | m in tail ensures src + [m] != src + [n] && src + [m] != dst + [n] && dst + [m] != src + [n] && dst + [m] != dst + [n] {
      assert (src + [m])[..|src|] == src && (dst + [n])[..|dst|] == dst;
      assert (src + [m])[|src|] == m && (dst + [m])[|dst|] == m;
    }
    SelectionFrame(fs, fs2, src, tail, Named(files));
  }

  /** Moving `n` first, then the rest, is moving `[n]` and the rest. */
  lemma MovedAllStep(fs: FS, fs2: FS, r: FS, src: Path, dst: Path, n: string, sel: seq<string>)
    requires src != dst && IsFile(fs, src + [n]) && !IsDir(fs, dst + [n]) && n !in sel
    requires fs2 == Rename(fs, src + [n], dst + [n])
    requires MovedAll(fs2, r, src, dst, sel)
    ensures MovedAll(fs, r, src, dst, [n] + sel)
  {
    var f, t := src + [n], dst + [n];
    var sel' := [n] + sel;
    assert Parent(f) == src && Parent(t) == dst;
    assert f != t;
    assert !Touched(t, src, dst, sel) && !Touched(f, src, dst, sel);
    forall m | m in sel ensures src + [m] != f && src + [m] != t && dst + [m] != f && dst + [m] != t {
      assert Parent(src + [m]) == src && Parent(dst + [m]) == dst;
    }
    assert forall m | m in sel' :: IsFile(fs, src + [m]) && src + [m] !in r && dst + [m] in r && r[dst + [m]] == fs[src + [m]];
    forall q | q in fs && !Touched(q, src, dst, sel') ensures q in r && r[q] == fs[q] {
      assert q != f && q != t;
      assert !Touched(q, src, dst, sel);
    }
    forall q | q in r && q !in fs ensures Touched(q, src, dst, sel') {
      if q == t {
        assert Into(q, dst, sel');
      } else {
        assert Touched(q, src, dst, sel);
      }
    }
  }

  /**
    `move` into an existing directory other than the source, where no
    wanted file's name is taken by a directory, moves exactly the wanted
    regular files of the source, names them in listing order, and changes
    nothing else.
  */
  lemma MoveHappy(fs: FS, src: Path, dst: Path, files: seq<string>)
    requires WellFormed(fs) && IsDir(fs, src) && IsDir(fs, dst) && src != dst && ValidPath(dst)
    requires forall n | IsFile(fs, src + [n]) && Keeps(Named(files), n) :: !IsDir(fs, dst + [n])
    ensures var sel := Selection(fs, src, Listing(fs, src), Named(files));
      && (forall n :: n in sel <==> IsFile(fs, src + [n]) && Keeps(Named(files), n))
      && Move(fs, src, dst, files).Returns?
      && Move(fs, src, dst, files).text == MovedMessage(sel)
      && MovedAll(fs, Move(fs, src, dst, files).fs, src, dst, sel)
  {
    MoveFilesHappy(fs, src, dst, Listing(fs, src), files);
  }

  /** Moving a directory's files into itself renames each onto itself: the state stays, and the files are still reported. */
  lemma MoveOntoItself(fs: FS, src: Path, files: seq<string>)
    requires WellFormed(fs) && IsDir(fs, src) && ValidPath(src)
    ensures Move(fs, src, src, files) == Returns(MovedMessage(Selection(fs, src, Listing(fs, src), Named(files))), fs)
  {
    MoveFilesInPlace(fs, src, Listing(fs, src), files);
  }

  lemma {:induction false} MoveFilesInPlace(fs: FS, src: Path, names: seq<string>, files: seq<string>)
    requires IsDir(fs, src)
    ensures MoveFiles(fs, src, src, names, files) == Done(Selection(fs, src, names, Named(files)), fs)
    decreases |names|
  {
    if names != [] {
      MoveFilesInPlace(fs, src, names[1..], files);
    }
  }

  // ---------------------------------------------------------------------
  // copy

  /**
    `shutil.copy2(src/n, dst/n)`: onto a directory `dst/n` the copy goes
    inside it, as `dst/n/n`. Copying a file onto itself raises
    `SameFileError`, opening a directory for writing raises
    `IsADirectoryError`, and a `dst` that is not a directory makes the open
    fail. Otherwise the target holds the same contents and, as `copystat`
    copies it, the same modification time.
  */
  function CopyTarget(fs: FS, dst: Path, n: string): (t: Path)
    ensures t == dst + [n] || t == dst + [n, n]
  {
    if IsDir(fs, dst + [n]) then dst + [n, n] else dst + [n]
  }

  function CopyOne(fs: FS, src: Path, dst: Path, n: string): (r: Option<FS>)
    requires IsFile(fs, src + [n])
    ensures r.None? <==> !IsDir(fs, dst) || CopyTarget(fs, dst, n) == src + [n] || IsDir(fs, CopyTarget(fs, dst, n))
    ensures r.Some? ==> r.value == fs[CopyTarget(fs, dst, n) := fs[src + [n]]]
  {
    var f := src + [n];
    var t := CopyTarget(fs, dst, n);
    if !IsDir(fs, dst) || t == f || IsDir(fs, t) then None
    else Some(fs[t := fs[f]])
  }

  /** The loop of `CopyCommand.execute` over the listed names. */
  function CopyFiles(fs: FS, src: Path, dst: Path, names: seq<string>, exclude: string): (o: Outcome)
    ensures o.Done? ==> forall n | n in o.names :: n in names && Keeps(Excluding(exclude), n)
    ensures WellFormed(fs) ==> WellFormed(o.fs)
    decreases |names|
  {
    if names == [] then Done([], fs)
    else
      var n := names[0];
      if !IsFile(fs, src + [n]) || !Keeps(Excluding(exclude), n) then CopyFiles(fs, src, dst, names[1..], exclude)
      else
        match CopyOne(fs, src, dst, n)
        case None => Failed(fs)
        case Some(fs2) =>
          CopyOneWellFormed(fs, src, dst, n);
          match CopyFiles(fs2, src, dst, names[1..], exclude)
          case Done(m, fs3) => Done([n] + m, fs3)
          case Failed(fs3) => Failed(fs3)
  }

  lemma CopyOneWellFormed(fs: FS, src: Path, dst: Path, n: string)
    requires IsFile(fs, src + [n]) && CopyOne(fs, src, dst, n).Some?
    ensures WellFormed(fs) ==> WellFormed(CopyOne(fs, src, dst, n).value)
  {
    if WellFormed(fs) {
      assert ValidName(n) by {
        assert (src + [n])[|src + [n]| - 1] == n;
      }
      if IsDir(fs, dst + [n]) {
        assert Parent(dst + [n, n]) == dst + [n];
        PutFileWellFormed(fs, dst + [n, n], fs[src + [n]]);
      } else {
        assert Parent(dst + [n]) == dst;
        PutFileWellFormed(fs, dst + [n], fs[src + [n]]);
      }
    }
  }

  /** A file written into a directory, where no directory stands, keeps a well-formed state well-formed. */
  lemma PutFileWellFormed(fs: FS, t: Path, node: Node)
    requires WellFormed(fs) && t != [] && IsDir(fs, Parent(t)) && !IsDir(fs, t) && ValidName(t[|t| - 1]) && node.File?
    ensures WellFormed(fs[t := node])
  {
  }

  function CopiedMessage(m: seq<string>): string {
    if m == [] then "No files copied." else "Copied files: " + Join(m, ", ")
  }

  /** `CopyCommand(src, dst, exclude).execute()`; an empty `exclude` is Python's false string or `None`. */
  function Copy(fs: FS, src: Path, dst: Path, exclude: string): (r: Reply)
    requires WellFormed(fs) && ValidPath(dst)
    ensures !IsDir(fs, src) ==> r == Returns(SourceNotFound(src), fs)
    ensures IsDir(fs, src) && dst !in fs && FileOnTheWay(fs, dst) ==> r == Raises(fs)
    ensures WellFormed(r.fs)
  {
    if !IsDir(fs, src) then Returns(SourceNotFound(src), fs)
    else
      match Prepare(fs, dst)
      case None => Raises(fs)
      case Some(fs1) =>
        match CopyFiles(fs1, src, dst, Listing(fs1, src), exclude)
        case Done(m, fs2) => Returns(CopiedMessage(m), fs2)
        case Failed(fs2) => Raises(fs2)
  }

  /**
    `r` is `fs` with the files `src/n`, for the names `n` of `sel`, copied
    to `dst/n`, and nothing else changed.
  */
  predicate CopiedAll(fs: FS, r: FS, src: Path, dst: Path, sel: seq<string>) {
    && (forall n | n in sel :: IsFile(fs, src + [n]) && dst + [n] in r && r[dst + [n]] == fs[src + [n]])
    && (forall q | q in fs && !Into(q, dst, sel) :: q in r && r[q] == fs[q])
    && (forall q | q in r && q !in fs :: Into(q, dst, sel))
  }

  /**
    Into a directory other than the source, where no selected name is a
    directory already, the loop copies every selected file and nothing else.
  */
  lemma {:induction false} CopyFilesHappy(fs: FS, src: Path, dst: Path, names: seq<string>, exclude: string)
    requires IsDir(fs, dst) && src != dst && Distinct(names)
    requires forall n | n in names && IsFile(fs, src + [n]) && Keeps(Excluding(exclude), n) :: !IsDir(fs, dst + [n])
    ensures CopyFiles(fs, src, dst, names, exclude).Done?
    ensures CopyFiles(fs, src, dst, names, exclude).names == Selection(fs, src, names, Excluding(exclude))
    ensures CopiedAll(fs, CopyFiles(fs, src, dst, names, exclude).fs, src, dst, Selection(fs, src, names, Excluding(exclude)))
    decreases |names|
  {
    if names != [] {
      var n := names[0];
      var tail := names[1..];
      assert Distinct(tail) && n !in tail;
      if !IsFile(fs, src + [n]) || !Keeps(Excluding(exclude), n) {
        CopyFilesHappy(fs, src, dst, tail, exclude);
      } else {
        var fs2 := fs[dst + [n] := fs[src + [n]]];
        assert Parent(src + [n]) == src && Parent(dst + [n]) == dst;
        CopyStepFrame(fs, fs2, src, dst, n, tail, exclude);
        CopyFilesHappy(fs2, src, dst, tail, exclude);
        var r := CopyFiles(fs2, src, dst, tail, exclude).fs;
        CopiedAllStep(fs, fs2, r, src, dst, n, Selection(fs, src, tail, Excluding(exclude)));
      }
    }
  }

  /** After one copy, the rest of the loop sees the same candidates and still meets the happy case. */
  lemma CopyStepFrame(fs: FS, fs2: FS, src: Path, dst: Path, n: string, tail: seq<string>, exclude: string)
    requires IsDir(fs, dst) && src != dst && IsFile(fs, src + [n]) && n !in tail
    requires fs2 == fs[dst + [n] := fs[src + [n]]]
    requires forall m | m in tail && IsFile(fs, src + [m]) && Keeps(Excluding(exclude), m) :: !IsDir(fs, dst + [m])
    ensures IsDir(fs2, dst)
    ensures Selection(fs2, src, tail, Excluding(exclude)) == Selection(fs, src, tail, Excluding(exclude))
    ensures forall m | m in tail && IsFile(fs2, src + [m]) && Keeps(Excluding(exclude), m) :: !IsDir(fs2, dst + [m])
  {
    assert dst != dst + [n];
    forall m | m in tail ensures src + [m] != dst + [n] && dst + [m] != dst + [n] {
      assert Parent(src + [m]) == src && Parent(dst + [m]) == dst && Parent(dst + [n]) == dst;
      assert (dst + [m])[|dst|] == m && (dst + [n])[|dst|] == n;
    }
    SelectionFrame(fs, fs2, src, tail, Excluding(exclude));
  }

  /** Copying `n` first, then the rest, is copying `[n]` and the rest. */
  lemma CopiedAllStep(fs: FS, fs2: FS, r: FS, src: Path, dst: Path, n: string, sel: seq<string>)
    requires src != dst && IsFile(fs, src + [n]) && n !in sel
    requires fs2 == fs[dst + [n] := fs[src + [n]]]
    requires CopiedAll(fs2, r, src, dst, sel)
    ensures CopiedAll(fs, r, src, dst, [n] + sel)
  {
    var f, t := src + [n], dst + [n];
    var sel' := [n] + sel;
    assert Parent(f) == src && Parent(t) == dst;
    assert !Into(t, dst, sel);
    forall m | m in sel ensures src + [m] != t {
      assert Parent(src + [m]) == src;
    }
    assert forall m | m in sel' :: IsFile(fs, src + [m]) && dst + [m] in r && r[dst + [m]] == fs[src + [m]];
    forall q | q in fs && !Into(q, dst, sel') ensures q in r && r[q] == fs[q] {
      assert q != t;
      assert !Into(q, dst, sel);
    }
    forall q | q in r && q !in fs ensures Into(q, dst, sel') {
      if q != t {
        assert Into(q, dst, sel);
      }
    }
  }

  /**
    `copy` into an existing directory other than the source, where no kept
    file's name is taken by a directory, copies exactly the kept regular
    files of the source, names them in listing order, and changes nothing
    else.
  */
  lemma CopyHappy(fs: FS, src: Path, dst: Path, exclude: string)
    requires WellFormed(fs) && IsDir(fs, src) && IsDir(fs, dst) && src != dst && ValidPath(dst)
    requires forall n | IsFile(fs, src + [n]) && Keeps(Excluding(exclude), n) :: !IsDir(fs, dst + [n])
    ensures var sel := Selection(fs, src, Listing(fs, src), Excluding(exclude));
      && (forall n :: n in sel <==> IsFile(fs, src + [n]) && Keeps(Excluding(exclude), n))
      && Copy(fs, src, dst, exclude).Returns?
      && Copy(fs, src, dst, exclude).text == CopiedMessage(sel)
      && CopiedAll(fs, Copy(fs, src, dst, exclude).fs, src, dst, sel)
  {
    CopyFilesHappy(fs, src, dst, Listing(fs, src), exclude);
  }

  /** Copying a directory's files into itself stops at the first kept file with `SameFileError`, having changed nothing. */
  lemma CopyOntoItself(fs: FS, src: Path, exclude: string)
    requires WellFormed(fs) && IsDir(fs, src) && ValidPath(src)
    ensures var sel := Selection(fs, src, Listing(fs, src), Excluding(exclude));
      Copy(fs, src, src, exclude) == if sel == [] then Returns(CopiedMessage([]), fs) else Raises(fs)
  {
    CopyFilesInPlace(fs, src, Listing(fs, src), exclude);
  }

  lemma {:induction false} CopyFilesInPlace(fs: FS, src: Path, names: seq<string>, exclude: string)
    requires IsDir(fs, src)
    ensures CopyFiles(fs, src, src, names, exclude)
      == if Selection(fs, src, names, Excluding(exclude)) == [] then Done([], fs) else Failed(fs)
    decreases |names|
  {
    if names != [] {
      CopyFilesInPlace(fs, src, names[1..], exclude);
    }
  }

  /**
    Whatever `copy` does, even when it raises half way, the entries of the
    source directory keep their contents and times, and no regular file
    appears among them.
  */
  lemma CopyKeepsSource(fs: FS, src: Path, dst: Path, exclude: string)
    requires WellFormed(fs) && ValidPath(dst)
    ensures forall m | src + [m] in fs :: src + [m] in Copy(fs, src, dst, exclude).fs && Copy(fs, src, dst, exclude).fs[src + [m]] == fs[src + [m]]
    ensures forall m | IsFile(Copy(fs, src, dst, exclude).fs, src + [m]) :: IsFile(fs, src + [m])
  {
    if IsDir(fs, src) {
      var p := Prepare(fs, dst);
      if p.Some? {
        CopyFilesKeepSource(p.value, src, dst, Listing(p.value, src), exclude);
      }
    }
  }

  lemma {:induction false} CopyFilesKeepSource(fs: FS, src: Path, dst: Path, names: seq<string>, exclude: string)
    ensures forall m :: src + [m] in CopyFiles(fs, src, dst, names, exclude).fs <==> src + [m] in fs
    ensures forall m | src + [m] in fs :: CopyFiles(fs, src, dst, names, exclude).fs[src + [m]] == fs[src + [m]]
    decreases |names|
  {
    if names != [] {
      var n := names[0];
      if IsFile(fs, src + [n]) && Keeps(Excluding(exclude), n) && CopyOne(fs, src, dst, n).Some? {
        var fs2 := CopyOne(fs, src, dst, n).value;
        CopyTargetAway(fs, src, dst, n);
        CopyFilesKeepSource(fs2, src, dst, names[1..], exclude);
      } else {
        CopyFilesKeepSource(fs, src, dst, names[1..], exclude);
      }
    }
  }

  /** A copy that goes ahead never writes into the source directory: a target there would be the file itself. */
  lemma CopyTargetAway(fs: FS, src: Path, dst: Path, n: string)
    requires IsFile(fs, src + [n]) && CopyOne(fs, src, dst, n).Some?
    ensures forall m :: CopyTarget(fs, dst, n) != src + [m]
  {
    var t := CopyTarget(fs, dst, n);
    forall m ensures t != src + [m] {
      assert Parent(src + [m]) == src;
      if t == dst + [n] {
        assert Parent(t) == dst && t[|t| - 1] == n;
      } else {
        assert Parent(t) == dst + [n] && t[|t| - 1] == n;
      }
    }
  }
}

=== FILE: tree_command.dfy ===
/**
  The `tree` command (`agentic_system/commands/basic/tree.py`): the
  absolute path of a directory, then one line per entry below it, drawn
  with box connectors, directories before files, down to an optional
  depth.
*/
module TreeCommand {
  import opened Common
  import opened PyText
  import opened Sorting
  import opened FileSystem

  /**
    `str(path.resolve())` for a path relative to the working directory
    `cwd`, itself given as the names of an absolute path.
  */
  function Resolve(cwd: Path, p: Path): (r: string)
    ensures r != [] && r[0] == '/'
  {
    "/" + Join(cwd + p, "/")
  }

  // ---------------------------------------------------------------------
  // Ordering the children

  /** The names of `names` whose entry in `d` is a directory (or is not), in order. */
  function OfKind(fs: FS, d: Path, names: seq<string>, dirs: bool): (r: seq<string>)
    ensures forall n :: n in r <==> n in names && IsDir(fs, d + [n]) == dirs
    ensures Sorted(names) ==> Sorted(r)
    ensures Distinct(names) ==> Distinct(r)
    decreases |names|
  {
    if names == [] then []
    else
      var rest := OfKind(fs, d, names[1..], dirs);
      if IsDir(fs, d + [names[0]]) == dirs then
        assert Sorted(names) ==> forall y | y in rest :: StrLe(names[0], y);
        assert Distinct(names) ==> names[0] !in names[1..];
        [names[0]] + rest
      else rest
  }

  /** The order of the sort key `(not x.is_dir(), x.name)`: directories first, then by name. */
  predicate KeyLe(fs: FS, d: Path, a: string, b: string) {
    || (IsDir(fs, d + [a]) && !IsDir(fs, d + [b]))
    || (IsDir(fs, d + [a]) == IsDir(fs, d + [b]) && StrLe(a, b))
  }

  /** `sorted(p.iterdir(), key=lambda x: (not x.is_dir(), x.name))`, as names. */
  function Children(fs: FS, d: Path): (r: seq<string>)
    ensures forall n :: n in r <==> d + [n] in fs
    ensures Distinct(r)
    ensures forall i, j | 0 <= i < j < |r| :: KeyLe(fs, d, r[i], r[j])
  {
    var names := Listing(fs, d);
    var ds, fl := OfKind(fs, d, names, true), OfKind(fs, d, names, false);
    forall i, j | 0 <= i < j < |ds + fl| ensures KeyLe(fs, d, (ds + fl)[i], (ds + fl)[j]) {
      KindsInOrder(fs, d, ds, fl, i, j);
    }
    assert forall i | 0 <= i < |ds| :: ds[i] in ds;
    assert forall i | 0 <= i < |fl| :: fl[i] in fl;
    ds + fl
  }

  /** Directories sorted by name, then files sorted by name, are in key order. */
  lemma KindsInOrder(fs: FS, d: Path, ds: seq<string>, fl: seq<string>, i: nat, j: nat)
    requires Sorted(ds) && Sorted(fl) && i < j < |ds + fl|
    requires forall n | n in ds :: IsDir(fs, d + [n])
    requires forall n | n in fl :: !IsDir(fs, d + [n])
    ensures KeyLe(fs, d, (ds + fl)[i], (ds + fl)[j])
  {
    var r := ds + fl;
    if j < |ds| {
      assert r[i] == ds[i] && r[j] == ds[j] && ds[i] in ds && ds[j] in ds;
    } else if i >= |ds| {
      assert r[i] == fl[i - |ds|] && r[j] == fl[j - |ds|] && r[i] in fl && r[j] in fl;
    } else {
      assert r[i] == ds[i] && r[j] == fl[j - |ds|] && r[i] in ds && r[j] in fl;
    }
  }

  // ---------------------------------------------------------------------
  // The walk

  /** Something strictly inside `d/k` is strictly inside `d`, and `d/k` itself is only inside `d`. */
  lemma InsideShrinks(fs: FS, d: Path, k: string)
    requires d + [k] in fs
    ensures Inside(fs, d + [k]) < Inside(fs, d)
  {
    var c := d + [k];
    forall q | q in Inside(fs, c) ensures q in Inside(fs, d) {
      assert q[..|d|] == q[..|c|][..|d|];
    }
    BelowParent(d, c);
    assert c in Inside(fs, d) && c !in Inside(fs, c);
  }

  function Connector(last: bool): string {
    if last then "└── " else "├── "
  }

  function Extension(last: bool): string {
    if last then "    " else "│   "
  }

  /** Every name of `kids` is an entry of `d`. */
  predicate Present(fs: FS, d: Path, kids: seq<string>) {
    forall k | k in kids :: d + [k] in fs
  }

  /** The lines `walk(d, prefix, depth)` appends. */
  function Walk(fs: FS, d: Path, prefix: string, depth: int, maxDepth: Option<int>): (lines: seq<string>)
    decreases Inside(fs, d), 1
  {
    if maxDepth.Some? && depth > maxDepth.value then []
    else WalkChildren(fs, d, Children(fs, d), 0, prefix, depth, maxDepth)
  }

  /** The lines of the loop of `walk` from the `i`-th child on: its connector line, its walk, then the later children's. */
  function WalkChildren(fs: FS, d: Path, kids: seq<string>, i: nat, prefix: string, depth: int, maxDepth: Option<int>): (lines: seq<string>)
    requires i <= |kids| && Present(fs, d, kids)
    decreases Inside(fs, d), 0, |kids| - i, 1
  {
    if i == |kids| then []
    else
      [prefix + Connector(i == |kids| - 1) + kids[i]] + SubWalk(fs, d, kids, i, prefix, depth, maxDepth)
        + WalkChildren(fs, d, kids, i + 1, prefix, depth, maxDepth)
  }

  /** The walk of the `i`-th child, printed under its connector line: empty for a file. */
  function SubWalk(fs: FS, d: Path, kids: seq<string>, i: nat, prefix: string, depth: int, maxDepth: Option<int>): (lines: seq<string>)
    requires i < |kids| && Present(fs, d, kids)
    decreases Inside(fs, d), 0, |kids| - i, 0
  {
    var c := d + [kids[i]];
    if IsDir(fs, c) then
      InsideShrinks(fs, d, kids[i]);
      Walk(fs, c, prefix + Extension(i == |kids| - 1), depth + 1, maxDepth)
    else []
  }

  /** The lines of `TreeCommand(p, max_depth).execute()` for a directory `p`. */
  function TreeLines(fs: FS, cwd: Path, p: Path, maxDepth: Option<int>): (lines: seq<string>)
    requires WellFormed(fs)
    ensures lines != [] && lines[0] == Resolve(cwd, p)
    ensures |lines| == 1 + |ShownSet(fs, p, 0, maxDepth)|
    ensures maxDepth.None? ==> |lines| == 1 + |Inside(fs, p)|
  {
    WalkCount(fs, p, "", 0, maxDepth);
    ShownWithoutLimit(fs, p, 0);
    [Resolve(cwd, p)] + Walk(fs, p, "", 0, maxDepth)
  }

  /** `TreeCommand(p, max_depth).execute()`. */
  function Tree(fs: FS, cwd: Path, p: Path, maxDepth: Option<int>): (r: Reply)
    requires WellFormed(fs)
    ensures r.Returns? && r.fs == fs
    ensures !IsDir(fs, p) ==> r.text == "Directory not found: " + Display(p)
    ensures IsDir(fs, p) ==> r.text == Join(TreeLines(fs, cwd, p, maxDepth), "\n")
  {
    if !IsDir(fs, p) then Returns("Directory not found: " + Display(p), fs)
    else Returns(Join(TreeLines(fs, cwd, p, maxDepth), "\n"), fs)
  }

  // ---------------------------------------------------------------------
  // What the walk shows

  /**
    `q` lies below `d` within the depth limit: a walk entered at `d` with
    `depth` lists the entries `j` levels down while `depth + j - 1` does
    not exceed `maxDepth`.
  */
  predicate Shown(d: Path, depth: int, maxDepth: Option<int>, q: Path) {
    Below(d, q) && (maxDepth.None? || depth + |q| - |d| - 1 <= maxDepth.value)
  }

  function ShownSet(fs: FS, d: Path, depth: int, maxDepth: Option<int>): set<Path> {
    set q | q in fs && Shown(d, depth, maxDepth, q)
  }

  /** Without a limit, everything inside is shown. */
  lemma ShownWithoutLimit(fs: FS, d: Path, depth: int)
    ensures ShownSet(fs, d, depth, None) == Inside(fs, d)
  {
    assert forall q :: q in ShownSet(fs, d, depth, None) <==> q in Inside(fs, d);
  }

  /** The shown entries whose first name below `d` is one of `kids[i..]`. */
  function ShownUnder(fs: FS, d: Path, kids: seq<string>, i: nat, depth: int, maxDepth: Option<int>): set<Path>
    requires i <= |kids|
  {
    set q | q in fs && Shown(d, depth, maxDepth, q) && q[|d|] in kids[i..]
  }

  /** The walk writes one line per entry below the directory within the depth limit. */
  lemma {:induction false} WalkCount(fs: FS, d: Path, prefix: string, depth: int, maxDepth: Option<int>)
    requires WellFormed(fs)
    ensures |Walk(fs, d, prefix, depth, maxDepth)| == |ShownSet(fs, d, depth, maxDepth)|
    decreases Inside(fs, d), 1
  {
    if maxDepth.Some? && depth > maxDepth.value {
      assert ShownSet(fs, d, depth, maxDepth) == {};
    } else {
      var kids := Children(fs, d);
      WalkChildrenCount(fs, d, kids, 0, prefix, depth, maxDepth);
      ShownUnderAll(fs, d, depth, maxDepth);
    }
  }

  /** Under a well-formed state every entry below `d` starts with a child of `d`. */
  lemma ShownUnderAll(fs: FS, d: Path, depth: int, maxDepth: Option<int>)
    requires WellFormed(fs)
    ensures ShownUnder(fs, d, Children(fs, d), 0, depth, maxDepth) == ShownSet(fs, d, depth, maxDepth)
  {
    var kids := Children(fs, d);
    assert kids[0..] == kids;
    forall q | q in ShownSet(fs, d, depth, maxDepth) ensures q[|d|] in kids {
      ChildOnTheWay(fs, d, q);
    }
  }

  lemma {:induction false} WalkChildrenCount(fs: FS, d: Path, kids: seq<string>, i: nat, prefix: string, depth: int, maxDepth: Option<int>)
    requires WellFormed(fs) && i <= |kids| && Distinct(kids) && Present(fs, d, kids)
    requires maxDepth.None? || depth <= maxDepth.value
    ensures |WalkChildren(fs, d, kids, i, prefix, depth, maxDepth)| == |ShownUnder(fs, d, kids, i, depth, maxDepth)|
    decreases Inside(fs, d), 0, |kids| - i
  {
    if i == |kids| {
      assert ShownUnder(fs, d, kids, i, depth, maxDepth) == {};
    } else {
      var last := i == |kids| - 1;
      var c := d + [kids[i]];
      InsideShrinks(fs, d, kids[i]);
      if IsDir(fs, c) {
        WalkCount(fs, c, prefix + Extension(last), depth + 1, maxDepth);
      } else {
        FileHoldsNothing(fs, c);
        assert ShownSet(fs, c, depth + 1, maxDepth) == {};
      }
      WalkChildrenCount(fs, d, kids, i + 1, prefix, depth, maxDepth);
      ShownUnderSplit(fs, d, kids, i, depth, maxDepth);
    }
  }

  /** The entries under the `i`-th child: the child, what is shown inside it one level deeper, then the rest. */
  lemma ShownUnderSplit(fs: FS, d: Path, kids: seq<string>, i: nat, depth: int, maxDepth: Option<int>)
    requires i < |kids| && Distinct(kids) && d + [kids[i]] in fs
    requires maxDepth.None? || depth <= maxDepth.value
    ensures var c := d + [kids[i]];
      |ShownUnder(fs, d, kids, i, depth, maxDepth)|
      == 1 + |ShownSet(fs, c, depth + 1, maxDepth)| + |ShownUnder(fs, d, kids, i + 1, depth, maxDepth)|
  {
    var c := d + [kids[i]];
    var inner := ShownSet(fs, c, depth + 1, maxDepth);
    var rest := ShownUnder(fs, d, kids, i + 1, depth, maxDepth);
    ShownUnderParts(fs, d, kids, i, depth, maxDepth);
    CardSplit(c, inner, rest);
  }

  lemma CardSplit(c: Path, a: set<Path>, b: set<Path>)
    requires c !in a && c !in b && a * b == {}
    ensures |{c} + a + b| == 1 + |a| + |b|
  {
    assert {c} * a == {};
    assert ({c} + a) * b == {};
  }

  lemma ShownUnderParts(fs: FS, d: Path, kids: seq<string>, i: nat, depth: int, maxDepth: Option<int>)
    requires i < |kids| && Distinct(kids) && d + [kids[i]] in fs
    requires maxDepth.None? || depth <= maxDepth.value
    ensures var c := d + [kids[i]];
      var inner := ShownSet(fs, c, depth + 1, maxDepth);
      var rest := ShownUnder(fs, d, kids, i + 1, depth, maxDepth);
      && ShownUnder(fs, d, kids, i, depth, maxDepth) == {c} + inner + rest
      && c !in inner && c !in rest && inner * rest == {}
  {
    var c := d + [kids[i]];
    var all := ShownUnder(fs, d, kids, i, depth, maxDepth);
    var inner := ShownSet(fs, c, depth + 1, maxDepth);
    var rest := ShownUnder(fs, d, kids, i + 1, depth, maxDepth);
    assert kids[i..] == [kids[i]] + kids[i + 1..];
    assert kids[i] !in kids[i + 1..] by {
      forall j | i + 1 <= j < |kids| ensures kids[j] != kids[i] {
      }
    }
    forall q | q in inner ensures q in all && q[|d|] == kids[i] {
      InnerIsUnder(d, c, depth, maxDepth, q);
    }
    assert c[|d|] == kids[i];
    BelowParent(d, c);
    assert c in all;
    forall q | q in all && q !in rest ensures q == c || q in inner {
      if q != c {
        BelowChild(d, q);
        assert |q| > |c|;
      }
    }
    assert rest <= all;
    assert all == {c} + inner + rest;
  }

  /** Shown one level deeper inside the child `c` of `d` is shown inside `d`, under `c`'s name. */
  lemma InnerIsUnder(d: Path, c: Path, depth: int, maxDepth: Option<int>, q: Path)
    requires c != [] && Parent(c) == d && Shown(c, depth + 1, maxDepth, q)
    ensures Shown(d, depth, maxDepth, q) && q[|d|] == c[|d|]
  {
    assert q[..|c|][..|d|] == q[..|d|];
    assert q[..|c|][|d|] == q[|d|];
  }

  // ---------------------------------------------------------------------
  // Where each child's lines go

  /** The lines the loop prints for the children before the `i`-th: each one's connector line and walk. */
  function WalkBefore(fs: FS, d: Path, kids: seq<string>, i: nat, prefix: string, depth: int, maxDepth: Option<int>): (lines: seq<string>)
    requires i <= |kids| && Present(fs, d, kids)
  {
    if i == 0 then []
    else
      WalkBefore(fs, d, kids, i - 1, prefix, depth, maxDepth)
        + ([prefix + Connector(i - 1 == |kids| - 1) + kids[i - 1]] + SubWalk(fs, d, kids, i - 1, prefix, depth, maxDepth))
  }

  /** One turn of the loop: the connector line, the child's walk, then the later children. */
  lemma WalkChildrenStep(fs: FS, d: Path, kids: seq<string>, i: nat, prefix: string, depth: int, maxDepth: Option<int>)
    requires i < |kids| && Present(fs, d, kids)
    ensures WalkChildren(fs, d, kids, i, prefix, depth, maxDepth)
      == [prefix + Connector(i == |kids| - 1) + kids[i]] + SubWalk(fs, d, kids, i, prefix, depth, maxDepth)
         + WalkChildren(fs, d, kids, i + 1, prefix, depth, maxDepth)
  {
  }

  /** The loop's lines are those of the children before the `i`-th, then those from the `i`-th on. */
  lemma {:induction false} WalkChildrenSplit(fs: FS, d: Path, kids: seq<string>, i: nat, prefix: string, depth: int, maxDepth: Option<int>)
    requires i <= |kids| && Present(fs, d, kids)
    ensures WalkChildren(fs, d, kids, 0, prefix, depth, maxDepth)
      == WalkBefore(fs, d, kids, i, prefix, depth, maxDepth) + WalkChildren(fs, d, kids, i, prefix, depth, maxDepth)
  {
    if i > 0 {
      WalkChildrenSplit(fs, d, kids, i - 1, prefix, depth, maxDepth);
      WalkChildrenStep(fs, d, kids, i - 1, prefix, depth, maxDepth);
      AppendAssoc(WalkBefore(fs, d, kids, i - 1, prefix, depth, maxDepth),
        [prefix + Connector(i - 1 == |kids| - 1) + kids[i - 1]] + SubWalk(fs, d, kids, i - 1, prefix, depth, maxDepth),
        WalkChildren(fs, d, kids, i, prefix, depth, maxDepth));
    }
  }

  lemma AppendAssoc(a: seq<string>, b: seq<string>, c: seq<string>)
    ensures a + (b + c) == (a + b) + c
  {
  }

  /** The `i`-th child's walk has one line per entry shown inside the child one level deeper. */
  lemma SubWalkCount(fs: FS, d: Path, kids: seq<string>, i: nat, prefix: string, depth: int, maxDepth: Option<int>)
    requires WellFormed(fs) && i < |kids| && Present(fs, d, kids)
    ensures |SubWalk(fs, d, kids, i, prefix, depth, maxDepth)| == |ShownSet(fs, d + [kids[i]], depth + 1, maxDepth)|
  {
    var c := d + [kids[i]];
    if IsDir(fs, c) {
      WalkCount(fs, c, prefix + Extension(i == |kids| - 1), depth + 1, maxDepth);
    } else {
      FileHoldsNothing(fs, c);
      assert ShownSet(fs, c, depth + 1, maxDepth) == {};
    }
  }

  /** Within the limit, the walk of `d` is the loop over its children. */
  lemma WalkUnfold(fs: FS, d: Path, prefix: string, depth: int, maxDepth: Option<int>)
    requires maxDepth.None? || depth <= maxDepth.value
    ensures Walk(fs, d, prefix, depth, maxDepth) == WalkChildren(fs, d, Children(fs, d), 0, prefix, depth, maxDepth)
  {
  }

  /** Within the limit, the lines before the `i`-th child's are one per entry shown under the earlier children. */
  lemma WalkLinesBefore(fs: FS, d: Path, prefix: string, depth: int, maxDepth: Option<int>, i: nat)
    requires WellFormed(fs) && i < |Children(fs, d)| && (maxDepth.None? || depth <= maxDepth.value)
    ensures |WalkChildren(fs, d, Children(fs, d), 0, prefix, depth, maxDepth)| - |WalkChildren(fs, d, Children(fs, d), i, prefix, depth, maxDepth)|
      == |ShownSet(fs, d, depth, maxDepth)| - |ShownUnder(fs, d, Children(fs, d), i, depth, maxDepth)|
  {
    var kids := Children(fs, d);
    WalkCount(fs, d, prefix, depth, maxDepth);
    WalkChildrenCount(fs, d, kids, i, prefix, depth, maxDepth);
  }

  /** Within the limit, the walk splits around the `i`-th child's connector line and walk. */
  lemma WalkAround(fs: FS, d: Path, prefix: string, depth: int, maxDepth: Option<int>, i: nat)
    requires WellFormed(fs) && i < |Children(fs, d)| && (maxDepth.None? || depth <= maxDepth.value)
    ensures Walk(fs, d, prefix, depth, maxDepth)
      == WalkBefore(fs, d, Children(fs, d), i, prefix, depth, maxDepth)
        + ([prefix + Connector(i == |Children(fs, d)| - 1) + Children(fs, d)[i]] + SubWalk(fs, d, Children(fs, d), i, prefix, depth, maxDepth)
          + WalkChildren(fs, d, Children(fs, d), i + 1, prefix, depth, maxDepth))
    ensures |WalkBefore(fs, d, Children(fs, d), i, prefix, depth, maxDepth)|
      == |ShownSet(fs, d, depth, maxDepth)| - |ShownUnder(fs, d, Children(fs, d), i, depth, maxDepth)|
  {
    WalkUnfold(fs, d, prefix, depth, maxDepth);
    WalkChildrenSplit(fs, d, Children(fs, d), i, prefix, depth, maxDepth);
    WalkChildrenStep(fs, d, Children(fs, d), i, prefix, depth, maxDepth);
    WalkLinesBefore(fs, d, prefix, depth, maxDepth, i);
  }

  /**
    At every depth, the walk of a directory within the limit is: one line
    per entry shown under the children before the `i`-th, then the `i`-th
    child's connector line, then its `SubWalk` (for a directory child, its
    own walk one level deeper under the extended prefix, one line per entry
    shown inside it; for a file, nothing), then the later children's lines.
    Beyond the limit the walk prints nothing.
  */
  lemma WalkChildLines(fs: FS, d: Path, prefix: string, depth: int, maxDepth: Option<int>, i: nat)
    requires WellFormed(fs) && i < |Children(fs, d)|
    ensures maxDepth.Some? && depth > maxDepth.value ==> Walk(fs, d, prefix, depth, maxDepth) == []
    ensures maxDepth.None? || depth <= maxDepth.value ==>
      && Walk(fs, d, prefix, depth, maxDepth)
        == WalkBefore(fs, d, Children(fs, d), i, prefix, depth, maxDepth)
          + ([prefix + Connector(i == |Children(fs, d)| - 1) + Children(fs, d)[i]] + SubWalk(fs, d, Children(fs, d), i, prefix, depth, maxDepth)
            + WalkChildren(fs, d, Children(fs, d), i + 1, prefix, depth, maxDepth))
      && |WalkBefore(fs, d, Children(fs, d), i, prefix, depth, maxDepth)|
        == |ShownSet(fs, d, depth, maxDepth)| - |ShownUnder(fs, d, Children(fs, d), i, depth, maxDepth)|
    ensures IsDir(fs, d + [Children(fs, d)[i]]) ==> (SubWalk(fs, d, Children(fs, d), i, prefix, depth, maxDepth)
      == Walk(fs, d + [Children(fs, d)[i]], prefix + Extension(i == |Children(fs, d)| - 1), depth + 1, maxDepth))
    ensures !IsDir(fs, d + [Children(fs, d)[i]]) ==> SubWalk(fs, d, Children(fs, d), i, prefix, depth, maxDepth) == []
    ensures |SubWalk(fs, d, Children(fs, d), i, prefix, depth, maxDepth)| == |ShownSet(fs, d + [Children(fs, d)[i]], depth + 1, maxDepth)|
  {
    SubWalkCount(fs, d, Children(fs, d), i, prefix, depth, maxDepth);
    if maxDepth.None? || depth <= maxDepth.value {
      WalkAround(fs, d, prefix, depth, maxDepth, i);
    }
  }

  /**
    `TreeLines` at every depth: the root line, then one line per entry
    shown under the children before the `i`-th, then the `i`-th child's
    connector line under the empty prefix, then its `SubWalk` (for a
    directory, its walk at depth 1 under the prefix `'    '` if it is the
    last child, `'│   '` otherwise), then the later children's lines. A
    negative limit leaves only the root line.
  */
  lemma TreeChildLines(fs: FS, cwd: Path, p: Path, maxDepth: Option<int>, i: nat)
    requires WellFormed(fs) && i < |Children(fs, p)|
    ensures maxDepth.Some? && maxDepth.value < 0 ==> TreeLines(fs, cwd, p, maxDepth) == [Resolve(cwd, p)]
    ensures maxDepth.None? || 0 <= maxDepth.value ==>
      && TreeLines(fs, cwd, p, maxDepth)
        == [Resolve(cwd, p)] + (WalkBefore(fs, p, Children(fs, p), i, "", 0, maxDepth)
          + ([Connector(i == |Children(fs, p)| - 1) + Children(fs, p)[i]] + SubWalk(fs, p, Children(fs, p), i, "", 0, maxDepth)
            + WalkChildren(fs, p, Children(fs, p), i + 1, "", 0, maxDepth)))
      && |WalkBefore(fs, p, Children(fs, p), i, "", 0, maxDepth)|
        == |ShownSet(fs, p, 0, maxDepth)| - |ShownUnder(fs, p, Children(fs, p), i, 0, maxDepth)|
    ensures IsDir(fs, p + [Children(fs, p)[i]]) ==> (SubWalk(fs, p, Children(fs, p), i, "", 0, maxDepth)
      == Walk(fs, p + [Children(fs, p)[i]], Extension(i == |Children(fs, p)| - 1), 1, maxDepth))
  {
    var last := i == |Children(fs, p)| - 1;
    assert "" + Connector(last) == Connector(last);
    assert "" + Extension(last) == Extension(last);
    WalkChildLines(fs, p, "", 0, maxDepth, i);
  }

  // ---------------------------------------------------------------------
  // Depth limits

  /** A negative `max_depth` stops the walk at once: only the root line is printed. */
  lemma TreeNegativeDepth(fs: FS, cwd: Path, p: Path, k: int)
    requires WellFormed(fs) && IsDir(fs, p) && k < 0
    ensures Tree(fs, cwd, p, Some(k)).text == Resolve(cwd, p)
  {
  }

  /**
    `max_depth=0` is honoured, not taken for "no limit": the root line, then
    exactly one line per entry of the directory, each with its connector,
    and nothing from deeper down.
  */
  lemma TreeDepthZero(fs: FS, cwd: Path, p: Path)
    requires WellFormed(fs) && IsDir(fs, p)
    ensures var kids := Children(fs, p); var lines := TreeLines(fs, cwd, p, Some(0));
      && |lines| == 1 + |kids|
      && forall i | 0 <= i < |kids| :: lines[1 + i] == Connector(i == |kids| - 1) + kids[i]
  {
    var kids := Children(fs, p);
    var walk := Walk(fs, p, "", 0, Some(0));
    FlatWalk(fs, p, kids);
    var lines := TreeLines(fs, cwd, p, Some(0));
    assert lines == [Resolve(cwd, p)] + walk;
    forall i | 0 <= i < |kids| ensures lines[1 + i] == walk[i] {
    }
  }

  /** With `max_depth=0` the walk of the top directory prints each child's connector line and nothing else. */
  lemma FlatWalk(fs: FS, p: Path, kids: seq<string>)
    requires kids == Children(fs, p)
    ensures var walk := Walk(fs, p, "", 0, Some(0));
      && |walk| == |kids|
      && forall i | 0 <= i < |kids| :: walk[i] == Connector(i == |kids| - 1) + kids[i]
  {
    var lines := WalkChildren(fs, p, kids, 0, "", 0, Some(0));
    assert Walk(fs, p, "", 0, Some(0)) == lines;
    WalkChildrenFlat(fs, p, kids, 0, "", 0, Some(0));
    forall j | 0 <= j < |kids| ensures lines[j] == Connector(j == |kids| - 1) + kids[j] {
      // the loop's line for child `j`, under the empty prefix
      assert lines[j] == "" + Connector(j == |kids| - 1) + kids[j];
      assert "" + Connector(j == |kids| - 1) == Connector(j == |kids| - 1);
    }
  }

  /** When the children's walks are cut off, the loop prints one connector line per child. */
  lemma {:induction false} WalkChildrenFlat(fs: FS, d: Path, kids: seq<string>, i: nat, prefix: string, depth: int, maxDepth: Option<int>)
    requires i <= |kids| && Present(fs, d, kids)
    requires maxDepth.Some? && depth + 1 > maxDepth.value
    ensures var lines := WalkChildren(fs, d, kids, i, prefix, depth, maxDepth);
      && |lines| == |kids| - i
      && forall j | i <= j < |kids| :: lines[j - i] == prefix + Connector(j == |kids| - 1) + kids[j]
    decreases |kids| - i
  {
    if i < |kids| {
      WalkChildrenFlat(fs, d, kids, i + 1, prefix, depth, maxDepth);
      assert SubWalk(fs, d, kids, i, prefix, depth, maxDepth) == [];
    }
  }
}

=== FILE: write_commands.dfy ===
/**
  The commands that create or overwrite: `write`, `touch` and `mkdir`
  (`agentic_system/commands/basic/{write,touch,mkdir}.py`). The clock is the
  parameter `now`.
*/
module WriteCommands {
  import opened Common
  import opened PyText
  import opened FileSystem

  // ---------------------------------------------------------------------
  // write

  function AlreadyExists(p: Path): string {
    "File " + Display(p) + " already exists. Use --force to overwrite."
  }

  /** What `WriteCommand` writes: the content, or "" when it is `None`. */
  function ContentOf(content: Option<string>): string {
    if content.Some? then content.value else ""
  }

  /** `WriteCommand(file, content, force).execute()`. */
  function Write(fs: FS, p: Path, content: Option<string>, force: bool, now: nat): (r: Reply)
    ensures r.Returns?
    ensures p in fs && !force ==> r == Returns(AlreadyExists(p), fs)
    ensures r.text == "Wrote to " + Display(p) <==> (p !in fs || force) && WriteText(fs, p, ContentOf(content), now).Ok?
    ensures r.text == "Wrote to " + Display(p) ==> r.fs == fs[p := File(Text(ContentOf(content)), now)]
    ensures r.text != "Wrote to " + Display(p) ==> r.fs == fs
    ensures (p !in fs || force) && WriteText(fs, p, ContentOf(content), now).Err? ==>
      r.text == "Error writing to " + Display(p) + ": " + WriteText(fs, p, ContentOf(content), now).error
  {
    if p in fs && !force then Returns(AlreadyExists(p), fs)
    else
      match WriteText(fs, p, ContentOf(content), now)
      case Ok(fs2) => Returns("Wrote to " + Display(p), fs2)
      case Err(e) =>
        ErrorNotWrote(p, e);
        Returns("Error writing to " + Display(p) + ": " + e, fs)
  }

  /** The three replies of `write` start differently. */
  lemma ErrorNotWrote(p: Path, e: string)
    ensures "Error writing to " + Display(p) + ": " + e != "Wrote to " + Display(p)
    ensures AlreadyExists(p) != "Wrote to " + Display(p)
  {
    assert ("Error writing to " + Display(p) + ": " + e)[0] == 'E';
    assert AlreadyExists(p)[0] == 'F';
  }

  /**
    Written with force, a file holds exactly the new content, whatever it
    held before; no other path changes.
  */
  lemma WriteReplaces(fs: FS, p: Path, content: string, now: nat)
    requires IsFile(fs, p) && p != [] && IsDir(fs, Parent(p))
    ensures var r := Write(fs, p, Some(content), true, now);
      r.text == "Wrote to " + Display(p) && r.fs[p] == File(Text(content), now)
      && forall q | q != p && q in fs :: q in r.fs && r.fs[q] == fs[q]
  {
  }

  // ---------------------------------------------------------------------
  // touch

  /** `os.utime(p, None)`: a file gets the current time; directory times are not kept in the model. */
  function Utime(fs: FS, p: Path, now: nat): (r: FS)
    requires p in fs
    ensures r.Keys == fs.Keys
    ensures forall q | q in fs && q != p :: r[q] == fs[q]
    ensures fs[p].File? ==> r[p] == File(fs[p].contents, now)
    ensures fs[p].Dir? ==> r[p] == Dir
  {
    match fs[p]
    case File(c, _) => fs[p := File(c, now)]
    case Dir => fs
  }

  /** `TouchCommand(path).execute()`. */
  function Touch(fs: FS, p: Path, now: nat): (r: Reply)
    ensures r.Returns?
    ensures p in fs ==> r == Returns("Timestamp updated: " + Display(p), Utime(fs, p, now))
    ensures p !in fs && r.text == "File created: " + Display(p) ==> r.fs == fs[p := File(Text(""), now)]
    ensures p !in fs ==> (r.text == "File created: " + Display(p) <==> p != [] && IsDir(fs, Parent(p)))
    ensures p !in fs && p != [] && !IsDir(fs, Parent(p)) ==>
      r == Returns("Error touching file: " + OsError(DirError(fs, Parent(p)).value, p), fs)
    ensures p == [] && p !in fs ==> r == Returns("Error touching file: " + OsError(IsADirectory, p), fs)
  {
    if p in fs then Returns("Timestamp updated: " + Display(p), Utime(fs, p, now))
    else
      match WriteText(fs, p, "", now)
      case Ok(fs2) => Returns("File created: " + Display(p), fs2)
      case Err(e) =>
        assert ("Error touching file: " + e)[1] == 'r';
        Returns("Error touching file: " + e, fs)
  }

  /**
    In a well-formed state, a missing path whose parent is not a directory
    is reported with "not a directory" when a file stands on the way to the
    parent and "no such file" otherwise, and nothing changes.
  */
  lemma TouchError(fs: FS, p: Path, now: nat)
    requires WellFormed(fs) && p !in fs && p != [] && !IsDir(fs, Parent(p))
    ensures Touch(fs, p, now)
      == Returns("Error touching file: " + OsError(if FileOnTheWay(fs, Parent(p)) then NotADirectory else NoEntry, p), fs)
  {
    DirErrorNotADirectory(fs, Parent(p));
  }

  /** After the call the path exists, unless the directory that should hold it is missing. */
  lemma TouchLeavesPath(fs: FS, p: Path, now: nat)
    ensures p in Touch(fs, p, now).fs <==> p in fs || (p != [] && IsDir(fs, Parent(p)))
  {
  }

  /** A second touch reports an update and, on a clock that moved on, makes the file strictly newer. */
  lemma TouchTwice(fs: FS, p: Path, t1: nat, t2: nat)
    requires p != [] && IsDir(fs, Parent(p)) && !IsDir(fs, p) && t1 < t2
    ensures var r1 := Touch(fs, p, t1); var r2 := Touch(r1.fs, p, t2);
      IsFile(r1.fs, p) && r2.text == "Timestamp updated: " + Display(p)
      && IsFile(r2.fs, p) && r2.fs[p].mtime == t2 > r1.fs[p].mtime
  {
  }

  // ---------------------------------------------------------------------
  // mkdir

  function DirectoryExists(p: Path): string {
    "Directory already exists: " + Display(p)
  }

  /**
    `MkdirCommand(path).execute()`, i.e. `mkdir(parents=True,
    exist_ok=False)`: an existing path of any kind is reported, a file on the
    way is an error, and otherwise the directory and its missing ancestors
    are created.
  */
  function Mkdir(fs: FS, p: Path): (r: Reply)
    requires WellFormed(fs) && ValidPath(p)
    ensures r.Returns? && WellFormed(r.fs)
    ensures p in fs ==> r == Returns(DirectoryExists(p), fs)
    ensures p !in fs && FileOnTheWay(fs, p) ==>
      r == Returns("Error creating directory: " + OsError(NotADirectory, p), fs)
    ensures p !in fs && !FileOnTheWay(fs, p) ==> r.text == "Directory created: " + Display(p) && IsDir(r.fs, p)
    ensures forall q | q in fs :: q in r.fs && r.fs[q] == fs[q]
    ensures forall q | q in r.fs && q !in fs :: r.fs[q] == Dir && q <= p
  {
    DirErrorNotADirectory(fs, p);
    if p in fs then Returns(DirectoryExists(p), fs)
    else if DirError(fs, p) == Some(NotADirectory) then
      Returns("Error creating directory: " + OsError(NotADirectory, p), fs)
    else
      Returns("Directory created: " + Display(p), MakeDirs(fs, p))
  }

  /** A second `mkdir` of the same path changes nothing and reports that it exists, unless a file blocked the first. */
  lemma MkdirIdempotent(fs: FS, p: Path)
    requires WellFormed(fs) && ValidPath(p)
    ensures var r1 := Mkdir(fs, p); var r2 := Mkdir(r1.fs, p);
      r2.fs == r1.fs && (p in r1.fs ==> r2.text == DirectoryExists(p))
  {
    var r1 := Mkdir(fs, p);
    DirErrorNotADirectory(r1.fs, p);
  }

  /** Creating a directory adds exactly the missing ancestors of the path, and the path. */
  lemma MkdirAddsAncestors(fs: FS, p: Path, k: nat)
    requires WellFormed(fs) && ValidPath(p) && p !in fs && !FileOnTheWay(fs, p) && k <= |p|
    ensures IsDir(Mkdir(fs, p).fs, p[..k])
  {
    var r := Mkdir(fs, p).fs;
    if k < |p| {
      AncestorIsDir(r, p, k);
    } else {
      assert p[..k] == p;
    }
  }
}
